=== FILE: README.md ===
# vical core, modelled in Dafny

vical is a vim-style calendar and task editor for the terminal. Its repository
holds several generations of the program side by side. This project models the
logic that does not depend on the terminal, as immutable datatypes and pure
functions, and proves what that logic promises.

The newest generation:

- **Entities** (`entities.dfy`, vical/core/subcalendar.py): tasks, events and
  subcalendars; sort keys (events before tasks on the same day); the days an
  item occurs on; event validation and duration; sorted insertion and the
  hidden flag.
- **Undo log**:
  - `ops.dfy`: the seven op classes of vical/core/transaction.py, each as
    `apply` and `revert`, with the round trip of each pair.
  - `transactions.dfy`: the begin/record/commit protocol, `transaction_block`,
    the `tx_*` helpers, and undo and redo over the two stacks.
- **Registers** (`registers.dfy`, vical/core/register.py): the unnamed, yank,
  numbered and letter registers, and the payload snapshots of items.
- **Command layer**:
  - `motions.dfy`: motion values, their scaling by a count and their expansion.
  - `session.dfy`: the editor state the commands read and the motion factory.
  - `cmdargs.dfy`: the per-command argument record.
  - `dateparse.dfy`: the goto date parser and the repeated-date helper.
  - `calendar_cmds.dfy`: the create and hide commands.
  - `operators.dfy`: delete, yank, change and complete.
  - `normal.dfy`: the normal-mode grammar, covering counts, motions, goto,
    month and week jumps, operators and the task command.
  - `keyparser.dfy`: the key feeder and the Ex command line.
  - `prompt.dfy`: the prompt line.
- **Storage** (`jsonstore.dfy`, vical/storage/jsonstore.py): the dictionary
  form of items and subcalendars, with `"%Y%m%d"` dates (`ymd.dfy`). It proves
  the save/load round trip and the cases that cannot load back.

The older generations are separate small modules:

- `history.dfy`: the earlier op log of vical/history/.
- `tasklists.dfy`: the sorted task lists of vical/subcalendar.py and
  subcalendar.py, with their dictionary round trips.
- The editor of vical/core:
  - `coreeditor.dfy`: selection, clamping, the scroll window and the saved flag.
  - `coremovement.dfy`: count-scaled moves, the month-reading goto parser,
    the task cursor and subcalendar cycling.
  - `modeinput.dfy`: the normal and operator-pending key handlers.
- `editormovement.dfy`: the movement commands of vical/editor/movement.py.
- `scroll.dfy`: the scroll offset of vical/gui/curses_ui.py.
- `utils.dfy`: the name validator and the day and month name tables of
  vical/utils.py and utils.py.

Shared pieces:

- `dates.dfy`: Python dates as proleptic Gregorian day numbers, with both
  conversions and the weekday.
- `sorted.dfy`: Python's stable sort by tuple keys.
- `text.dfy`: the string helpers.
- `wrappers.dfy`: the result types.

Python exceptions become values. `Result` is success or an error kind.
`Outcome` is success or an error kind together with the state at the moment of
the raise, because the source mutates in place before it raises. `date.today()`
is a parameter. `uuid4()` is a counter, `Session.Uid`.

## Model

| member | source | states |
|---|---|---|
| CmdArgs.Defaults | vical/commands/cmdargs.py:22-41 | a fresh record has empty key slots and buffers, counts of 1, the unnamed register `"`, NORMAL mode and no Ex parameters |
| CmdArgs.Clear | vical/commands/cmdargs.py:43-55 | `clear` resets every per-command field and keeps the register name, mode, last operator, goto origin and Ex parameters |
| CmdArgs.ClearKeys | vical/commands/cmdargs.py:57-59 | `clear_keys` empties the two key slots and changes no other field |
| CmdArgs.ClearLaws | vical/commands/cmdargs.py:43-59 | `clear` is idempotent and absorbs `clear_keys`; a cleared record equals the defaults except in the five fields `clear` keeps |
| Prompt.PromptInput | vical/input/prompt.py:13-37 | with no prompt open it raises TypeError; ESC closes the prompt without submitting; Enter closes it and submits the typed value; any other key only edits the value |
| Prompt.EditValue | vical/input/prompt.py:34-37 | backspace drops the last character, a printable code 32..126 appends its character, and any other key leaves the value unchanged |
| Prompt.TypePrintable | vical/input/prompt.py:36-37 | typing a string of printable characters appends exactly that string to the value |
| Prompt.AppendThenBackspace | vical/input/prompt.py:34-37 | a printable key followed by backspace gives back the original value |
| Prompt.SubmitOnlyOnEnter | vical/input/prompt.py:18-32 | `on_submit` is called exactly when the key is Enter; both ESC and Enter close the prompt and return to NORMAL |
| Prompt.BackspaceOnEmpty | vical/input/prompt.py:34-35 | backspace on an empty value leaves it empty |
| CursesScroll.ScrollOffset | vical/gui/curses_ui.py:104-115 | a negative selection returns the stored offset unchanged; otherwise the offset lies in `[0, max(0, n - visible)]` and a valid selection is inside the visible window |
| CursesScroll.ScrollFollowsSelection | vical/gui/curses_ui.py:107-112 | a selection below the window becomes its bottom row, one above it becomes its top row, and one inside it leaves the offset where it was |
| CursesScroll.ScrollOffsetStable | vical/gui/curses_ui.py:104-115 | calling again with the offset just stored returns the same offset |
| Motions.Normalized | vical/commands/motions.py:19-24 | returns the two ends of the motion in ascending order |
| Motions.ExpandDates | vical/commands/motions.py:43-53 | the day-by-day loop collects every date from the earlier end to the later one, in order |
| Motions.ExpandItems | vical/commands/motions.py:74-79 | returns the inclusive index range between the two ends |
| Motions.Days | vical/commands/motions.py:59-65 | the number of days spanned, both ends included; it is always at least 1 |
| Motions.ExpandMatchesDays | vical/commands/motions.py:43-65 | the expansion has exactly `days` elements and contains exactly the values between the two ends |
| Motions.Scale | vical/commands/motions.py:32-39 | keeps the start and the kind, and multiplies the displacement by the count |
| Motions.ScaleLaws | vical/commands/motions.py:67-70 | scaling by 1 is the identity, and scaling by a then by b equals scaling by a·b |
| Motions.ScaleDays | vical/commands/motions.py:59-70 | a scaled date motion spans abs(n·(end − start)) + 1 days |
| Utils.ContainsBadChars | vical/utils.py:11-17 | a name is rejected exactly when some character is one of the listed separators or escapes, or is an ASCII control character |
| Utils.BadCharsIffControlOrSeparator | utils.py:5-11 | the same test, restated: a control character or one of the eight printable separators `, < > : " / \ \|`; the empty name passes |
| Utils.BadCharsExtend | vical/utils.py:11-17 | a rejected name stays rejected with any text added before or after it |
| Utils.GetDayName | vical/utils.py:20-21 | always one of the seven day abbreviations |
| Utils.DayNameSundayFirst | utils.py:13-14 | column 0 is Sunday, column k in 1..6 is the k-th weekday from Monday, and the names repeat every seven columns |
| Utils.GetMonthName | vical/utils.py:24-28 | a three-letter abbreviation for 1..12 and ValueError for every other number |
| Utils.MonthNameRoundTrip | utils.py:16-20 | the month is recovered from its name, so the twelve names are distinct |
| Ymd.FormatYmd | vical/storage/jsonstore.py:29-37 | a date is written as exactly eight digits |
| Ymd.ParseYmd | vical/subcalendar.py:18 | the eight-digit reading yields an in-range date or ValueError, and nothing else |
| Ymd.YmdRoundTrip | vical/storage/jsonstore.py:29-61 | reading back a written date gives the same date |
| Ymd.ParsedIsCanonical | vical/subcalendar.py:18 | every accepted string is the written form of the date it reads as, so the two directions are inverse |
| Ymd.ReadDate | vical/storage/jsonstore.py:51 | `date(y, m, d)` of the fields read: a date exactly for a triple in years 1..9999 with a real month and day, carrying that triple; ValueError otherwise |
| Ymd.StrptimeYmd | vical/storage/jsonstore.py:47 | on ASCII text, `strptime(s, "%Y%m%d")` yields an in-range date whose year is the four leading digits, or ValueError, and nothing else |
| Ymd.StrptimeAgreesOnEightDigits | vical/storage/jsonstore.py:51 | on every eight-digit string `strptime` and the 4-2-2 reading give the same date or both refuse |
| Ymd.StrptimeReadsWritten | vical/storage/jsonstore.py:29-51 | `strptime` reads back a date written with a four-digit year as the same date |
| Ymd.FormatYmdUnpadded | vical/storage/jsonstore.py:29 | `%Y` written without padding, as glibc does, gives five to eight digits |
| Ymd.UnpaddedFromYear1000 | vical/storage/jsonstore.py:29-37 | from year 1000 on the unpadded writer writes what the padded one does |
| Ymd.UnpaddedNeverRoundTrips | vical/storage/jsonstore.py:29-51 | a date before year 1000 written unpadded never reads back as itself |
| Ymd.UnpaddedYearMisreads | vical/storage/jsonstore.py:29-51 | 0999-01-01 written unpadded is "9990101", which reads back as 9990-10-01 |
| Dates.MakeDate | vical/commands/utils.py:77 | `date(y, m, d)` yields a date exactly for triples in years 1..9999 with a real month and day, and that date's calendar triple is the one given |
| Dates.CivilRoundTrip | vical/commands/normal.py:119-135 | a calendar triple converted to its day number and back is unchanged |
| Dates.NextPrev | vical/commands/motions.py:43-53 | the day after and the day before are inverse, so stepping one day at a time lands on consecutive day numbers |
| Dates.OrdinalInjective | vical/commands/utils.py:77 | two different calendar triples never share a day number |
| Dates.WeekdayPeriodic | vical/commands/normal.py:137-154 | the weekday repeats every seven days |
| Dates.EpochIsMonday | vical/commands/normal.py:137-144 | 0001-01-01 is a Monday, weekday 0 |
| Dates.MaxDateIsLastDay | vical/storage/jsonstore.py:29-37 | the largest day number is 9999-12-31 |
| DateParse.ReadFields | vical/commands/utils.py:41-75 | which fields each accepted length supplies: 8 digits give all three, 6 digits month and year with day 1, 4 digits month and day in the selected year, 1 or 2 digits the day of the selected month; any other length gives nothing |
| DateParse.MonthFirstFormats | vical/commands/utils.py:38 | the format setting is compared without case: `mdy` and `MDY` put the month first, `dmy` does not |
| DateParse.ParseDateString | vical/commands/utils.py:37-80 | a date exactly when the length is accepted and the fields read form a real date in years 1..9999, and then it is the date of those fields; every failure is `None` |
| DateParse.ParseEightDigits | vical/commands/utils.py:43-50 | every valid date written `MMDDYYYY` parses back to itself with a month-first format, and written `DDMMYYYY` with a day-first one |
| DateParse.ParseSixDigits | vical/commands/utils.py:53-56 | every valid `MMYYYY` parses to the first day of that month |
| DateParse.ParseFourDigits | vical/commands/utils.py:59-66 | every valid `MMDD` parses to that day in the year of the selected date |
| DateParse.ParseDayOnly | vical/commands/utils.py:69-72 | one or two digits parse to that day of the selected month exactly when the month has such a day |
| DateParse.ParseRejectsLength | vical/commands/utils.py:74-75 | lengths other than 1, 2, 4, 6 and 8 parse to nothing |
| DateParse.ParseRejectsFields | vical/commands/utils.py:77-80 | month 13 and 30 February are rejected |
| DateParse.MotionToDateInterval | vical/commands/utils.py:82-85 | `repeats` dates (none for a negative count), the i-th at the motion's start plus i times its `days` |
| DateParse.IntervalSpacing | vical/commands/utils.py:82-85 | the dates start at the motion's start and strictly increase, each `days` after the last; since `days` counts both ends, a five-day step puts them six days apart |
| Session.DateMove | vical/commands/motions.py:98-105 | a date motion from the selected date whose ends differ by the delta |
| Session.ItemMove | vical/commands/motions.py:107-121 | `ItemMotion(0, 0)` on a day without items; otherwise a motion from the selected index to the nearest index of the day's items to index + delta |
| Session.ClampNearest | vical/commands/motions.py:118-119 | the clamped index lies in range, is the requested index when that is in range, and is otherwise the in-range index nearest to it |
| Session.DateSet | vical/commands/motions.py:123-130 | a date motion from the selected date to the target |
| Session.ApplyMotion | vical/commands/motions.py:55-82 | a date motion selects its end date and an item motion its end index; nothing else changes |
| Session.MotionFactoryLaws | vical/commands/motions.py:98-130 | two date moves add up; a date set lands on its target; moving by a equals setting to the selected date + a; an item move on a non-empty day always selects an item; a zero item move from a valid index changes nothing |
| Session.ChangeMode | vical/commands/utils.py:16-31 | a change to the current mode does nothing; otherwise the mode is set and a redraw requested. Leaving VISUAL pins the anchor to the selected date, and entering NORMAL while the editor is visual saves and drops the anchor. The calendar, the date and the registers never change |
| Session.ChangeModeIdempotent | vical/commands/utils.py:16-31 | changing to a mode twice is the same as changing to it once |
| Session.ResetEditor | vical/commands/utils.py:33-35 | always ends in NORMAL with a redraw requested, with calendar and date unchanged |
| Sorted.LexLeTotal | vical/core/subcalendar.py:125-126 | any two sort keys are comparable under Python's tuple and string order |
| Sorted.LexLeTrans | vical/core/subcalendar.py:125-126 | that order is transitive |
| Sorted.LexLePrefix | vical/core/subcalendar.py:70-71 | keys with a fixed-width head compare on the head first and on the rest only when the heads are equal |
| Sorted.InsertBySorted | vical/core/subcalendar.py:123-126 | inserting into a sorted list keeps it sorted |
| Sorted.InsertByMultiset | vical/core/subcalendar.py:123-126 | insertion adds exactly the new element and loses nothing |
| Sorted.InsertByLast | vical/core/subcalendar.py:123-126 | an element whose key is not below the last key goes at the end |
| Sorted.SortByCorrect | vical/subcalendar.py:62-63 | sorting yields a sorted permutation of the input |
| Sorted.SortBySortedIsIdentity | vical/subcalendar.py:62-63 | sorting a sorted list leaves it unchanged, because Python's sort is stable |
| Sorted.AppendSortIsInsert | vical/subcalendar.py:52-54 | appending to a sorted list and sorting it is the same as inserting stably after every element with a key `<=` the new one |
| Sorted.SortedRemoveAt | vical/subcalendar.py:56-60 | removing an element keeps a sorted list sorted |
| Entities.ResolveUid | vical/core/subcalendar.py:30 | a given non-empty uid is kept; an absent or empty one is replaced by a fresh uid |
| Entities.NewTask | vical/core/subcalendar.py:51-65 | a task with a non-empty uid, the given name, date, deadline and completion, and no parent yet |
| Entities.NewEvent | vical/core/subcalendar.py:77-91 | ValueError exactly when both bounds are set and the end is before the start; otherwise an event with those bounds, a non-empty uid and no parent |
| Entities.TaskOccurrence | vical/core/subcalendar.py:67-68 | a task occurs on its date and on its deadline and on no other day |
| Entities.EventOccursWithinDuration | vical/core/subcalendar.py:93-106 | an event occurs exactly on the `duration` days starting at its start date, and on none when a bound is missing |
| Entities.SortKey | vical/core/subcalendar.py:70-71 | the key starts with the date (the largest date when it is missing) and then the kind rank |
| Entities.SortKeyOrder | vical/core/subcalendar.py:108-109 | items compare by date, then events before tasks, then by name with ASCII capitals lower-cased |
| Entities.EventsBeforeTasks | vical/core/subcalendar.py:70-109 | on the same date every event sorts strictly before every task |
| Entities.NewSubcal | vical/core/subcalendar.py:113-118 | a visible, empty subcalendar with a non-empty uid and the given name and colour |
| Entities.InsertItem | vical/core/subcalendar.py:123-126 | the items stay sorted and gain exactly the new item, with its parent set to this subcalendar; no other field changes |
| Entities.InsertItemIsStable | vical/core/subcalendar.py:123-126 | into a sorted subcalendar the new item lands after every item whose key is not above its own |
| Entities.ToggleHidden | vical/core/subcalendar.py:128-129 | flips `hidden` and changes nothing else |
| Entities.ToggleHiddenInvolution | vical/core/subcalendar.py:128-129 | toggling twice restores the subcalendar |
| Entities.GetItemAttr | vical/core/transaction.py:217 | AttributeError exactly for the task-only attributes on an event and the event-only ones on a task |
| Entities.SetItemAttr | vical/core/transaction.py:28-36 | succeeds exactly when the item has the attribute and the value fits it; keeps the uid, the parent and the kind |
| Entities.SetThenGetItemAttr | vical/core/transaction.py:28-31 | reading back an attribute gives what was written, and every other attribute is unchanged |
| Entities.GetThenSetItemAttr | vical/core/transaction.py:33-36 | writing back the value just read changes nothing, which is what makes revert work |
| Entities.SetSubcalAttr | vical/core/transaction.py:112-127 | `hidden` takes a flag and `name` and `color` take text; the uid and the items never change |
| Entities.SetThenGetSubcalAttr | vical/core/transaction.py:112-127 | reading back a subcalendar attribute gives what was written; the others are unchanged |
| Entities.GetThenSetSubcalAttr | vical/core/transaction.py:112-127 | writing back the value just read changes nothing |
| Text.Strip | vical/input/keyparser.py:91-95 | the stripped command neither starts nor ends with whitespace, and it is empty exactly when the buffer is all whitespace |
| Text.Words | vical/input/keyparser.py:98-100 | every part of the split is non-empty and starts with a non-space character |
| Text.LowerStr | vical/commands/utils.py:38 | lower-casing (of ASCII capitals only) keeps the length and maps each ASCII capital to its small letter |
| Text.PadRoundTrip | vical/storage/jsonstore.py:29-37 | a zero-padded number reads back as that number |
| Text.NatToStringValue | vical/core/subcalendar.py:30 | the decimal spelling of a number reads back as that number |
| CalendarCmds.Created | vical/commands/utils.py:87-91 | a fresh unattached item with the drawn uid and the given name that occurs on the date: an open task dated that day with no deadline, or an event that starts and ends on it |
| CalendarCmds.CreationOpsAt | vical/commands/calendar.py:19-25 | the i-th recorded op inserts the item made for the i-th date, with the i-th uid drawn |
| CalendarCmds.DoCreate | vical/commands/calendar.py:15-38 | on success the uid oracle has advanced once per date and only the calendar changed; on an exception only the calendar may have changed |
| CalendarCmds.CreateEdgeCases | vical/commands/calendar.py:15-38 | an empty date list creates nothing; outside a transaction the first insertion raises RuntimeError and nothing changes |
| CalendarCmds.InsertStep | vical/core/transaction.py:225-232 | one insertion inside a transaction into a present subcalendar succeeds, records its op, matches that op's `apply`, and leaves the subcalendar findable |
| CalendarCmds.CreateAllRecords | vical/commands/calendar.py:19-38 | inside a transaction with the subcalendar present every date succeeds and yields one recorded insertion, in date order, and replaying all recorded ops reproduces the subcalendars |
| CalendarCmds.CreateRecords | vical/commands/calendar.py:15-38 | the same for the commands on the editor state: the oracle advances once per date and the open transaction replays to the new subcalendars |
| CalendarCmds.CreateIn | vical/commands/normal.py:294-300 | with no subcalendar selected the first date raises AttributeError and nothing changes; no dates means no change |
| CalendarCmds.DoCreateInBlock | vical/core/transaction.py:205-213 | refused with RuntimeError while another transaction is open; otherwise it ends with no transaction open and changes only the calendar and the oracle |
| CalendarCmds.CreateInBlockCommits | vical/core/transaction.py:205-213 | with a subcalendar present and at least one date, one transaction holding one insertion per date is pushed on the undo stack, the redo stack is emptied, and its ops turn the old subcalendars into the new ones |
| CalendarCmds.CreateInBlockNoSubcal | vical/core/transaction.py:205-213 | with no subcalendar the block raises AttributeError and restores the subcalendars, both stacks and the oracle |
| CalendarCmds.DoCreateSpanningEvent | vical/commands/calendar.py:40-50 | an end before the start raises ValueError and changes nothing; otherwise, inside a transaction, exactly one event with those bounds and that name is recorded and inserted |
| CalendarCmds.DoToggleSubcalHidden | vical/commands/calendar.py:52-56 | ignores its argument; with no selected subcalendar it raises AttributeError; otherwise it flips the selected subcalendar's `hidden` without recording anything in the history |
| CalendarCmds.ToggleSubcalTwice | vical/commands/calendar.py:52-56 | toggling twice restores the editor |
| CoreEditor.MarkSaved | vical/core/editor.py:72-73 | afterwards the editor is not modified, and only the saved state id changed |
| CoreEditor.MarkSavedIdempotent | vical/core/editor.py:58-73 | saving twice is saving once, and saving changes the editor exactly when it was modified |
| CoreEditor.OnDayByNumber | vical/core/editor.py:75-83 | a task is on `(year, month, day)` exactly when that triple is a calendar day whose number is the task's date |
| CoreEditor.TasksForDay | vical/core/editor.py:75-83 | every listed pair is a visible subcalendar and one of its tasks on that day |
| CoreEditor.TasksForDayComplete | vical/core/editor.py:75-83 | every task of a visible subcalendar on that day is listed |
| CoreEditor.TasksForDayConcat | vical/core/editor.py:77-82 | the list follows subcalendar order: the list for two runs of subcalendars is the first run's list followed by the second's |
| CoreEditor.SelectedDayIsDate | vical/core/editor.py:85-93 | the selected day's list is the list of tasks dated the selected date |
| CoreEditor.SelectedTask | vical/core/editor.py:66-70 | None exactly when the selected day has no tasks; otherwise a task of a visible subcalendar dated the selected day |
| CoreEditor.MaxTaskIndex | vical/core/editor.py:125-126 | the last valid index of a non-empty day list, and 0 for an empty one |
| CoreEditor.ClampTaskIndex | vical/core/editor.py:95-102 | an index past the end is pulled back to the last task, and a valid or negative one is kept; an empty day resets index and scroll to 0; nothing else changes |
| CoreEditor.ClampIdempotent | vical/core/editor.py:95-102 | clamping twice is clamping once |
| CoreEditor.SameMonth | vical/core/editor.py:136-137 | the month has not changed exactly when both dates fall in the same month of the same year |
| CoreEditor.SetDate | vical/core/editor.py:104-115 | selects the new date and remembers the old one; a redraw is requested when the month changes; the task selection is reset or clamped as asked; nothing else changes |
| CoreEditor.MotionTextRoundTrip | vical/core/editor.py:117-120 | the recorded motion text reads back as the motion, with a `+` on positive motions |
| CoreEditor.ChangeDate | vical/core/editor.py:117-120 | selects the date with the task selection reset, records the motion and clears the count; the calendar, modes, prompt and message are unchanged |
| CoreEditor.EnsureVisible | vical/core/editor.py:128-134 | with a positive window size the selected task ends up inside the window; if it already was, nothing changes; only the scroll offset moves |
| CoreEditor.EnsureVisibleMinimal | vical/core/editor.py:128-134 | the window moves as little as possible: a task above it becomes the top row and one below it the bottom row; applying it twice is applying it once |
| CoreMovement.Move | vical/core/movement.py:8-18 | the selected date moves `motion` days per unit of the count (1 without one); the count is cleared, the task selection reset and the scaled motion recorded; calendar, mode and message are unchanged |
| CoreMovement.DirectionMoves | vical/core/movement.py:55-68 | `left` and `right` move one day and `up` and `down` one week per unit of the count |
| CoreMovement.CountIsRepetition | vical/core/movement.py:12-16 | a count of k takes the selection as far as k single moves |
| CoreMovement.MoveBack | vical/core/movement.py:55-68 | without a count a move is undone by the opposite move |
| CoreMovement.MoveUnit | vical/core/movement.py:12 | without a count a move is exactly one motion |
| CoreMovement.GotoTarget | vical/core/movement.py:35-47 | only lengths 1, 2, 4, 6 and 8 can name a date, and a date is named only when `date(y, m, d)` accepts the fields |
| CoreMovement.Goto | vical/core/movement.py:21-52 | the count is always cleared; with no count the selection goes to today; a readable count selects its date with a `goto:` notice; an unreadable one leaves only an error notice and the cleared count |
| CoreMovement.GotoMdy | vical/core/movement.py:36-37 | every valid date written as month, day and year in eight digits is the target, whatever the selected year |
| CoreMovement.GotoMonthDay | vical/core/movement.py:40-41 | four digits are a month and a day of the selected year |
| CoreMovement.GotoMonthOnly | vical/core/movement.py:42-43 | one or two digits name the first day of that month of the selected year, and nothing when they are not a month 1..12 |
| CoreMovement.GotoMonthYear | vical/core/movement.py:38-39 | six digits are a month and a year, on the first of the month |
| CoreMovement.VisualDownAsWritten | vical/core/movement.py:71-79 | as written: on a day with tasks NameError is raised before anything changes; on an empty day nothing happens |
| CoreMovement.VisualUpAsWritten | vical/core/movement.py:82-89 | as written: on a day with tasks the index steps up and then NameError is raised |
| CoreMovement.VisualMovesRaise | vical/core/movement.py:71-89 | on a day with tasks both as-written moves raise, while the corrected moves go one task down or up |
| CoreMovement.CursorDown | vical/core/movement.py:71-79 | corrected: one task down, stopping at the last; only the index and the scroll change; nothing happens on an empty day |
| CoreMovement.CursorUp | vical/core/movement.py:82-89 | corrected: one task up, stopping at the first; only the index and the scroll change |
| CoreMovement.CursorKeepsVisible | vical/core/movement.py:71-89 | a cursor inside the window stays inside it after either move, and down then up returns to the same task |
| CoreMovement.NextSubcal | vical/core/movement.py:92-98 | with subcalendars the index lands in range; without any nothing changes; only the index changes |
| CoreMovement.PrevSubcal | vical/core/movement.py:101-107 | the same for the backward cycle, whose Python `%` is never negative |
| CoreMovement.SubcalCycle | vical/core/movement.py:92-107 | from a valid index, next goes to the following subcalendar (first after last), previous to the one before (last before first), and each undoes the other |
| EditorMovement.Move | vical/editor/movement.py:8-17 | the date moves `motion` days per unit of the given count, or of the typed count (1 without one); the item index is reset and the scaled motion recorded; unlike the older `move` the count stays |
| EditorMovement.DirectionsAreMoves | vical/editor/movement.py:53-70 | `left`, `right`, `up` and `down` are moves of -1, 1, -7 and 7 days with the count given, and each undoes its opposite |
| EditorMovement.ClampItemIndex | vical/editor/movement.py:76 | the clamped index is one the day can show, a valid index is kept, and nothing else changes |
| EditorMovement.VisualLeft | vical/editor/movement.py:73-76 | the date moves back by the count and the item index is kept when the new day has that many items, otherwise pulled into range |
| EditorMovement.VisualRight | vical/editor/movement.py:78-81 | the same forward |
| EditorMovement.UpStep | vical/editor/movement.py:86-91 | one item up, or from the top to the last item of the day a week earlier; a showable position stays showable |
| EditorMovement.DownStep | vical/editor/movement.py:97-103 | one item down, or from the bottom to the first item of the day a week later |
| EditorMovement.StepsInverse | vical/editor/movement.py:83-103 | from a showable position a step down undoes a step up and a step up undoes a step down, week jumps included |
| EditorMovement.VisualUp | vical/editor/movement.py:83-91 | the loop makes exactly `count` up-steps, first pass first, and keeps a showable position showable |
| EditorMovement.VisualDown | vical/editor/movement.py:94-103 | the loop makes exactly `count` down-steps and, after at least one, ends on a showable position |
| EditorMovement.VisualUpDownRoundTrip | vical/editor/movement.py:83-103 | `count` items up and then `count` items down returns to the same day and item |
| EditorMovement.Goto | vical/editor/movement.py:20-50 | the count is always cleared; with none the selection goes to today; a count that names a date selects it with the item index reset; any other count leaves only an error notice |
| History.Begin | vical/history/transaction.py:47-55 | RuntimeError, with nothing changed, exactly when a transaction is open; otherwise an empty transaction opens with the next id and the counter advances |
| History.Record | vical/history/transaction.py:58-67 | RuntimeError exactly when no transaction is open, and then nothing changes; otherwise only the op is appended to the open transaction |
| History.Commit | vical/history/transaction.py:70-91 | afterwards no transaction is open; an empty one is dropped; a non-empty one goes on top of the undo stack, which loses at most its oldest entry and stays within the cap, and the redo stack is emptied |
| History.SetAttr | vical/history/transaction.py:94-105 | an unchanged value records and writes nothing; a change succeeds exactly inside a transaction and records one op holding the old and new values; an exception changes nothing |
| History.InsertItem | vical/history/transaction.py:108-123 | AssertionError for an item that already has a parent and RuntimeError outside a transaction; otherwise one insertion is recorded, whose `apply` gives the new subcalendars, and an insertion into a subcalendar the log does not hold leaves its subcalendars unchanged without error |
| History.RemoveItem | vical/history/transaction.py:126-140 | AssertionError for an unattached item and RuntimeError outside a transaction; success records one removal whose `apply` gives the new subcalendars |
| History.MoveItem | vical/history/transaction.py:143-164 | AssertionError unless the item is attached to another subcalendar than the destination, RuntimeError outside a transaction; success records one move and detaches the item from its source, and a destination the log does not hold receives it unseen, without error |
| History.Block | vical/history/transaction.py:168-182 | RuntimeError when a transaction is already open; a body that raises leaves no transaction open and propagates with its changes in place; one that finishes is committed |
| History.ProtocolAgreesWithCore | vical/history/transaction.py:47-91 | begin, record and commit act on the state exactly as their counterparts in vical/core/transaction.py do |
| History.SetAttrAgrees | vical/history/transaction.py:94-105 | `set_attr` acts exactly as `tx_set_item_attr` of vical/core/transaction.py |
| History.InsertAgrees | vical/history/transaction.py:108-123 | `insert_item` acts exactly as `tx_insert_item` |
| History.RemoveAgrees | vical/history/transaction.py:126-140 | `remove_item` acts exactly as `tx_remove_item` |
| History.MoveAgrees | vical/history/transaction.py:143-164 | `move_item` acts exactly as `tx_move_item` |
| History.HelpersAgreeWithCore | vical/history/transaction.py:94-164 | all four mutation helpers agree with the core generation's |
| History.BlockEffect | vical/history/transaction.py:168-182 | a body that raises leaves both stacks as they were; a body that records and finishes puts one transaction with the block's id and name on top of the undo stack, empties the redo stack and respects the cap |
| History.IdsIncrease | vical/history/transaction.py:24-28 | a new transaction's id exceeds every id in the history, and begin, record and commit keep every id below the counter |
| History.ApplyAllFirst | vical/history/transaction.py:30-35 | `apply` runs the first op first, and a failure there stops the run before the rest |
| History.RevertIsReversedApply | vical/history/transaction.py:37-44 | reverting a transaction is applying the undoing ops from the last op back to the first, with the same point of failure |
| History.OpSetAttrRoundTrips | vical/history/ops.py:30-48 | `revert` after `apply` restores the old value, and `apply` after `revert` restores the new one |
| History.UnknownUidAsserts | vical/history/ops.py:30-140 | an op that names an item or subcalendar the editor does not hold fails its assertion in both directions |
| KeyParser.FlagBits | vical/input/keyparser.py:21-23 | `KEEP_REG` (3) carries the NEXT_KEY bit as well, and NEXT_KEY_NO_OP (2) does not |
| KeyParser.Chr | vical/input/keyparser.py:66-68 | the character with that code; no character for codes outside 0..0x10FFFF or among the surrogates 0xD800..0xDFFF |
| KeyParser.PendingKeys | vical/input/keyparser.py:38-46 | count, pending operator and key in NORMAL and VISUAL; the command line in EX mode; nothing in any other mode |
| KeyParser.LookupAsWritten | vical/input/keyparser.py:73 | as written: the entry of a bound key, and TypeError for every key the map does not bind |
| KeyParser.Lookup | vical/input/keyparser.py:73-74 | corrected: no command for an unbound key, and for a bound key the same entry as the code as written |
| KeyParser.UnmappedKey | vical/input/keyparser.py:64-83 | as written an unbound key raises; corrected, it only fills the key slot |
| KeyParser.StoreKey | vical/input/keyparser.py:65-70 | the first empty key slot takes `chr(key)`, ValueError when the code is no character; with both slots full the record is cleared and the key dropped unconverted |
| KeyParser.FeedNormal | vical/input/keyparser.py:58-83 | a digit while no motion is stored only extends the count; a code with no character raises ValueError, leaving the parser as it was, when a key slot is empty to take it |
| KeyParser.FirstKeyWaits | vical/input/keyparser.py:64-80 | a command that waits for a second key only stores the first key and runs nothing |
| KeyParser.SecondKeyDispatch | vical/input/keyparser.py:73-83 | with a bound first key stored, the second key runs its command with both keys in place, and the key slots are emptied afterwards; a raise keeps the handler's partial state |
| KeyParser.GGIsGoto | vical/input/keyparser.py:58-83 | with `g` bound to wait for a second key, typing `gg` runs goto |
| KeyParser.RunG | vical/commands/normal.py:64-79 | the g prefix with `g` as second key is goto |
| KeyParser.ThirdKeyClears | vical/input/keyparser.py:69-70 | a key that arrives with both slots full clears the record, so the key itself is lost and even a code with no character raises nothing |
| KeyParser.ExitCommandMode | vical/input/keyparser.py:116-119 | back to NORMAL with an empty command line and label; the editor is untouched |
| KeyParser.SplitCommand | vical/input/keyparser.py:98-100 | the command word is the leading run of non-space characters of the line, and the parameters are the words of the rest |
| KeyParser.ExecuteExCommand | vical/input/keyparser.py:121-129 | a known name runs its command; an unknown one only adds an `Unknown command:` notice |
| KeyParser.FeedCommand | vical/input/keyparser.py:85-114 | ESC, and Enter on a blank line, leave command mode; backspace erases the last character, or leaves command mode on an empty line |
| KeyParser.Feed | vical/input/keyparser.py:48-56 | EX mode goes to the command-line feeder and every other mode to the normal-mode feeder |
| KeyParser.TypeThenErase | vical/input/keyparser.py:106-114 | a plain character is appended and a backspace takes it off again |
| KeyParser.TypeAllAppends | vical/input/keyparser.py:113-114 | typing plain characters appends exactly them to the command line |
| KeyParser.EnterRunsCommand | vical/input/keyparser.py:85-104 | typing a non-blank line from empty and pressing Enter runs its first word with the rest as parameters, or reports the word as unknown, and returns to NORMAL |
| KeyParser.EnterLine | vical/input/keyparser.py:90-104 | Enter on a non-blank line runs or reports its first word and returns to NORMAL |
| Registers.ToPayload | vical/core/register.py:95-132 | a task becomes a task payload and an event an event payload, each with the name and the parent's uid; a task keeps completion and deadline, an event both dates |
| Registers.FromPayload | vical/core/register.py:135-158 | a payload of another kind raises ValueError; a pasted item has the payload's name, the new uid and no parent |
| Registers.TaskPayloadRoundTrip | vical/core/register.py:95-147 | a task comes back with its name, completion and deadline, undated, unattached and under a new uid |
| Registers.EventPayloadRoundTrip | vical/core/register.py:115-156 | an event whose bounds are in order comes back with its name and both dates |
| Registers.PayloadFromThenTo | vical/core/register.py:95-158 | pasting a payload and yanking the result gives the payload back, except for the origin, which a fresh item lacks |
| Registers.Init | vical/core/register.py:20-29 | `"`, `0`, `-`, `1`-`9` and `a`-`z` exist and are empty, and nothing has been written |
| Registers.WellFormedWritable | vical/core/register.py:20-29 | the constructor's registers include every register `write` touches, so the rotation never meets a missing key |
| Registers.Normalize | vical/core/register.py:79-82 | append mode exactly for an ASCII upper-case name, which then selects its lower-case register; any other name is kept |
| Registers.YankItems | vical/core/register.py:37-38 | a single item is wrapped in a one-item list, and a list is used as given |
| Registers.ShiftDownEffect | vical/core/register.py:51-52 | after the rotation each register k in 2..9 holds what k - 1 held, and every other register is untouched |
| Registers.Store | vical/core/register.py:55-60 | only an existing register is written: extended in append mode, replaced otherwise; every other register is untouched |
| Registers.Write | vical/core/register.py:31-62 | no register is created, and a write to the black hole `_` changes nothing at all |
| Registers.UpperNotSpecial | vical/core/register.py:79-82 | an upper-case name never selects the unnamed, yank, small-delete or numbered registers |
| Registers.WriteSetsUnnamed | vical/core/register.py:42-43 | every write except to `_` leaves the new payloads in the unnamed register and remembers the register name |
| Registers.YankEffect | vical/core/register.py:45-47 | a yank also fills register `0` and leaves the numbered registers alone |
| Registers.DeleteFillsFirst | vical/core/register.py:49-53 | a delete puts the payloads in register `1` |
| Registers.DeleteShifts | vical/core/register.py:49-53 | a delete moves registers `1`-`8` down to `2`-`9` |
| Registers.DeleteKeepsYank | vical/core/register.py:45-53 | a delete leaves the yank register `0` alone |
| Registers.DeleteHistoryOrder | vical/core/register.py:49-53 | three deletes stack up most recent first in `1`, `2` and `3` |
| Registers.NamedRegisterEffect | vical/core/register.py:55-60 | a lower-case letter replaces its register and the upper-case letter appends to it |
| Registers.SpreadKeepsLetter | vical/core/register.py:42-53 | the unnamed, yank and numbered updates leave the letter registers alone |
| Registers.Get | vical/core/register.py:64-70 | the contents of the normalised register, and an empty list for an unknown name |
| Registers.Clear | vical/core/register.py:72-77 | the normalised register becomes empty and every other register is unchanged |
| Registers.ClearThenGet | vical/core/register.py:64-77 | reading a cleared register gives nothing, and clearing keeps the standard registers |
| Registers.WriteThenGet | vical/core/register.py:31-70 | reading back a lower-case letter register gives exactly the payloads written |
| TaskLists.NewTask | vical/subcalendar.py:13-21 | a task exactly when the string is a `%Y%m%d` date, and then the date is the one it spells; otherwise ValueError |
| TaskLists.TaskFields | subcalendar.py:42-45 | `year`, `month` and `day` are the four, two and two digits of the date string |
| TaskLists.TaskDateCanonical | vical/subcalendar.py:18 | the date string of a task is the date's own `%Y%m%d` spelling |
| TaskLists.ToggleCompleted | vical/subcalendar.py:23-24 | flips `completed` and changes nothing else |
| TaskLists.ToggleCompletedInvolution | subcalendar.py:47-48 | toggling twice restores the task |
| TaskLists.Copy | vical/subcalendar.py:26-27 | the copy is equal to the original |
| TaskLists.CopyViaInt | subcalendar.py:50-51 | passing the flag through `int` and back to `bool` still gives a copy equal to the original |
| TaskLists.TaskToDict | vical/subcalendar.py:29-34 | exactly the keys `name`, `date_str` and `completed`, holding the task's fields |
| TaskLists.TaskFromDict | vical/subcalendar.py:37-42 | KeyError without `name` or `date_str`; a loaded task has those values and is completed exactly when `completed` is present and truthy |
| TaskLists.TaskRoundTrip | subcalendar.py:54-67 | a task loads back from its dictionary unchanged |
| TaskLists.CivilOrder | vical/subcalendar.py:62-63 | ordering valid `(year, month, day)` triples lexicographically is ordering their day numbers |
| TaskLists.TaskKeyOrder | vical/subcalendar.py:62-63 | the sort key orders by date and then by name |
| TaskLists.NewSubcal | vical/subcalendar.py:46-50 | no tasks, and the given name, colour pair and hidden flag |
| TaskLists.InsertTask | vical/subcalendar.py:52-54 | the tasks stay sorted and gain exactly the new task; no other field changes |
| TaskLists.InsertTaskPlacement | subcalendar.py:76-78 | on a sorted list the task goes after every task whose key is not greater, and the others keep their order |
| TaskLists.IndexOf | vical/subcalendar.py:57-58 | the position of the first occurrence, or None exactly when the task is absent |
| TaskLists.PopTask | vical/subcalendar.py:56-60 | a present task is returned and loses exactly one occurrence; an absent one gives None and no change |
| TaskLists.PopKeepsSorted | subcalendar.py:80-84 | popping keeps a sorted list sorted |
| TaskLists.PopAfterInsert | subcalendar.py:76-84 | popping a task just inserted returns it and gives back the tasks there were before |
| TaskLists.ToggleHidden | vical/subcalendar.py:65-66 | flips `hidden` and changes nothing else |
| TaskLists.ToggleHiddenInvolution | subcalendar.py:86-87 | toggling twice restores the subcalendar |
| TaskLists.SubcalToDict | vical/subcalendar.py:74-80 | exactly the keys `name`, `color`, `hidden` and `tasks`, the last holding the tasks' dictionaries in order |
| TaskLists.LoadTasks | vical/subcalendar.py:90-91 | a load yields one task per element, each a well-formed task |
| TaskLists.SubcalFromDict | vical/subcalendar.py:83-94 | KeyError without `name`; a loaded subcalendar has sorted, well-formed tasks, its name, colour pair 1 and not hidden when those keys are absent |
| TaskLists.SortTasks | vical/subcalendar.py:62-63 | a sorted permutation of the tasks |
| TaskLists.LoadSavedTasks | vical/subcalendar.py:29-42 | the saved tasks load back in order |
| TaskLists.SubcalRoundTrip | subcalendar.py:95-109 | a subcalendar whose tasks are sorted loads back from its dictionary unchanged |
| JsonStore.DateValue | vical/storage/jsonstore.py:28-37 | a set date is stored as its `%Y%m%d` text and an unset one is not stored |
| JsonStore.ItemToDict | vical/storage/jsonstore.py:20-39 | type, uid and name always; description and reminder only when truthy; a task's completion flag always and its date and deadline when set; an event's bounds when set; nothing of the other kind |
| JsonStore.ReadStr | vical/storage/jsonstore.py:49-50 | KeyError for a missing key; success exactly when the stored value is a string, which is the result |
| JsonStore.ReadDate | vical/storage/jsonstore.py:51 | KeyError for a missing key, TypeError for a non-string, otherwise the `strptime` reading of the text |
| JsonStore.GetStr | vical/storage/jsonstore.py:54 | the default when the key is absent, otherwise the stored string |
| JsonStore.GetFlag | vical/storage/jsonstore.py:53 | false when the key is absent, otherwise the stored boolean |
| JsonStore.ItemFromDict | vical/storage/jsonstore.py:42-64 | ValueError for an unknown type; KeyError for a task without uid; a loaded item is a task with a date or an event with ordered bounds, with the stored type, name and non-empty uid, no reminder and no parent |
| JsonStore.Stored | vical/storage/jsonstore.py:25-26 | what a save keeps of an item: every field but the reminder and the parent |
| JsonStore.ReadWrittenDate | vical/storage/jsonstore.py:29-51 | a date written with `%Y%m%d` reads back as the same date |
| JsonStore.TaskReads | vical/storage/jsonstore.py:44-55 | a task dictionary whose fields read successfully loads as the task built from them |
| JsonStore.EventReads | vical/storage/jsonstore.py:56-63 | an event dictionary whose fields read successfully loads as the event built from them |
| JsonStore.TaskRoundTrip | vical/storage/jsonstore.py:20-55 | a dated task loads back from its dictionary with every field but the reminder |
| JsonStore.EventRoundTrip | vical/storage/jsonstore.py:20-63 | an event with ordered bounds loads back from its dictionary with every field but the reminder |
| JsonStore.ItemRoundTrip | vical/storage/jsonstore.py:20-64 | save then load is the identity on dated tasks and bounded events, up to the reminder and parent |
| JsonStore.ReloadIsIdentity | vical/storage/jsonstore.py:20-64 | whatever a dictionary loads as, saving and loading it again gives the same item |
| JsonStore.UndatedItemsDoNotLoad | vical/storage/jsonstore.py:28-61 | a task without a date or an event without both bounds is saved in a form that loads only as KeyError |
| JsonStore.ItemDicts | vical/storage/jsonstore.py:72 | one dictionary per item, in order |
| JsonStore.SubcalToDict | vical/storage/jsonstore.py:67-73 | exactly the keys uid, name, color and items, the hidden flag not written |
| JsonStore.LoadItems | vical/storage/jsonstore.py:82-84 | the loop keeps the subcalendar's other fields and its items sorted, adds one item per element, each parented to the subcalendar |
| JsonStore.SubcalFromDict | vical/storage/jsonstore.py:76-85 | KeyError without uid or name; an `items` value that is no list fails as its iteration does; a loaded subcalendar is visible with sorted items, the stored name, the stored colour or green, and has items exactly when a non-empty list was stored |
| JsonStore.ItemElems | vical/storage/jsonstore.py:82 | what `for item_data in data.get("items", [])` walks: a list's elements, nothing for a missing key or an empty object or string, AttributeError for a non-empty object or string (iterating its keys or characters), TypeError for null, booleans and numbers |
| JsonStore.SavedItemsLoad | vical/storage/jsonstore.py:72-83 | each saved item's dictionary loads back as that item without its parent |
| JsonStore.LoadSortedItems | vical/storage/jsonstore.py:82-84 | elements that load as a sorted list are inserted into an empty subcalendar as exactly that list |
| JsonStore.AppendInOrder | vical/storage/jsonstore.py:84 | inserting an item that sorts after all others appends it |
| JsonStore.SubcalRoundTrip | vical/storage/jsonstore.py:67-85 | a subcalendar with sorted, loadable items loads back from its dictionary unchanged but visible |
| Ops.FindSubcal | vical/core/transaction.py:45-46 | the first subcalendar with the uid, or none when no subcalendar has it |
| Ops.FindItem | vical/core/transaction.py:29-86 | the first item with the uid in subcalendar order, or none when no item has it |
| Ops.FindSameUids | vical/core/transaction.py:29-45 | lookups depend on nothing but the uids and their places |
| Ops.RemoveItemByUid | vical/core/transaction.py:54-67 | ValueError exactly when no item has the uid; otherwise the first such item is taken out and the rest keep their order |
| Ops.Detach | vical/core/transaction.py:65-69 | AssertionError for an unknown subcalendar, ValueError for an item it does not hold |
| Ops.DetachEffect | vical/core/transaction.py:67-69 | a successful removal takes exactly one item out of the one subcalendar, leaves it sorted, and changes nothing else |
| Ops.Attach | vical/core/transaction.py:45-49 | AssertionError exactly for an unknown subcalendar; otherwise that subcalendar gains the item parented to it, stays sorted, and nothing else changes |
| Ops.MoveBetween | vical/core/transaction.py:86-96 | AssertionError when the item, source or destination is not found |
| Ops.WriteItemAttr | vical/core/transaction.py:28-31 | AssertionError for an unknown item; otherwise only that item's attribute changes and no uid moves |
| Ops.WriteSubcalAttr | vical/core/transaction.py:119-122 | AssertionError for an unknown subcalendar; otherwise only its attribute changes and no uid moves |
| Ops.ListInsert | vical/core/transaction.py:136-151 | the list grows by one, with the subcalendar at the index or appended past the end |
| Ops.RemoveSubcalByUid | vical/core/transaction.py:139-148 | ValueError exactly when no subcalendar has the uid; otherwise the first is taken out and the rest keep their order |
| Ops.MirrorInvolution | vical/core/transaction.py:21-151 | pairing each op class with its opposite is an involution |
| Ops.RevertIsMirrorApply | vical/core/transaction.py:21-151 | every `revert` is the `apply` of the opposite op and the other way round |
| Ops.SetItemAttrRoundTrip | vical/core/transaction.py:21-36 | apply then revert of an item attribute write whose old value is the current one restores the calendar list |
| Ops.SetSubcalAttrRoundTrip | vical/core/transaction.py:112-127 | apply then revert of a subcalendar attribute write restores the calendar list |
| Ops.InsertItemRoundTrip | vical/core/transaction.py:39-56 | inserting a new item into a sorted subcalendar succeeds, and reverting it restores the list exactly |
| Ops.RemoveAfterAdd | vical/core/transaction.py:49-54 | removing the item just added to a sorted list gives the list back |
| Ops.RemoveItemRoundTrip | vical/core/transaction.py:59-76 | removing an item and reverting leaves that subcalendar with the same items, sorted, and the rest unchanged |
| Ops.MoveItemForward | vical/core/transaction.py:85-96 | moving a unique item takes it out of the source and puts it, reparented, into the destination, where it becomes the only item with its uid |
| Ops.MoveItemRoundTrip | vical/core/transaction.py:79-109 | moving a unique item and reverting leaves every subcalendar with the items it had |
| Ops.RemoveSubcalRoundTrip | vical/core/transaction.py:142-151 | removing a subcalendar and reinserting it at its recorded index restores the list exactly |
| Ops.InsertSubcalRoundTrip | vical/core/transaction.py:130-139 | appending a subcalendar with a fresh uid and removing it restores the list exactly |
| Transactions.RevertAllUndoesApplyAll | vical/core/transaction.py:163-169 | reverting a transaction whose ops are each reversible where applied restores the list from before it |
| Transactions.Begin | vical/core/transaction.py:157-175 | RuntimeError exactly when a transaction is open, leaving the editor as it was; otherwise an empty transaction with the next id is open and the counter has advanced |
| Transactions.Record | vical/core/transaction.py:178-182 | RuntimeError exactly outside a transaction; otherwise the op is appended to the open transaction and nothing else changes |
| Transactions.Commit | vical/core/transaction.py:185-197 | no transaction is open afterwards and the calendars are untouched; an empty transaction is discarded; a non-empty one goes on top of the undo stack, the oldest entry dropping past the limit, and the redo stack is cleared |
| Transactions.CommitBound | vical/core/transaction.py:190-195 | the undo stack stays within the history limit and the committed transaction is on top |
| Transactions.BlockPushes | vical/core/transaction.py:205-213 | a block whose body records a non-empty list of ops pushes exactly one transaction holding them, with the block's id and label, and clears the redo stack |
| Transactions.TransactionBlock | vical/core/transaction.py:205-213 | RuntimeError inside an open transaction; a body that finishes is committed; a body that raises propagates the same exception with its mutations kept and no transaction open |
| Transactions.BlockRaisePushesNothing | vical/core/transaction.py:209-211 | an exception inside a block leaves both history stacks as they were |
| Transactions.TxSetItemAttr | vical/core/transaction.py:216-222 | nothing is recorded or changed when the value is unchanged; otherwise the op with the old and new value is recorded |
| Transactions.TxInsertItem | vical/core/transaction.py:225-232 | AssertionError for an attached item, RuntimeError outside a transaction; on success the insert op is recorded and replaying it gives exactly the new calendars, and a subcalendar the editor does not hold is filled unseen, without error |
| Transactions.TxRemoveItem | vical/core/transaction.py:235-243 | AssertionError for an unattached item, RuntimeError outside a transaction; on success the remove op is recorded and replaying it gives exactly the new calendars |
| Transactions.TxMoveItem | vical/core/transaction.py:246-258 | AssertionError for an unattached item or a move onto its own subcalendar; on success the move op is recorded, the item has left its source, and a destination the editor does not hold receives it unseen |
| Transactions.TxMoveItemReplays | vical/core/transaction.py:85-96 | for the item the editor holds under its uid, the recorded move op replays exactly the mutation made |
| Transactions.TxSetSubcalAttr | vical/core/transaction.py:261-267 | nothing changes when the value is unchanged; otherwise the op is recorded and replaying it gives exactly the new calendars; a subcalendar the editor does not hold is written unseen, without error |
| Transactions.TxInsertSubcal | vical/core/transaction.py:270-275 | AssertionError for a subcalendar already present; otherwise it is appended and the op records its index as the old length |
| Transactions.TxRemoveSubcal | vical/core/transaction.py:278-283 | AssertionError for a missing subcalendar; otherwise it is taken out and the op records the index it had |
| Transactions.Undo | vical/core/transaction.py:286-292 | nothing with an empty undo stack; otherwise the top transaction is popped and, when reverting succeeds, pushed onto the redo stack |
| Transactions.Redo | vical/core/transaction.py:295-301 | nothing with an empty redo stack; otherwise the top transaction is popped and, when applying succeeds, pushed onto the undo stack |
| Transactions.UndoThenRedoStacks | vical/core/transaction.py:286-301 | a successful undo followed by a successful redo restores both stacks |
| Transactions.HistoryBoundKept | vical/core/transaction.py:185-197 | undo, redo and commit keep the two stacks together within the history limit |
| Transactions.UndoRestores | vical/core/transaction.py:286-292 | undoing a transaction whose ops were reversible where applied brings back the calendars from before it |
| Transactions.SetAttrCommitUndo | vical/core/transaction.py:185-292 | setting an attribute in a fresh transaction, committing and undoing gives back the calendars |
| Transactions.IdsIncrease | vical/core/transaction.py:155-159 | a new transaction's id exceeds every id in the history, and begin, record, commit, undo and redo keep all ids below the counter |
| Operators.OperatorOf | vical/commands/operators.py:25-31 | `d`/`D` delete, `y`/`Y` yank, `c`/`C` change, space completes, and nothing else names an operator |
| Operators.RemoveAll | vical/commands/operators.py:46-47 | the removal loop never touches the history stacks or the id counter |
| Operators.RemoveAllRecords | vical/commands/operators.py:46-47 | a loop that completes removed only attached items, recorded one remove op per item in order, and those ops replay to the result |
| Operators.OpDelete | vical/commands/operators.py:35-47 | the registers are untouched without targets; RuntimeError inside an open transaction; a completed delete leaves no transaction open; only registers and calendars change |
| Operators.DeleteNothing | vical/commands/operators.py:39-47 | deleting no targets changes nothing but the transaction counter: the empty transaction is discarded |
| Operators.DeleteCommits | vical/commands/operators.py:45-47 | a completed delete pushes one transaction, labelled with the target count, whose ops remove the targets in order and replay to the new calendars; the redo stack is cleared |
| Operators.DeleteThenUndo | vical/commands/operators.py:35-47 | undoing a delete whose removals are reversible restores the calendars it found |
| Operators.DeleteRaisesPushesNothing | vical/commands/operators.py:45-47 | a delete that raises part-way pushes nothing and leaves no transaction open |
| Operators.DeleteRegisters | vical/commands/operators.py:39-44 | deleted items land in the unnamed register and, unless register 1 is named, in register 1 |
| Operators.OpYank | vical/commands/operators.py:49-58 | only the registers change, keeping their names; no targets or the black-hole register change nothing |
| Operators.YankRegisters | vical/commands/operators.py:53-58 | yanked items land in the unnamed register and register 0 |
| Operators.SetAll | vical/commands/operators.py:66-78 | the assignment loop never touches the history stacks or the id counter |
| Operators.SetOps | vical/core/transaction.py:216-221 | one set op per item whose attribute differs, so none exactly when all already hold the value |
| Operators.SetAllOutside | vical/commands/operators.py:66-67 | outside a transaction the loop does nothing when all items already hold the value, and otherwise raises RuntimeError before any change |
| Operators.SetAllInside | vical/commands/operators.py:66-67 | inside a transaction the loop completes and records exactly one op per differing item |
| Operators.SetAllHolds | vical/commands/operators.py:66-67 | for distinct, current targets, every target still in a subcalendar holds the value afterwards |
| Operators.OpChangeAsWritten | vical/commands/operators.py:60-67 | as written: only the calendars and history can change |
| Operators.ChangeAsWrittenRaises | vical/commands/operators.py:60-67 | as written: renaming an item raises RuntimeError and changes nothing |
| Operators.OpChange | vical/commands/operators.py:60-67 | nothing without targets or text; RuntimeError inside an open transaction; only calendars and history change |
| Operators.ChangeCommits | vical/commands/operators.py:60-67 | a change always completes and pushes one transaction renaming each target whose name differs, or none if none differs |
| Operators.ChangeRenames | vical/commands/operators.py:66-67 | every distinct, current target still in a subcalendar carries the new name |
| Operators.TasksOf | vical/commands/operators.py:73 | exactly the targets that are tasks |
| Operators.OpCompleteAsWritten | vical/commands/operators.py:69-78 | as written: NameError exactly when there are targets, with nothing changed |
| Operators.CompleteAsWrittenRaises | vical/commands/operators.py:73 | as written: completing one task raises NameError |
| Operators.OpComplete | vical/commands/operators.py:69-78 | nothing without tasks among the targets; only calendars and history change |
| Operators.ToggleChangesSome | vical/commands/operators.py:76 | the toggle always changes at least one task |
| Operators.CompleteCommits | vical/commands/operators.py:69-78 | completing pushes one transaction setting `completed` on every task whose flag differs from the toggle |
| Operators.CompleteOutsideRaises | vical/commands/operators.py:77-78 | completing tasks with no transaction open always raises RuntimeError |
| Operators.DoOperator | vical/commands/operators.py:24-33 | an unknown key does nothing; each known key runs its operator |
| Operators.DoOperatorKeepsRegisters | vical/commands/operators.py:24-58 | every operator keeps the register names, so the registers stay writable |
| Normal.PlainMotionEndAsWritten | vical/commands/normal.py:187-188 | as written: a plain motion drops the motion but keeps its count |
| Normal.PlainMotionEnd | vical/commands/normal.py:187-188 | the motion and its count are both used up, and this differs from the code as written only in the count |
| Normal.TaskDatesAsWritten | vical/commands/normal.py:307-316 | as written: one date per repeat, spaced by the unscaled motion's `days` |
| Normal.TaskDates | vical/commands/normal.py:302-316 | one date per repeat, the i-th being the motion's start plus i times the scaled motion's displacement |
| Normal.TaskDatesDiffer | vical/commands/normal.py:305 | "3T5l": as written three tasks two days apart, as intended five days apart |
| Normal.CreateTasksAsWritten | vical/commands/normal.py:288-325 | as written: creating on no dates changes nothing |
| Normal.TaskCreationAsWrittenRaises | vical/commands/normal.py:288-300 | as written: from normal mode creating any task raises, AttributeError without a subcalendar and RuntimeError otherwise, and nothing changes |
| Normal.HandleMotion | vical/commands/normal.py:156-188 | TypeError without a motion; a plain motion selects the start plus count times the displacement, drops the other kind's anchor, ends idle and touches neither calendars nor registers; a pending task step never changes the registers and clears the pending flag |
| Normal.CountScalesDateStep | vical/commands/normal.py:155-163 | a typed count multiplies a date move, is used up, and nothing but the selection changes |
| Normal.ThreeWeeksDown | vical/commands/normal.py:49-52 | with "3" typed, moving down a week selects the day three weeks on |
| Normal.StickyCountAsWritten | vical/commands/normal.py:160-188 | as written, after "3l" a bare `l` moves three days again; with the count used up it moves one |
| Normal.StickyCountScalesJump | vical/commands/normal.py:119-163 | as written, a leftover count of 3 makes `gg` on the 10th land 27 days back instead of on the 1st |
| Normal.NvMonthStart | vical/commands/normal.py:119-123 | ValueError for a selected date outside the years `date` accepts |
| Normal.NextMonthStartLast | vical/commands/normal.py:128-133 | the day before the next month's first is the last day of the month, for every month but December of year 9999 |
| Normal.NvMonthEnd | vical/commands/normal.py:125-135 | ValueError in December of year 9999, where there is no next month |
| Normal.WeekStartOf | vical/commands/normal.py:137-141 | zero to six days back, on the weekday `week_start` |
| Normal.WeekEndOf | vical/commands/normal.py:146-151 | zero to six days on, on the weekday before `week_start` |
| Normal.JumpLands | vical/commands/normal.py:156-188 | from an idle record a jump selects its target and changes neither the calendars nor the remembered goto date |
| Normal.MonthStartLands | vical/commands/normal.py:119-123 | month start selects the first of the selected month, at most 30 days back |
| Normal.MonthEndLands | vical/commands/normal.py:125-135 | month end selects the last day of the selected month, never earlier than the selection |
| Normal.WeekStartLands | vical/commands/normal.py:137-144 | week start selects a `week_start` weekday zero to six days back |
| Normal.WeekEndLands | vical/commands/normal.py:146-154 | week end selects the weekday before `week_start`, zero to six days on |
| Normal.GotoTarget | vical/commands/normal.py:93-98 | "0" names today |
| Normal.NvGoto | vical/commands/normal.py:81-107 | a count that names no date is consumed and nothing else happens |
| Normal.GotoSpecialCounts | vical/commands/normal.py:89-94 | `gg` with no count is the month-start jump; "0gg" selects today and remembers the date left |
| Normal.GotoThenUngoto | vical/commands/normal.py:81-117 | a goto that parses selects the parsed date and remembers the one left; ungoto then returns there and remembers the goto's target, calendars untouched |
| Normal.UngotoTwice | vical/commands/normal.py:109-117 | ungoto twice returns to the start with the remembered date restored |
| Normal.NvGCmd | vical/commands/normal.py:64-79 | any key after `g` other than `g`, `0`, `k`, `j` does nothing |
| Normal.GCmdDispatch | vical/commands/normal.py:64-79 | `gg` is goto, `g0` week start, and `gj`/`gk` select the neighbouring item clamped to the day's items |
| Normal.NvOperator | vical/commands/normal.py:190-215 | a key that neither repeats the pending operator nor is ASCII upper case or space becomes pending with the typed count, or 1, and nothing else changes |
| Normal.ExecuteSingleUnit | vical/commands/normal.py:217-230 | nothing without a selected item; otherwise the operator runs on that item alone and the record is cleared when it completes |
| Normal.ExecuteOperatorMotion | vical/commands/normal.py:232-250 | any non-zero operator count raises NameError; the register names never change |
| Normal.OperatorTwice | vical/commands/normal.py:204-215 | the first press of `dd` only makes the operator pending, the second runs the single-unit form |
| Normal.ImmediateOperators | vical/commands/normal.py:204-210 | an upper-case key or space runs at once, whatever is pending |
| Normal.NvTask | vical/commands/normal.py:269-286 | nothing while an operator is pending; a non-zero count is stored and a motion awaited; registers and selected date never change |
| Normal.TaskName | vical/commands/normal.py:292-319 | never empty |
| Normal.ExecuteSingleTask | vical/commands/normal.py:288-300 | exactly the editor a one-date task creation in the selected subcalendar leaves |
| Normal.ExecuteTaskMotion | vical/commands/normal.py:302-327 | no motion or an item motion creates nothing and drops only the pending step; registers never change |
| Normal.SingleTaskCreates | vical/commands/normal.py:269-300 | a lone `T` creates one task on the selected date as one undoable transaction that replays to the new calendars |
| Normal.TaskMotionCreates | vical/commands/normal.py:269-327 | "<n>T" and a date motion create n tasks from the selected date, each the scaled displacement after the last, use n uids and end idle |
| ModeInput.MotionOf | vical/input/normal.py:16-25 | a motion key moves by a day or a week, back or forward |
| ModeInput.KeyTablesDisjoint | vical/input/normal.py:9-38 | the key tables do not overlap and hold neither ESC, `:` nor a digit |
| ModeInput.NormalInput | vical/input/normal.py:41-76 | ESC clears operator and count; `:` enters command mode; a digit extends the count; an operator key becomes pending; a motion moves by its offset times the count and uses the count up; a command uses the count up; any other key does nothing |
| ModeInput.DigitKeys | vical/input/normal.py:56-57 | one digit key per digit |
| ModeInput.TypedCount | vical/input/normal.py:56-58 | typing a number appends its digits to the count and does nothing else |
| ModeInput.CountThenMotion | vical/input/normal.py:56-70 | a typed number then a motion moves the number times the motion's offset and leaves no count |
| ModeInput.FeedAppend | vical/input/normal.py:41-76 | feeding two key sequences is feeding one then the other |
| ModeInput.OperatorInput | vical/input/operator.py:9-53 | ESC clears operator and count; `dd` deletes, `cw` renames, `gg` goes to the count's date; `gh`/`gl` raise AttributeError; any other pair just leaves operator-pending mode |
| ModeInput.OperatorPairs | vical/input/operator.py:9-45 | `dd`, `cw` and `gg` typed from normal mode run their command with no operator left pending, and ESC cancels the operator with the count |

## Left out

- Terminal drawing, colours, themes and the rest of vical/gui/curses_ui.py: these are terminal output. Only `get_scroll_offset` is modelled.
- Saving and loading files (vical/storage/jsonstore.py:88-114, vical/subcalendar.py:97-121, subcalendar.py:9-34, and the load in the constructor of vical/core/editor.py): these are file I/O. The dictionaries they read and write are modelled, and the JSON text is not.
- Snapshot and hash undo (vical/core/state.py, vical/utils.py:35-86): deep copies and md5 over JSON, superseded by the op log. `CoreEditor` keeps `state_id` as an opaque string.
- The command layers built on curses prompts (vical/core/commands.py, vical/ui/*, ui/ui_actions.py): they block on terminal input. The commands that `normal_input` and `operator_pending_input` call are the parameter `run` of `ModeInput`.
- The global-registry dispatchers (input_handler.py, ui/ui_input.py, vical/ui/ui_input.py, vical/input/command.py, vical/input/defaults.py, vical/input/visual.py): they name functions that do not exist in the repository.
- vical/commands/register.py and vical/commands/ex_cmds.py: they use undefined names or only write files and exit. The key parser runs a known Ex command through an oracle.
- In vical/commands/normal.py, `nv_colon`, `nv_zet`, the `nv_event` stubs, `_execute_selection_operator` and the visual branch of `nv_operator`: the first three are unfinished. The visual branch tests `op_pending_key is None`, which never holds because "no operator" is the empty string, so nothing reaches `_execute_selection_operator`.
- Normal.ExecuteOperatorMotion: modelled as written only. Every non-zero operator count reaches the undefined name `total_count` (NameError), and the scaling the code meant to apply is not guessed.
- The item constructors of vical/commands/utils.py:87-103: they use names that are not imported. Their items are built by `CalendarCmds.Created`, under the line below.
- CalendarCmds.Created: does not model `create_task_instance` and `create_event_instance` as written. vical/commands/utils.py:88 calls `Task(..., date=date, ..., subcal=subcal)`, but Task takes `tdate` and `parent_subcal` (vical/core/subcalendar.py:51-60), and utils.py:91 passes `subcal=` to Event, which takes only `parent_subcal` (subcalendar.py:77-86); both raise TypeError even with the imports in place. The model instead builds an unattached item and drops the `subcal` argument. That is one repair, not an evident intent: passing it as `parent_subcal` would trip the `assert item.parent_subcal is None` of `tx_insert_item` (vical/core/transaction.py:226). `CalendarCmds.DoCreateSpanningEvent` and the other create commands inherit this.
- Ops.FindItem: the op keeps the item as a value, while Python shares one object between the op and the list. A later attribute write therefore also changes what a Python op holds. The model finds items again by uid, which agrees with Python whenever uids are unique.
- Dates.MakeDate: only the constructor checks the years 1..9999. Day arithmetic is unbounded, so the OverflowError of `date + timedelta` past the range is not modelled.
- Ymd.ParseYmd: accepts exactly eight ASCII digits split 4-2-2. `strptime` also accepts shorter month and day fields, such as "2026714", and a space before a one-digit day, as in "202607 4"; leading and trailing whitespace is refused ("unconverted data remains"). `Ymd.StrptimeYmd` is that reading on ASCII text and is the one `JsonStore.ReadDate` uses; `Ymd.StrptimeAgreesOnEightDigits` shows the two agree on eight-digit strings.
- Ymd.StrptimeYmd: reads ASCII digits only. CPython compiles the `strptime` pattern without `re.ASCII`, so its `\d` matches any Unicode decimal digit and `int()` reads the match: "٢٠٢٦0704" (Arabic-Indic year digits) is 2026-07-04 in Python and ValueError here. Full-width and other non-ASCII decimal digits are refused in the same way, and so are they by `Ymd.ParseYmd`.
- JsonStore.ReadDate: reads through `Ymd.StrptimeYmd`, so a stored date string with non-ASCII decimal digits is refused with ValueError, where `strptime` at vical/storage/jsonstore.py:47, 51 and 60-61 reads it. The writer never produces such strings.
- TaskLists.NewTask: reads the date string with `Ymd.ParseYmd`, so it refuses the short strings `strptime` accepts at vical/subcalendar.py:18. `TaskLists.TaskFields` and `TaskLists.TaskDateCanonical` are stated for the eight-digit strings that reading admits.
- Ymd.FormatYmd: writes four year digits for every year. CPython's `%Y` pads years below 1000 differently by platform: glibc writes them unpadded (see Findings, `Ymd.FormatYmdUnpadded`). So `Ymd.YmdRoundTrip`, `Ymd.ParsedIsCanonical`, `Ymd.StrptimeReadsWritten`, `JsonStore.ReadWrittenDate`, `JsonStore.TaskRoundTrip`, `JsonStore.EventRoundTrip`, `JsonStore.ItemRoundTrip`, `JsonStore.ReloadIsIdentity`, `JsonStore.SavedItemsLoad` and `JsonStore.SubcalRoundTrip` hold where `%Y` pads to four digits, and for every year from 1000 on (`Ymd.UnpaddedFromYear1000`). `CoreMovement.GotoText` and `EditorMovement.GotoNotice` write the `%Y` of the goto notice the same way.
- Ymd.YmdRoundTrip: holds where `%Y` pads to four digits; see the `Ymd.FormatYmd` line.
- Ymd.ParsedIsCanonical: holds where `%Y` pads to four digits; see the `Ymd.FormatYmd` line.
- JsonStore.ReadWrittenDate: holds where `%Y` pads to four digits; see the `Ymd.FormatYmd` line.
- JsonStore.TaskRoundTrip: holds where `%Y` pads to four digits or the dates fall in years 1000..9999; under glibc a task dated before year 1000 does not load back (see Findings).
- JsonStore.EventRoundTrip: holds where `%Y` pads to four digits or the bounds fall in years 1000..9999; see the `JsonStore.TaskRoundTrip` line.
- JsonStore.ItemRoundTrip: holds where `%Y` pads to four digits or the dates fall in years 1000..9999; see the `JsonStore.TaskRoundTrip` line.
- JsonStore.ReloadIsIdentity: holds where `%Y` pads to four digits or the dates fall in years 1000..9999; see the `JsonStore.TaskRoundTrip` line.
- JsonStore.SavedItemsLoad: holds where `%Y` pads to four digits or the dates fall in years 1000..9999; see the `JsonStore.TaskRoundTrip` line.
- JsonStore.SubcalRoundTrip: holds where `%Y` pads to four digits or the dates fall in years 1000..9999; see the `JsonStore.TaskRoundTrip` line.
- Text.LowerStr: maps ASCII capitals only, and `Text.IsUpper` knows only ASCII capitals. Python's `str.lower()` and `isupper()` cover all of Unicode, and `lower()` can change the length ("İ" becomes two characters). The consequences follow on the next three lines.
- Entities.SortKeyOrder: with `Entities.SortKey`, orders names by ASCII lower-casing only. Non-ASCII names can sort differently from Python: "Яблоко" sorts before "арбуз" here, after it in Python.
- Registers.Normalize: a non-ASCII capital such as "Ä" is not upper case here, so it names its own register instead of appending to "ä".
- Normal.NvOperator: a non-ASCII capital such as "É" is not treated as upper case here, so it becomes a pending operator key where Python runs the single-unit operator at once.
- KeyParser.Chr: a Dafny `char` cannot hold the surrogates 0xD800..0xDFFF, which Python's `chr` accepts. Such a key code raises ValueError here when a slot would take it.
- Transactions.TxMoveItem: compares subcalendars by uid where Python compares objects with `is not`, and finds the source and destination by uid. A source the editor does not hold raises AssertionError here, where Python removes the item from that unseen object. The same holds for `Transactions.TxRemoveItem`, `History.MoveItem` and `History.RemoveItem`. A destination or insertion target the editor does not hold is handled as Python does: it is changed unseen and nothing is raised.
- History.MoveItem: the same as `Transactions.TxMoveItem` on the op log: subcalendars are compared and found by uid, a source the log does not hold raises AssertionError, and a destination it does not hold receives the item unseen.
- vical/commands/calendar.py:7 imports `tx_insert_item` from `vical.commands.tx`, which is not in the repository, so importing calendar.py fails, and with it vical/commands/normal.py. The model uses `tx_insert_item` of vical/core/transaction.py.
- vical/commands/calendar.py:25, 38 and 50 call `tx_insert_item(self.editor, item, subcal)`, but the function takes `(editor, subcal, item)`. As written it reads `parent_subcal` from the Subcalendar, which has no such attribute (AttributeError). `CalendarCmds` uses the declared order.
- Entities.SetItemAttr: each attribute has a typed value, and a value of another type is refused with TypeError. Python stores any value. The same applies to the `tx_*` and history helpers built on it.
- JsonStore.ReadStr: a stored name or uid that is not a string is refused with TypeError, where Python would carry it into the item. The same holds for the readers of `TaskLists.TaskFromDict` and `TaskLists.SubcalFromDict`.
- JsonStore.GetStr: a stored `desc` or `color` that is not a string, such as `"desc": null` or `"color": 3`, is refused with TypeError, where `data.get` (vical/storage/jsonstore.py:54, 62 and 80) passes it into the item or subcalendar.
- JsonStore.GetFlag: a stored `completed` that is not a boolean, such as `"completed": 1`, is refused with TypeError, where `data.get` at vical/storage/jsonstore.py:53 passes it into the task.
- JsonStore.ItemFromDict: through `JsonStore.GetStr` and `JsonStore.GetFlag`, refuses a non-string `desc` or a non-boolean `completed` with TypeError, where Python loads the item with that value.
- JsonStore.SubcalFromDict: through `JsonStore.GetStr`, refuses a non-string `color` with TypeError, and fails the same way on an item whose `desc` or `completed` `JsonStore.ItemFromDict` refuses, where Python loads the value as stored.
- The `remind` field of the oldest Task (subcalendar.py:41) is never read or written by the modelled code, so it is not modelled.
- `Subcalendar.rename` and `change_color` (vical/subcalendar.py:68-72, subcalendar.py:89-93): single assignments, not modelled.
- The editor classes of vical/commands and vical/editor are not part of the repository. `Session.State` and `EditorMovement.Nav` hold the attributes the commands use. The members the commands call get the plainest definitions consistent with that use.
- The prompt's `on_submit` callback and the cursor visibility calls of vical/input/prompt.py: `Prompt.PromptInput` returns the submitted text instead of calling back.
- Importing vical/history/transaction.py fails with NameError, because `Op` is not imported. `History` models the module as it behaves with `Op` in scope.
- `movement.visual_left` and `visual_right`, called by `operator_pending_input` after `g`: vical/core/movement.py does not define them. `ModeInput.OperatorInput` raises AttributeError there, as Python does.

## Findings

| source | as written | input that shows it | evidently intended | confidence | as-written member | corrected member |
|---|---|---|---|---|---|---|
| vical/input/keyparser.py:73 | `cmd, flags = self.nvmap.get(self.cmdargs.key)` unpacks the `None` returned for an unbound key, raising TypeError | any key the map does not bind, such as `Q` (`KeyParser.UnmappedKey`) | an unbound key is ignored, as the `if cmd:` test on the next line expects | high; not executed | KeyParser.LookupAsWritten | KeyParser.Lookup |
| vical/core/movement.py:76,79,88-89 | `visual_down` and `visual_up` read `self.mainwin_hfactor` and `self.task_scroll_offset` in module functions with no `self` | `visual_down` on a day with one task (`CoreMovement.VisualMovesRaise`) | move the task cursor one row and keep it in the scroll window | high; not executed | CoreMovement.VisualDownAsWritten | CoreMovement.CursorDown |
| vical/commands/normal.py:187-188 | a plain motion clears `motion` but keeps `motion_count` | "3l" then "l" moves three days twice (`Normal.StickyCountAsWritten`) | the count is used up by the motion it was typed for | medium; not executed | Normal.PlainMotionEndAsWritten | Normal.PlainMotionEnd |
| vical/commands/normal.py:307-316 | the task dates are spaced by `days` of the motion before scaling | "3T5l" makes three tasks two days apart (`Normal.TaskDatesDiffer`) | three tasks five days apart, as the docstring at line 305 says | high; not executed | Normal.TaskDatesAsWritten | Normal.TaskDates |
| vical/commands/normal.py:296-300,321-325 | with the missing `vical.commands.tx` import, the swapped arguments of calendar.py:25 and the TypeError-raising keywords of `create_task_instance` (utils.py:88) repaired, the task built unattached, task creation still calls `tx_insert_item` with no transaction open, so `record` raises RuntimeError | "T" with a subcalendar selected (`Normal.TaskCreationAsWrittenRaises`) | one undoable transaction that creates the tasks | high; not executed | Normal.CreateTasksAsWritten | CalendarCmds.DoCreateInBlock |
| vical/commands/operators.py:64-67 | `op_change` calls `tx_set_item_attr` with no transaction open, so `record` raises RuntimeError | "cw" renaming a task to a new name (`Operators.ChangeAsWrittenRaises`) | the renames form one transaction, as `op_delete` does | high; not executed | Operators.OpChangeAsWritten | Operators.OpChange |
| vical/commands/operators.py:73 | the filter calls `ifinstance`, which is undefined, so any target raises NameError | completing one selected task (`Operators.CompleteAsWrittenRaises`) | keep the targets that are tasks (`isinstance`) and toggle them in one transaction | high; not executed | Operators.OpCompleteAsWritten | Operators.OpComplete |
| vical/storage/jsonstore.py:29-37 | dates are written with `strftime("%Y%m%d")`; under glibc `%Y` writes a year below 1000 without padding, while `strptime` always reads four digits of year | date 0999-01-01 is saved as "9990101" and loads back as 9990-10-01 (`Ymd.UnpaddedYearMisreads`); no date before year 1000 loads back as itself (`Ymd.UnpaddedNeverRoundTrips`) | every saved date loads back as itself, which needs a four-digit year such as `f"{d.year:04d}{d.month:02d}{d.day:02d}"` (`Ymd.StrptimeReadsWritten`) | medium; not executed, depends on the C library's `%Y` | Ymd.FormatYmdUnpadded | Ymd.FormatYmd |

=== FILE: calendar_cmds.dfy ===
/** The item-creating commands of vical/commands/calendar.py.

  Each created item is inserted through `tx_insert_item` of
  vical/core/transaction.py, which records an op and therefore needs an open
  transaction. As written, calendar.py imports `tx_insert_item` from a module
  that is not part of the repository and passes its arguments in the wrong
  order. The item constructors it calls (vical/commands/utils.py:87-91) use
  names that are not imported and pass keywords the constructors do not take
  (`date=` and `subcal=` to Task, `subcal=` to Event), so they raise
  TypeError. Passing `subcal` on as `parent_subcal` would instead trip the
  `item.parent_subcal is None` assertion of `tx_insert_item`. The model
  drops the `subcal` argument: it builds a fresh, unattached item and calls
  `tx_insert_item(editor, subcal, item)`.
 */
module CalendarCmds {
  import opened Wrappers
  import opened Dates
  import opened Entities
  import opened Ops
  import opened Transactions
  import opened Session
  import opened Text

  /** What a create command makes for each date: a task dated that day, or a
      single-day event. */
  datatype Kind = TaskKind | DayEventKind

  /** `create_task_instance(name, d)` or `create_event_instance(name, d, d)`
      with the uid the oracle supplies. */
  function Created(kind: Kind, name: string, d: Date, uid: string): (it: Item)
    requires uid != []
    ensures it.uid == uid && it.name == name && it.parent.None?
    ensures kind == TaskKind ==> it.Task? && it.date == Some(d) && it.deadline.None? && !it.completed
    ensures kind == DayEventKind ==> it.Event? && it.startDate == Some(d) && it.endDate == Some(d)
    ensures OccursOn(it, d)
  {
    match kind
    case TaskKind => NewTask(None, uid, name, Some(d), None, false, "", 0)
    case DayEventKind => Event(uid, name, Some(d), Some(d), "", 0, None)
  }

  /** The ops a run of creations records: one insertion per date, the uids
      drawn in order from `counter`. */
  function CreationOps(kind: Kind, scUid: string, name: string, dates: seq<Date>, counter: nat): (ops: seq<Op>)
    ensures |ops| == |dates|
    decreases |dates|
  {
    if dates == [] then []
    else [InsertItemOp(scUid, Created(kind, name, dates[0], Uid(counter)))]
         + CreationOps(kind, scUid, name, dates[1..], counter + 1)
  }

  /** The `i`-th op inserts the item made for the `i`-th date with the `i`-th uid. */
  lemma {:induction false} CreationOpsAt(kind: Kind, scUid: string, name: string, dates: seq<Date>, counter: nat, i: nat)
    requires i < |dates|
    ensures CreationOps(kind, scUid, name, dates, counter)[i]
            == InsertItemOp(scUid, Created(kind, name, dates[i], Uid(counter + i)))
    decreases |dates|
  {
    if i > 0 {
      CreationOpsAt(kind, scUid, name, dates[1..], counter + 1, i - 1);
      assert dates[1..][i - 1] == dates[i];
    }
  }

  /** The loop of `do_create_tasks` / `do_create_single_day_events` on the
      editor: one creation and insertion per date, the `k`-th with the uid
      `Uid(counter + k)`, stopping at the first exception. */
  function CreateAll(e: Editor, kind: Kind, dates: seq<Date>, name: string, scUid: string, counter: nat): (r: Outcome<Editor>)
    decreases |dates|
  {
    if dates == [] then Done(e)
    else
      match TxInsertItem(e, scUid, Created(kind, name, dates[0], Uid(counter)))
      case Raised(err, p) => Raised(err, p)
      case Done(c) => CreateAll(c, kind, dates[1..], name, scUid, counter + 1)
  }

  /** The same loop on the whole editor state: the uid oracle answers once per
      date. After an exception the drawn uids are of no further use, and the
      oracle is left where it was. */
  function DoCreate(s: State, kind: Kind, dates: seq<Date>, name: string, scUid: string): (r: Outcome<State>)
    ensures r.Done? ==> r.value == s.(core := r.value.core, uidCounter := s.uidCounter + |dates|)
    ensures r.Raised? ==> r.partial == s.(core := r.partial.core)
  {
    match CreateAll(s.core, kind, dates, name, scUid, s.uidCounter)
    case Done(c) => Done(s.(core := c, uidCounter := s.uidCounter + |dates|))
    case Raised(err, p) => Raised(err, s.(core := p))
  }

  /** `do_create_tasks(dates, name, subcal)`. */
  function DoCreateTasks(s: State, dates: seq<Date>, name: string, scUid: string): Outcome<State> {
    DoCreate(s, TaskKind, dates, name, scUid)
  }

  /** `do_create_single_day_events(dates, name, subcal)`. */
  function DoCreateSingleDayEvents(s: State, dates: seq<Date>, name: string, scUid: string): Outcome<State> {
    DoCreate(s, DayEventKind, dates, name, scUid)
  }

  /** An empty date list creates nothing; outside a transaction the first
      insertion's `record` raises RuntimeError before anything changes. */
  lemma {:induction false} CreateEdgeCases(s: State, kind: Kind, dates: seq<Date>, name: string, scUid: string)
    ensures dates == [] ==> DoCreate(s, kind, dates, name, scUid) == Done(s)
    ensures dates != [] && s.core.history.current.None? ==>
      DoCreate(s, kind, dates, name, scUid) == Raised(RuntimeError, s)
  {
  }

  /** One insertion inside a transaction into a present subcalendar succeeds,
      records its op, and leaves the subcalendar findable. */
  lemma {:induction false} InsertStep(e: Editor, scUid: string, it: Item)
    requires e.history.current.Some? && FindSubcal(e.cals, scUid).Some? && it.parent.None?
    ensures var t := TxInsertItem(e, scUid, it);
      t.Done? && Recorded(e, t.value, InsertItemOp(scUid, it))
      && Apply(InsertItemOp(scUid, it), e.cals) == Ok(t.value.cals)
      && FindSubcal(t.value.cals, scUid).Some?
  {
    var i := FindSubcal(e.cals, scUid).value;
    var c := Attach(e.cals, scUid, it).value;
    FindSubcalAfterUpdate(e.cals, i, c[i].items, scUid);
  }

  /** Inside a transaction and with the target subcalendar present, every date
      yields one recorded insertion, in order, and replaying the ops recorded
      so far (`done`, then these) reproduces the resulting subcalendars. */
  lemma {:induction false} CreateAllRecords(e: Editor, kind: Kind, dates: seq<Date>, name: string, scUid: string,
                                            counter: nat, done: seq<Op>, c0: seq<Subcal>)
    requires e.history.current.Some? && FindSubcal(e.cals, scUid).Some?
    requires ApplyAll(done, c0) == Done(e.cals)
    ensures var r := CreateAll(e, kind, dates, name, scUid, counter);
      var ops := CreationOps(kind, scUid, name, dates, counter);
      r.Done? && Appended(e, r.value, ops) && ApplyAll(done + ops, c0) == Done(r.value.cals)
    decreases |dates|
  {
    var ops := CreationOps(kind, scUid, name, dates, counter);
    if dates == [] {
      assert done + ops == done;
      assert e.history.current.value.ops + ops == e.history.current.value.ops;
    } else {
      var it := Created(kind, name, dates[0], Uid(counter));
      var op := InsertItemOp(scUid, it);
      InsertStep(e, scUid, it);
      var c := TxInsertItem(e, scUid, it).value;
      ApplyAllSnoc(done, op, c0, e.cals, c.cals);
      CreateAllRecords(c, kind, dates[1..], name, scUid, counter + 1, done + [op], c0);
      var rest := CreationOps(kind, scUid, name, dates[1..], counter + 1);
      Assoc(done, [op], rest);
      AppendedAfterRecorded(e, c, CreateAll(c, kind, dates[1..], name, scUid, counter + 1).value, op, rest);
    }
  }

  /** `do_create_tasks` and `do_create_single_day_events` inside a transaction:
      the whole run succeeds, the oracle advances once per date, the
      transaction gains exactly `CreationOps`, and replaying the transaction
      from the state it began in yields the new subcalendars. */
  lemma {:induction false} CreateRecords(s: State, kind: Kind, dates: seq<Date>, name: string, scUid: string, c0: seq<Subcal>)
    requires s.core.history.current.Some? && FindSubcal(s.core.cals, scUid).Some?
    requires ApplyAll(s.core.history.current.value.ops, c0) == Done(s.core.cals)
    ensures var r := DoCreate(s, kind, dates, name, scUid);
      var ops := CreationOps(kind, scUid, name, dates, s.uidCounter);
      r.Done? && r.value.uidCounter == s.uidCounter + |dates|
      && Appended(s.core, r.value.core, ops)
      && r.value.core.history.current.Some?
      && ApplyAll(r.value.core.history.current.value.ops, c0) == Done(r.value.core.cals)
  {
    CreateAllRecords(s.core, kind, dates, name, scUid, s.uidCounter, s.core.history.current.value.ops, c0);
  }

  /** The per-date loop with the subcalendar as the caller holds it: with no
      subcalendar selected, `subcal.uid` raises AttributeError at the first
      date, before anything is recorded. */
  function CreateIn(e: Editor, kind: Kind, dates: seq<Date>, name: string, sub: Option<string>, counter: nat): (r: Outcome<Editor>)
    ensures sub.None? && dates != [] ==> r == Raised(AttributeError, e)
    ensures dates == [] ==> r == Done(e)
  {
    match sub
    case None => if dates == [] then Done(e) else Raised(AttributeError, e)
    case Some(uid) => CreateAll(e, kind, dates, name, uid, counter)
  }

  /** The label of a creation transaction, after the pattern of `op_delete`. */
  function CreateLabel(n: nat): string {
    "Create " + NatToString(n) + " items"
  }

  /** A create command with its insertions wrapped in one transaction block,
      the way `op_delete` wraps its removals. */
  function DoCreateInBlock(s: State, kind: Kind, dates: seq<Date>, name: string, sub: Option<string>): (r: Outcome<State>)
    ensures s.core.history.current.Some? ==> r == Raised(RuntimeError, s)
    ensures r.Done? ==> r.value == s.(core := r.value.core, uidCounter := s.uidCounter + |dates|)
                        && r.value.core.history.current.None?
    ensures r.Raised? ==> r.partial == s.(core := r.partial.core) && r.partial.core.history.current.None? == s.core.history.current.None?
  {
    match TransactionBlock(s.core, CreateLabel(|dates|), e => CreateIn(e, kind, dates, name, sub, s.uidCounter), s.settings.maxHistory)
    case Done(c) => Done(s.(core := c, uidCounter := s.uidCounter + |dates|))
    case Raised(err, p) => Raised(err, s.(core := p))
  }

  /** With no transaction open, a subcalendar selected and present, and a
      non-empty date list, the block completes: one transaction holding one
      insertion per date is pushed, the redo stack is emptied, and replaying
      it from the subcalendars before the command yields the ones after. */
  lemma {:induction false} CreateInBlockCommits(s: State, kind: Kind, dates: seq<Date>, name: string, scUid: string)
    requires s.core.history.current.None? && FindSubcal(s.core.cals, scUid).Some?
    requires dates != [] && s.settings.maxHistory > 0
    ensures var r := DoCreateInBlock(s, kind, dates, name, Some(scUid));
      var ops := CreationOps(kind, scUid, name, dates, s.uidCounter);
      r.Done? && r.value.uidCounter == s.uidCounter + |dates|
      && r.value.core.history.redo == [] && r.value.core.history.undo != []
      && r.value.core.history.undo[|r.value.core.history.undo| - 1] == Tx(s.core.nextId, ops, CreateLabel(|dates|))
      && ApplyAll(ops, s.core.cals) == Done(r.value.core.cals)
  {
    var started := Begin(s.core, CreateLabel(|dates|)).value;
    assert started.cals == s.core.cals;
    CreateAllRecords(started, kind, dates, name, scUid, s.uidCounter, [], s.core.cals);
    var ops := CreationOps(kind, scUid, name, dates, s.uidCounter);
    assert [] + ops == ops;
    CommitTop(CreateAll(started, kind, dates, name, scUid, s.uidCounter).value, s.settings.maxHistory);
  }

  /** With no subcalendar selected, creating on any date raises AttributeError
      and the block leaves both stacks as they were. */
  lemma {:induction false} CreateInBlockNoSubcal(s: State, kind: Kind, dates: seq<Date>, name: string)
    requires s.core.history.current.None? && dates != []
    ensures var r := DoCreateInBlock(s, kind, dates, name, None);
      r.Raised? && r.error == AttributeError && r.partial.core.history == s.core.history
      && r.partial.core.cals == s.core.cals && r.partial.uidCounter == s.uidCounter
  {
  }

  /** `do_create_spanning_event(start, end, name, subcal)`: the Event
      constructor rejects an end before the start with ValueError before
      anything is recorded. */
  function DoCreateSpanningEvent(s: State, start: Date, end: Date, name: string, scUid: string): (r: Outcome<State>)
    ensures end < start ==> r.Raised? && r.error == ValueError && r.partial.core == s.core
    ensures start <= end && s.core.history.current.Some? && FindSubcal(s.core.cals, scUid).Some? ==>
      r.Done? && (exists it: Item :: it.Event? && it.startDate == Some(start) && it.endDate == Some(end)
                    && it.name == name && Recorded(s.core, r.value.core, InsertItemOp(scUid, it))
                    && Apply(InsertItemOp(scUid, it), s.core.cals) == Ok(r.value.core.cals))
  {
    var (uid, s1) := FreshUid(s);
    match NewEvent(None, uid, name, Some(start), Some(end), "", 0)
    case Err(err) => Raised(err, s1)
    case Ok(ev) =>
      match TxInsertItem(s1.core, scUid, ev)
      case Raised(err, p) => Raised(err, s1.(core := p))
      case Done(c) => Done(s1.(core := c))
  }

  /** `do_toggle_subcal_hidden(subcal)`: the argument is ignored and the
      selected subcalendar is toggled directly, without recording an op.
      Without a selected subcalendar `None.toggle_hidden()` raises
      AttributeError; a selected subcalendar no longer in the list is toggled
      where no one sees it. */
  function DoToggleSubcalHidden(s: State, ignored: Option<string>): (r: Outcome<State>)
    ensures s.selectedSubcal.None? ==> r == Raised(AttributeError, s)
    ensures s.selectedSubcal.Some? ==> r.Done? && r.value.core.history == s.core.history
    ensures s.selectedSubcal.Some? && FindSubcal(s.core.cals, s.selectedSubcal.value).Some? ==>
      var i := FindSubcal(s.core.cals, s.selectedSubcal.value).value;
      r.value.core.cals == s.core.cals[i := ToggleHidden(s.core.cals[i])]
  {
    match s.selectedSubcal
    case None => Raised(AttributeError, s)
    case Some(uid) =>
      match FindSubcal(s.core.cals, uid)
      case None => Done(s)
      case Some(i) => Done(s.(core := s.core.(cals := s.core.cals[i := ToggleHidden(s.core.cals[i])])))
  }

  /** Toggling twice restores the editor. */
  lemma {:induction false} ToggleSubcalTwice(s: State, a: Option<string>, b: Option<string>)
    requires s.selectedSubcal.Some?
    ensures DoToggleSubcalHidden(DoToggleSubcalHidden(s, a).value, b) == Done(s)
  {
    var uid := s.selectedSubcal.value;
    match FindSubcal(s.core.cals, uid)
    case None =>
    case Some(i) =>
      var t := s.core.cals[i := ToggleHidden(s.core.cals[i])];
      FindSubcalSameUids(s.core.cals, t, uid);
      assert t[i := ToggleHidden(t[i])] == s.core.cals;
  }
}

=== FILE: cmdargs.dfy ===
/** The per-command argument record of vical/commands/cmdargs.py: the keys
  typed so far, pending operator and motion, the count buffer and the
  multipliers derived from it, and the sticky settings (register, mode,
  last goto origin) that outlive a command.
 */
module CmdArgs {
  import opened Wrappers
  import opened Dates
  import opened Text
  import opened Motions

  datatype Mode = Normal | Visual | Insert | ExCmd | PromptMode

  datatype Args = Args(
    key: string,
    nextKey: string,
    opPendingKey: string,
    /** Whether `motion_pending_cmd` is set; the only command ever stored there is
        the repeated-task step of `nv_task`. */
    motionPending: bool,
    motion: Option<Motion>,
    countBuffer: Digits,
    motionCount: int,
    opCount: int,
    specialCount: int,
    regname: string,
    mode: Mode,
    exParams: Option<seq<string>>,
    inputText: string,
    lastOp: string,
    lastDateBeforeGoto: Date,
    /** The two attributes `clear` assigns but nothing else reads. */
    exCmdStr: string,
    exCmdParameters: Option<seq<string>>)

  /** The class defaults; `last_date_before_goto` is the day the class was
      defined, given here as `today`. */
  function Defaults(today: Date): (a: Args)
    ensures a.key == "" && a.nextKey == "" && a.opPendingKey == "" && !a.motionPending && a.motion.None?
    ensures a.countBuffer == "" && a.motionCount == 1 && a.opCount == 1 && a.specialCount == 1
    ensures a.regname == "\"" && a.mode == Normal && a.exParams.None? && a.inputText == ""
    ensures a.lastOp == "" && a.lastDateBeforeGoto == today
  {
    Args("", "", "", false, None, "", 1, 1, 1, "\"", Normal, None, "", "", today, "", None)
  }

  /** `clear()`: every per-command field back to its default; the register
      name, mode, last operator, goto origin and Ex parameters stay. */
  function Clear(a: Args): (r: Args)
    ensures r.key == "" && r.nextKey == "" && r.opPendingKey == "" && !r.motionPending && r.motion.None?
    ensures r.countBuffer == "" && r.motionCount == 1 && r.opCount == 1 && r.specialCount == 1
    ensures r.inputText == "" && r.exCmdStr == "" && r.exCmdParameters.None?
    ensures r.regname == a.regname && r.mode == a.mode && r.lastOp == a.lastOp
    ensures r.lastDateBeforeGoto == a.lastDateBeforeGoto && r.exParams == a.exParams
  {
    a.(key := "", nextKey := "", opPendingKey := "", motionPending := false, motion := None,
       countBuffer := "", motionCount := 1, opCount := 1, specialCount := 1, inputText := "",
       exCmdStr := "", exCmdParameters := None)
  }

  /** `clear_keys()`: only the two key slots. */
  function ClearKeys(a: Args): (r: Args)
    ensures r.key == "" && r.nextKey == ""
    ensures r.(key := a.key, nextKey := a.nextKey) == a
  {
    a.(key := "", nextKey := "")
  }

  /** Clearing is idempotent, absorbs `clear_keys`, and a cleared record differs
      from the defaults only in the fields `clear` keeps. */
  lemma {:induction false} ClearLaws(a: Args, today: Date)
    ensures Clear(Clear(a)) == Clear(a)
    ensures Clear(ClearKeys(a)) == Clear(a) && ClearKeys(Clear(a)) == Clear(a)
    ensures Clear(Defaults(today)) == Defaults(today)
    ensures Clear(a) == Defaults(today).(regname := a.regname, mode := a.mode, lastOp := a.lastOp,
                                         lastDateBeforeGoto := a.lastDateBeforeGoto, exParams := a.exParams)
  {
  }
}

=== FILE: coreeditor.dfy ===
/** The editor state of the vical/core generation (vical/core/editor.py): the
  selected date and task, the task list's scroll window, the modes and the
  saved/modified flag.

  Its subcalendars are the task lists of vical/subcalendar.py: the module
  imports `load_subcalendars` from vical/core/subcalendar.py, which defines no
  such function, and every use here (`cal.tasks`, `t.year`) has the shape of
  the older task list. The registers, the snapshot undo stacks and the state
  hashing are not part of this model; `state_id` is an opaque string.
 */
module CoreEditor {
  import opened Wrappers
  import opened Dates
  import opened Text
  import opened TaskLists

  datatype Mode = Normal | Insert | Visual | OperatorPending | Command | PromptMode

  /** The prompt dictionary `{"text", "value", "on_submit"}`; the callback is
      not stored, the prompt handler reports the text it is called with. */
  datatype PromptBox = PromptBox(text: string, value: string)

  /** `editor.msg`: a text and a level (1 for errors). */
  datatype Notice = Notice(text: string, level: int)

  datatype Editor = Editor(
    cals: seq<Subcal>,
    mode: Mode,
    prompt: Option<PromptBox>,
    operator: string,
    /** Only the digits '0'..'9' are ever appended to the count. */
    count: Digits,
    lastMotion: string,
    msg: Notice,
    selectedDate: Date,
    lastSelectedDate: Date,
    subcalIndex: int,
    taskIndex: int,
    scroll: int,
    maxVisible: int,
    stateId: string,
    savedStateId: string,
    redraw: bool)

  /** A `(cal, task)` pair of the day lists. */
  datatype Entry = Entry(cal: Subcal, task: Task)

  /** `modified`. */
  predicate Modified(ed: Editor) {
    ed.stateId != ed.savedStateId
  }

  /** `mark_saved`. */
  function MarkSaved(ed: Editor): (r: Editor)
    ensures !Modified(r)
    ensures r.(savedStateId := ed.savedStateId) == ed
  {
    ed.(savedStateId := ed.stateId)
  }

  /** Saving twice is saving once, and a saved editor stays unmodified until
      its state id changes. */
  lemma {:induction false} MarkSavedIdempotent(ed: Editor)
    ensures MarkSaved(MarkSaved(ed)) == MarkSaved(ed)
    ensures Modified(ed) <==> MarkSaved(ed) != ed
  {
  }

  /** `(t.year, t.month, t.day) == (year, month, day)`. */
  predicate OnDay(t: Task, c: Civil) {
    ToCivil(t.date) == c
  }

  /** The day number of a triple, if the triple is a calendar day. */
  function DayNumber(c: Civil): (r: Option<Date>)
    ensures r.Some? <==> ValidCivil(c)
  {
    if ValidCivil(c) then Some(ToOrdinal(c)) else None
  }

  /** A task is on `(year, month, day)` exactly when that triple is a calendar
      day whose number is the task's date. */
  lemma {:induction false} OnDayByNumber(t: Task, c: Civil)
    ensures OnDay(t, c) <==> DayNumber(c) == Some(t.date)
  {
    if ValidCivil(c) {
      CivilRoundTrip(c);
    }
  }

  /** The tasks of one subcalendar dated `d`, in list order. */
  function DayTasks(cal: Subcal, tasks: seq<Task>, d: Date): (r: seq<Entry>)
    ensures forall e :: e in r ==> e.cal == cal && e.task in tasks && e.task.date == d
    ensures forall t :: t in tasks && t.date == d ==> Entry(cal, t) in r
    decreases |tasks|
  {
    if tasks == [] then []
    else
      var init := DayTasks(cal, tasks[..|tasks| - 1], d);
      var t := tasks[|tasks| - 1];
      assert forall u :: u in tasks ==> u in tasks[..|tasks| - 1] || u == t;
      if t.date == d then init + [Entry(cal, t)] else init
  }

  /** The visible subcalendars in order, each contributing its tasks dated
      `d` in list order. */
  function TasksOn(cals: seq<Subcal>, d: Date): (r: seq<Entry>)
    ensures forall e :: e in r ==> e.cal in cals && !e.cal.hidden && e.task in e.cal.tasks && e.task.date == d
    decreases |cals|
  {
    if cals == [] then []
    else
      var cal := cals[|cals| - 1];
      var init := TasksOn(cals[..|cals| - 1], d);
      if cal.hidden then init else init + DayTasks(cal, cal.tasks, d)
  }

  /** `get_tasks_for_day(year, month, day)`; a triple that is no calendar day
      matches no task. */
  function TasksForDay(cals: seq<Subcal>, c: Civil): (r: seq<Entry>)
    ensures forall e :: e in r ==> e.cal in cals && !e.cal.hidden && e.task in e.cal.tasks && OnDay(e.task, c)
  {
    match DayNumber(c)
    case None => []
    case Some(d) =>
      var r := TasksOn(cals, d);
      assert forall e :: e in r ==> OnDay(e.task, c) by {
        forall e | e in r
          ensures OnDay(e.task, c)
        {
          OnDayByNumber(e.task, c);
        }
      }
      r
  }

  /** Every task of a visible subcalendar on that day is listed. */
  lemma {:induction false} TasksOnComplete(cals: seq<Subcal>, d: Date, i: nat, t: Task)
    requires i < |cals| && !cals[i].hidden && t in cals[i].tasks && t.date == d
    ensures Entry(cals[i], t) in TasksOn(cals, d)
    decreases |cals|
  {
    if i < |cals| - 1 {
      TasksOnComplete(cals[..|cals| - 1], d, i, t);
    }
  }

  lemma {:induction false} TasksForDayComplete(cals: seq<Subcal>, c: Civil, i: nat, t: Task)
    requires i < |cals| && !cals[i].hidden && t in cals[i].tasks && OnDay(t, c)
    ensures Entry(cals[i], t) in TasksForDay(cals, c)
  {
    OnDayByNumber(t, c);
    TasksOnComplete(cals, t.date, i, t);
  }

  /** Subcalendar order comes first: the list for `a + b` is the list for
      `a` followed by the list for `b`. */
  lemma {:induction false} TasksOnConcat(a: seq<Subcal>, b: seq<Subcal>, d: Date)
    ensures TasksOn(a + b, d) == TasksOn(a, d) + TasksOn(b, d)
    decreases |b|
  {
    if b == [] {
      assert a + b == a;
    } else {
      var n := |b| - 1;
      assert (a + b)[..|a + b| - 1] == a + b[..n];
      TasksOnConcat(a, b[..n], d);
    }
  }

  lemma {:induction false} TasksForDayConcat(a: seq<Subcal>, b: seq<Subcal>, c: Civil)
    ensures TasksForDay(a + b, c) == TasksForDay(a, c) + TasksForDay(b, c)
  {
    if ValidCivil(c) {
      TasksOnConcat(a, b, ToOrdinal(c));
    }
  }

  /** `get_tasks_for_selected_day`. */
  function SelectedDayTasks(ed: Editor): (r: seq<Entry>)
    ensures forall e :: e in r ==>
      (e.cal in ed.cals && !e.cal.hidden && e.task in e.cal.tasks && e.task.date == ed.selectedDate)
  {
    TasksForDay(ed.cals, ToCivil(ed.selectedDate))
  }

  /** The selected day's list is the list of tasks dated the selected date. */
  lemma {:induction false} SelectedDayIsDate(ed: Editor)
    ensures SelectedDayTasks(ed) == TasksOn(ed.cals, ed.selectedDate)
  {
    var c := ToCivil(ed.selectedDate);
    assert DayNumber(c) == Some(ed.selectedDate);
  }

  /** `selected_task`: None with no tasks that day, otherwise the task at the
      index taken modulo the number of tasks (Python's `%` is non-negative for
      a positive divisor, as Dafny's is). */
  function SelectedTask(ed: Editor): (r: Option<Task>)
    ensures r.None? <==> SelectedDayTasks(ed) == []
    ensures r.Some? ==>
      (r.value.date == ed.selectedDate && exists cal :: cal in ed.cals && !cal.hidden && r.value in cal.tasks)
  {
    var tasks := SelectedDayTasks(ed);
    if tasks == [] then None
    else
      var e := tasks[ed.taskIndex % |tasks|];
      assert e in tasks;
      Some(e.task)
  }

  /** `max_task_index`. */
  function MaxTaskIndex(ed: Editor): (r: int)
    ensures r >= 0
    ensures SelectedDayTasks(ed) != [] ==> r < |SelectedDayTasks(ed)| && r + 1 == |SelectedDayTasks(ed)|
    ensures SelectedDayTasks(ed) == [] ==> r == 0
  {
    var n := |SelectedDayTasks(ed)|;
    if n - 1 > 0 then n - 1 else 0
  }

  /** `clamp_task_index`. */
  function ClampTaskIndex(ed: Editor): (r: Editor)
    ensures SelectedDayTasks(ed) != [] ==>
      r.taskIndex <= MaxTaskIndex(ed) && r.scroll == ed.scroll
      && (ed.taskIndex <= MaxTaskIndex(ed) ==> r.taskIndex == ed.taskIndex)
      && (ed.taskIndex > MaxTaskIndex(ed) ==> r.taskIndex == MaxTaskIndex(ed))
    ensures SelectedDayTasks(ed) == [] ==> r.taskIndex == 0 && r.scroll == 0
    ensures r.(taskIndex := ed.taskIndex, scroll := ed.scroll) == ed
  {
    var tasks := SelectedDayTasks(ed);
    if tasks != [] then
      var maxIdx := |tasks| - 1;
      ed.(taskIndex := if ed.taskIndex < maxIdx then ed.taskIndex else maxIdx)
    else ed.(taskIndex := 0, scroll := 0)
  }

  lemma {:induction false} ClampIdempotent(ed: Editor)
    ensures ClampTaskIndex(ClampTaskIndex(ed)) == ClampTaskIndex(ed)
  {
    assert SelectedDayTasks(ClampTaskIndex(ed)) == SelectedDayTasks(ed);
  }

  /** `month_has_changed(new_date)`. */
  predicate MonthHasChanged(ed: Editor, d: Date) {
    MonthOf(d) != MonthOf(ed.selectedDate) || YearOf(d) != YearOf(ed.selectedDate)
  }

  /** The month is unchanged exactly when both dates fall in the same month of
      the same year; in particular staying on a day changes nothing. */
  lemma {:induction false} SameMonth(ed: Editor, d: Date)
    ensures !MonthHasChanged(ed, d) <==>
      ToCivil(d).year == ToCivil(ed.selectedDate).year && ToCivil(d).month == ToCivil(ed.selectedDate).month
    ensures d == ed.selectedDate ==> !MonthHasChanged(ed, d)
  {
    assert MonthOf(d) == ToCivil(d).month && YearOf(d) == ToCivil(d).year;
    assert MonthOf(ed.selectedDate) == ToCivil(ed.selectedDate).month;
    assert YearOf(ed.selectedDate) == ToCivil(ed.selectedDate).year;
  }

  /** `set_date(new_date, reset_tasks=...)`. */
  function SetDate(ed: Editor, d: Date, resetTasks: bool): (r: Editor)
    ensures r.redraw == (ed.redraw || MonthHasChanged(ed, d))
    ensures r.lastSelectedDate == ed.selectedDate && r.selectedDate == d
    ensures resetTasks ==> r.taskIndex == 0 && r.scroll == 0
    ensures !resetTasks ==> r == ClampTaskIndex(ed.(redraw := r.redraw, lastSelectedDate := ed.selectedDate, selectedDate := d))
    ensures r.(redraw := ed.redraw, lastSelectedDate := ed.lastSelectedDate, selectedDate := ed.selectedDate,
               taskIndex := ed.taskIndex, scroll := ed.scroll) == ed
  {
    var flagged := if MonthHasChanged(ed, d) then ed.(redraw := true) else ed;
    var moved := flagged.(lastSelectedDate := ed.selectedDate, selectedDate := d);
    if resetTasks then moved.(taskIndex := 0, scroll := 0) else ClampTaskIndex(moved)
  }

  /** `int(s)` on the texts `IntToString` produces, with an optional sign. */
  function ReadSigned(s: string): int {
    if |s| > 0 && s[0] == '+' && AllDigits(s[1..]) then Value(s[1..])
    else if |s| > 0 && s[0] == '-' && AllDigits(s[1..]) then 0 - Value(s[1..])
    else if AllDigits(s) then Value(s)
    else 0
  }

  /** `f"{'+' if motion > 0 else ''}{motion}"`: the motion with an explicit
      sign unless it is zero. */
  function MotionText(motion: int): (r: string)
    ensures |r| > 0
    ensures motion > 0 ==> r[0] == '+'
    ensures motion < 0 ==> r[0] == '-'
    ensures motion == 0 ==> r == "0"
  {
    (if motion > 0 then "+" else "") + IntToString(motion)
  }

  /** The recorded motion reads back as the motion. */
  lemma {:induction false} MotionTextRoundTrip(motion: int)
    ensures ReadSigned(MotionText(motion)) == motion
  {
    var n := if motion < 0 then -motion else motion;
    NatToStringValue(n);
    var digits := NatToString(n);
    if motion > 0 {
      assert MotionText(motion)[1..] == digits;
    } else if motion < 0 {
      assert MotionText(motion)[1..] == digits;
    } else {
      assert MotionText(motion) == "0";
    }
  }

  /** The empty count buffer. */
  const NoCount: Digits := ""

  /** `change_date(new_date, motion)`: a date change that resets the task
      selection, records the motion and clears the count. */
  function ChangeDate(ed: Editor, d: Date, motion: int): (r: Editor)
    ensures r.selectedDate == d && r.lastSelectedDate == ed.selectedDate
    ensures r.taskIndex == 0 && r.scroll == 0 && r.count == ""
    ensures ReadSigned(r.lastMotion) == motion
    ensures r.redraw == (ed.redraw || MonthHasChanged(ed, d))
    ensures r.cals == ed.cals && r.mode == ed.mode && r.msg == ed.msg && r.subcalIndex == ed.subcalIndex
    ensures r.operator == ed.operator && r.prompt == ed.prompt
  {
    var text := MotionText(motion);
    MotionTextRoundTrip(motion);
    SetDate(ed, d, true).(lastMotion := text, count := NoCount)
  }

  /** `ensure_visible`: scrolls the task window just enough to show the
      selected task. */
  function EnsureVisible(ed: Editor): (r: Editor)
    ensures ed.maxVisible > 0 ==> r.scroll <= r.taskIndex < r.scroll + r.maxVisible
    ensures ed.scroll <= ed.taskIndex < ed.scroll + ed.maxVisible ==> r == ed
    ensures r.(scroll := ed.scroll) == ed
  {
    if ed.taskIndex < ed.scroll then ed.(scroll := ed.taskIndex)
    else if ed.taskIndex >= ed.scroll + ed.maxVisible then ed.(scroll := ed.taskIndex - ed.maxVisible + 1)
    else ed
  }

  /** The window moves by the least amount: a task above the window becomes
      its top row, and one below it becomes its bottom row. */
  lemma {:induction false} EnsureVisibleMinimal(ed: Editor)
    requires ed.maxVisible > 0
    ensures ed.taskIndex < ed.scroll ==> EnsureVisible(ed).scroll == ed.taskIndex
    ensures ed.taskIndex >= ed.scroll + ed.maxVisible ==>
      EnsureVisible(ed).taskIndex == EnsureVisible(ed).scroll + ed.maxVisible - 1
    ensures EnsureVisible(EnsureVisible(ed)) == EnsureVisible(ed)
  {
  }
}

=== FILE: coremovement.dfy ===
/** The movement commands of vical/core/movement.py, on the editor of
  vical/core/editor.py: day and week moves scaled by the count, `goto` with
  its digit-string date forms, the task cursor, and cycling through the
  subcalendars. `date.today()` is a parameter.
 */
module CoreMovement {
  import opened Wrappers
  import opened Dates
  import opened Text
  import Utils
  import Ymd
  import opened CoreEditor

  /** `int(editor.count) if editor.count else 1`; the count holds digits
      only, so `int` always succeeds and "0" reads as 0. */
  function CountOf(ed: Editor): nat {
    if ed.count == "" then 1 else Value(ed.count)
  }

  /** `move(editor, motion)`: the selected date moves `motion` days per unit
      of the count. The `try` around `change_date` catches nothing, since
      `change_date` cannot raise. */
  function Move(ed: Editor, motion: int): (r: Editor)
    ensures r.selectedDate == ed.selectedDate + motion * CountOf(ed)
    ensures ReadSigned(r.lastMotion) == motion * CountOf(ed)
    ensures r.lastSelectedDate == ed.selectedDate
    ensures r.count == "" && r.taskIndex == 0 && r.scroll == 0
    ensures r.cals == ed.cals && r.msg == ed.msg && r.mode == ed.mode && r.subcalIndex == ed.subcalIndex
    ensures r.operator == ed.operator
  {
    var delta := motion * CountOf(ed);
    ChangeDate(ed, ed.selectedDate + delta, delta)
  }

  function Left(ed: Editor): Editor { Move(ed, -1) }
  function Right(ed: Editor): Editor { Move(ed, 1) }
  function Up(ed: Editor): Editor { Move(ed, -7) }
  function Down(ed: Editor): Editor { Move(ed, 7) }

  /** `left`, `right`, `up` and `down` move one day or one week per unit of
      the count. */
  lemma {:induction false} DirectionMoves(ed: Editor)
    ensures Left(ed).selectedDate == ed.selectedDate - CountOf(ed)
    ensures Right(ed).selectedDate == ed.selectedDate + CountOf(ed)
    ensures Up(ed).selectedDate == ed.selectedDate - 7 * CountOf(ed)
    ensures Down(ed).selectedDate == ed.selectedDate + 7 * CountOf(ed)
  {
  }

  /** Where `k` moves of `motion` days each lead from `d`; with no count a
      move is exactly one such step (`MoveUnit`). */
  function Steps(d: Date, motion: int, k: nat): Date
    decreases k
  {
    if k == 0 then d else Steps(d, motion, k - 1) + motion
  }

  lemma {:induction false} StepsScale(d: Date, motion: int, k: nat)
    ensures Steps(d, motion, k) == d + motion * k
    decreases k
  {
    if k > 0 {
      StepsScale(d, motion, k - 1);
      MulStep(motion, k);
    }
  }

  lemma {:induction false} MulStep(m: int, k: int)
    ensures m * k == m * (k - 1) + m
  {
  }

  /** A count of `k` takes the selection as far as `k` single moves. */
  lemma {:induction false} CountIsRepetition(ed: Editor, motion: int, k: nat)
    requires ed.count == NatToString(k)
    ensures Move(ed, motion).selectedDate == Steps(ed.selectedDate, motion, k)
  {
    NatToStringValue(k);
    StepsScale(ed.selectedDate, motion, k);
  }

  /** A move with no count is undone by the opposite move. */
  lemma {:induction false} MoveBack(ed: Editor, motion: int)
    requires ed.count == ""
    ensures Move(Move(ed, motion), -motion).selectedDate == ed.selectedDate
  {
    MoveUnit(ed, motion);
    MoveUnit(Move(ed, motion), -motion);
  }

  /** With no count a move is one motion, and it leaves no count behind. */
  lemma {:induction false} MoveUnit(ed: Editor, motion: int)
    requires ed.count == ""
    ensures Move(ed, motion).selectedDate == ed.selectedDate + motion
    ensures Move(ed, motion).count == ""
  {
    assert CountOf(ed) == 1;
    TimesOne(motion, CountOf(ed));
  }

  lemma {:induction false} TimesOne(m: int, c: int)
    requires c == 1
    ensures m * c == m
  {
  }

  /** The year, month and day `goto` reads from a count of digits, by
      length: MMDDYYYY, MMYYYY (day 1), MMDD and M or MM (day 1), the last
      two in the year `year`; None for any other length. */
  function GotoFields(s: Digits, year: int): Option<Civil> {
    if |s| == 8 then Some(Civil(Value(s[4..]), Value(s[..2]), Value(s[2..4])))
    else if |s| == 6 then Some(Civil(Value(s[2..6]), Value(s[..2]), 1))
    else if |s| == 4 then Some(Civil(year, Value(s[..2]), Value(s[2..4])))
    else if |s| == 1 || |s| == 2 then Some(Civil(year, Value(s), 1))
    else None
  }

  /** The date a non-empty count names, if `date(year, month, day)` accepts
      the fields `goto` reads from it (`MakeDate` gives the day number of
      exactly these triples). */
  function GotoTarget(s: Digits, year: int): (r: Option<Civil>)
    ensures r.Some? ==> InPythonRange(r.value)
    ensures |s| !in {1, 2, 4, 6, 8} ==> r.None?
  {
    match GotoFields(s, year)
    case Some(c) => if InPythonRange(c) then Some(c) else None
    case None => None
  }

  /** `f"goto: {new_date:%b %d, %Y}"` for a date in Python's range. */
  function GotoText(c: Civil): string
    requires InPythonRange(c)
  {
    "goto: " + Utils.MonthAbbr[c.month - 1] + " " + Pad(c.day, 2) + ", " + Pad(c.year, 4)
  }

  /** `goto(editor)` with `today` for `date.today()`. The count is always
      cleared; a count that is not one of the date forms, or names no date,
      leaves an error notice and the selection as it was. */
  function Goto(ed: Editor, today: Date): (r: Editor)
    ensures r.count == ""
    ensures ed.count == "" ==> r.selectedDate == today && r.msg == Notice("goto: today", 0)
    ensures ed.count != "" ==>
      match GotoTarget(ed.count, YearOf(ed.selectedDate))
      case None => r == ed.(count := "", msg := Notice("Invalid date: " + ed.count, 1))
      case Some(c) => r.selectedDate == ToOrdinal(c) && r.msg == Notice(GotoText(c), 0)
    ensures r.msg.level == 0 ==>
      r.lastSelectedDate == ed.selectedDate && r.lastMotion == "0" && r.taskIndex == 0 && r.scroll == 0
    ensures r.cals == ed.cals && r.subcalIndex == ed.subcalIndex && r.mode == ed.mode && r.operator == ed.operator
  {
    if ed.count == "" then ChangeDate(ed.(msg := Notice("goto: today", 0)), today, 0)
    else GotoDate(ed, GotoTarget(ed.count, YearOf(ed.selectedDate)))
  }

  /** The non-empty-count half of `goto`, once the count has been read as
      `target`. */
  function GotoDate(ed: Editor, target: Option<Civil>): (r: Editor)
    requires target.Some? ==> InPythonRange(target.value)
    ensures r.count == ""
    ensures target.None? ==> r == ed.(count := "", msg := Notice("Invalid date: " + ed.count, 1))
    ensures target.Some? ==>
      r.selectedDate == ToOrdinal(target.value) && r.msg == Notice(GotoText(target.value), 0)
      && r.lastSelectedDate == ed.selectedDate && r.lastMotion == "0" && r.taskIndex == 0 && r.scroll == 0
    ensures r.cals == ed.cals && r.subcalIndex == ed.subcalIndex && r.mode == ed.mode && r.operator == ed.operator
  {
    match target
    case None => ed.(count := "", msg := Notice("Invalid date: " + ed.count, 1))
    case Some(c) => ChangeDate(ed.(count := "", msg := Notice(GotoText(c), 0)), ToOrdinal(c), 0)
  }

  /** The MMDDYYYY spelling of a date. */
  function MdyText(c: Civil): Digits
    requires InPythonRange(c)
  {
    Pad(c.month, 2) + Pad(c.day, 2) + Pad(c.year, 4)
  }

  /** Eight digits written as month, day and year name that date, whatever
      the selected year. */
  lemma {:induction false} GotoMdy(c: Civil, year: int)
    requires InPythonRange(c)
    ensures GotoTarget(MdyText(c), year) == Some(c)
  {
    var s := MdyText(c);
    MdyFields(c.month, c.day, c.year);
    assert GotoFields(s, year) == Some(c);
  }

  /** The fields of a month, day and year written 2-2-4 read back. */
  lemma {:induction false} MdyFields(m: nat, d: nat, y: nat)
    requires m < 100 && d < 100 && y < 10000
    ensures var s := Pad(m, 2) + Pad(d, 2) + Pad(y, 4);
      Value(s[..2]) == m && Value(s[2..4]) == d && Value(s[4..]) == y
  {
    assert Pow10(2) == 100 && Pow10(4) == 10000;
    PadRoundTrip(m, 2);
    PadRoundTrip(d, 2);
    PadRoundTrip(y, 4);
    SplitMdy(Pad(m, 2), Pad(d, 2), Pad(y, 4));
  }

  lemma {:induction false} SplitMdy(a: string, b: string, c: string)
    requires |a| == 2 && |b| == 2 && |c| == 4
    ensures (a + b + c)[..2] == a && (a + b + c)[2..4] == b && (a + b + c)[4..] == c
  {
  }

  /** Four digits are a month and a day of the selected year. */
  lemma {:induction false} GotoMonthDay(s: Digits, year: int)
    requires |s| == 4
    ensures var c := Civil(year, Value(s[..2]), Value(s[2..4]));
      GotoTarget(s, year) == if InPythonRange(c) then Some(c) else None
  {
  }

  /** One or two digits are read as a month of the selected year, on its
      first day (the source comment calls them days): "7" is the first of
      July, and "13" or "0" name no date. */
  lemma {:induction false} GotoMonthOnly(s: Digits, year: int)
    requires |s| == 1 || |s| == 2
    requires MinYear <= year <= MaxYear
    ensures GotoTarget(s, year).Some? <==> 1 <= Value(s) <= 12
    ensures GotoTarget(s, year).Some? ==> GotoTarget(s, year).value == Civil(year, Value(s), 1)
  {
  }

  /** Six digits are a month and a year, on the first of the month. */
  lemma {:induction false} GotoMonthYear(s: Digits, year: int)
    requires |s| == 6
    ensures var c := Civil(Value(s[2..6]), Value(s[..2]), 1);
      GotoTarget(s, year) == if InPythonRange(c) then Some(c) else None
  {
  }

  /** `visual_down` as written, where `n` is the number of tasks on the
      selected day: with tasks, line 76 reads `self.mainwin_hfactor` where no
      `self` exists, so NameError is raised before anything changes. */
  function VisualDownAsWritten(ed: Editor, n: nat): (r: Outcome<Editor>)
    ensures r.State() == ed
    ensures r.Raised? <==> n > 0
  {
    if n == 0 then Done(ed) else Raised(NameError, ed)
  }

  /** `visual_up` as written: the index steps up, then line 88 reads
      `self.task_scroll_offset` and raises NameError. */
  function VisualUpAsWritten(ed: Editor, n: nat): (r: Outcome<Editor>)
    ensures n == 0 ==> r == Done(ed)
    ensures n > 0 ==> r.Raised? && r.error == NameError
  {
    if n == 0 then Done(ed)
    else Raised(NameError, ed.(taskIndex := if ed.taskIndex - 1 < 0 then 0 else ed.taskIndex - 1))
  }

  /** On a day with tasks neither cursor move can succeed; the corrected
      moves below do move the cursor there. */
  lemma {:induction false} VisualMovesRaise(ed: Editor, n: nat)
    requires n > 0
    ensures VisualDownAsWritten(ed, n) == Raised(NameError, ed)
    ensures VisualUpAsWritten(ed, n).Raised?
    ensures 0 <= ed.taskIndex < n - 1 ==> CursorDown(ed, n).taskIndex == ed.taskIndex + 1
    ensures 0 < ed.taskIndex < n ==> CursorUp(ed, n).taskIndex == ed.taskIndex - 1
  {
  }

  /** `visual_down` with the editor's own scroll offset and window height in
      place of the undefined `self`, on a day with `n` tasks: one task down,
      stopping at the last, and the window slides by one when the cursor
      leaves it at the bottom. */
  function CursorDown(ed: Editor, n: nat): (r: Editor)
    ensures r == ed.(taskIndex := r.taskIndex, scroll := r.scroll)
    ensures n == 0 ==> r == ed
    ensures 0 <= ed.taskIndex && n > 0 ==> 0 <= r.taskIndex < n
  {
    if n == 0 then ed
    else
      var i := if ed.taskIndex + 1 < n - 1 then ed.taskIndex + 1 else n - 1;
      var moved := ed.(taskIndex := i);
      if i >= ed.scroll + ed.maxVisible then moved.(scroll := ed.scroll + 1) else moved
  }

  /** `visual_up` likewise: one task up, stopping at the first, and the window
      follows the cursor when it leaves at the top. */
  function CursorUp(ed: Editor, n: nat): (r: Editor)
    ensures r == ed.(taskIndex := r.taskIndex, scroll := r.scroll)
    ensures n == 0 ==> r == ed
    ensures n > 0 && ed.taskIndex < n ==> 0 <= r.taskIndex < n
  {
    if n == 0 then ed
    else
      var i := if ed.taskIndex - 1 < 0 then 0 else ed.taskIndex - 1;
      var moved := ed.(taskIndex := i);
      if i < ed.scroll then moved.(scroll := i) else moved
  }

  function VisualDown(ed: Editor): Editor { CursorDown(ed, |SelectedDayTasks(ed)|) }
  function VisualUp(ed: Editor): Editor { CursorUp(ed, |SelectedDayTasks(ed)|) }

  /** A cursor inside the window stays inside it, and a step down followed by
      a step up returns to the same task. */
  lemma {:induction false} CursorKeepsVisible(ed: Editor, n: nat)
    requires ed.maxVisible >= 1 && ed.scroll <= ed.taskIndex < ed.scroll + ed.maxVisible
    requires 0 <= ed.taskIndex < n
    ensures var r := CursorDown(ed, n); r.scroll <= r.taskIndex < r.scroll + r.maxVisible
    ensures var r := CursorUp(ed, n); r.scroll <= r.taskIndex < r.scroll + r.maxVisible
    ensures ed.taskIndex < n - 1 ==> CursorUp(CursorDown(ed, n), n).taskIndex == ed.taskIndex
  {
  }

  /** `next_subcal`: the following subcalendar, wrapping to the first. */
  function NextSubcal(ed: Editor): (r: Editor)
    ensures r == ed.(subcalIndex := r.subcalIndex)
    ensures |ed.cals| == 0 ==> r == ed
    ensures |ed.cals| > 0 ==> 0 <= r.subcalIndex < |ed.cals|
  {
    if |ed.cals| == 0 then ed else ed.(subcalIndex := (ed.subcalIndex + 1) % |ed.cals|)
  }

  /** `prev_subcal`: the preceding subcalendar, wrapping to the last. */
  function PrevSubcal(ed: Editor): (r: Editor)
    ensures r == ed.(subcalIndex := r.subcalIndex)
    ensures |ed.cals| == 0 ==> r == ed
    ensures |ed.cals| > 0 ==> 0 <= r.subcalIndex < |ed.cals|
  {
    if |ed.cals| == 0 then ed else ed.(subcalIndex := (ed.subcalIndex - 1) % |ed.cals|)
  }

  /** From a valid selection, the next subcalendar is the one after it (the
      first after the last), and the two cycles undo each other. */
  lemma {:induction false} SubcalCycle(ed: Editor)
    requires 0 <= ed.subcalIndex < |ed.cals|
    ensures NextSubcal(ed).subcalIndex == (if ed.subcalIndex == |ed.cals| - 1 then 0 else ed.subcalIndex + 1)
    ensures PrevSubcal(ed).subcalIndex == (if ed.subcalIndex == 0 then |ed.cals| - 1 else ed.subcalIndex - 1)
    ensures PrevSubcal(NextSubcal(ed)) == ed && NextSubcal(PrevSubcal(ed)) == ed
  {
    var n, i := |ed.cals|, ed.subcalIndex;
    ModStep(i, n);
    var next := NextSubcal(ed);
    var prev := PrevSubcal(ed);
    assert next == ed.(subcalIndex := if i == n - 1 then 0 else i + 1);
    assert prev == ed.(subcalIndex := if i == 0 then n - 1 else i - 1);
    ModStep(next.subcalIndex, n);
    ModStep(prev.subcalIndex, n);
  }

  /** Stepping an index of a cycle of length `n` forward or back. */
  lemma {:induction false} ModStep(i: int, n: int)
    requires 0 <= i < n
    ensures (i + 1) % n == (if i == n - 1 then 0 else i + 1)
    ensures (i - 1) % n == (if i == 0 then n - 1 else i - 1)
  {
  }
}

=== FILE: dateparse.dfy ===
/** The goto date parser and the repeated-date helper of
  vical/commands/utils.py.

  `parse_date_string` reads a digit string typed as a count. Its fields are
  read by `int()`, and `date(y, m, d)` rejects impossible dates; every failure
  is caught and becomes `None`.
 */
module DateParse {
  import opened Wrappers
  import opened Dates
  import opened Text
  import opened Motions

  /** `Settings.date_format`. */
  const DefaultDateFormat: string := "mdy"

  /** The year, month and day fields `parse_date_string` reads from a digit
      string of each accepted length, before the date is built; `mdy` says
      whether the format names the month first, and `cur` is the selected
      date, which supplies the fields a short string omits. */
  function ReadFields(s: Digits, mdy: bool, cur: Civil): (f: Option<Civil>)
    ensures f.Some? <==> |s| in {1, 2, 4, 6, 8}
    ensures |s| == 6 && f.Some? ==> f.value.day == 1
    ensures |s| <= 4 && f.Some? ==> f.value.year == cur.year
    ensures |s| <= 2 && f.Some? ==> f.value.month == cur.month && f.value.day == Value(s)
  {
    if |s| == 8 then
      var first, second := Value(s[..2]), Value(s[2..4]);
      Some(if mdy then Civil(Value(s[4..8]), first, second) else Civil(Value(s[4..8]), second, first))
    else if |s| == 6 then
      Some(Civil(Value(s[2..6]), Value(s[..2]), 1))
    else if |s| == 4 then
      var first, second := Value(s[..2]), Value(s[2..4]);
      Some(if mdy then Civil(cur.year, first, second) else Civil(cur.year, second, first))
    else if |s| == 1 || |s| == 2 then
      Some(Civil(cur.year, cur.month, Value(s)))
    else None
  }

  /** Whether a `date_format` setting names the month first. */
  predicate MonthFirst(fmt: string) {
    LowerStr(fmt) == "mdy"
  }

  lemma {:induction false} MonthFirstFormats()
    ensures MonthFirst(DefaultDateFormat) && MonthFirst("MDY") && !MonthFirst("dmy")
  {
    assert LowerStr("dmy")[0] == 'd';
    assert LowerStr("MDY") == "mdy";
  }

  /** `parse_date_string(date_str)`, where `mdy` is `MonthFirst` of the date
      format setting and `cur` the calendar triple of the selected date: the
      fields read, checked as a date. */
  function ParseDateString(s: Digits, mdy: bool, cur: Civil): (r: Option<Date>)
    ensures r.Some? <==> ReadFields(s, mdy, cur).Some?
                         && InPythonRange(ReadFields(s, mdy, cur).value)
    ensures r.Some? ==> r.value == ToOrdinal(ReadFields(s, mdy, cur).value)
  {
    var f := ReadFields(s, mdy, cur);
    if f.None? then None else MakeDate(f.value.year, f.value.month, f.value.day)
  }

  /** A date is determined by its fields: a parse that yields the fields of a
      valid date yields that date. */
  lemma {:induction false} ParseYields(s: Digits, mdy: bool, cur: Civil, c: Civil)
    requires ReadFields(s, mdy, cur) == Some(c)
    requires InPythonRange(c)
    ensures ParseDateString(s, mdy, cur) == Some(ToOrdinal(c))
  {
  }

  /** The slices of a three-part concatenation. */
  lemma {:induction false} Slices(a: string, b: string, c: string)
    ensures (a + b + c)[..|a|] == a
    ensures (a + b + c)[|a|..|a| + |b|] == b
    ensures (a + b + c)[|a| + |b|..|a| + |b| + |c|] == c
  {
    assert (a + b + c)[..|a|] == a;
    assert (a + b + c)[|a|..|a| + |b|] == b;
  }

  /** The slices of a two-part concatenation. */
  lemma {:induction false} Halves(a: string, b: string)
    ensures (a + b)[..|a|] == a
    ensures (a + b)[|a|..|a| + |b|] == b
  {
  }

  /** The fields of `MMDDYYYY` when the month comes first and `DDMMYYYY` otherwise. */
  lemma {:induction false} ReadEightDigits(c: Civil, cur: Civil)
    requires 0 <= c.month < 100 && 0 <= c.day < 100 && 0 <= c.year < 10000
    ensures ReadFields(Pad(c.month, 2) + Pad(c.day, 2) + Pad(c.year, 4), true, cur) == Some(c)
    ensures ReadFields(Pad(c.day, 2) + Pad(c.month, 2) + Pad(c.year, 4), false, cur) == Some(c)
  {
    PadRoundTrip(c.month, 2);
    PadRoundTrip(c.day, 2);
    PadRoundTrip(c.year, 4);
    Slices(Pad(c.month, 2), Pad(c.day, 2), Pad(c.year, 4));
    Slices(Pad(c.day, 2), Pad(c.month, 2), Pad(c.year, 4));
  }

  /** The fields of `MMYYYY`, whatever the format: day 1. */
  lemma {:induction false} ReadSixDigits(y: nat, m: nat, mdy: bool, cur: Civil)
    requires m < 100 && y < 10000
    ensures ReadFields(Pad(m, 2) + Pad(y, 4), mdy, cur) == Some(Civil(y, m, 1))
  {
    PadRoundTrip(m, 2);
    PadRoundTrip(y, 4);
    Halves(Pad(m, 2), Pad(y, 4));
  }

  /** The fields of `MMDD` when the month comes first and `DDMM` otherwise: the selected year. */
  lemma {:induction false} ReadFourDigits(m: nat, d: nat, cur: Civil)
    requires m < 100 && d < 100
    ensures ReadFields(Pad(m, 2) + Pad(d, 2), true, cur) == Some(Civil(cur.year, m, d))
    ensures ReadFields(Pad(d, 2) + Pad(m, 2), false, cur) == Some(Civil(cur.year, m, d))
  {
    PadRoundTrip(m, 2);
    PadRoundTrip(d, 2);
    Halves(Pad(m, 2), Pad(d, 2));
    Halves(Pad(d, 2), Pad(m, 2));
  }

  /** Every valid date written `MMDDYYYY` parses back to itself when the month
      comes first, and written `DDMMYYYY` when it does not. */
  lemma {:induction false} ParseEightDigits(c: Civil, cur: Civil)
    requires InPythonRange(c)
    ensures ParseDateString(Pad(c.month, 2) + Pad(c.day, 2) + Pad(c.year, 4), true, cur)
            == Some(ToOrdinal(c))
    ensures ParseDateString(Pad(c.day, 2) + Pad(c.month, 2) + Pad(c.year, 4), false, cur)
            == Some(ToOrdinal(c))
  {
    ReadEightDigits(c, cur);
    ParseYields(Pad(c.month, 2) + Pad(c.day, 2) + Pad(c.year, 4), true, cur, c);
    ParseYields(Pad(c.day, 2) + Pad(c.month, 2) + Pad(c.year, 4), false, cur, c);
  }

  /** Every valid `MMYYYY` parses to the first of that month. */
  lemma {:induction false} ParseSixDigits(y: nat, m: nat, mdy: bool, cur: Civil)
    requires InPythonRange(Civil(y, m, 1))
    ensures ParseDateString(Pad(m, 2) + Pad(y, 4), mdy, cur) == Some(ToOrdinal(Civil(y, m, 1)))
  {
    ReadSixDigits(y, m, mdy, cur);
    ParseYields(Pad(m, 2) + Pad(y, 4), mdy, cur, Civil(y, m, 1));
  }

  /** The fields of a valid `MMDD` date. */
  lemma {:induction false} ReadFourValid(m: nat, d: nat, cur: Civil, c: Civil)
    requires c == Civil(cur.year, m, d) && InPythonRange(c)
    ensures ReadFields(Pad(m, 2) + Pad(d, 2), true, cur) == Some(c)
  {
    assert d <= 31;
    ReadFourDigits(m, d, cur);
  }

  /** Every valid `MMDD` parses to that day of the selected year. */
  lemma {:induction false} ParseFourDigits(m: nat, d: nat, cur: Civil, c: Civil)
    requires c == Civil(cur.year, m, d) && InPythonRange(c)
    ensures ParseDateString(Pad(m, 2) + Pad(d, 2), true, cur) == Some(ToOrdinal(c))
  {
    ReadFourValid(m, d, cur, c);
    ParseYields(Pad(m, 2) + Pad(d, 2), true, cur, c);
  }

  /** A day number of one or two digits parses to that day of the selected
      month, and to nothing when the month has no such day. */
  lemma {:induction false} ParseDayOnly(s: Digits, mdy: bool, cur: Civil)
    requires 1 <= |s| <= 2
    requires InPythonRange(cur)
    ensures ParseDateString(s, mdy, cur).Some? <==> 1 <= Value(s) <= DaysInMonth(cur.year, cur.month)
    ensures ParseDateString(s, mdy, cur).Some? ==>
              ParseDateString(s, mdy, cur) == Some(ToOrdinal(Civil(cur.year, cur.month, Value(s))))
  {
    var c := Civil(cur.year, cur.month, Value(s));
    assert ReadFields(s, mdy, cur) == Some(c);
    if ParseDateString(s, mdy, cur).Some? {
      ParseYields(s, mdy, cur, c);
    }
  }

  /** Lengths other than 1, 2, 4, 6 and 8 parse to nothing. */
  lemma {:induction false} ParseRejectsLength(s: Digits, mdy: bool, cur: Civil)
    requires |s| != 1 && |s| != 2 && |s| != 4 && |s| != 6 && |s| != 8
    ensures ParseDateString(s, mdy, cur).None?
  {
  }

  /** The value of a two-digit string. */
  lemma {:induction false} ValueTwo(s: Digits)
    requires |s| == 2
    ensures Value(s) == (s[0] as int - '0' as int) * 10 + (s[1] as int - '0' as int)
  {
    var p: Digits := s[..1];
    assert p[..0] == [];
    assert Value(p) == p[0] as int - '0' as int;
    assert Value(s) == Value(p) * 10 + (s[1] as int - '0' as int);
  }

  /** Month 13 and 30 February name no date. */
  lemma {:induction false} ParseRejectsFields(cur: Civil)
    ensures ParseDateString("13012026", true, cur).None?
    ensures ParseDateString("02302026", true, cur).None?
  {
    ValueTwo("13012026"[..2]);
    ValueTwo("02302026"[..2]);
    ValueTwo("02302026"[2..4]);
  }

  /** `motion_to_date_interval(motion, repeats)`: `repeats` dates starting at
      the motion's start, `days` apart. */
  function MotionToDateInterval(m: Motion, repeats: int): (r: seq<Date>)
    ensures |r| == if repeats < 0 then 0 else repeats
    ensures forall i :: 0 <= i < |r| ==> r[i] == m.start + Days(m) * i
  {
    seq(if repeats < 0 then 0 else repeats, i => m.start + Days(m) * i)
  }

  /** An arithmetic progression with a positive step strictly increases. */
  lemma {:induction false} Progression(r: seq<int>, start: int, k: int)
    requires k >= 1
    requires forall i :: 0 <= i < |r| ==> r[i] == start + k * i
    ensures forall i :: 0 <= i < |r| - 1 ==> r[i + 1] - r[i] == k
    ensures forall i, j :: 0 <= i < j < |r| ==> r[i] < r[j]
  {
    forall i | 0 <= i < |r| - 1 ensures r[i + 1] - r[i] == k {
      assert k * (i + 1) == k * i + k;
    }
    forall i, j | 0 <= i < j < |r| ensures r[i] < r[j] {
      assert k * j - k * i == k * (j - i);
      assert k * (j - i) >= j - i;
    }
  }

  /** The dates of an interval start at the motion's start and strictly
      increase by the motion's `days`, which counts both ends: a five-day step
      yields dates six days apart. */
  lemma {:induction false} IntervalSpacing(m: Motion, repeats: int)
    ensures var r := MotionToDateInterval(m, repeats);
      (forall i :: 0 <= i < |r| - 1 ==> r[i + 1] - r[i] == Days(m))
      && (forall i, j :: 0 <= i < j < |r| ==> r[i] < r[j])
      && (|r| > 0 ==> r[0] == m.start)
    ensures Days(DateMotion(0, 5)) == 6
  {
    Progression(MotionToDateInterval(m, repeats), m.start, Days(m));
  }
}

=== FILE: dates.dfy ===
/** Python `datetime.date` as a day number.

  A date is its proleptic Gregorian ordinal, the number `date.toordinal()`
  returns: 0001-01-01 is day 1. Ordinals are unbounded here, so day arithmetic
  is plain integer arithmetic; only the constructor `date(y, m, d)` checks the
  Python range of years 1..9999.
 */
module Dates {
  import opened Wrappers

  type Date = int

  datatype Civil = Civil(year: int, month: int, day: int)

  const MinYear: int := 1
  const MaxYear: int := 9999

  /** `date.max`, 9999-12-31. */
  const MaxDate: Date := 3652059

  predicate IsLeap(y: int) {
    y % 4 == 0 && (y % 100 != 0 || y % 400 == 0)
  }

  function DaysInMonth(y: int, m: int): int
    requires 1 <= m <= 12
  {
    if m == 2 then (if IsLeap(y) then 29 else 28)
    else if m == 4 || m == 6 || m == 9 || m == 11 then 30
    else 31
  }

  function DaysInYear(y: int): int {
    if IsLeap(y) then 366 else 365
  }

  /** A calendar triple of the proleptic Gregorian calendar, any year. */
  predicate ValidCivil(c: Civil) {
    1 <= c.month <= 12 && 1 <= c.day <= DaysInMonth(c.year, c.month)
  }

  /** What `date(y, m, d)` accepts without raising ValueError. */
  predicate InPythonRange(c: Civil) {
    ValidCivil(c) && MinYear <= c.year <= MaxYear
  }

  /** Days in the years before `y`; Python's `_days_before_year`. */
  function DaysBeforeYear(y: int): int {
    var x := y - 1;
    365 * x + x / 4 - x / 100 + x / 400
  }

  /** Days in the months of `y` before month `m`; Python's `_days_before_month`. */
  function DaysBeforeMonth(y: int, m: int): int
    requires 1 <= m <= 12
  {
    var base :=
      if m == 1 then 0 else if m == 2 then 31 else if m == 3 then 59
      else if m == 4 then 90 else if m == 5 then 120 else if m == 6 then 151
      else if m == 7 then 181 else if m == 8 then 212 else if m == 9 then 243
      else if m == 10 then 273 else if m == 11 then 304 else 334;
    base + (if m > 2 && IsLeap(y) then 1 else 0)
  }

  /** `date(y, m, d).toordinal()`. */
  function ToOrdinal(c: Civil): Date
    requires 1 <= c.month <= 12
  {
    DaysBeforeYear(c.year) + DaysBeforeMonth(c.year, c.month) + c.day
  }

  lemma {:induction false} DivStep(y: int)
    ensures y / 4 - (y - 1) / 4 == (if y % 4 == 0 then 1 else 0)
    ensures y / 100 - (y - 1) / 100 == (if y % 100 == 0 then 1 else 0)
    ensures y / 400 - (y - 1) / 400 == (if y % 400 == 0 then 1 else 0)
  {
    assert y == 4 * (y / 4) + y % 4;
    assert y - 1 == 4 * ((y - 1) / 4) + (y - 1) % 4;
    assert y == 100 * (y / 100) + y % 100;
    assert y - 1 == 100 * ((y - 1) / 100) + (y - 1) % 100;
    assert y == 400 * (y / 400) + y % 400;
    assert y - 1 == 400 * ((y - 1) / 400) + (y - 1) % 400;
  }

  /** Consecutive years start `DaysInYear` days apart. */
  lemma {:induction false} YearStep(y: int)
    ensures DaysBeforeYear(y + 1) == DaysBeforeYear(y) + DaysInYear(y)
  {
    DivStep(y);
  }

  /** The day after a calendar day. */
  function NextCivil(c: Civil): (r: Civil)
    requires ValidCivil(c)
    ensures ValidCivil(r)
    ensures ToOrdinal(r) == ToOrdinal(c) + 1
  {
    if c.day < DaysInMonth(c.year, c.month) then Civil(c.year, c.month, c.day + 1)
    else if c.month < 12 then Civil(c.year, c.month + 1, 1)
    else YearStep(c.year); Civil(c.year + 1, 1, 1)
  }

  /** The day before a calendar day. */
  function PrevCivil(c: Civil): (r: Civil)
    requires ValidCivil(c)
    ensures ValidCivil(r)
    ensures ToOrdinal(r) + 1 == ToOrdinal(c)
  {
    if c.day > 1 then Civil(c.year, c.month, c.day - 1)
    else if c.month > 1 then Civil(c.year, c.month - 1, DaysInMonth(c.year, c.month - 1))
    else YearStep(c.year - 1); Civil(c.year - 1, 12, 31)
  }

  lemma {:induction false} NextPrev(c: Civil)
    requires ValidCivil(c)
    ensures NextCivil(PrevCivil(c)) == c
    ensures PrevCivil(NextCivil(c)) == c
  {
  }

  /** The calendar triple of a day number (Python's `date.fromordinal`, any year). */
  function ToCivil(n: Date): (r: Civil)
    ensures ValidCivil(r)
    ensures ToOrdinal(r) == n
    decreases if n >= 1 then n - 1 else 1 - n
  {
    if n == 1 then Civil(1, 1, 1)
    else if n > 1 then NextCivil(ToCivil(n - 1))
    else PrevCivil(ToCivil(n + 1))
  }

  lemma {:induction false} DaysBeforeYearMonotone(a: int, b: int)
    requires a <= b
    ensures DaysBeforeYear(a) <= DaysBeforeYear(b)
    decreases b - a
  {
    if a < b {
      YearStep(b - 1);
      DaysBeforeYearMonotone(a, b - 1);
    }
  }

  /** Day 1 is 0001-01-01 and no other valid triple. */
  lemma {:induction false} DayOfYearBounds(c: Civil)
    requires ValidCivil(c)
    ensures 1 <= DaysBeforeMonth(c.year, c.month) + c.day <= 366
  {
  }

  lemma {:induction false} YearBounds(y: int)
    ensures y >= 2 ==> DaysBeforeYear(y) >= 365
    ensures y <= 0 ==> DaysBeforeYear(y) <= -366
    ensures DaysBeforeYear(1) == 0
  {
    assert DaysBeforeYear(2) == 365;
    assert DaysBeforeYear(0) == -366;
    if y >= 2 {
      DaysBeforeYearMonotone(2, y);
    } else if y <= 0 {
      DaysBeforeYearMonotone(y, 0);
    }
  }

  /** Day 1 is 0001-01-01 and no other valid triple. */
  lemma {:induction false} OrdinalOneIsEpoch(c: Civil)
    requires ValidCivil(c) && ToOrdinal(c) == 1
    ensures c == Civil(1, 1, 1)
  {
    DayOfYearBounds(c);
    YearBounds(c.year);
    assert c.year == 1;
    assert DaysBeforeMonth(c.year, c.month) + c.day == 1;
  }

  /** Converting a valid triple to its day number and back yields the triple. */
  lemma {:induction false} CivilRoundTrip(c: Civil)
    requires ValidCivil(c)
    ensures ToCivil(ToOrdinal(c)) == c
  {
    RoundTripAt(c, ToOrdinal(c));
  }

  lemma {:induction false} RoundTripAt(c: Civil, n: Date)
    requires ValidCivil(c) && ToOrdinal(c) == n
    ensures ToCivil(n) == c
    decreases if n >= 1 then n - 1 else 1 - n
  {
    if n == 1 {
      OrdinalOneIsEpoch(c);
    } else if n > 1 {
      var p := PrevCivil(c);
      RoundTripAt(p, n - 1);
      NextPrev(c);
      assert ToCivil(n) == NextCivil(p);
    } else {
      var q := NextCivil(c);
      RoundTripAt(q, n + 1);
      NextPrev(c);
      assert ToCivil(n) == PrevCivil(q);
    }
  }

  /** Two valid triples with the same day number are the same triple. */
  lemma {:induction false} OrdinalInjective(a: Civil, b: Civil)
    requires ValidCivil(a) && ValidCivil(b)
    requires ToOrdinal(a) == ToOrdinal(b)
    ensures a == b
  {
    CivilRoundTrip(a);
    CivilRoundTrip(b);
  }

  function YearOf(d: Date): int { ToCivil(d).year }
  function MonthOf(d: Date): int { ToCivil(d).month }
  function DayOf(d: Date): int { ToCivil(d).day }

  /** `date.weekday()`: Monday is 0, Sunday is 6. */
  function Weekday(d: Date): (w: int)
    ensures 0 <= w < 7
  {
    (d + 6) % 7
  }

  /** The weekday repeats every seven days. */
  lemma {:induction false} WeekdayPeriodic(d: Date, k: int)
    ensures Weekday(d + 7 * k) == Weekday(d)
  {
  }

  /** `date(y, m, d)`: None where Python raises ValueError. */
  function MakeDate(y: int, m: int, d: int): (r: Option<Date>)
    ensures r.Some? <==> InPythonRange(Civil(y, m, d))
    ensures r.Some? ==> ToCivil(r.value) == Civil(y, m, d)
  {
    if InPythonRange(Civil(y, m, d)) then
      CivilRoundTrip(Civil(y, m, d));
      Some(ToOrdinal(Civil(y, m, d)))
    else None
  }

  lemma {:induction false} MaxDateIsLastDay()
    ensures ToCivil(MaxDate) == Civil(9999, 12, 31)
  {
    assert ToOrdinal(Civil(9999, 12, 31)) == MaxDate;
    CivilRoundTrip(Civil(9999, 12, 31));
  }

  lemma {:induction false} EpochIsMonday()
    ensures Weekday(ToOrdinal(Civil(1, 1, 1))) == 0
  {
  }
}

=== FILE: editormovement.dfy ===
/** The movement commands of vical/editor/movement.py.

  The editor class these commands were written against is not part of the
  repository. Its state is gathered in `Nav`, the number of items shown on
  each day is the parameter `items`, and the members the commands call get
  the plainest definitions consistent with their use:
  `set_selected_date(d, reset_items, record_motion)` remembers the previous
  date, selects `d`, zeroes the item index when asked to and records the
  motion when one is given; `max_item_index()` is the last index of the
  selected day, 0 on an empty day; `clamp_item_index()` pulls the index into
  `0..max_item_index()`; `set_msg(text, error)` stores a notice.
 */
module EditorMovement {
  import opened Wrappers
  import opened Dates
  import opened Text
  import Utils
  import opened CoreEditor
  import opened CoreMovement

  datatype Nav = Nav(
    date: Date,
    lastDate: Date,
    index: int,
    count: Digits,
    lastMotion: Option<int>,
    msg: Notice)

  /** The selected date and item, the part of the state the cursor moves. */
  datatype Pos = Pos(date: Date, index: int)

  function PosOf(nav: Nav): Pos {
    Pos(nav.date, nav.index)
  }

  /** `max_item_index()`. */
  function MaxItemIndex(items: Date -> nat, d: Date): (r: nat)
    ensures items(d) == 0 ==> r == 0
    ensures items(d) > 0 ==> r == items(d) - 1
  {
    if items(d) == 0 then 0 else items(d) - 1
  }

  /** A cursor position the editor can show: an item of the day, or index 0
      on an empty day. */
  predicate ValidPos(items: Date -> nat, p: Pos) {
    0 <= p.index <= MaxItemIndex(items, p.date)
  }

  /** `set_selected_date(d, reset_items=..., record_motion=...)`. */
  function SetSelectedDate(nav: Nav, d: Date, resetItems: bool, motion: Option<int>): (r: Nav)
    ensures r.date == d && r.lastDate == nav.date
    ensures r.index == (if resetItems then 0 else nav.index)
    ensures r.lastMotion == (if motion.Some? then motion else nav.lastMotion)
    ensures r.count == nav.count && r.msg == nav.msg
  {
    nav.(lastDate := nav.date, date := d, index := if resetItems then 0 else nav.index,
         lastMotion := if motion.Some? then motion else nav.lastMotion)
  }

  /** `clamp_item_index()`. */
  function ClampItemIndex(items: Date -> nat, nav: Nav): (r: Nav)
    ensures ValidPos(items, PosOf(r))
    ensures ValidPos(items, PosOf(nav)) ==> r == nav
    ensures r == nav.(index := r.index)
  {
    var hi := MaxItemIndex(items, nav.date);
    nav.(index := if nav.index < 0 then 0 else if nav.index > hi then hi else nav.index)
  }

  /** `count` when given, else `int(editor.count or 1)`: an empty count is 1,
      "0" is 0. */
  function CountArg(nav: Nav, count: Option<int>): int {
    match count
    case Some(c) => c
    case None => if nav.count == "" then 1 else Value(nav.count)
  }

  /** `move(editor, motion, count)`. Unlike the older `move`, the count is
      left in place. */
  function Move(nav: Nav, motion: int, count: Option<int>): (r: Nav)
    ensures r.date == nav.date + motion * CountArg(nav, count)
    ensures r.lastMotion == Some(motion * CountArg(nav, count))
    ensures r.index == 0 && r.lastDate == nav.date && r.count == nav.count
  {
    var delta := motion * CountArg(nav, count);
    SetSelectedDate(nav, nav.date + delta, true, Some(delta))
  }

  function Left(nav: Nav, count: int): Nav {
    SetSelectedDate(nav, nav.date - count, true, Some(-count))
  }

  function Right(nav: Nav, count: int): Nav {
    SetSelectedDate(nav, nav.date + count, true, Some(count))
  }

  function Up(nav: Nav, count: int): Nav {
    SetSelectedDate(nav, nav.date - 7 * count, true, Some(-7 * count))
  }

  function Down(nav: Nav, count: int): Nav {
    SetSelectedDate(nav, nav.date + 7 * count, true, Some(7 * count))
  }

  /** `left`, `right`, `up` and `down` are `move` by -1, 1, -7 and 7 days with
      the count given, and each undoes its opposite. */
  lemma {:induction false} DirectionsAreMoves(nav: Nav, c: int)
    ensures Left(nav, c) == Move(nav, -1, Some(c))
    ensures Right(nav, c) == Move(nav, 1, Some(c))
    ensures Up(nav, c) == Move(nav, -7, Some(c))
    ensures Down(nav, c) == Move(nav, 7, Some(c))
    ensures Left(Right(nav, c), c).date == nav.date && Up(Down(nav, c), c).date == nav.date
  {
  }

  /** `visual_left` and `visual_right`: the date moves, the item index is kept
      and then clamped to the new day. */
  function VisualLeft(items: Date -> nat, nav: Nav, count: int): (r: Nav)
    ensures r.date == nav.date - count && r.lastDate == nav.date
    ensures ValidPos(items, PosOf(r))
    ensures 0 <= nav.index <= MaxItemIndex(items, r.date) ==> r.index == nav.index
  {
    ClampItemIndex(items, SetSelectedDate(nav, nav.date - count, false, None))
  }

  function VisualRight(items: Date -> nat, nav: Nav, count: int): (r: Nav)
    ensures r.date == nav.date + count && r.lastDate == nav.date
    ensures ValidPos(items, PosOf(r))
    ensures 0 <= nav.index <= MaxItemIndex(items, r.date) ==> r.index == nav.index
  {
    ClampItemIndex(items, SetSelectedDate(nav, nav.date + count, false, None))
  }

  /** One pass of the `visual_up` loop: up one item, or, at the top, to the
      last item of the day a week earlier. */
  function UpStep(items: Date -> nat, nav: Nav): (r: Nav)
    ensures nav.index > 0 ==> r == nav.(index := nav.index - 1)
    ensures nav.index <= 0 ==>
      r.date == nav.date - 7 && r.index == MaxItemIndex(items, nav.date - 7) && r.lastDate == nav.date
    ensures ValidPos(items, PosOf(nav)) ==> ValidPos(items, PosOf(r))
  {
    if nav.index > 0 then nav.(index := nav.index - 1)
    else
      var moved := SetSelectedDate(nav, nav.date - 7, true, None);
      moved.(index := MaxItemIndex(items, moved.date))
  }

  /** One pass of the `visual_down` loop: down one item, or, at the bottom, to
      the first item of the day a week later. */
  function DownStep(items: Date -> nat, nav: Nav): (r: Nav)
    ensures nav.index < items(nav.date) - 1 ==> r == nav.(index := nav.index + 1)
    ensures nav.index >= items(nav.date) - 1 ==>
      r.date == nav.date + 7 && r.index == 0 && r.lastDate == nav.date
    ensures 0 <= nav.index ==> ValidPos(items, PosOf(r))
  {
    if nav.index < items(nav.date) - 1 then nav.(index := nav.index + 1)
    else
      var moved := SetSelectedDate(nav, nav.date + 7, true, None);
      moved.(index := 0)
  }

  /** From a position the editor can show, a step down undoes a step up and
      a step up undoes a step down. */
  lemma {:induction false} StepsInverse(items: Date -> nat, nav: Nav)
    requires ValidPos(items, PosOf(nav))
    ensures PosOf(DownStep(items, UpStep(items, nav))) == PosOf(nav)
    ensures PosOf(UpStep(items, DownStep(items, nav))) == PosOf(nav)
  {
  }

  /** Each step's new position depends on the old position only. */
  lemma {:induction false} StepsByPosition(items: Date -> nat, a: Nav, b: Nav)
    requires PosOf(a) == PosOf(b)
    ensures PosOf(UpStep(items, a)) == PosOf(UpStep(items, b))
    ensures PosOf(DownStep(items, a)) == PosOf(DownStep(items, b))
  {
  }

  /** `count` passes of a step, the first pass first. */
  function UpSteps(items: Date -> nat, nav: Nav, count: int): Nav
    decreases count
  {
    if count <= 0 then nav else UpSteps(items, UpStep(items, nav), count - 1)
  }

  function DownSteps(items: Date -> nat, nav: Nav, count: int): Nav
    decreases count
  {
    if count <= 0 then nav else DownSteps(items, DownStep(items, nav), count - 1)
  }

  /** `visual_up(editor, count)`: the loop over `range(count)`. */
  method VisualUp(items: Date -> nat, nav: Nav, count: int) returns (r: Nav)
    ensures r == UpSteps(items, nav, count)
    ensures ValidPos(items, PosOf(nav)) ==> ValidPos(items, PosOf(r))
  {
    r := nav;
    var i := 0;
    while i < count
      invariant count <= 0 || 0 <= i <= count
      invariant UpSteps(items, r, count - i) == UpSteps(items, nav, count)
      invariant ValidPos(items, PosOf(nav)) ==> ValidPos(items, PosOf(r))
      decreases count - i
    {
      r := UpStep(items, r);
      i := i + 1;
    }
  }

  /** `visual_down(editor, count)`. */
  method VisualDown(items: Date -> nat, nav: Nav, count: int) returns (r: Nav)
    ensures r == DownSteps(items, nav, count)
    ensures 0 <= nav.index ==> ValidPos(items, PosOf(r)) || count <= 0
  {
    r := nav;
    var i := 0;
    while i < count
      invariant count <= 0 || 0 <= i <= count
      invariant DownSteps(items, r, count - i) == DownSteps(items, nav, count)
      invariant 0 <= nav.index ==> 0 <= r.index
      invariant 0 <= nav.index && i > 0 ==> ValidPos(items, PosOf(r))
      decreases count - i
    {
      r := DownStep(items, r);
      i := i + 1;
    }
  }

  /** The last pass first: `UpSteps` as a chain from the end. */
  lemma {:induction false} UpStepsLast(items: Date -> nat, nav: Nav, count: int)
    requires count > 0
    ensures UpSteps(items, nav, count) == UpStep(items, UpSteps(items, nav, count - 1))
    decreases count
  {
    if count > 1 {
      UpStepsLast(items, UpStep(items, nav), count - 1);
    }
  }

  /** Positions that agree stay in agreement under `count` steps down. */
  lemma {:induction false} DownStepsByPosition(items: Date -> nat, a: Nav, b: Nav, count: int)
    requires PosOf(a) == PosOf(b)
    ensures PosOf(DownSteps(items, a, count)) == PosOf(DownSteps(items, b, count))
    decreases count
  {
    if count > 0 {
      StepsByPosition(items, a, b);
      DownStepsByPosition(items, DownStep(items, a), DownStep(items, b), count - 1);
    }
  }

  /** `count` items up and then `count` items down lands on the same day and
      item, week jumps included, from any position the editor can show. */
  lemma {:induction false} VisualUpDownRoundTrip(items: Date -> nat, nav: Nav, count: int)
    requires ValidPos(items, PosOf(nav))
    ensures PosOf(DownSteps(items, UpSteps(items, nav, count), count)) == PosOf(nav)
    decreases count
  {
    if count > 0 {
      var before := UpSteps(items, nav, count - 1);
      UpStepsValid(items, nav, count - 1);
      UpStepsLast(items, nav, count);
      StepsInverse(items, before);
      DownStepsByPosition(items, DownStep(items, UpStep(items, before)), before, count - 1);
      VisualUpDownRoundTrip(items, nav, count - 1);
    }
  }

  lemma {:induction false} UpStepsValid(items: Date -> nat, nav: Nav, count: int)
    requires ValidPos(items, PosOf(nav))
    ensures ValidPos(items, PosOf(UpSteps(items, nav, count)))
    decreases count
  {
    if count > 0 {
      UpStepsValid(items, UpStep(items, nav), count - 1);
    }
  }

  /** `f"Goto: {new_date:%b %d %Y}"`. */
  function GotoNotice(c: Civil): string
    requires InPythonRange(c)
  {
    "Goto: " + Utils.MonthAbbr[c.month - 1] + " " + Pad(c.day, 2) + " " + Pad(c.year, 4)
  }

  /** `goto(editor)` with `today` for `date.today()`: the same date forms as
      the older `goto`, with this generation's messages. */
  function Goto(nav: Nav, today: Date): (r: Nav)
    ensures r.count == ""
    ensures nav.count == "" ==> r.date == today && r.index == 0 && r.msg == Notice("Goto: Today", 0)
    ensures nav.count != "" ==>
      match GotoTarget(nav.count, YearOf(nav.date))
      case None => r == nav.(count := "", msg := Notice("Invalid date: " + nav.count, 1))
      case Some(c) => r.date == ToOrdinal(c) && r.index == 0 && r.lastDate == nav.date
                      && r.msg == Notice(GotoNotice(c), 0)
  {
    var cleared := nav.(count := "");
    if nav.count == "" then
      SetSelectedDate(cleared.(msg := Notice("Goto: Today", 0)), today, true, None)
    else
      match GotoTarget(nav.count, YearOf(nav.date))
      case None => cleared.(msg := Notice("Invalid date: " + nav.count, 1))
      case Some(c) => SetSelectedDate(cleared.(msg := Notice(GotoNotice(c), 0)), ToOrdinal(c), true, None)
  }
}

=== FILE: entities.dfy ===
/** Calendar items and subcalendars of the newest generation
  (vical/core/subcalendar.py).

  Items are values. The Python objects are shared references whose identity is
  their `uid`; here an item is found again by its `uid`, and `parent` holds the
  `uid` of the subcalendar the item belongs to.
 */
module Entities {
  import opened Wrappers
  import opened Dates
  import opened Sorted
  import opened Text

  datatype Item =
    | Task(uid: string, name: string, date: Option<Date>, deadline: Option<Date>,
           completed: bool, desc: string, remind: int, parent: Option<string>)
    | Event(uid: string, name: string, startDate: Option<Date>, endDate: Option<Date>,
            desc: string, remind: int, parent: Option<string>)

  datatype Subcal = Subcal(uid: string, name: string, color: string, hidden: bool, items: seq<Item>)

  /** `uid or uuid4().hex`: an absent or empty uid is replaced by `newUid`. */
  function ResolveUid(uid: Option<string>, newUid: string): (r: string)
    ensures uid.Some? && uid.value != [] ==> r == uid.value
    ensures uid.None? || uid.value == [] ==> r == newUid
  {
    if uid.Some? && uid.value != [] then uid.value else newUid
  }

  /** `Task(uid, name, tdate, deadline, completed, desc, remind)`; the parent starts unset. */
  function NewTask(uid: Option<string>, newUid: string, name: string, tdate: Option<Date>,
                   deadline: Option<Date>, completed: bool, desc: string, remind: int): (r: Item)
    requires newUid != []
    ensures r.Task? && r.uid != [] && r.parent.None?
    ensures r.name == name && r.date == tdate && r.deadline == deadline && r.completed == completed
  {
    Task(ResolveUid(uid, newUid), name, tdate, deadline, completed, desc, remind, None)
  }

  /** `Event(...)`: ValueError when both bounds are set and the end precedes the start. */
  function NewEvent(uid: Option<string>, newUid: string, name: string, start: Option<Date>,
                    end: Option<Date>, desc: string, remind: int): (r: Result<Item>)
    requires newUid != []
    ensures r.Err? <==> start.Some? && end.Some? && end.value < start.value
    ensures r.Err? ==> r.error == ValueError
    ensures r.Ok? ==> r.value.Event? && r.value.uid != [] && r.value.parent.None?
    ensures r.Ok? ==> r.value.name == name && r.value.startDate == start && r.value.endDate == end
  {
    if start.Some? && end.Some? && end.value < start.value then Err(ValueError)
    else Ok(Event(ResolveUid(uid, newUid), name, start, end, desc, remind, None))
  }

  /** `occurs_on(day)`. */
  predicate OccursOn(it: Item, day: Date) {
    match it
    case Task(_, _, date, deadline, _, _, _, _) => date == Some(day) || deadline == Some(day)
    case Event(_, _, start, end, _, _, _) =>
      start.Some? && end.Some? && start.value <= day <= end.value
  }

  /** `Event.duration`: the number of days the event spans, 0 without both bounds. */
  function Duration(e: Item): (n: int)
    requires e.Event?
  {
    if e.startDate.Some? && e.endDate.Some? then e.endDate.value - e.startDate.value + 1 else 0
  }

  /** An event occurs exactly on the `Duration` days that follow its start. */
  lemma {:induction false} EventOccursWithinDuration(e: Item, day: Date)
    requires e.Event?
    ensures OccursOn(e, day) <==>
      Duration(e) > 0 && e.startDate.value <= day < e.startDate.value + Duration(e)
  {
  }

  /** A task occurs on its date and on its deadline and on no other day. */
  lemma {:induction false} TaskOccurrence(t: Item, day: Date)
    requires t.Task?
    ensures t.date == Some(day) ==> OccursOn(t, day)
    ensures t.deadline == Some(day) ==> OccursOn(t, day)
    ensures OccursOn(t, day) ==> day in OptionDays(t.date) + OptionDays(t.deadline)
  {
  }

  function OptionDays(d: Option<Date>): set<Date> {
    if d.Some? then {d.value} else {}
  }

  /** The date an item sorts by: `date or date.max` for tasks, `start_date or date.max` for events. */
  function SortDate(it: Item): Date {
    match it
    case Task(_, _, date, _, _, _, _, _) => date.GetOr(MaxDate)
    case Event(_, _, start, _, _, _, _) => start.GetOr(MaxDate)
  }

  /** Events rank 0 and tasks 1 on the same date. */
  function Rank(it: Item): int {
    if it.Event? then 0 else 1
  }

  /** `sort_key()`: `(date, rank, name.lower())` flattened. */
  function SortKey(it: Item): (k: seq<int>)
    ensures |k| == 2 + |it.name|
    ensures k[0] == SortDate(it) && k[1] == Rank(it)
  {
    [SortDate(it), Rank(it)] + Codes(LowerStr(it.name))
  }

  /** The key compares by date, then kind, then the lower-cased name. */
  lemma {:induction false} SortKeyOrder(a: Item, b: Item)
    ensures LexLe(SortKey(a), SortKey(b)) <==>
      SortDate(a) < SortDate(b)
      || (SortDate(a) == SortDate(b) && Rank(a) < Rank(b))
      || (SortDate(a) == SortDate(b) && Rank(a) == Rank(b)
          && LexLe(Codes(LowerStr(a.name)), Codes(LowerStr(b.name))))
  {
    var pa := [SortDate(a), Rank(a)];
    var pb := [SortDate(b), Rank(b)];
    LexLePrefix(pa, Codes(LowerStr(a.name)), pb, Codes(LowerStr(b.name)));
    assert LexLe(pa, pb) <==> SortDate(a) < SortDate(b) || (SortDate(a) == SortDate(b) && Rank(a) <= Rank(b)) by {
      assert pa[1..] == [Rank(a)] && pb[1..] == [Rank(b)];
      assert LexLe([Rank(a)], [Rank(b)]) <==> Rank(a) <= Rank(b) by {
        assert [Rank(a)][1..] == [];
        assert [Rank(b)][1..] == [];
      }
    }
  }

  /** On the same date every event sorts strictly before every task. */
  lemma {:induction false} EventsBeforeTasks(e: Item, t: Item)
    requires e.Event? && t.Task? && SortDate(e) == SortDate(t)
    ensures LexLe(SortKey(e), SortKey(t)) && !LexLe(SortKey(t), SortKey(e))
  {
    SortKeyOrder(e, t);
    SortKeyOrder(t, e);
  }

  ghost predicate ItemsSorted(items: seq<Item>) {
    SortedBy(items, SortKey)
  }

  function WithParent(it: Item, p: Option<string>): (r: Item)
    ensures r.parent == p && SortKey(r) == SortKey(it) && r.uid == it.uid
  {
    it.(parent := p)
  }

  /** `items.append(item); items.sort(key=sort_key)`. */
  function AddSorted(items: seq<Item>, it: Item): (r: seq<Item>)
    ensures ItemsSorted(r)
    ensures multiset(r) == multiset(items) + multiset{it}
  {
    SortByCorrect(items + [it], SortKey);
    SortBy(items + [it], SortKey)
  }

  /** `Subcalendar(uid, name, color)`: visible and empty. */
  function NewSubcal(uid: Option<string>, newUid: string, name: string, color: string): (r: Subcal)
    requires newUid != []
    ensures r.uid != [] && r.name == name && r.color == color
    ensures !r.hidden && r.items == []
  {
    Subcal(ResolveUid(uid, newUid), name, color, false, [])
  }

  const DefaultColor: string := "green"

  /** `insert_item`: the item joins with its parent set and the list is re-sorted. */
  function InsertItem(sc: Subcal, it: Item): (r: Subcal)
    ensures ItemsSorted(r.items)
    ensures multiset(r.items) == multiset(sc.items) + multiset{WithParent(it, Some(sc.uid))}
    ensures r == sc.(items := r.items)
  {
    sc.(items := AddSorted(sc.items, WithParent(it, Some(sc.uid))))
  }

  /** Inserting into an already sorted subcalendar is a stable insertion: the
      new item lands after every item whose key is not above its own. */
  lemma {:induction false} InsertItemIsStable(sc: Subcal, it: Item)
    requires ItemsSorted(sc.items)
    ensures InsertItem(sc, it).items == InsertBy(sc.items, WithParent(it, Some(sc.uid)), SortKey)
  {
    AppendSortIsInsert(sc.items, WithParent(it, Some(sc.uid)), SortKey);
  }

  function ToggleHidden(sc: Subcal): (r: Subcal)
    ensures r.hidden != sc.hidden
    ensures r.(hidden := sc.hidden) == sc
  {
    sc.(hidden := !sc.hidden)
  }

  lemma {:induction false} ToggleHiddenInvolution(sc: Subcal)
    ensures ToggleHidden(ToggleHidden(sc)) == sc
  {
  }

  /** Attribute values that `setattr`/`getattr` move around. */
  datatype Value = Text(text: string) | Int(number: int) | Flag(flag: bool) | Day(day: Option<Date>)

  /** Item attribute names: "name", "desc", "remind", "completed", "date",
      "deadline", "start_date", "end_date". */
  datatype ItemAttr = Name | Desc | Remind | Completed | TaskDate | Deadline | StartDate | EndDate

  /** `getattr(item, attr)`: AttributeError when the item's class has no such attribute. */
  function GetItemAttr(it: Item, a: ItemAttr): (r: Result<Value>)
    ensures r.Err? <==> (it.Event? && a in {Completed, TaskDate, Deadline})
                        || (it.Task? && a in {StartDate, EndDate})
    ensures r.Err? ==> r.error == AttributeError
  {
    match a
    case Name => Ok(Text(it.name))
    case Desc => Ok(Text(it.desc))
    case Remind => Ok(Int(it.remind))
    case Completed => if it.Task? then Ok(Flag(it.completed)) else Err(AttributeError)
    case TaskDate => if it.Task? then Ok(Day(it.date)) else Err(AttributeError)
    case Deadline => if it.Task? then Ok(Day(it.deadline)) else Err(AttributeError)
    case StartDate => if it.Event? then Ok(Day(it.startDate)) else Err(AttributeError)
    case EndDate => if it.Event? then Ok(Day(it.endDate)) else Err(AttributeError)
  }

  predicate Fits(a: ItemAttr, v: Value) {
    match a
    case Name => v.Text?
    case Desc => v.Text?
    case Remind => v.Int?
    case Completed => v.Flag?
    case _ => v.Day?
  }

  /** `setattr(item, attr, value)` on an attribute the item has, with a value of its type. */
  function SetItemAttr(it: Item, a: ItemAttr, v: Value): (r: Result<Item>)
    ensures r.Ok? <==> GetItemAttr(it, a).Ok? && Fits(a, v)
    ensures r.Ok? ==> r.value.uid == it.uid && r.value.parent == it.parent
    ensures r.Ok? ==> r.value.Task? == it.Task?
  {
    if GetItemAttr(it, a).Err? then Err(AttributeError)
    else if !Fits(a, v) then Err(TypeError)
    else
      match a
      case Name => Ok(it.(name := v.text))
      case Desc => Ok(it.(desc := v.text))
      case Remind => Ok(it.(remind := v.number))
      case Completed => Ok(it.(completed := v.flag))
      case TaskDate => Ok(it.(date := v.day))
      case Deadline => Ok(it.(deadline := v.day))
      case StartDate => Ok(it.(startDate := v.day))
      case EndDate => Ok(it.(endDate := v.day))
  }

  /** Reading back an attribute yields what was written, and writing one
      attribute leaves every other attribute as it was. */
  lemma {:induction false} SetThenGetItemAttr(it: Item, a: ItemAttr, v: Value, b: ItemAttr)
    requires SetItemAttr(it, a, v).Ok?
    ensures GetItemAttr(SetItemAttr(it, a, v).value, a) == Ok(v)
    ensures b != a ==> GetItemAttr(SetItemAttr(it, a, v).value, b) == GetItemAttr(it, b)
  {
  }

  /** Writing back the value just read changes nothing. */
  lemma {:induction false} GetThenSetItemAttr(it: Item, a: ItemAttr)
    requires GetItemAttr(it, a).Ok?
    ensures SetItemAttr(it, a, GetItemAttr(it, a).value) == Ok(it)
  {
  }

  /** Subcalendar attribute names: "name", "color", "hidden". */
  datatype SubcalAttr = SubcalName | Color | Hidden

  function GetSubcalAttr(sc: Subcal, a: SubcalAttr): (r: Value)
    ensures a == Hidden <==> r.Flag?
  {
    match a
    case SubcalName => Text(sc.name)
    case Color => Text(sc.color)
    case Hidden => Flag(sc.hidden)
  }

  function SetSubcalAttr(sc: Subcal, a: SubcalAttr, v: Value): (r: Result<Subcal>)
    ensures r.Ok? <==> (a == Hidden <==> v.Flag?) && (a != Hidden ==> v.Text?)
    ensures r.Ok? ==> r.value.uid == sc.uid && r.value.items == sc.items
  {
    match a
    case SubcalName => if v.Text? then Ok(sc.(name := v.text)) else Err(TypeError)
    case Color => if v.Text? then Ok(sc.(color := v.text)) else Err(TypeError)
    case Hidden => if v.Flag? then Ok(sc.(hidden := v.flag)) else Err(TypeError)
  }

  lemma {:induction false} SetThenGetSubcalAttr(sc: Subcal, a: SubcalAttr, v: Value, b: SubcalAttr)
    requires SetSubcalAttr(sc, a, v).Ok?
    ensures GetSubcalAttr(SetSubcalAttr(sc, a, v).value, a) == v
    ensures b != a ==> GetSubcalAttr(SetSubcalAttr(sc, a, v).value, b) == GetSubcalAttr(sc, b)
  {
  }

  lemma {:induction false} GetThenSetSubcalAttr(sc: Subcal, a: SubcalAttr)
    ensures SetSubcalAttr(sc, a, GetSubcalAttr(sc, a)) == Ok(sc)
  {
  }
}

=== FILE: history.dfy ===
/** The earlier op log of vical/history/: ops.py and transaction.py.

  Its four op classes (`OpSetAttr`, `OpInsertItem`, `OpRemoveItem`,
  `OpMoveItem`) have the apply and revert bodies of the item ops of
  vical/core/transaction.py, so they are the item ops of `Ops`. What differs
  is where the state lives: this generation keeps the open transaction in an
  attribute `_current_tx` of the editor that may not exist yet, and the undo
  and redo stacks directly on the editor, capped by `editor.MAX_HISTORY`.

  As written, importing vical/history/transaction.py fails with NameError: the
  annotation of `record`'s parameter names `Op`, which the module does not
  import. The model describes the module as it behaves with `Op` in scope.
 */
module History {
  import opened Wrappers
  import opened Entities
  import opened Ops
  import opened Transactions

  /** The op classes of vical/history/ops.py. */
  predicate IsHistoryOp(op: Op) {
    op.SetItemAttrOp? || op.InsertItemOp? || op.RemoveItemOp? || op.MoveItemOp?
  }

  /** `editor._current_tx`: never assigned, None, or an open transaction. */
  datatype TxSlot = Unset | NoTx | Open(tx: Tx)

  /** The editor attributes the history code reads and writes, and the
      class-wide counter `Transaction._next_id`. */
  datatype Log = Log(cals: seq<Subcal>, slot: TxSlot, undo: seq<Tx>, redo: seq<Tx>, nextId: int)

  /** The same state laid out as the editor of vical/core/transaction.py:
      a missing `_current_tx` and a None one both mean no open transaction. */
  function AsEditor(log: Log): Editor {
    Editor(log.cals, History(log.undo, log.redo, if log.slot.Open? then Some(log.slot.tx) else None), log.nextId)
  }

  function AsOutcome(o: Outcome<Log>): Outcome<Editor> {
    match o
    case Done(l) => Done(AsEditor(l))
    case Raised(e, l) => Raised(e, AsEditor(l))
  }

  /** `begin_transaction(editor, label)`: RuntimeError while one is open;
      otherwise a new transaction takes the next id. */
  function Begin(log: Log, name: string): (r: Outcome<Log>)
    ensures r.Raised? <==> log.slot.Open?
    ensures r.Raised? ==> r.error == RuntimeError && r.partial == log
    ensures r.Done? ==> r.value.slot == Open(Tx(log.nextId, [], name)) && r.value.nextId > log.nextId
    ensures r.Done? ==> r.value.cals == log.cals && r.value.undo == log.undo && r.value.redo == log.redo
  {
    match log.slot
    case Open(_) => Raised(RuntimeError, log)
    case _ => Done(log.(slot := Open(Tx(log.nextId, [], name)), nextId := log.nextId + 1))
  }

  /** `record(editor, op)`: RuntimeError outside a transaction; otherwise the
      op is appended to the open one and nothing else changes. */
  function Record(log: Log, op: Op): (r: Outcome<Log>)
    ensures r.Raised? <==> !log.slot.Open?
    ensures r.Raised? ==> r.error == RuntimeError && r.partial == log
    ensures r.Done? ==> r.value == log.(slot := Open(log.slot.tx.(ops := log.slot.tx.ops + [op])))
  {
    match log.slot
    case Open(tx) => Done(log.(slot := Open(tx.(ops := tx.ops + [op]))))
    case _ => Raised(RuntimeError, log)
  }

  /** `commit_transaction(editor)` with `MAX_HISTORY` as `maxHistory`. */
  function Commit(log: Log, maxHistory: nat): (r: Log)
    ensures r.cals == log.cals && r.nextId == log.nextId && !r.slot.Open?
    ensures !log.slot.Open? ==> r == log
    ensures log.slot.Open? && log.slot.tx.ops == [] ==> r == log.(slot := NoTx)
    ensures log.slot.Open? && log.slot.tx.ops != [] ==>
      var pushed := log.undo + [log.slot.tx];
      r.redo == [] && r.slot == NoTx
      && |pushed| - 1 <= |r.undo| <= |pushed| && r.undo == pushed[|pushed| - |r.undo|..]
      && (|log.undo| <= maxHistory ==> |r.undo| <= maxHistory)
      && (maxHistory > 0 ==> r.undo != [] && r.undo[|r.undo| - 1] == log.slot.tx)
  {
    if !log.slot.Open? then log
    else if log.slot.tx.ops == [] then log.(slot := NoTx)
    else
      var pushed := log.undo + [log.slot.tx];
      log.(undo := if |pushed| > maxHistory then pushed[1..] else pushed, redo := [], slot := NoTx)
  }

  /** `after` holds `before`'s open transaction with `ops` appended, and the
      same stacks and counter. */
  ghost predicate Appended(before: Log, after: Log, ops: seq<Op>) {
    before.slot.Open?
    && after.slot == Open(before.slot.tx.(ops := before.slot.tx.ops + ops))
    && after.undo == before.undo && after.redo == before.redo && after.nextId == before.nextId
  }

  /** `set_attr(editor, item, attr, new)`: an unchanged value records and
      writes nothing; otherwise the op is recorded before the write. */
  function SetAttr(log: Log, it: Item, a: ItemAttr, v: Value): (r: Outcome<Log>)
    ensures GetItemAttr(it, a) == Ok(v) ==> r == Done(log)
    ensures GetItemAttr(it, a).Ok? && GetItemAttr(it, a) != Ok(v) && Fits(a, v) ==>
      (r.Done? <==> log.slot.Open?)
      && (r.Done? ==> Appended(log, r.value, [SetItemAttrOp(it.uid, a, GetItemAttr(it, a).value, v)]))
    ensures r.Raised? ==> r.partial == log
  {
    match GetItemAttr(it, a)
    case Err(err) => Raised(err, log)
    case Ok(prev) =>
      if prev == v then Done(log)
      else if !Fits(a, v) then Raised(TypeError, log)
      else match Record(log, SetItemAttrOp(it.uid, a, prev, v))
        case Raised(err, p) => Raised(err, p)
        case Done(l1) => Done(l1.(cals := SetInPlace(l1.cals, it.uid, a, v)))
  }

  /** `insert_item(editor, subcal, item)`: AssertionError for an attached item;
      otherwise the insertion is recorded and then made, unseen when the log
      holds no subcalendar with the uid. */
  function InsertItem(log: Log, scUid: string, it: Item): (r: Outcome<Log>)
    ensures it.parent.Some? ==> r == Raised(AssertionError, log)
    ensures it.parent.None? && !log.slot.Open? ==> r == Raised(RuntimeError, log)
    ensures r.Done? ==> Appended(log, r.value, [InsertItemOp(scUid, it)])
    ensures it.parent.None? && log.slot.Open? ==> r.Done?
    ensures r.Done? && FindSubcal(log.cals, scUid).Some? ==> Apply(InsertItemOp(scUid, it), log.cals) == Ok(r.value.cals)
    ensures r.Done? && FindSubcal(log.cals, scUid).None? ==> r.value.cals == log.cals
  {
    if it.parent.Some? then Raised(AssertionError, log)
    else match Record(log, InsertItemOp(scUid, it))
      case Raised(err, p) => Raised(err, p)
      case Done(l1) =>
        match Attach(l1.cals, scUid, it)
        case Ok(c) => Done(l1.(cals := c))
        case Err(_) => Done(l1)
  }

  /** `remove_item(editor, item)`: AssertionError for an unattached item;
      otherwise the removal is recorded and then made. */
  function RemoveItem(log: Log, it: Item): (r: Outcome<Log>)
    ensures it.parent.None? ==> r == Raised(AssertionError, log)
    ensures it.parent.Some? && !log.slot.Open? ==> r == Raised(RuntimeError, log)
    ensures r.Done? ==> Appended(log, r.value, [RemoveItemOp(it.parent.value, it)])
    ensures r.Done? ==> Apply(RemoveItemOp(it.parent.value, it), log.cals) == Ok(r.value.cals)
  {
    if it.parent.None? then Raised(AssertionError, log)
    else match Record(log, RemoveItemOp(it.parent.value, it))
      case Raised(err, p) => Raised(err, p)
      case Done(l1) =>
        match Detach(l1.cals, it.parent.value, it.uid)
        case Ok(c) => Done(l1.(cals := c))
        case Err(err) => Raised(err, l1)
  }

  /** `move_item(editor, item, dst_subcal)`: AssertionError unless the item is
      attached to a subcalendar other than the destination; a destination the
      log does not hold receives the item unseen. */
  function MoveItem(log: Log, it: Item, dstUid: string): (r: Outcome<Log>)
    ensures it.parent.None? || it.parent == Some(dstUid) ==> r == Raised(AssertionError, log)
    ensures it.parent.Some? && it.parent != Some(dstUid) && !log.slot.Open? ==> r == Raised(RuntimeError, log)
    ensures r.Done? ==> Appended(log, r.value, [MoveItemOp(it.uid, it.parent.value, dstUid)])
    ensures r.Done? ==> Detach(log.cals, it.parent.value, it.uid).Ok?
    ensures r.Done? && FindSubcal(log.cals, dstUid).None? ==> r.value.cals == Detach(log.cals, it.parent.value, it.uid).value
  {
    if it.parent.None? || it.parent.value == dstUid then Raised(AssertionError, log)
    else match Record(log, MoveItemOp(it.uid, it.parent.value, dstUid))
      case Raised(err, p) => Raised(err, p)
      case Done(l1) =>
        match Detach(l1.cals, it.parent.value, it.uid)
        case Err(err) => Raised(err, l1)
        case Ok(mid) =>
          match Attach(mid, dstUid, it)
          case Ok(c) => Done(l1.(cals := c))
          case Err(_) => Done(l1.(cals := mid))
  }

  /** `with transaction(editor, label): body`. An exception in the body sets
      `_current_tx` to None and propagates with the body's mutations in place;
      otherwise the transaction is committed. */
  function Block(log: Log, name: string, body: Log -> Outcome<Log>, maxHistory: nat): (r: Outcome<Log>)
    ensures log.slot.Open? ==> r == Raised(RuntimeError, log)
    ensures !log.slot.Open? ==>
      var started := Begin(log, name).value;
      match body(started)
      case Done(after) => r == Done(Commit(after, maxHistory))
      case Raised(err, p) => r == Raised(err, p.(slot := NoTx))
  {
    match Begin(log, name)
    case Raised(err, p) => Raised(err, p)
    case Done(started) =>
      match body(started)
      case Done(after) => Done(Commit(after, maxHistory))
      case Raised(err, p) => Raised(err, p.(slot := NoTx))
  }

  /** The history generation and the core generation agree: each helper of
      vical/history/transaction.py does to the state what its counterpart in
      vical/core/transaction.py does. */
  lemma {:induction false} ProtocolAgreesWithCore(log: Log, name: string, op: Op, maxHistory: nat)
    ensures AsOutcome(Begin(log, name)) == Transactions.Begin(AsEditor(log), name)
    ensures AsOutcome(Record(log, op)) == Transactions.Record(AsEditor(log), op)
    ensures AsEditor(Commit(log, maxHistory)) == Transactions.Commit(AsEditor(log), maxHistory)
  {
  }

  /** The mutation helpers agree with the `tx_*` helpers in the same way. */
  lemma {:induction false} HelpersAgreeWithCore(log: Log, it: Item, a: ItemAttr, v: Value, scUid: string)
    ensures AsOutcome(SetAttr(log, it, a, v)) == TxSetItemAttr(AsEditor(log), it, a, v)
    ensures AsOutcome(InsertItem(log, scUid, it)) == TxInsertItem(AsEditor(log), scUid, it)
    ensures AsOutcome(RemoveItem(log, it)) == TxRemoveItem(AsEditor(log), it)
    ensures AsOutcome(MoveItem(log, it, scUid)) == TxMoveItem(AsEditor(log), it, scUid)
  {
    SetAttrAgrees(log, it, a, v);
    InsertAgrees(log, scUid, it);
    RemoveAgrees(log, it);
    MoveAgrees(log, it, scUid);
  }

  lemma {:induction false} SetAttrAgrees(log: Log, it: Item, a: ItemAttr, v: Value)
    ensures AsOutcome(SetAttr(log, it, a, v)) == TxSetItemAttr(AsEditor(log), it, a, v)
  {
  }

  lemma {:induction false} InsertAgrees(log: Log, scUid: string, it: Item)
    ensures AsOutcome(InsertItem(log, scUid, it)) == TxInsertItem(AsEditor(log), scUid, it)
  {
  }

  lemma {:induction false} RemoveAgrees(log: Log, it: Item)
    ensures AsOutcome(RemoveItem(log, it)) == TxRemoveItem(AsEditor(log), it)
  {
  }

  lemma {:induction false} MoveAgrees(log: Log, it: Item, scUid: string)
    ensures AsOutcome(MoveItem(log, it, scUid)) == TxMoveItem(AsEditor(log), it, scUid)
  {
  }

  /** A body that raises leaves no trace in the history: the stacks are as
      before the block and no transaction is open. A body that records and
      finishes puts exactly one transaction, with the block's id and name,
      on top of the undo stack and empties the redo stack. */
  lemma {:induction false} BlockEffect(log: Log, name: string, body: Log -> Outcome<Log>, maxHistory: nat)
    requires !log.slot.Open?
    requires var after := body(Begin(log, name).value).State();
      after.undo == log.undo && after.redo == log.redo
      && (body(Begin(log, name).value).Done? ==>
            after.slot.Open? && after.slot.tx.id == log.nextId && after.slot.tx.name == name
            && after.slot.tx.ops != [])
    ensures var r := Block(log, name, body, maxHistory);
      !r.State().slot.Open?
      && (r.Raised? ==> r.State().undo == log.undo && r.State().redo == log.redo)
      && (r.Done? && maxHistory > 0 ==>
            var top := r.value.undo[|r.value.undo| - 1];
            r.value.undo != [] && top.id == log.nextId && top.name == name && r.value.redo == [])
      && (r.Done? && |log.undo| <= maxHistory ==> |r.value.undo| <= maxHistory)
  {
    var started := Begin(log, name).value;
    match body(started)
    case Done(after) =>
      var c := Commit(after, maxHistory);
      assert Block(log, name, body, maxHistory) == Done(c);
      if maxHistory > 0 {
        assert c.undo[|c.undo| - 1] == after.slot.tx;
      }
    case Raised(err, p) =>
  }

  /** Every transaction on the stacks or open has an id below the counter. */
  ghost predicate IdsBelow(log: Log) {
    IdsBelowCounter(AsEditor(log))
  }

  /** Transaction ids strictly increase: a new transaction's id exceeds every
      id already in the history, and begin, record and commit keep every id
      below the counter. */
  lemma {:induction false} IdsIncrease(log: Log, name: string, op: Op, maxHistory: nat)
    requires IdsBelow(log) && !log.slot.Open?
    ensures var tx := Begin(log, name).value.slot.tx;
      (forall k :: 0 <= k < |log.undo| ==> log.undo[k].id < tx.id)
      && (forall k :: 0 <= k < |log.redo| ==> log.redo[k].id < tx.id)
    ensures IdsBelow(Begin(log, name).value)
    ensures IdsBelow(Record(Begin(log, name).value, op).value)
    ensures IdsBelow(Commit(Record(Begin(log, name).value, op).value, maxHistory))
  {
    var e := AsEditor(log);
    Transactions.IdsIncrease(e, name, op, maxHistory);
    var b := Begin(log, name).value;
    ProtocolAgreesWithCore(log, name, op, maxHistory);
    ProtocolAgreesWithCore(b, name, op, maxHistory);
    ProtocolAgreesWithCore(Record(b, op).value, name, op, maxHistory);
  }

  /** The ops in reverse order, each replaced by the op that undoes it. */
  function MirrorsReversed(ops: seq<Op>): (r: seq<Op>)
    ensures |r| == |ops|
    ensures forall k :: 0 <= k < |ops| ==> r[k] == Mirror(ops[|ops| - 1 - k])
    decreases |ops|
  {
    if ops == [] then [] else [Mirror(ops[|ops| - 1])] + MirrorsReversed(ops[..|ops| - 1])
  }

  /** `Transaction.apply` runs the first op first: a failure there stops the
      run before the rest. */
  lemma {:induction false} ApplyAllFirst(op: Op, rest: seq<Op>, cals: seq<Subcal>)
    ensures ApplyAll([op] + rest, cals) ==
      match Apply(op, cals)
      case Err(e) => Raised(e, cals)
      case Ok(c) => ApplyAll(rest, c)
    decreases |rest|
  {
    var s := [op] + rest;
    if rest == [] {
      assert s[..0] == [];
    } else {
      var init := rest[..|rest| - 1];
      assert s[..|s| - 1] == [op] + init;
      assert s[|s| - 1] == rest[|rest| - 1];
      ApplyAllFirst(op, init, cals);
    }
  }

  /** `Transaction.revert` runs the ops in reverse order: reverting a
      transaction is applying the undoing ops from the last op back to the
      first, with the same point of failure. */
  lemma {:induction false} RevertIsReversedApply(ops: seq<Op>, cals: seq<Subcal>)
    ensures RevertAll(ops, cals) == ApplyAll(MirrorsReversed(ops), cals)
    decreases |ops|
  {
    if ops != [] {
      var last := ops[|ops| - 1];
      var init := ops[..|ops| - 1];
      RevertIsMirrorApply(last, cals);
      ApplyAllFirst(Mirror(last), MirrorsReversed(init), cals);
      match Revert(last, cals)
      case Err(_) =>
      case Ok(c) => RevertIsReversedApply(init, c);
    }
  }

  /** `OpSetAttr`: `revert` after `apply` restores the old value, and `apply`
      after `revert` restores the new one. */
  lemma {:induction false} OpSetAttrRoundTrips(cals: seq<Subcal>, uid: string, a: ItemAttr, prev: Value, next: Value)
    requires FindItem(cals, uid).Some?
    ensures var it := cals[FindItem(cals, uid).value.0].items[FindItem(cals, uid).value.1];
      var op := SetItemAttrOp(uid, a, prev, next);
      (GetItemAttr(it, a) == Ok(prev) && Apply(op, cals).Ok? ==> Revert(op, Apply(op, cals).value) == Ok(cals))
      && (GetItemAttr(it, a) == Ok(next) && Revert(op, cals).Ok? ==> Apply(op, Revert(op, cals).value) == Ok(cals))
  {
    var it := cals[FindItem(cals, uid).value.0].items[FindItem(cals, uid).value.1];
    var op := SetItemAttrOp(uid, a, prev, next);
    if GetItemAttr(it, a) == Ok(prev) && Apply(op, cals).Ok? {
      SetItemAttrRoundTrip(cals, uid, a, prev, next);
    }
    if GetItemAttr(it, a) == Ok(next) && Revert(op, cals).Ok? {
      RevertIsMirrorApply(op, cals);
      RevertIsMirrorApply(op, Revert(op, cals).value);
      SetItemAttrRoundTrip(cals, uid, a, next, prev);
    }
  }

  /** A history op naming an item or subcalendar the editor does not hold
      fails its assertion in both directions and changes nothing. */
  lemma {:induction false} UnknownUidAsserts(op: Op, cals: seq<Subcal>)
    requires IsHistoryOp(op)
    requires op.SetItemAttrOp? ==> FindItem(cals, op.itemUid).None?
    requires op.InsertItemOp? || op.RemoveItemOp? ==> FindSubcal(cals, op.subcalUid).None?
    requires op.MoveItemOp? ==>
      FindItem(cals, op.itemUid).None? || FindSubcal(cals, op.srcUid).None? || FindSubcal(cals, op.dstUid).None?
    ensures Apply(op, cals) == Err(AssertionError)
    ensures Revert(op, cals) == Err(AssertionError)
  {
  }
}

=== FILE: jsonstore.dfy ===
/** The dictionary form in which vical/storage/jsonstore.py stores items and
  subcalendars.

  A JSON value is a `Json` tree and a JSON object a `map<string, Json>`; key
  order carries no meaning and is not modelled. Dates are written as
  `"%Y%m%d"` strings. `uuid4()` is the counter oracle `Session.Uid`.
 */
module JsonStore {
  import opened Wrappers
  import opened Dates
  import opened Sorted
  import opened Entities
  import opened Ymd
  import Session

  datatype Json =
    | JNull
    | JBool(b: bool)
    | JInt(i: int)
    | JStr(s: string)
    | JList(elems: seq<Json>)
    | JObj(fields: map<string, Json>)

  type Dict = map<string, Json>

  /** The class attribute `TYPE`. */
  function TypeName(it: Item): string {
    if it.Task? then "task" else "event"
  }

  predicate OptInRange(d: Option<Date>) {
    d.Some? ==> InRange(d.value)
  }

  /** Every date the item holds is a Python `date`, as it always is in the
      program. */
  predicate Storable(it: Item) {
    match it
    case Task(_, _, date, deadline, _, _, _, _) => OptInRange(date) && OptInRange(deadline)
    case Event(_, _, start, end, _, _, _) => OptInRange(start) && OptInRange(end)
  }

  /** The entry `{key: v}` when there is a value to store, no entry otherwise. */
  function Entry(key: string, v: Option<Json>): (r: Dict)
    ensures r.Keys == if v.Some? then {key} else {}
    ensures v.Some? ==> r[key] == v.value
  {
    if v.Some? then map[key := v.value] else map[]
  }

  /** A date field's stored value: `d.strftime("%Y%m%d")` when the date is set. */
  function DateValue(d: Option<Date>): (r: Option<Json>)
    requires OptInRange(d)
    ensures r.Some? <==> d.Some?
    ensures r.Some? ==> r.value == JStr(FormatYmd(d.value))
  {
    if d.Some? then Some(JStr(FormatYmd(d.value))) else None
  }

  /** The entries every item writes: type, uid and name, then the
      description and the reminder when they are truthy. */
  function CommonEntries(it: Item): (r: Dict)
    ensures "completed" !in r && "date" !in r && "deadline" !in r && "start_date" !in r && "end_date" !in r
    ensures "type" in r && r["type"] == JStr(TypeName(it))
    ensures "uid" in r && r["uid"] == JStr(it.uid)
    ensures "name" in r && r["name"] == JStr(it.name)
    ensures "desc" in r <==> it.desc != ""
    ensures "desc" in r ==> r["desc"] == JStr(it.desc)
    ensures "remind" in r <==> it.remind != 0
  {
    map["type" := JStr(TypeName(it)), "uid" := JStr(it.uid), "name" := JStr(it.name)]
      + Entry("desc", if it.desc != "" then Some(JStr(it.desc)) else None)
      + Entry("remind", if it.remind != 0 then Some(JInt(it.remind)) else None)
  }

  /** The entries only a task writes: its date when set, its completion flag
      always, its deadline when set; the dates come already written. */
  function TaskEntries(date: Option<Json>, deadline: Option<Json>, completed: bool): (r: Dict)
    ensures "type" !in r && "uid" !in r && "name" !in r && "desc" !in r && "remind" !in r
    ensures "start_date" !in r && "end_date" !in r
    ensures "completed" in r && r["completed"] == JBool(completed)
    ensures "date" in r <==> date.Some?
    ensures "date" in r ==> r["date"] == date.value
    ensures "deadline" in r <==> deadline.Some?
    ensures "deadline" in r ==> r["deadline"] == deadline.value
  {
    var dated := Entry("date", date);
    var flagged := dated["completed" := JBool(completed)];
    var due := Entry("deadline", deadline);
    flagged + due
  }

  /** The entries only an event writes: each bound that is set. */
  function EventEntries(start: Option<Json>, end: Option<Json>): (r: Dict)
    ensures "type" !in r && "uid" !in r && "name" !in r && "desc" !in r && "remind" !in r
    ensures "date" !in r && "completed" !in r && "deadline" !in r
    ensures "start_date" in r <==> start.Some?
    ensures "start_date" in r ==> r["start_date"] == start.value
    ensures "end_date" in r <==> end.Some?
    ensures "end_date" in r ==> r["end_date"] == end.value
  {
    var from := Entry("start_date", start);
    var to := Entry("end_date", end);
    from + to
  }

  /** `calitem_to_dict(item)`: the empty description, the zero reminder and
      every unset date are left out. */
  function ItemToDict(it: Item): (r: Dict)
    requires Storable(it)
    ensures "type" in r && r["type"] == JStr(TypeName(it))
    ensures "uid" in r && r["uid"] == JStr(it.uid)
    ensures "name" in r && r["name"] == JStr(it.name)
    ensures "desc" in r <==> it.desc != ""
    ensures "desc" in r ==> r["desc"] == JStr(it.desc)
    ensures "remind" in r <==> it.remind != 0
    ensures "completed" in r <==> it.Task?
    ensures it.Task? ==> r["completed"] == JBool(it.completed)
    ensures "date" in r <==> it.Task? && it.date.Some?
    ensures "date" in r ==> r["date"] == JStr(FormatYmd(it.date.value))
    ensures "deadline" in r <==> it.Task? && it.deadline.Some?
    ensures "deadline" in r ==> r["deadline"] == JStr(FormatYmd(it.deadline.value))
    ensures "start_date" in r <==> it.Event? && it.startDate.Some?
    ensures "start_date" in r ==> r["start_date"] == JStr(FormatYmd(it.startDate.value))
    ensures "end_date" in r <==> it.Event? && it.endDate.Some?
    ensures "end_date" in r ==> r["end_date"] == JStr(FormatYmd(it.endDate.value))
  {
    var common := CommonEntries(it);
    var own := if it.Task? then TaskEntries(DateValue(it.date), DateValue(it.deadline), it.completed)
               else EventEntries(DateValue(it.startDate), DateValue(it.endDate));
    common + own
  }

  /** `data[key]` read as a string: KeyError when the key is missing. */
  function ReadStr(data: Dict, key: string): (r: Result<string>)
    ensures r.Ok? <==> key in data && data[key].JStr?
    ensures r.Ok? ==> data[key] == JStr(r.value)
    ensures key !in data ==> r == Err(KeyError)
  {
    if key !in data then Err(KeyError)
    else if data[key].JStr? then Ok(data[key].s)
    else Err(TypeError)
  }

  /** `datetime.strptime(data[key], "%Y%m%d").date()`: KeyError when the key is
      missing, TypeError when its value is not a string. */
  function ReadDate(data: Dict, key: string): (r: Result<Date>)
    ensures key !in data ==> r == Err(KeyError)
    ensures key in data && !data[key].JStr? ==> r == Err(TypeError)
    ensures key in data && data[key].JStr? ==> r == StrptimeYmd(data[key].s)
  {
    if key !in data then Err(KeyError)
    else if data[key].JStr? then StrptimeYmd(data[key].s)
    else Err(TypeError)
  }

  /** `data.get(key, default)` read as a string. */
  function GetStr(data: Dict, key: string, default: string): (r: Result<string>)
    ensures key !in data ==> r == Ok(default)
    ensures key in data ==> r == ReadStr(data, key)
  {
    if key in data then ReadStr(data, key) else Ok(default)
  }

  /** `data.get(key, False)` read as a flag. */
  function GetFlag(data: Dict, key: string): (r: Result<bool>)
    ensures key !in data ==> r == Ok(false)
    ensures key in data ==> (r.Ok? <==> data[key].JBool?)
    ensures r.Ok? && key in data ==> data[key] == JBool(r.value)
  {
    if key !in data then Ok(false)
    else if data[key].JBool? then Ok(data[key].b)
    else Err(TypeError)
  }

  /** An item as loading leaves it, parent and dates aside: a uid, no
      reminder (it is never read back), a task with a date and an event with
      both bounds in order. */
  predicate Loadable(it: Item) {
    it.uid != [] && it.remind == 0 &&
    match it
    case Task(_, _, date, _, _, _, _, _) => date.Some?
    case Event(_, _, start, end, _, _, _) => start.Some? && end.Some? && start.value <= end.value
  }

  /** `calitem_from_dict(data)`, with `newUid` the oracle's answer should the
      stored uid be empty. The fields are read in the order the source reads
      them, so the first failing one names the exception. */
  function ItemFromDict(data: Dict, newUid: string): (r: Result<Item>)
    requires newUid != []
    ensures !("type" in data && data["type"] in {JStr("task"), JStr("event")}) ==> r == Err(ValueError)
    ensures "type" in data && data["type"] == JStr("task") && "uid" !in data && "deadline" !in data ==>
      r == Err(KeyError)
    ensures r.Ok? ==> Storable(r.value) && Loadable(r.value) && r.value.parent.None?
    ensures r.Ok? ==> "name" in data && JStr(TypeName(r.value)) == data["type"] && JStr(r.value.name) == data["name"]
    ensures r.Ok? ==> "uid" in data && (data["uid"] != JStr("") ==> JStr(r.value.uid) == data["uid"])
  {
    var kind := if "type" in data then data["type"] else JNull;
    if kind == JStr("task") then
      var deadline :- if "deadline" in data then
                        var d :- ReadDate(data, "deadline"); Ok(Some(d))
                      else Ok(None);
      var uid :- ReadStr(data, "uid");
      var name :- ReadStr(data, "name");
      var date :- ReadDate(data, "date");
      var completed :- GetFlag(data, "completed");
      var desc :- GetStr(data, "desc", "");
      Ok(NewTask(Some(uid), newUid, name, Some(date), deadline, completed, desc, 0))
    else if kind == JStr("event") then
      var uid :- ReadStr(data, "uid");
      var name :- ReadStr(data, "name");
      var start :- ReadDate(data, "start_date");
      var end :- ReadDate(data, "end_date");
      var desc :- GetStr(data, "desc", "");
      NewEvent(Some(uid), newUid, name, Some(start), Some(end), desc, 0)
    else Err(ValueError)
  }

  /** What survives a save and a load: everything but the reminder, and the
      parent, which the subcalendar sets again. */
  function Stored(it: Item): (r: Item)
    ensures r.uid == it.uid && r.name == it.name && r.desc == it.desc && r.Task? == it.Task?
    ensures r.remind == 0 && r.parent.None?
  {
    it.(remind := 0, parent := None)
  }

  /** A task with a date and an event with both bounds in order come back from
      their dictionary with every field but the reminder and the parent. */
  lemma {:induction false} ItemRoundTrip(it: Item, newUid: string)
    requires newUid != [] && Storable(it) && it.uid != []
    requires it.Task? ==> it.date.Some?
    requires it.Event? ==> it.startDate.Some? && it.endDate.Some? && it.startDate.value <= it.endDate.value
    ensures ItemFromDict(ItemToDict(it), newUid) == Ok(Stored(it))
  {
    if it.Task? {
      TaskRoundTrip(it, newUid);
    } else {
      EventRoundTrip(it, newUid);
    }
  }

  /** A written date reads back as itself. */
  lemma {:induction false} ReadWrittenDate(d: Dict, key: string, date: Date)
    requires InRange(date) && key in d && d[key] == JStr(FormatYmd(date))
    ensures ReadDate(d, key) == Ok(date)
  {
    StrptimeReadsWritten(date);
  }

  /** The fields of a task dictionary, once read, make the task. */
  lemma {:induction false} TaskReads(d: Dict, newUid: string, uid: string, name: string, date: Date,
                  deadline: Option<Date>, completed: bool, desc: string)
    requires newUid != [] && "type" in d && d["type"] == JStr("task")
    requires "deadline" in d <==> deadline.Some?
    requires deadline.Some? ==> ReadDate(d, "deadline") == Ok(deadline.value)
    requires ReadStr(d, "uid") == Ok(uid) && ReadStr(d, "name") == Ok(name) && ReadDate(d, "date") == Ok(date)
    requires GetFlag(d, "completed") == Ok(completed) && GetStr(d, "desc", "") == Ok(desc)
    ensures ItemFromDict(d, newUid) == Ok(NewTask(Some(uid), newUid, name, Some(date), deadline, completed, desc, 0))
  {
  }

  /** The fields of an event dictionary, once read, make the event. */
  lemma {:induction false} EventReads(d: Dict, newUid: string, uid: string, name: string, start: Date, end: Date, desc: string)
    requires newUid != [] && "type" in d && d["type"] == JStr("event")
    requires ReadStr(d, "uid") == Ok(uid) && ReadStr(d, "name") == Ok(name)
    requires ReadDate(d, "start_date") == Ok(start) && ReadDate(d, "end_date") == Ok(end)
    requires GetStr(d, "desc", "") == Ok(desc)
    ensures ItemFromDict(d, newUid) == NewEvent(Some(uid), newUid, name, Some(start), Some(end), desc, 0)
  {
  }

  /** What loading reads back from a saved task's dictionary. */
  lemma {:induction false} TaskDictReads(it: Item)
    requires Storable(it) && it.Task? && it.date.Some?
    ensures var d := ItemToDict(it);
      && "type" in d && d["type"] == JStr("task")
      && ("deadline" in d <==> it.deadline.Some?)
      && (it.deadline.Some? ==> ReadDate(d, "deadline") == Ok(it.deadline.value))
      && ReadStr(d, "uid") == Ok(it.uid) && ReadStr(d, "name") == Ok(it.name)
      && ReadDate(d, "date") == Ok(it.date.value)
      && GetFlag(d, "completed") == Ok(it.completed) && GetStr(d, "desc", "") == Ok(it.desc)
  {
    var d := ItemToDict(it);
    ReadWrittenDate(d, "date", it.date.value);
    if it.deadline.Some? {
      ReadWrittenDate(d, "deadline", it.deadline.value);
    }
  }

  /** What loading reads back from a saved event's dictionary. */
  lemma {:induction false} EventDictReads(it: Item)
    requires Storable(it) && it.Event? && it.startDate.Some? && it.endDate.Some?
    ensures var d := ItemToDict(it);
      && "type" in d && d["type"] == JStr("event")
      && ReadStr(d, "uid") == Ok(it.uid) && ReadStr(d, "name") == Ok(it.name)
      && ReadDate(d, "start_date") == Ok(it.startDate.value) && ReadDate(d, "end_date") == Ok(it.endDate.value)
      && GetStr(d, "desc", "") == Ok(it.desc)
  {
    var d := ItemToDict(it);
    ReadWrittenDate(d, "start_date", it.startDate.value);
    ReadWrittenDate(d, "end_date", it.endDate.value);
  }

  lemma {:induction false} TaskRoundTrip(it: Item, newUid: string)
    requires newUid != [] && Storable(it) && it.uid != [] && it.Task? && it.date.Some?
    ensures ItemFromDict(ItemToDict(it), newUid) == Ok(Stored(it))
  {
    TaskDictReads(it);
    TaskReads(ItemToDict(it), newUid, it.uid, it.name, it.date.value, it.deadline, it.completed, it.desc);
    Rebuilt(it, newUid);
  }

  lemma {:induction false} EventRoundTrip(it: Item, newUid: string)
    requires newUid != [] && Storable(it) && it.uid != [] && it.Event?
    requires it.startDate.Some? && it.endDate.Some? && it.startDate.value <= it.endDate.value
    ensures ItemFromDict(ItemToDict(it), newUid) == Ok(Stored(it))
  {
    EventDictReads(it);
    EventReads(ItemToDict(it), newUid, it.uid, it.name, it.startDate.value, it.endDate.value, it.desc);
    Rebuilt(it, newUid);
  }

  /** The constructors called with an item's own fields, no reminder and its
      non-empty uid give the item back as stored. */
  lemma {:induction false} Rebuilt(it: Item, newUid: string)
    requires newUid != [] && it.uid != []
    requires it.Event? ==> it.startDate.Some? && it.endDate.Some? && it.startDate.value <= it.endDate.value
    ensures it.Task? ==> NewTask(Some(it.uid), newUid, it.name, it.date, it.deadline, it.completed, it.desc, 0) == Stored(it)
    ensures it.Event? ==> NewEvent(Some(it.uid), newUid, it.name, it.startDate, it.endDate, it.desc, 0) == Ok(Stored(it))
  {
  }

  /** Loading is stable: whatever a dictionary loads as, saving and loading it
      again yields the same item. */
  lemma {:induction false} ReloadIsIdentity(data: Dict, newUid: string)
    requires newUid != [] && ItemFromDict(data, newUid).Ok?
    ensures ItemFromDict(ItemToDict(ItemFromDict(data, newUid).value), newUid) == ItemFromDict(data, newUid)
  {
    ItemRoundTrip(ItemFromDict(data, newUid).value, newUid);
  }

  /** A task without a date is saved without a "date" key, which loading
      requires: it cannot be read back. The same holds for an event missing
      either bound. */
  lemma {:induction false} UndatedItemsDoNotLoad(it: Item, newUid: string)
    requires newUid != [] && Storable(it)
    requires it.Task? ==> it.date.None?
    requires it.Event? ==> it.startDate.None? || it.endDate.None?
    ensures ItemFromDict(ItemToDict(it), newUid) == Err(KeyError)
  {
    if it.Task? {
      UndatedTaskDoesNotLoad(it, newUid);
    } else {
      UnboundedEventDoesNotLoad(it, newUid);
    }
  }

  lemma {:induction false} UndatedTaskDoesNotLoad(it: Item, newUid: string)
    requires newUid != [] && Storable(it) && it.Task? && it.date.None?
    ensures ItemFromDict(ItemToDict(it), newUid) == Err(KeyError)
  {
    var d := ItemToDict(it);
    if it.deadline.Some? {
      StrptimeReadsWritten(it.deadline.value);
      assert d["deadline"] == JStr(FormatYmd(it.deadline.value));
    }
  }

  lemma {:induction false} UnboundedEventDoesNotLoad(it: Item, newUid: string)
    requires newUid != [] && Storable(it) && it.Event? && (it.startDate.None? || it.endDate.None?)
    ensures ItemFromDict(ItemToDict(it), newUid) == Err(KeyError)
  {
    var d := ItemToDict(it);
    if it.startDate.Some? {
      StrptimeReadsWritten(it.startDate.value);
      assert d["start_date"] == JStr(FormatYmd(it.startDate.value));
    }
  }

  /** `[calitem_to_dict(item) for item in items]`. */
  function ItemDicts(items: seq<Item>): (r: seq<Json>)
    requires forall it :: it in items ==> Storable(it)
    ensures |r| == |items|
    ensures forall i :: 0 <= i < |items| ==> r[i] == JObj(ItemToDict(items[i]))
  {
    seq(|items|, i requires 0 <= i < |items| => JObj(ItemToDict(items[i])))
  }

  /** The keys of a four-entry map display. */
  lemma {:induction false} FourKeys<V>(a: string, b: string, c: string, d: string, va: V, vb: V, vc: V, vd: V)
    ensures map[a := va, b := vb, c := vc, d := vd].Keys == {a, b, c, d}
  {
  }

  /** `subcal_to_dict(sc)`: the hidden flag is not written. */
  function SubcalToDict(sc: Subcal): (r: Dict)
    requires forall it :: it in sc.items ==> Storable(it)
    ensures r.Keys == {"uid", "name", "color", "items"}
    ensures r["uid"] == JStr(sc.uid) && r["name"] == JStr(sc.name) && r["color"] == JStr(sc.color)
    ensures r["items"].JList? && |r["items"].elems| == |sc.items|
  {
    var items := JList(ItemDicts(sc.items));
    var m := map["uid" := JStr(sc.uid), "name" := JStr(sc.name), "color" := JStr(sc.color), "items" := items];
    FourKeys("uid", "name", "color", "items", JStr(sc.uid), JStr(sc.name), JStr(sc.color), items);
    assert m["uid"] == JStr(sc.uid) && m["name"] == JStr(sc.name) && m["color"] == JStr(sc.color) && m["items"] == items;
    m
  }

  /** The loop of `subcal_from_dict` over `elems`: each element is loaded and
      inserted in turn, the `k`-th with the oracle's answer `Uid(next + k)`. A
      non-dictionary element has no `.get` and raises AttributeError. */
  function LoadItems(sc: Subcal, elems: seq<Json>, next: nat): (r: Result<Subcal>)
    requires ItemsSorted(sc.items)
    ensures r.Ok? ==> r.value == sc.(items := r.value.items)
    ensures r.Ok? ==> ItemsSorted(r.value.items) && |r.value.items| == |sc.items| + |elems|
    ensures r.Ok? ==> forall it :: it in r.value.items && it !in sc.items ==> it.parent == Some(sc.uid)
    decreases |elems|
  {
    if elems == [] then Ok(sc)
    else
      var prev :- LoadItems(sc, elems[..|elems| - 1], next);
      var last := elems[|elems| - 1];
      if !last.JObj? then Err(AttributeError)
      else
        var it :- ItemFromDict(last.fields, Session.Uid(next + |elems| - 1));
        var r := InsertItem(prev, it);
        assert forall x :: x in r.items ==> x in prev.items || x == WithParent(it, Some(sc.uid)) by {
          forall x | x in r.items
            ensures x in prev.items || x == WithParent(it, Some(sc.uid))
          {
            assert x in multiset(r.items);
          }
        }
        Ok(r)
  }

  /** What `for item_data in data.get("items", [])` iterates: a list's
      elements; an empty dictionary or string gives nothing. A non-empty one
      yields strings, which have no `.get` (AttributeError in
      `calitem_from_dict`), and any other value is not iterable (TypeError). */
  function ItemElems(data: Dict): (r: Result<seq<Json>>)
    ensures "items" !in data ==> r == Ok([])
    ensures "items" in data && data["items"].JList? ==> r == Ok(data["items"].elems)
    ensures "items" in data && data["items"] in {JObj(map[]), JStr("")} ==> r == Ok([])
    ensures "items" in data && (data["items"].JObj? || data["items"].JStr?) && data["items"] !in {JObj(map[]), JStr("")}
            ==> r == Err(AttributeError)
    ensures "items" in data && (data["items"].JNull? || data["items"].JBool? || data["items"].JInt?) ==> r == Err(TypeError)
  {
    if "items" !in data then Ok([])
    else match data["items"]
      case JList(e) => Ok(e)
      case JObj(f) => if f == map[] then Ok([]) else Err(AttributeError)
      case JStr(t) => if t == "" then Ok([]) else Err(AttributeError)
      case _ => Err(TypeError)
  }

  /** No item is stored under `"items"`: the key is absent or holds an empty
      list, dictionary or string. */
  predicate NoItemsStored(data: Dict) {
    "items" !in data || data["items"] in {JList([]), JObj(map[]), JStr("")}
  }

  /** `subcal_from_dict(data)`, the subcalendar's own uid drawn as
      `Uid(counter)` if needed and its items' from `counter + 1` on. */
  function SubcalFromDict(data: Dict, counter: nat): (r: Result<Subcal>)
    ensures "uid" !in data ==> r == Err(KeyError)
    ensures "uid" in data && data["uid"].JStr? && "name" !in data ==> r == Err(KeyError)
    ensures ReadStr(data, "uid").Ok? && ReadStr(data, "name").Ok? && GetStr(data, "color", DefaultColor).Ok?
            ==> (ItemElems(data).Err? ==> r == Err(ItemElems(data).error))
    ensures r.Ok? ==> !r.value.hidden && ItemsSorted(r.value.items) && r.value.uid != []
    ensures r.Ok? ==> "name" in data && JStr(r.value.name) == data["name"]
    ensures r.Ok? ==> ("color" in data ==> data["color"] == JStr(r.value.color))
    ensures r.Ok? ==> ("color" !in data ==> r.value.color == DefaultColor)
    ensures r.Ok? ==> (r.value.items == [] <==> NoItemsStored(data))
  {
    var uid :- ReadStr(data, "uid");
    var name :- ReadStr(data, "name");
    var color :- GetStr(data, "color", DefaultColor);
    var sc := NewSubcal(Some(uid), Session.Uid(counter), name, color);
    var elems :- ItemElems(data);
    LoadItems(sc, elems, counter + 1)
  }

  /** The elements of `elems` load, one by one with the uids `Uid(next + k)`,
      as `items` without their parent. */
  predicate LoadsAs(elems: seq<Json>, items: seq<Item>, next: nat) {
    |elems| == |items| &&
    forall k :: 0 <= k < |elems| ==>
      elems[k].JObj? && ItemFromDict(elems[k].fields, Session.Uid(next + k)) == Ok(items[k].(parent := None))
  }

  /** Loading elements that load as the members of a sorted list, into an
      empty subcalendar whose uid is their parent, rebuilds exactly that list. */
  lemma {:induction false} LoadSortedItems(base: Subcal, elems: seq<Json>, items: seq<Item>, next: nat)
    requires base.items == [] && ItemsSorted(items) && LoadsAs(elems, items, next)
    requires forall it :: it in items ==> it.parent == Some(base.uid)
    ensures LoadItems(base, elems, next) == Ok(base.(items := items))
    decreases |items|
  {
    if items != [] {
      var n := |items| - 1;
      var init, x := items[..n], items[n];
      assert init + [x] == items;
      SortedPrefix(init, x);
      LoadsAsSplit(elems, items, next);
      assert forall it :: it in init ==> it.parent == Some(base.uid) by {
        forall it | it in init ensures it.parent == Some(base.uid) { assert it in items; }
      }
      LoadSortedItems(base, elems[..n], init, next);
      assert x.parent == Some(base.uid) by { assert x in items; }
      LoadSortedStep(base, elems, init, x, next);
    }
  }

  /** Elements that load as a list split into a prefix that loads as the
      list's prefix and a last element that loads as its last member. */
  lemma {:induction false} LoadsAsSplit(elems: seq<Json>, items: seq<Item>, next: nat)
    requires LoadsAs(elems, items, next) && items != []
    ensures LoadsAs(elems[..|items| - 1], items[..|items| - 1], next)
    ensures elems[|elems| - 1].JObj?
    ensures ItemFromDict(elems[|elems| - 1].fields, Session.Uid(next + |elems| - 1))
            == Ok(items[|items| - 1].(parent := None))
  {
    var n := |items| - 1;
    assert ItemFromDict(elems[n].fields, Session.Uid(next + n)) == Ok(items[n].(parent := None));
  }

  /** The last element of such a list loads and lands after the others. */
  lemma {:induction false} LoadSortedStep(base: Subcal, elems: seq<Json>, init: seq<Item>, x: Item, next: nat)
    requires base.items == [] && ItemsSorted(init + [x]) && x.parent == Some(base.uid)
    requires elems != [] && elems[|elems| - 1].JObj?
    requires ItemFromDict(elems[|elems| - 1].fields, Session.Uid(next + |elems| - 1)) == Ok(x.(parent := None))
    requires LoadItems(base, elems[..|elems| - 1], next) == Ok(base.(items := init))
    ensures LoadItems(base, elems, next) == Ok(base.(items := init + [x]))
  {
    var prev := base.(items := init);
    LoadLast(base, elems, next, prev, elems[|elems| - 1].fields, x.(parent := None));
    AppendInOrder(prev, x);
  }

  /** The saved items load back as themselves without their parent. */
  lemma {:induction false} SavedItemsLoad(items: seq<Item>, next: nat)
    requires forall it :: it in items ==> Storable(it) && Loadable(it)
    ensures LoadsAs(ItemDicts(items), items, next)
  {
    var elems := ItemDicts(items);
    forall k | 0 <= k < |elems|
      ensures elems[k].JObj? && ItemFromDict(elems[k].fields, Session.Uid(next + k)) == Ok(items[k].(parent := None))
    {
      assert items[k] in items;
      LoadOne(items[k], Session.Uid(next + k));
    }
  }

  /** The prefix of a sorted list is sorted. */
  lemma {:induction false} SortedPrefix(init: seq<Item>, x: Item)
    requires ItemsSorted(init + [x])
    ensures ItemsSorted(init)
  {
    assert forall i :: 0 <= i < |init| ==> (init + [x])[i] == init[i];
  }

  /** A saved item that carries no reminder loads back without its parent. */
  lemma {:induction false} LoadOne(x: Item, newUid: string)
    requires newUid != [] && Storable(x) && Loadable(x)
    ensures ItemFromDict(ItemToDict(x), newUid) == Ok(x.(parent := None))
  {
    ItemRoundTrip(x, newUid);
  }

  /** One step of the loading loop, when the earlier elements loaded. */
  lemma {:induction false} LoadLast(sc: Subcal, elems: seq<Json>, next: nat, prev: Subcal, d: Dict, it: Item)
    requires ItemsSorted(sc.items) && elems != []
    requires LoadItems(sc, elems[..|elems| - 1], next) == Ok(prev)
    requires elems[|elems| - 1] == JObj(d)
    requires ItemFromDict(d, Session.Uid(next + |elems| - 1)) == Ok(it)
    ensures LoadItems(sc, elems, next) == Ok(InsertItem(prev, it))
  {
  }

  /** Inserting an item that sorts after all others appends it. */
  lemma {:induction false} AppendInOrder(prev: Subcal, x: Item)
    requires ItemsSorted(prev.items + [x]) && x.parent == Some(prev.uid)
    ensures InsertItem(prev, x.(parent := None)) == prev.(items := prev.items + [x])
  {
    assert WithParent(x.(parent := None), Some(prev.uid)) == x;
    SortBySortedIsIdentity(prev.items + [x], SortKey);
  }

  /** A saved subcalendar loads back as itself, made visible: hidden is not
      saved. The items must be in sorted order, as `insert_item` keeps them,
      and each must be loadable and carry no reminder. */
  lemma {:induction false} SubcalRoundTrip(sc: Subcal, counter: nat)
    requires sc.uid != [] && ItemsSorted(sc.items)
    requires forall it :: it in sc.items ==> Storable(it) && Loadable(it) && it.parent == Some(sc.uid)
    ensures SubcalFromDict(SubcalToDict(sc), counter) == Ok(sc.(hidden := false))
  {
    var base := NewSubcal(Some(sc.uid), Session.Uid(counter), sc.name, sc.color);
    assert base == sc.(hidden := false, items := []);
    SavedItemsLoad(sc.items, counter + 1);
    LoadSortedItems(base, ItemDicts(sc.items), sc.items, counter + 1);
  }
}

=== FILE: keyparser.dfy ===
/** The key feeder of vical/input/keyparser.py: count digits and the two key
  slots in normal mode, dispatch through the key map, and the Ex command line.

  The key map and the Ex command map are built by functions that are not part
  of the repository, so both are parameters: the key map takes a key to one
  of the normal-mode handlers and its flags, the Ex map is the set of known
  command names, and running a known Ex command is an oracle.

  One departure from the code as written is logged as a finding: a key with
  no entry in the map makes `nvmap.get` return None, and unpacking None into
  `cmd, flags` raises TypeError (`LookupAsWritten`); the `if cmd:` test right
  after shows that an unmapped key was meant to be ignored (`Lookup`).
 */
module KeyParser {
  import opened Wrappers
  import opened Text
  import Entities
  import Registers
  import opened Motions
  import opened CmdArgs
  import opened Session
  import Normal

  const Esc: int := 27
  /** `curses.KEY_BACKSPACE` in ncurses. */
  const KeyBackspace: int := 263

  predicate IsEnter(key: int) { key == 10 || key == 13 }
  predicate IsBackspace(key: int) { key == KeyBackspace || key == 127 || key == 8 }

  /** Flag bits of a key-map entry. */
  const NextKey: nat := 1
  const NextKeyNoOp: nat := 2
  const KeepReg: nat := 3

  /** `flags & NEXT_KEY`. */
  predicate WaitsForNextKey(flags: nat) {
    flags % 2 == 1
  }

  /** `KEEP_REG` is 3, so it carries the NEXT_KEY bit as well; NEXT_KEY_NO_OP
      does not. */
  lemma {:induction false} FlagBits()
    ensures WaitsForNextKey(NextKey) && WaitsForNextKey(KeepReg) && !WaitsForNextKey(NextKeyNoOp)
  {
  }

  /** The normal-mode handlers a key can be bound to. */
  datatype NvCmd =
    | EscCmd | DateLeft | DateRight | DateUp | DateDown | ItemUp | ItemDown
    | GCmd | Goto | Ungoto | MonthStart | MonthEnd | WeekStart | WeekEnd
    | OperatorCmd | TaskCmd

  type KeyMap = map<string, (NvCmd, nat)>

  /** The key parser: the argument record and editor, the Ex input line with
      its label, and the error notices shown so far. */
  datatype Parser = Parser(x: Step, inputBuffer: string, inputLabel: string, notices: seq<string>)

  /** `chr(key)`: Python raises ValueError outside 0..0x10FFFF. */
  function Chr(key: int): (r: Option<char>)
    ensures r.Some? ==> r.value as int == key
    ensures 0 <= key < 0xD800 || 0xE000 <= key < 0x110000 ==> r.Some?
    ensures key < 0 || key >= 0x110000 ==> r.None?
  {
    if 0 <= key < 0xD800 || 0xE000 <= key < 0x110000 then Some(key as char) else None
  }

  /** `get_pending_keys`: what the prompt shows while keys accumulate. */
  function PendingKeys(p: Parser): (r: Option<string>)
    ensures p.x.args.mode in {Normal, Visual} ==>
      r == Some(p.x.args.countBuffer + p.x.args.opPendingKey + p.x.args.key)
    ensures p.x.args.mode == ExCmd ==> r == Some(p.inputBuffer)
    ensures p.x.args.mode !in {Normal, Visual, ExCmd} ==> r.None?
  {
    var a := p.x.args;
    if a.mode == Normal || a.mode == Visual then Some(a.countBuffer + a.opPendingKey + a.key)
    else if a.mode == ExCmd then Some(p.inputBuffer)
    else None
  }

  // ------------------------------------------------------------- findings

  /** `cmd, flags = nvmap.get(key)` as written: unpacking the None returned for
      an unmapped key raises TypeError. */
  function LookupAsWritten(keymap: KeyMap, key: string): (r: Result<(NvCmd, nat)>)
    ensures key in keymap <==> r.Ok?
    ensures r.Ok? ==> r.value == keymap[key]
    ensures r.Err? ==> r.error == TypeError
  {
    if key in keymap then Ok(keymap[key]) else Err(TypeError)
  }

  /** The lookup as the `if cmd:` test intends it: no entry, no command. */
  function Lookup(keymap: KeyMap, key: string): (r: Option<(NvCmd, nat)>)
    ensures key in keymap <==> r.Some?
    ensures r.Some? ==> r.value == keymap[key] && LookupAsWritten(keymap, key) == Ok(r.value)
  {
    if key in keymap then Some(keymap[key]) else None
  }

  /** As written, any key the map does not bind raises; as intended, it
      changes nothing but the key slot it was stored in. */
  lemma {:induction false} UnmappedKey(p: Parser, k: char, keymap: KeyMap, inMotion: Motion -> seq<Entities.Item>)
    requires Registers.Writable(p.x.st.regs.regs)
    requires p.x.args.mode != ExCmd && p.x.args.key == "" && [k] !in keymap && !('0' <= k <= '9')
    ensures LookupAsWritten(keymap, [k]) == Err(TypeError)
    ensures Feed(p, k as int, keymap, {}, (n, y) => Done(y), inMotion)
            == Done(p.(x := p.x.(args := p.x.args.(key := [k]))))
  {
  }

  // ------------------------------------------------------------ dispatch

  /** Calls the handler a key is bound to. */
  function Run(cmd: NvCmd, x: Step, inMotion: Motion -> seq<Entities.Item>): Outcome<Step>
    requires Registers.Writable(x.st.regs.regs)
  {
    match cmd
    case EscCmd => Done(ResetEditor(x))
    case GCmd => Normal.NvGCmd(x, inMotion)
    case OperatorCmd => Normal.NvOperator(x)
    case TaskCmd => Normal.NvTask(x)
    case _ => RunMotion(cmd, x, inMotion)
  }

  /** The handlers of the motion keys. */
  function RunMotion(cmd: NvCmd, x: Step, inMotion: Motion -> seq<Entities.Item>): Outcome<Step>
    requires Registers.Writable(x.st.regs.regs)
    requires !cmd.EscCmd? && !cmd.GCmd? && !cmd.OperatorCmd? && !cmd.TaskCmd?
  {
    match cmd
    case DateLeft => Normal.DateStep(x, -1, inMotion)
    case DateRight => Normal.DateStep(x, 1, inMotion)
    case DateUp => Normal.DateStep(x, -7, inMotion)
    case DateDown => Normal.DateStep(x, 7, inMotion)
    case ItemUp => Normal.ItemStep(x, -1, inMotion)
    case ItemDown => Normal.ItemStep(x, 1, inMotion)
    case Goto => Normal.NvGoto(x, inMotion)
    case Ungoto => Normal.NvUngoto(x, inMotion)
    case MonthStart => Normal.NvMonthStart(x, inMotion)
    case MonthEnd => Normal.NvMonthEnd(x, inMotion)
    case WeekStart => Normal.NvWeekStart(x, inMotion)
    case WeekEnd => Normal.NvWeekEnd(x, inMotion)
  }

  /** The key slots after one more key: the first empty slot takes
      `chr(key)`, which raises ValueError for a code that is no character;
      with both slots full the record is cleared and the key dropped without
      ever being converted. */
  function StoreKey(a: Args, key: int): (r: Result<Args>)
    ensures a.key == "" ==> r == (if Chr(key).Some? then Ok(a.(key := [Chr(key).value])) else Err(ValueError))
    ensures a.key != "" && a.nextKey == "" ==>
      r == (if Chr(key).Some? then Ok(a.(nextKey := [Chr(key).value])) else Err(ValueError))
    ensures a.key != "" && a.nextKey != "" ==> r == Ok(Clear(a))
  {
    if a.key == "" then
      match Chr(key)
      case Some(c) => Ok(a.(key := [c]))
      case None => Err(ValueError)
    else if a.nextKey == "" then
      match Chr(key)
      case Some(c) => Ok(a.(nextKey := [c]))
      case None => Err(ValueError)
    else Ok(Clear(a))
  }

  /** `_feed_normal_mode`: a digit while no motion is stored extends the count;
      any other key is stored and, when bound, dispatched unless its command
      waits for a second key; after a dispatch the key slots are emptied. */
  function FeedNormal(p: Parser, key: int, keymap: KeyMap, inMotion: Motion -> seq<Entities.Item>): (r: Outcome<Parser>)
    requires Registers.Writable(p.x.st.regs.regs)
    ensures '0' as int <= key <= '9' as int && p.x.args.motion.None? ==>
      r == Done(p.(x := p.x.(args := p.x.args.(countBuffer := p.x.args.countBuffer + [key as char]))))
    ensures !('0' as int <= key <= '9' as int && p.x.args.motion.None?) ==>
      (StoreKey(p.x.args, key).Err? ==> r == Raised(ValueError, p))
    ensures Chr(key).None? && (p.x.args.key == "" || p.x.args.nextKey == "") ==> r == Raised(ValueError, p)
  {
    if '0' as int <= key <= '9' as int && p.x.args.motion.None? then
      Done(p.(x := p.x.(args := p.x.args.(countBuffer := p.x.args.countBuffer + [key as char]))))
    else
      match StoreKey(p.x.args, key)
      case Err(_) => Raised(ValueError, p)
      case Ok(a) =>
        var x1 := p.x.(args := a);
        match Lookup(keymap, a.key)
        case None => Done(p.(x := x1))
        case Some((cmd, flags)) =>
          if WaitsForNextKey(flags) && a.nextKey == "" then Done(p.(x := x1))
          else
            match Run(cmd, x1, inMotion)
            case Done(y) => Done(p.(x := y.(args := ClearKeys(y.args))))
            case Raised(err, y) => Raised(err, p.(x := y))
  }

  /** A command that waits for a second key stores the first and does
      nothing else. */
  lemma {:induction false} FirstKeyWaits(p: Parser, k1: char, cmd: NvCmd, flags: nat,
                          keymap: KeyMap, inMotion: Motion -> seq<Entities.Item>)
    requires Registers.Writable(p.x.st.regs.regs)
    requires p.x.args.key == "" && p.x.args.nextKey == "" && !('0' <= k1 <= '9')
    requires [k1] in keymap && keymap[[k1]] == (cmd, flags) && WaitsForNextKey(flags)
    ensures FeedNormal(p, k1 as int, keymap, inMotion) == Done(p.(x := p.x.(args := p.x.args.(key := [k1]))))
  {
    assert Chr(k1 as int) == Some(k1);
    assert StoreKey(p.x.args, k1 as int) == Ok(p.x.args.(key := [k1]));
  }

  /** With a bound first key stored, the second key runs its command with
      both keys in place, and the key slots are empty afterwards. */
  lemma {:induction false} SecondKeyDispatch(q: Parser, k2: char, keymap: KeyMap, inMotion: Motion -> seq<Entities.Item>)
    requires Registers.Writable(q.x.st.regs.regs)
    requires q.x.args.key in keymap && q.x.args.key != "" && q.x.args.nextKey == "" && !('0' <= k2 <= '9')
    ensures var x2 := q.x.(args := q.x.args.(nextKey := [k2]));
      var cmd := keymap[q.x.args.key].0;
      var r := FeedNormal(q, k2 as int, keymap, inMotion);
      (Run(cmd, x2, inMotion).Done? ==>
         r == Done(q.(x := Run(cmd, x2, inMotion).value.(args := ClearKeys(Run(cmd, x2, inMotion).value.args)))))
      && (Run(cmd, x2, inMotion).Raised? ==> r.Raised? && r.partial.x == Run(cmd, x2, inMotion).partial)
  {
    assert Chr(k2 as int) == Some(k2);
    var a2 := StoreKey(q.x.args, k2 as int).value;
    assert a2 == q.x.args.(nextKey := [k2]) && Lookup(keymap, a2.key) == Some(keymap[q.x.args.key]);
  }

  /** "gg" with the g prefix bound to wait for a second key is goto. */
  lemma {:induction false} GGIsGoto(p: Parser, keymap: KeyMap, inMotion: Motion -> seq<Entities.Item>)
    requires Registers.Writable(p.x.st.regs.regs)
    requires p.x.args.key == "" && p.x.args.nextKey == "" && p.x.args.motion.None?
    requires "g" in keymap && keymap["g"] == (GCmd, NextKey)
    ensures var q := FeedNormal(p, 'g' as int, keymap, inMotion).value;
      var x2 := q.x.(args := q.x.args.(nextKey := "g"));
      FeedNormal(q, 'g' as int, keymap, inMotion).Done? <==> Normal.NvGoto(x2, inMotion).Done?
  {
    FirstKeyWaits(p, 'g', GCmd, NextKey, keymap, inMotion);
    var q := FeedNormal(p, 'g' as int, keymap, inMotion).value;
    SecondKeyDispatch(q, 'g', keymap, inMotion);
    RunG(q.x.(args := q.x.args.(nextKey := "g")), inMotion);
  }

  /** The g prefix with "g" as its second key runs goto. */
  lemma {:induction false} RunG(x: Step, inMotion: Motion -> seq<Entities.Item>)
    requires Registers.Writable(x.st.regs.regs) && x.args.nextKey == "g"
    ensures Run(GCmd, x, inMotion) == Normal.NvGoto(x, inMotion)
  {
    assert Run(GCmd, x, inMotion) == Normal.NvGCmd(x, inMotion);
    assert Normal.NvGCmd(x, inMotion) == Normal.NvGoto(x, inMotion);
  }

  /** A key arriving with both slots full clears the whole record first, so
      the key itself is lost, never converted (even a code that is no
      character raises nothing), and the empty key is looked up. */
  lemma {:induction false} ThirdKeyClears(p: Parser, k: int, keymap: KeyMap, inMotion: Motion -> seq<Entities.Item>)
    requires Registers.Writable(p.x.st.regs.regs)
    requires p.x.args.key != "" && p.x.args.nextKey != "" && !('0' as int <= k <= '9' as int)
    requires "" !in keymap
    ensures FeedNormal(p, k, keymap, inMotion) == Done(p.(x := p.x.(args := Clear(p.x.args))))
  {
  }

  // ---------------------------------------------------------- Ex command

  /** `_exit_command_mode`. */
  function ExitCommandMode(p: Parser): (r: Parser)
    ensures r.x.args.mode == Normal && r.inputBuffer == "" && r.inputLabel == ""
    ensures r.x.st == p.x.st && r.notices == p.notices
  {
    p.(x := p.x.(args := p.x.args.(mode := Normal)), inputBuffer := "", inputLabel := "")
  }

  /** The command word of a stripped, non-blank command line and the words of
      the rest: `split(maxsplit=1)` and then `parts[1].split()`, or no
      parameters when there is only one part. */
  function SplitCommand(line: string): (r: (string, seq<string>))
    requires line != [] && !IsSpace(line[0])
    ensures r.0 != [] && |r.0| <= |line| && r.0 == line[..|r.0|]
    ensures forall i :: 0 <= i < |r.0| ==> !IsSpace(r.0[i])
    ensures |r.0| < |line| ==> IsSpace(line[|r.0|])
    ensures r.1 == Words(line[|r.0|..])
  {
    var w := TakeWord(line);
    (w, Words(line[|w|..]))
  }

  /** `_execute_ex_command`: a known name runs, an unknown one adds a notice
      and runs nothing. */
  function ExecuteExCommand(p: Parser, name: string, exmap: set<string>,
                            runEx: (string, Step) -> Outcome<Step>): (r: Outcome<Parser>)
    ensures name !in exmap ==> r == Done(p.(notices := p.notices + ["Unknown command: " + name]))
    ensures name in exmap ==> r.State().x == runEx(name, p.x).State() && r.State().notices == p.notices
  {
    if name in exmap then
      match runEx(name, p.x)
      case Done(y) => Done(p.(x := y))
      case Raised(err, y) => Raised(err, p.(x := y))
    else Done(p.(notices := p.notices + ["Unknown command: " + name]))
  }

  /** `_feed_command_mode`. */
  function FeedCommand(p: Parser, key: int, exmap: set<string>,
                       runEx: (string, Step) -> Outcome<Step>): (r: Outcome<Parser>)
    ensures key == Esc ==> r == Done(ExitCommandMode(p))
    ensures IsEnter(key) && Strip(p.inputBuffer) == "" ==> r == Done(ExitCommandMode(p))
    ensures IsBackspace(key) && p.inputBuffer == "" ==> r == Done(ExitCommandMode(p))
    ensures IsBackspace(key) && p.inputBuffer != "" ==>
      r == Done(p.(inputBuffer := p.inputBuffer[..|p.inputBuffer| - 1]))
  {
    if key == Esc then Done(ExitCommandMode(p))
    else if IsEnter(key) then
      var line := Strip(p.inputBuffer);
      if line == "" then Done(ExitCommandMode(p))
      else
        var (name, params) := SplitCommand(line);
        var p1 := p.(x := p.x.(args := p.x.args.(exParams := Some(params))));
        match ExecuteExCommand(p1, name, exmap, runEx)
        case Done(q) => Done(ExitCommandMode(q))
        case Raised(err, q) => Raised(err, q)
    else if IsBackspace(key) then
      if p.inputBuffer != "" then Done(p.(inputBuffer := p.inputBuffer[..|p.inputBuffer| - 1]))
      else Done(ExitCommandMode(p))
    else
      match Chr(key)
      case None => Raised(ValueError, p)
      case Some(c) => Done(p.(inputBuffer := p.inputBuffer + [c]))
  }

  /** `feed`: the command line in Ex mode, the normal-mode feeder otherwise. */
  function Feed(p: Parser, key: int, keymap: KeyMap, exmap: set<string>,
                runEx: (string, Step) -> Outcome<Step>, inMotion: Motion -> seq<Entities.Item>): (r: Outcome<Parser>)
    requires Registers.Writable(p.x.st.regs.regs)
    ensures p.x.args.mode == ExCmd ==> r == FeedCommand(p, key, exmap, runEx)
    ensures p.x.args.mode != ExCmd ==> r == FeedNormal(p, key, keymap, inMotion)
  {
    if p.x.args.mode == ExCmd then FeedCommand(p, key, exmap, runEx)
    else FeedNormal(p, key, keymap, inMotion)
  }

  /** An ordinary character (not Escape, Enter or a backspace code) typed on
      the command line is appended, and a backspace takes it off again. */
  lemma {:induction false} TypeThenErase(p: Parser, c: char, exmap: set<string>, runEx: (string, Step) -> Outcome<Step>)
    requires Plain(c)
    ensures FeedCommand(p, c as int, exmap, runEx) == Done(p.(inputBuffer := p.inputBuffer + [c]))
    ensures FeedCommand(FeedCommand(p, c as int, exmap, runEx).value, KeyBackspace, exmap, runEx) == Done(p)
  {
    assert (p.inputBuffer + [c])[..|p.inputBuffer|] == p.inputBuffer;
  }

  /** The characters of `s` typed one by one on the command line. */
  function TypeAll(p: Parser, s: string, exmap: set<string>, runEx: (string, Step) -> Outcome<Step>): (r: Outcome<Parser>)
    decreases |s|
  {
    if s == [] then Done(p)
    else
      match FeedCommand(p, s[0] as int, exmap, runEx)
      case Done(q) => TypeAll(q, s[1..], exmap, runEx)
      case Raised(err, q) => Raised(err, q)
  }

  /** A character that is neither Escape, Enter nor a backspace code. */
  predicate Plain(c: char) {
    c as int != Esc && !IsEnter(c as int) && !IsBackspace(c as int)
  }

  /** Typing plain characters appends exactly them to the command line. */
  lemma {:induction false} TypeAllAppends(p: Parser, s: string, exmap: set<string>, runEx: (string, Step) -> Outcome<Step>)
    requires forall i :: 0 <= i < |s| ==> Plain(s[i])
    ensures TypeAll(p, s, exmap, runEx) == Done(p.(inputBuffer := p.inputBuffer + s))
    decreases |s|
  {
    if s != [] {
      var q := p.(inputBuffer := p.inputBuffer + [s[0]]);
      assert Chr(s[0] as int) == Some(s[0]);
      assert FeedCommand(p, s[0] as int, exmap, runEx) == Done(q);
      TypeAllAppends(q, s[1..], exmap, runEx);
      assert p.inputBuffer + [s[0]] + s[1..] == p.inputBuffer + s;
    } else {
      assert p.inputBuffer + s == p.inputBuffer;
    }
  }

  /** Typing a command line from empty and pressing Enter runs its first word
      with the whitespace-separated rest as parameters, or reports the word
      as unknown, and returns to normal mode. */
  lemma {:induction false} EnterRunsCommand(p: Parser, s: string, exmap: set<string>, runEx: (string, Step) -> Outcome<Step>)
    requires p.inputBuffer == "" && forall i :: 0 <= i < |s| ==> Plain(s[i])
    requires Strip(s) != ""
    ensures TypeAll(p, s, exmap, runEx).Done?
    ensures var q := TypeAll(p, s, exmap, runEx).value;
      var (name, params) := SplitCommand(Strip(s));
      var r := FeedCommand(q, 13, exmap, runEx);
      (name !in exmap ==> r.Done? && r.value.x.st == p.x.st
                          && r.value.notices == p.notices + ["Unknown command: " + name]
                          && r.value.x.args == p.x.args.(exParams := Some(params), mode := Normal))
      && (name in exmap && runEx(name, p.x.(args := p.x.args.(exParams := Some(params)))).Done? ==>
            r.Done? && r.value.inputBuffer == "" && r.value.x.args.mode == Normal
            && r.value.x.st == runEx(name, p.x.(args := p.x.args.(exParams := Some(params)))).value.st)
  {
    TypeAllAppends(p, s, exmap, runEx);
    assert "" + s == s;
    EnterLine(p.(inputBuffer := s), exmap, runEx);
  }

  /** Enter on a non-blank command line runs or reports its first word with
      the rest as parameters and returns to normal mode. */
  lemma {:induction false} EnterLine(q: Parser, exmap: set<string>, runEx: (string, Step) -> Outcome<Step>)
    requires Strip(q.inputBuffer) != ""
    ensures var (name, params) := SplitCommand(Strip(q.inputBuffer));
      var r := FeedCommand(q, 13, exmap, runEx);
      var x1 := q.x.(args := q.x.args.(exParams := Some(params)));
      (name !in exmap ==> r.Done? && r.value.x.st == q.x.st
                          && r.value.notices == q.notices + ["Unknown command: " + name]
                          && r.value.x.args == q.x.args.(exParams := Some(params), mode := Normal))
      && (name in exmap && runEx(name, x1).Done? ==>
            r.Done? && r.value.inputBuffer == "" && r.value.x.args.mode == Normal
            && r.value.x.st == runEx(name, x1).value.st)
  {
  }
}

=== FILE: modeinput.dfy ===
/** The key handlers of NORMAL and OPERATOR_PENDING mode of the vical/core
  generation: `normal_input` of vical/input/normal.py and
  `operator_pending_input` of vical/input/operator.py.

  The commands of vical/core/commands.py that these handlers call (undo,
  new task, delete, rename, ...) open curses prompts and snapshot the editor;
  they are not part of this model and are the parameter `run`. The movement
  commands are the ones of `CoreMovement`.
 */
module ModeInput {
  import opened Wrappers
  import opened Dates
  import opened Text
  import KeyParser
  import opened CoreEditor
  import CoreMovement

  /** The curses codes of the arrow keys. */
  const KeyDown: int := 258
  const KeyUp: int := 259
  const KeyLeft: int := 260
  const KeyRight: int := 261
  const Space: int := 32

  /** The commands of vical/core/commands.py the handlers call. */
  datatype Cmd = Undo | Redo | NewTask | MarkComplete | YankTask | PasteTask | HideSubcal | DeleteTask | RenameTask

  /** The entries of `NORMAL_KEYS`: a command, or a subcalendar cycle. */
  datatype Action = Run(cmd: Cmd) | PrevSubcal | NextSubcal

  /** `OPERATOR_KEYS`. */
  predicate IsOperatorKey(key: int) {
    key == 'd' as int || key == 'c' as int || key == 'g' as int
  }

  predicate IsDigitKey(key: int) {
    '0' as int <= key <= '9' as int
  }

  /** `MOTIONS`: the day offset of a motion key. */
  function MotionOf(key: int): (r: Option<int>)
    ensures r.Some? ==> r.value in {-1, 1, -7, 7}
  {
    if key == 'h' as int || key == KeyLeft then Some(-1)
    else if key == 'l' as int || key == KeyRight then Some(1)
    else if key == 'k' as int || key == KeyUp then Some(-7)
    else if key == 'j' as int || key == KeyDown then Some(7)
    else None
  }

  /** `NORMAL_KEYS`. */
  function ActionOf(key: int): Option<Action> {
    if key == 'u' as int then Some(Run(Undo))
    else if key == 'U' as int then Some(Run(Redo))
    else if key == 'T' as int then Some(Run(NewTask))
    else if key == Space then Some(Run(MarkComplete))
    else if key == 'y' as int then Some(Run(YankTask))
    else if key == 'p' as int then Some(Run(PasteTask))
    else if key == 'z' as int then Some(Run(HideSubcal))
    else if key == '[' as int then Some(PrevSubcal)
    else if key == ']' as int then Some(NextSubcal)
    else None
  }

  function Perform(a: Action, ed: Editor, run: (Cmd, Editor) -> Editor): Editor {
    match a
    case Run(c) => run(c, ed)
    case PrevSubcal => CoreMovement.PrevSubcal(ed)
    case NextSubcal => CoreMovement.NextSubcal(ed)
  }

  /** The key tables do not overlap, and none of them holds ESC, ':' or a
      digit, so the order of the tests in `normal_input` only matters for
      keys no table holds. */
  lemma {:induction false} KeyTablesDisjoint(key: int)
    ensures IsOperatorKey(key) ==> MotionOf(key).None? && ActionOf(key).None?
    ensures MotionOf(key).Some? ==> ActionOf(key).None?
    ensures key == KeyParser.Esc || key == ':' as int || IsDigitKey(key) ==>
      !IsOperatorKey(key) && MotionOf(key).None? && ActionOf(key).None?
  {
  }

  /** `normal_input(editor, key)`. */
  function NormalInput(ed: Editor, key: int, run: (Cmd, Editor) -> Editor): (r: Editor)
    ensures key == KeyParser.Esc ==> r == ed.(operator := "", count := "")
    ensures key == ':' as int ==> r == ed.(mode := Command)
    ensures IsDigitKey(key) ==> r == ed.(count := ed.count + [key as char])
    ensures IsOperatorKey(key) ==> r == ed.(operator := [key as char], mode := OperatorPending)
    ensures MotionOf(key).Some? ==>
      r.selectedDate == ed.selectedDate + MotionOf(key).value * CoreMovement.CountOf(ed)
      && r.count == "" && r.operator == ed.operator && r.mode == ed.mode
    ensures ActionOf(key).Some? ==> r.count == ""
    ensures (key != KeyParser.Esc && key != ':' as int && !IsDigitKey(key) && !IsOperatorKey(key)
             && MotionOf(key).None? && ActionOf(key).None?) ==> r == ed
  {
    if key == KeyParser.Esc then ed.(operator := "", count := "")
    else if key == ':' as int then ed.(mode := Command)
    else if IsDigitKey(key) then ed.(count := ed.count + [key as char])
    else if IsOperatorKey(key) then ed.(operator := [key as char], mode := OperatorPending)
    else if MotionOf(key).Some? then CoreMovement.Move(ed, MotionOf(key).value).(count := "")
    else match ActionOf(key)
      case Some(a) => Perform(a, ed, run).(count := "")
      case None => ed
  }

  /** The keys of a digit string. */
  function DigitKeys(s: Digits): (r: seq<int>)
    ensures |r| == |s|
    ensures forall i :: 0 <= i < |r| ==> IsDigitKey(r[i])
  {
    seq(|s|, i requires 0 <= i < |s| => s[i] as int)
  }

  /** The editor after a sequence of keys in normal mode. */
  function FeedNormal(ed: Editor, keys: seq<int>, run: (Cmd, Editor) -> Editor): Editor
    decreases |keys|
  {
    if keys == [] then ed else FeedNormal(NormalInput(ed, keys[0], run), keys[1..], run)
  }

  /** Typing a number appends its digits to the count and does nothing else. */
  lemma {:induction false} TypedCount(ed: Editor, s: Digits, run: (Cmd, Editor) -> Editor)
    ensures FeedNormal(ed, DigitKeys(s), run) == ed.(count := ed.count + s)
    decreases |s|
  {
    if s != [] {
      FirstDigit(ed, s, run);
      TypedCount(ed.(count := ed.count + [s[0]]), s[1..], run);
      assert ed.count + [s[0]] + s[1..] == ed.count + s;
    }
  }

  /** The first digit of a number goes to the count before the others. */
  lemma {:induction false} FirstDigit(ed: Editor, s: Digits, run: (Cmd, Editor) -> Editor)
    requires s != []
    ensures FeedNormal(ed, DigitKeys(s), run) == FeedNormal(ed.(count := ed.count + [s[0]]), DigitKeys(s[1..]), run)
  {
    var keys := DigitKeys(s);
    assert (keys[0] as char) == s[0];
    assert keys[1..] == DigitKeys(s[1..]);
  }

  /** A typed count scales the motion that follows it: "3" then `j` moves
      three weeks, and the count is gone afterwards. */
  lemma {:induction false} CountThenMotion(ed: Editor, s: Digits, key: int, run: (Cmd, Editor) -> Editor)
    requires ed.count == "" && s != [] && MotionOf(key).Some?
    ensures var r := FeedNormal(ed, DigitKeys(s) + [key], run);
      r.selectedDate == ed.selectedDate + MotionOf(key).value * Value(s) && r.count == ""
  {
    var counted := ed.(count := s);
    FeedAppend(ed, DigitKeys(s), [key], run);
    TypedCount(ed, s, run);
    assert ed.count + s == s;
    assert FeedNormal(counted, [key], run) == NormalInput(counted, key, run);
  }

  lemma {:induction false} FeedAppend(ed: Editor, a: seq<int>, b: seq<int>, run: (Cmd, Editor) -> Editor)
    ensures FeedNormal(ed, a + b, run) == FeedNormal(FeedNormal(ed, a, run), b, run)
    decreases |a|
  {
    if a != [] {
      assert (a + b)[0] == a[0] && (a + b)[1..] == a[1..] + b;
      FeedAppend(NormalInput(ed, a[0], run), a[1..], b, run);
    } else {
      assert a + b == b;
    }
  }

  /** `operator_pending_input(editor, key)` with `today` for the date `gg`
      falls back to. The operator is taken and cleared and the mode set back
      to NORMAL before anything else. After `g`, the keys `h` and `l` call
      `visual_left` and `visual_right`, which vical/core/movement.py does not
      define (AttributeError), and `k` and `j` call its `visual_up` and
      `visual_down`, which raise NameError on a day with tasks. */
  function OperatorInput(ed: Editor, key: int, run: (Cmd, Editor) -> Editor, today: Date): (r: Outcome<Editor>)
    ensures var base := ed.(operator := "", mode := Normal);
      && (key == KeyParser.Esc ==> r == Done(base.(count := "")))
      && (key != KeyParser.Esc && ed.operator == "d" ==>
            r == Done(if key == 'd' as int then run(DeleteTask, base) else base))
      && (key != KeyParser.Esc && ed.operator == "c" ==>
            r == Done(if key == 'w' as int then run(RenameTask, base) else base))
      && (key != KeyParser.Esc && ed.operator !in {"d", "c", "g"} ==> r == Done(base))
    ensures key != KeyParser.Esc && ed.operator == "g" ==>
      var base := ed.(operator := "", mode := Normal);
      && (key == 'g' as int ==> r == Done(CoreMovement.Goto(base, today)))
      && (key == 'h' as int || key == 'l' as int ==> r == Raised(AttributeError, base))
      && (key !in {'g' as int, 'h' as int, 'l' as int, 'k' as int, 'j' as int} ==> r == Done(base))
  {
    var op := ed.operator;
    var base := ed.(operator := "", mode := Normal);
    if key == KeyParser.Esc then Done(base.(count := ""))
    else if op == "d" then Done(if key == 'd' as int then run(DeleteTask, base) else base)
    else if op == "c" then Done(if key == 'w' as int then run(RenameTask, base) else base)
    else if op == "g" then GotoOperator(base, key, today)
    else Done(base)
  }

  /** `_operator_goto(editor, key)`. */
  function GotoOperator(ed: Editor, key: int, today: Date): Outcome<Editor> {
    if key == 'g' as int then Done(CoreMovement.Goto(ed, today))
    else if key == 'h' as int || key == 'l' as int then Raised(AttributeError, ed)
    else if key == 'k' as int then CoreMovement.VisualUpAsWritten(ed, |SelectedDayTasks(ed)|)
    else if key == 'j' as int then CoreMovement.VisualDownAsWritten(ed, |SelectedDayTasks(ed)|)
    else Done(ed)
  }

  /** The two-key commands from normal mode: `dd` deletes and `cw` renames
      with no operator left pending, `gg` goes to the count's date, and ESC
      after an operator cancels it together with the count. */
  lemma {:induction false} OperatorPairs(ed: Editor, run: (Cmd, Editor) -> Editor, today: Date)
    ensures var pending := NormalInput(ed, 'd' as int, run);
      OperatorInput(pending, 'd' as int, run, today) == Done(run(DeleteTask, ed.(operator := "", mode := Normal)))
    ensures var pending := NormalInput(ed, 'c' as int, run);
      OperatorInput(pending, 'w' as int, run, today) == Done(run(RenameTask, ed.(operator := "", mode := Normal)))
    ensures var pending := NormalInput(ed, 'g' as int, run);
      OperatorInput(pending, 'g' as int, run, today) == Done(CoreMovement.Goto(ed.(operator := "", mode := Normal), today))
    ensures var pending := NormalInput(ed, 'd' as int, run);
      OperatorInput(pending, KeyParser.Esc, run, today) == Done(ed.(operator := "", mode := Normal, count := ""))
  {
  }
}

=== FILE: motions.dfy ===
/** Motion values of vical/commands/motions.py: a start and an end, either two
  dates or two item indices, with expansion to the covered range and scaling
  by a count.
 */
module Motions {
  import opened Dates

  datatype Motion = DateMotion(start: Date, end: Date) | ItemMotion(start: int, end: int)

  /** `normalized()`: the two ends in ascending order. */
  function Normalized(m: Motion): (r: (int, int))
    ensures r.0 <= r.1
    ensures (r.0 == m.start && r.1 == m.end) || (r.0 == m.end && r.1 == m.start)
  {
    if m.start <= m.end then (m.start, m.end) else (m.end, m.start)
  }

  /** The integers `lo..hi` inclusive: `list(range(lo, hi + 1))`. */
  function Range(lo: int, hi: int): (r: seq<int>)
    ensures |r| == if hi < lo then 0 else hi - lo + 1
    ensures forall i :: 0 <= i < |r| ==> r[i] == lo + i
    decreases hi - lo
  {
    if hi < lo then [] else Range(lo, hi - 1) + [hi]
  }

  /** `DateMotion.expand`: every date from the earlier end to the later one,
      collected one day at a time. */
  method ExpandDates(m: Motion) returns (dates: seq<Date>)
    requires m.DateMotion?
    ensures dates == Range(Normalized(m).0, Normalized(m).1)
  {
    var (start, end) := Normalized(m);
    var current := start;
    dates := [];
    while current <= end
      invariant start <= current <= end + 1
      invariant dates == Range(start, current - 1)
      decreases end - current
    {
      dates := dates + [current];
      current := current + 1;
    }
  }

  /** `ItemMotion.expand`. */
  function ExpandItems(m: Motion): (r: seq<int>)
    requires m.ItemMotion?
    ensures |r| == Normalized(m).1 - Normalized(m).0 + 1
    ensures forall i :: 0 <= i < |r| ==> r[i] == Normalized(m).0 + i
  {
    Range(Normalized(m).0, Normalized(m).1)
  }

  /** `DateMotion.days`: the number of days spanned, both ends included. */
  function Days(m: Motion): (n: int)
    ensures n >= 1
    ensures n == if m.start <= m.end then m.end - m.start + 1 else m.start - m.end + 1
  {
    Normalized(m).1 - Normalized(m).0 + 1
  }

  /** The expansion of a motion has exactly `days` elements and holds exactly
      the values between its two ends. */
  lemma {:induction false} ExpandMatchesDays(m: Motion)
    ensures |Range(Normalized(m).0, Normalized(m).1)| == Days(m)
    ensures forall d :: d in Range(Normalized(m).0, Normalized(m).1) <==> Normalized(m).0 <= d <= Normalized(m).1
  {
    var (lo, hi) := Normalized(m);
    var r := Range(lo, hi);
    forall d | lo <= d <= hi ensures d in r {
      assert r[d - lo] == d;
    }
  }

  /** `scale(n)`, also `m * n` and `n * m`: the start stays, the displacement is
      multiplied, and the kind is kept. */
  function Scale(m: Motion, n: int): (r: Motion)
    ensures r.DateMotion? <==> m.DateMotion?
    ensures r.start == m.start && r.end - r.start == n * (m.end - m.start)
  {
    match m
    case DateMotion(s, e) => DateMotion(s, s + (e - s) * n)
    case ItemMotion(s, e) => ItemMotion(s, s + (e - s) * n)
  }

  /** Scaling by one is the identity, and scaling twice multiplies the counts. */
  lemma {:induction false} ScaleLaws(m: Motion, a: int, b: int)
    ensures Scale(m, 1) == m
    ensures Scale(Scale(m, a), b) == Scale(m, a * b)
  {
    var d := m.end - m.start;
    assert (d * a) * b == d * (a * b);
  }

  /** A scaled date motion spans `|n|` times the displacement, plus the start day. */
  lemma {:induction false} ScaleDays(m: Motion, n: int)
    requires m.DateMotion?
    ensures Days(Scale(m, n)) == (if n * (m.end - m.start) >= 0 then n * (m.end - m.start) else -(n * (m.end - m.start))) + 1
  {
  }
}

=== FILE: normal.dfy ===
/** The normal-mode command pipeline of vical/commands/normal.py: date and item
  motions scaled by the count buffer, the `g` prefix, goto and ungoto, month
  and week jumps, the operator grammar and the task command.

  Each handler takes the key parser's argument record and the editor state
  together and returns them, or the exception it raises with both as they were
  at the raise. Three departures from the code as written are logged as
  findings, and the corrected behaviour is what the handlers here do:
  - a plain motion leaves `motion_count` set, so the next motion without a
    count is scaled by the old one (`PlainMotionEndAsWritten`, corrected in
    `PlainMotionEnd`);
  - the repeated-task step spaces its dates by the unscaled motion's `days`
    (`TaskDatesAsWritten`, corrected in `TaskDates`);
  - task creation inserts items with no transaction open, even once the
    missing import, the swapped arguments of its calendar.py helper and the
    item constructor's keywords are repaired (`CreateTasksAsWritten`, corrected by `CalendarCmds.DoCreateInBlock`).

  The visual-selection branch of `nv_operator` tests `op_pending_key is None`,
  which never holds because "no operator" is the empty string, so it is not
  part of the model.
 */
module Normal {
  import opened Wrappers
  import opened Dates
  import opened Text
  import opened Ops
  import opened Transactions
  import Registers
  import opened Motions
  import opened CmdArgs
  import opened Session
  import opened DateParse
  import opened CalendarCmds
  import opened Operators

  /** The name a task gets when no text was typed. */
  const NewTaskName: string := "New Task"

  /** No count typed, no count left over, nothing pending: the record after
      `clear()` or after a plain motion. */
  predicate Idle(a: Args) {
    a.countBuffer == "" && a.motionCount == 1 && !a.motionPending && a.opPendingKey == ""
  }

  /** The multiplier `_handle_motion` scales by: the typed count, or the
      stored one when nothing was typed. */
  function CountOf(a: Args): int {
    if a.countBuffer != "" then Value(a.countBuffer) else a.motionCount
  }

  // ------------------------------------------------------------ findings

  /** The end of a plain motion as written: the motion is dropped but its
      count stays in `motion_count`. */
  function PlainMotionEndAsWritten(a: Args): (r: Args)
    ensures r.motion.None? && r.motionCount == a.motionCount
  {
    a.(motion := None)
  }

  /** The end of a plain motion as intended: the count is used up with the
      motion, as `clear()` does after every other command. */
  function PlainMotionEnd(a: Args): (r: Args)
    ensures r.motion.None? && r.motionCount == 1
    ensures r.(motionCount := a.motionCount) == PlainMotionEndAsWritten(a)
  {
    a.(motion := None, motionCount := 1)
  }

  /** The dates `_execute_task_motion` creates on as written: `repeats` dates
      from the motion's start, spaced by `days` of the motion before scaling,
      which counts both of its ends. */
  function TaskDatesAsWritten(m: Motion, repeats: int): (r: seq<Date>)
    ensures |r| == if repeats < 0 then 0 else repeats
  {
    MotionToDateInterval(m, repeats)
  }

  /** The dates as the docstring describes them ("3T5l" makes three tasks five
      days apart): `repeats` dates from the motion's start, each the scaled
      motion's displacement after the one before. */
  function TaskDates(m: Motion, count: int, repeats: int): (r: seq<Date>)
    ensures |r| == if repeats < 0 then 0 else repeats
    ensures forall i :: 0 <= i < |r| ==> r[i] == m.start + i * (Scale(m, count).end - m.start)
  {
    var step := Scale(m, count).end - m.start;
    seq(if repeats < 0 then 0 else repeats, i => m.start + i * step)
  }

  /** Task creation as written, with the missing `vical.commands.tx` import,
      the swapped `tx_insert_item` arguments of vical/commands/calendar.py
      and the keywords of `create_task_instance` repaired (the task built
      unattached): the insertions run with no transaction of their own. */
  function CreateTasksAsWritten(s: State, dates: seq<Date>, name: string, sub: Option<string>): (r: Outcome<State>)
    ensures dates == [] ==> r == Done(s)
  {
    match CreateIn(s.core, TaskKind, dates, name, sub, s.uidCounter)
    case Done(c) => Done(s.(core := c, uidCounter := s.uidCounter + |dates|))
    case Raised(err, p) => Raised(err, s.(core := p))
  }

  /** From normal mode no transaction is ever open, so creating any task
      (with the calendar.py import and argument order repaired) raises:
      AttributeError without a selected subcalendar, RuntimeError from
      `record` otherwise, and nothing changes. */
  lemma {:induction false} TaskCreationAsWrittenRaises(s: State, dates: seq<Date>, name: string, sub: Option<string>)
    requires s.core.history.current.None? && dates != []
    ensures CreateTasksAsWritten(s, dates, name, sub)
            == Raised(if sub.None? then AttributeError else RuntimeError, s)
  {
  }

  /** "3T5l" as written: three tasks two days apart, since the unscaled motion
      `l` spans two days; as intended, five days apart. */
  lemma {:induction false} TaskDatesDiffer(d: Date)
    ensures TaskDatesAsWritten(DateMotion(d, d + 1), 3) == [d, d + 2, d + 4]
    ensures TaskDates(DateMotion(d, d + 1), 5, 3) == [d, d + 5, d + 10]
  {
    var w := TaskDatesAsWritten(DateMotion(d, d + 1), 3);
    assert w[1] == d + 2 && w[2] == d + 4;
  }

  // -------------------------------------------------------------- motions

  /** `_handle_motion`: a typed count becomes `motion_count`; the motion scaled
      by it is applied (a date motion drops the item anchor, an item motion
      drops the date anchor and restarts from the first item); then a pending
      task step or operator runs, or the motion ends. `None * n` raises
      TypeError. */
  function HandleMotion(x: Step, inMotion: Motion -> seq<Entities.Item>): (r: Outcome<Step>)
    requires Registers.Writable(x.st.regs.regs)
    ensures x.args.motion.None? ==> r.Raised? && r.error == TypeError && r.partial.st == x.st
    ensures x.args.motion.Some? && !x.args.motionPending && x.args.opPendingKey == "" ==>
      var m := x.args.motion.value;
      var target := m.start + CountOf(x.args) * (m.end - m.start);
      r.Done? && Idle(r.value.args) && r.value.args.motion.None?
      && r.value.st.core == x.st.core && r.value.st.regs == x.st.regs
      && (m.DateMotion? ==> r.value.st == x.st.(selectedDate := target, anchorItem := None))
      && (m.ItemMotion? ==> r.value.st == x.st.(itemIndex := target, anchorDate := None))
    ensures x.args.motion.Some? && x.args.motionPending ==>
      r.State().st.regs == x.st.regs && (r.Done? ==> !r.value.args.motionPending)
  {
    var a1 := if x.args.countBuffer != "" then x.args.(motionCount := Value(x.args.countBuffer), countBuffer := "") else x.args;
    match a1.motion
    case None => Raised(TypeError, x.(args := a1))
    case Some(m) =>
      var scaled := Scale(m, a1.motionCount);
      var st1 := if scaled.DateMotion? then x.st.(anchorItem := None) else x.st.(anchorDate := None, itemIndex := 0);
      var x2 := Step(a1, ApplyMotion(st1, scaled));
      if a1.motionPending then
        match ExecuteTaskMotion(x2)
        case Done(y) => Done(y.(args := y.args.(motionPending := false)))
        case Raised(err, y) => Raised(err, y)
      else if a1.opPendingKey != "" then ExecuteOperatorMotion(x2, inMotion)
      else Done(x2.(args := PlainMotionEnd(a1)))
  }

  /** `nv_date_left`, `nv_date_right`, `nv_date_up`, `nv_date_down`: a date
      move of -1, 1, -7 or 7 days. */
  function DateStep(x: Step, delta: int, inMotion: Motion -> seq<Entities.Item>): Outcome<Step>
    requires Registers.Writable(x.st.regs.regs)
  {
    HandleMotion(x.(args := x.args.(motion := Some(DateMove(x.st, delta)))), inMotion)
  }

  /** `nv_item_up`, `nv_item_down`: an item move of -1 or 1. */
  function ItemStep(x: Step, delta: int, inMotion: Motion -> seq<Entities.Item>): Outcome<Step>
    requires Registers.Writable(x.st.regs.regs)
  {
    HandleMotion(x.(args := x.args.(motion := Some(ItemMove(x.st, delta)))), inMotion)
  }

  /** A count multiplies a date move: "3j" from day D selects D + 21, the
      count is used up, and nothing but the selection changes. */
  lemma {:induction false} CountScalesDateStep(x: Step, delta: int, inMotion: Motion -> seq<Entities.Item>)
    requires Registers.Writable(x.st.regs.regs)
    requires x.args.countBuffer != "" && !x.args.motionPending && x.args.opPendingKey == ""
    ensures var r := DateStep(x, delta, inMotion);
      r.Done? && r.value.st.selectedDate == x.st.selectedDate + Value(x.args.countBuffer) * delta
      && Idle(r.value.args) && r.value.st.core == x.st.core
  {
  }

  /** The example: with "3" typed, moving down a week selects the day three
      weeks on. */
  lemma {:induction false} ThreeWeeksDown(x: Step, inMotion: Motion -> seq<Entities.Item>)
    requires Registers.Writable(x.st.regs.regs)
    requires x.args.countBuffer == "3" && !x.args.motionPending && x.args.opPendingKey == ""
    ensures DateStep(x, 7, inMotion).Done?
    ensures DateStep(x, 7, inMotion).value.st.selectedDate == x.st.selectedDate + 21
  {
    var s: Digits := "3";
    assert s[..0] == [];
    assert Value(s) == 3;
  }

  /** As written, the count of one plain motion scales the next one: after
      "3l" a bare "l" moves three days again. With the motion's count used up
      the bare "l" moves one day. */
  lemma {:induction false} StickyCountAsWritten(x: Step, inMotion: Motion -> seq<Entities.Item>)
    requires Registers.Writable(x.st.regs.regs)
    requires x.args.countBuffer == "3" && !x.args.motionPending && x.args.opPendingKey == ""
    ensures var first := DateStep(x, 1, inMotion).value;
      var kept := first.(args := first.args.(motionCount := 3));
      kept.args == PlainMotionEndAsWritten(first.args.(motionCount := 3))
      && DateStep(kept, 1, inMotion).value.st.selectedDate == x.st.selectedDate + 6
      && DateStep(first, 1, inMotion).value.st.selectedDate == x.st.selectedDate + 4
  {
    var s: Digits := "3";
    assert s[..0] == [];
    assert Value(s) == 3;
  }

  /** As written, a leftover count also scales a jump to a fixed day: after
      "3l", `gg` on the 10th lands on the 10th minus 27 days rather than the
      1st. With the count used up it lands on the 1st. */
  lemma {:induction false} StickyCountScalesJump(x: Step, inMotion: Motion -> seq<Entities.Item>)
    requires Registers.Writable(x.st.regs.regs)
    requires x.args.countBuffer == "" && x.args.motionCount == 3
    requires !x.args.motionPending && x.args.opPendingKey == ""
    requires InPythonRange(ToCivil(x.st.selectedDate)) && ToCivil(x.st.selectedDate).day == 10
    ensures NvMonthStart(x, inMotion).Done?
    ensures NvMonthStart(x, inMotion).value.st.selectedDate == x.st.selectedDate - 27
  {
    var c := ToCivil(x.st.selectedDate);
    var first := MakeDate(c.year, c.month, 1).value;
    assert first == x.st.selectedDate - 9;
  }

  // ------------------------------------------------------------ jumps

  /** A date-set motion to `target` through `_handle_motion`, the last step
      of every jump. */
  function Jump(x: Step, target: Date, inMotion: Motion -> seq<Entities.Item>): Outcome<Step>
    requires Registers.Writable(x.st.regs.regs)
  {
    HandleMotion(x.(args := x.args.(motion := Some(DateSet(x.st, target)))), inMotion)
  }

  /** `nv_month_start`: day 1 of the selected month. */
  function NvMonthStart(x: Step, inMotion: Motion -> seq<Entities.Item>): (r: Outcome<Step>)
    requires Registers.Writable(x.st.regs.regs)
    ensures !InPythonRange(ToCivil(x.st.selectedDate)) ==> r == Raised(ValueError, x)
  {
    var c := ToCivil(x.st.selectedDate);
    match MakeDate(c.year, c.month, 1)
    case None => Raised(ValueError, x)
    case Some(t) => Jump(x, t, inMotion)
  }

  /** The first day of the month after `c`'s, if `date()` accepts it. */
  function NextMonthStart(c: Civil): Option<Date> {
    if c.month == 12 then MakeDate(c.year + 1, 1, 1) else MakeDate(c.year, c.month + 1, 1)
  }

  /** The day before the next month's first is the last day of the month,
      which exists for every month but December of the last year. */
  lemma {:induction false} NextMonthStartLast(c: Civil)
    requires InPythonRange(c) && !(c.year == MaxYear && c.month == 12)
    ensures NextMonthStart(c).Some?
    ensures ToCivil(NextMonthStart(c).value - 1) == Civil(c.year, c.month, DaysInMonth(c.year, c.month))
    ensures NextMonthStart(c).value - 1 >= ToOrdinal(c)
  {
    var nc := if c.month == 12 then Civil(c.year + 1, 1, 1) else Civil(c.year, c.month + 1, 1);
    var last := Civil(c.year, c.month, DaysInMonth(c.year, c.month));
    assert InPythonRange(nc);
    assert NextMonthStart(c) == Some(ToOrdinal(nc));
    assert PrevCivil(nc) == last;
    assert ToOrdinal(last) == ToOrdinal(nc) - 1;
    CivilRoundTrip(last);
  }

  /** `nv_month_end`: the day before the first of the next month; in December
      of 9999 there is no next month and `date()` raises ValueError. */
  function NvMonthEnd(x: Step, inMotion: Motion -> seq<Entities.Item>): (r: Outcome<Step>)
    requires Registers.Writable(x.st.regs.regs)
    ensures ToCivil(x.st.selectedDate).year == MaxYear && ToCivil(x.st.selectedDate).month == 12 ==>
      r == Raised(ValueError, x)
  {
    match MonthEndTarget(x.st.selectedDate)
    case None => Raised(ValueError, x)
    case Some(t) => Jump(x, t, inMotion)
  }

  /** The day before the first of the next month, if `date()` accepts that first. */
  function MonthEndTarget(d: Date): Option<Date> {
    match NextMonthStart(ToCivil(d))
    case None => None
    case Some(n) => Some(n - 1)
  }

  /** `nv_week_start`: back `(weekday - week_start) % 7` days. */
  function NvWeekStart(x: Step, inMotion: Motion -> seq<Entities.Item>): Outcome<Step>
    requires Registers.Writable(x.st.regs.regs)
  {
    Jump(x, WeekStartOf(x.st.selectedDate, x.st.settings.weekStart), inMotion)
  }

  /** The start of `d`'s week when weeks start on weekday `ws`: zero to six
      days back, on weekday `ws`. */
  function WeekStartOf(d: Date, ws: int): (t: Date)
    ensures 0 <= d - t < 7 && Weekday(t) == ws % 7
  {
    WeekBackArith(d, ws);
    d - (Weekday(d) - ws) % 7
  }

  /** The end of `d`'s week when weeks start on weekday `ws`: zero to six
      days on, on the weekday before `ws`. */
  function WeekEndOf(d: Date, ws: int): (t: Date)
    ensures 0 <= t - d < 7 && Weekday(t) == (ws + 6) % 7
  {
    var weekEnd := (ws + 6) % 7;
    WeekForwardArith(d, weekEnd);
    d + (weekEnd - Weekday(d)) % 7
  }

  /** `nv_week_end`: forward to the weekday before `week_start`. */
  function NvWeekEnd(x: Step, inMotion: Motion -> seq<Entities.Item>): Outcome<Step>
    requires Registers.Writable(x.st.regs.regs)
  {
    Jump(x, WeekEndOf(x.st.selectedDate, x.st.settings.weekStart), inMotion)
  }

  /** From an idle record a jump to `target` selects it and changes nothing
      else the user can see. */
  lemma {:induction false} JumpLands(x: Step, target: Date, inMotion: Motion -> seq<Entities.Item>)
    requires Registers.Writable(x.st.regs.regs) && Idle(x.args)
    ensures var r := Jump(x, target, inMotion);
      r.Done? && Idle(r.value.args) && r.value.st.selectedDate == target
      && r.value.st.core == x.st.core && r.value.args.lastDateBeforeGoto == x.args.lastDateBeforeGoto
  {
  }

  /** Month start selects the first of the selected month, at most 30 days back. */
  lemma {:induction false} MonthStartLands(x: Step, inMotion: Motion -> seq<Entities.Item>)
    requires Registers.Writable(x.st.regs.regs) && Idle(x.args)
    requires InPythonRange(ToCivil(x.st.selectedDate))
    ensures var r := NvMonthStart(x, inMotion);
      var c := ToCivil(x.st.selectedDate);
      r.Done? && ToCivil(r.value.st.selectedDate) == Civil(c.year, c.month, 1)
      && 0 <= x.st.selectedDate - r.value.st.selectedDate < 31
  {
    var c := ToCivil(x.st.selectedDate);
    JumpLands(x, MakeDate(c.year, c.month, 1).value, inMotion);
  }

  /** Month end selects the last day of the selected month, including
      31 December when the next month is in the next year. */
  lemma {:induction false} MonthEndLands(x: Step, inMotion: Motion -> seq<Entities.Item>)
    requires Registers.Writable(x.st.regs.regs) && Idle(x.args)
    requires InPythonRange(ToCivil(x.st.selectedDate))
    requires !(ToCivil(x.st.selectedDate).year == MaxYear && ToCivil(x.st.selectedDate).month == 12)
    ensures var r := NvMonthEnd(x, inMotion);
      var c := ToCivil(x.st.selectedDate);
      r.Done? && ToCivil(r.value.st.selectedDate) == Civil(c.year, c.month, DaysInMonth(c.year, c.month))
      && r.value.st.selectedDate >= x.st.selectedDate
  {
    MonthEndTargetLast(x.st.selectedDate);
    JumpLands(x, MonthEndTarget(x.st.selectedDate).value, inMotion);
  }

  lemma {:induction false} MonthEndTargetLast(d: Date)
    requires InPythonRange(ToCivil(d)) && !(ToCivil(d).year == MaxYear && ToCivil(d).month == 12)
    ensures MonthEndTarget(d).Some? && MonthEndTarget(d).value >= d
    ensures ToCivil(MonthEndTarget(d).value) == Civil(ToCivil(d).year, ToCivil(d).month, DaysInMonth(ToCivil(d).year, ToCivil(d).month))
  {
    var c := ToCivil(d);
    NextMonthStartLast(c);
    assert MonthEndTarget(d) == Some(NextMonthStart(c).value - 1);
  }


  /** `(a + 7k) % 7 == a % 7`. */
  lemma {:induction false} ModSeven(a: int, k: int)
    ensures (a + 7 * k) % 7 == a % 7
  {
  }

  /** Going back `(weekday - ws) % 7` days reaches weekday `ws % 7`. */
  lemma {:induction false} WeekBackArith(d: Date, ws: int)
    ensures 0 <= (Weekday(d) - ws) % 7 < 7
    ensures Weekday(d - (Weekday(d) - ws) % 7) == ws % 7
  {
    var w := Weekday(d);
    var k := (w - ws) % 7;
    var q := (d + 6) / 7;
    var p := (w - ws) / 7;
    assert d + 6 == 7 * q + w;
    assert w - ws == 7 * p + k;
    assert d - k + 6 == ws + 7 * (q + p);
    ModSeven(ws, q + p);
  }

  /** Going forward `(we - weekday) % 7` days reaches weekday `we % 7`. */
  lemma {:induction false} WeekForwardArith(d: Date, we: int)
    ensures 0 <= (we - Weekday(d)) % 7 < 7
    ensures Weekday(d + (we - Weekday(d)) % 7) == we % 7
  {
    var w := Weekday(d);
    var k := (we - w) % 7;
    var q := (d + 6) / 7;
    var p := (we - w) / 7;
    assert d + 6 == 7 * q + w;
    assert we - w == 7 * p + k;
    assert d + k + 6 == we + 7 * (q - p);
    ModSeven(we, q - p);
  }

  /** Week start goes back zero to six days, to the weekday `week_start`. */
  lemma {:induction false} WeekStartLands(x: Step, inMotion: Motion -> seq<Entities.Item>)
    requires Registers.Writable(x.st.regs.regs) && Idle(x.args)
    ensures var r := NvWeekStart(x, inMotion);
      r.Done? && 0 <= x.st.selectedDate - r.value.st.selectedDate < 7
      && Weekday(r.value.st.selectedDate) == x.st.settings.weekStart % 7
  {
    JumpLands(x, WeekStartOf(x.st.selectedDate, x.st.settings.weekStart), inMotion);
  }

  /** Week end goes forward zero to six days, to the weekday before
      `week_start`. */
  lemma {:induction false} WeekEndLands(x: Step, inMotion: Motion -> seq<Entities.Item>)
    requires Registers.Writable(x.st.regs.regs) && Idle(x.args)
    ensures var r := NvWeekEnd(x, inMotion);
      r.Done? && 0 <= r.value.st.selectedDate - x.st.selectedDate < 7
      && Weekday(r.value.st.selectedDate) == (x.st.settings.weekStart + 6) % 7
  {
    JumpLands(x, WeekEndOf(x.st.selectedDate, x.st.settings.weekStart), inMotion);
  }

  // ---------------------------------------------------------- goto

  /** The date a non-empty goto count names: today for "0", otherwise the
      count read as a date string against the selected date. */
  function GotoTarget(st: State, buf: Digits): (r: Option<Date>)
    ensures buf == "0" ==> r == Some(st.today)
  {
    if buf == "0" then Some(st.today)
    else ParseDateString(buf, MonthFirst(st.settings.dateFormat), ToCivil(st.selectedDate))
  }

  /** `nv_goto`: the count buffer, consumed, names the target: empty for the
      first of the month, "0" for today, otherwise a date string; a string
      that names no date does nothing more. A jump remembers the date it left. */
  function NvGoto(x: Step, inMotion: Motion -> seq<Entities.Item>): (r: Outcome<Step>)
    requires Registers.Writable(x.st.regs.regs)
    ensures x.args.countBuffer != "" && GotoTarget(x.st, x.args.countBuffer).None? ==>
      r == Done(x.(args := x.args.(countBuffer := "")))
  {
    var buf := x.args.countBuffer;
    var x1 := x.(args := x.args.(countBuffer := ""));
    if buf == "" then NvMonthStart(x1, inMotion)
    else
      match GotoTarget(x.st, buf)
      case None => Done(x1)
      case Some(t) =>
        Jump(x1.(args := x1.args.(lastDateBeforeGoto := x.st.selectedDate)), t, inMotion)
  }

  /** `nv_ungoto`: back to the date the last goto left, remembering the date
      left now. A date is never false, so it always jumps. */
  function NvUngoto(x: Step, inMotion: Motion -> seq<Entities.Item>): Outcome<Step>
    requires Registers.Writable(x.st.regs.regs)
  {
    var t := x.args.lastDateBeforeGoto;
    Jump(x.(args := x.args.(lastDateBeforeGoto := x.st.selectedDate)), t, inMotion)
  }

  /** An empty buffer makes `gg` the month-start jump, and "0" jumps to
      today, remembering the date left. */
  lemma {:induction false} GotoSpecialCounts(x: Step, inMotion: Motion -> seq<Entities.Item>)
    requires Registers.Writable(x.st.regs.regs)
    requires !x.args.motionPending && x.args.opPendingKey == "" && x.args.motionCount == 1
    ensures x.args.countBuffer == "" ==> NvGoto(x, inMotion) == NvMonthStart(x, inMotion)
    ensures x.args.countBuffer == "0" ==>
      var r := NvGoto(x, inMotion);
      r.Done? && r.value.st.selectedDate == x.st.today && r.value.args.lastDateBeforeGoto == x.st.selectedDate
  {
    var x1 := x.(args := x.args.(countBuffer := ""));
    if x.args.countBuffer == "0" {
      JumpLands(x1.(args := x1.args.(lastDateBeforeGoto := x.st.selectedDate)), x.st.today, inMotion);
    }
  }

  /** A goto that parses jumps to the parsed date and remembers the date it
      left; an ungoto then returns there and remembers the goto's target. */
  lemma {:induction false} GotoThenUngoto(x: Step, inMotion: Motion -> seq<Entities.Item>)
    requires Registers.Writable(x.st.regs.regs)
    requires !x.args.motionPending && x.args.opPendingKey == "" && x.args.motionCount == 1
    requires x.args.countBuffer != "" && GotoTarget(x.st, x.args.countBuffer).Some?
    ensures var t := GotoTarget(x.st, x.args.countBuffer).value;
      var g := NvGoto(x, inMotion);
      g.Done? && g.value.st.selectedDate == t && g.value.args.lastDateBeforeGoto == x.st.selectedDate
      && NvUngoto(g.value, inMotion).Done?
      && NvUngoto(g.value, inMotion).value.st.selectedDate == x.st.selectedDate
      && NvUngoto(g.value, inMotion).value.args.lastDateBeforeGoto == t
      && NvUngoto(g.value, inMotion).value.st.core == x.st.core
  {
    var t := GotoTarget(x.st, x.args.countBuffer).value;
    var x1 := x.(args := x.args.(countBuffer := "", lastDateBeforeGoto := x.st.selectedDate));
    JumpLands(x1, t, inMotion);
    var g := NvGoto(x, inMotion).value;
    JumpLands(g.(args := g.args.(lastDateBeforeGoto := t)), x.st.selectedDate, inMotion);
  }

  /** Ungoto twice is back where it started, with the remembered date
      restored too. */
  lemma {:induction false} UngotoTwice(x: Step, inMotion: Motion -> seq<Entities.Item>)
    requires Registers.Writable(x.st.regs.regs) && Idle(x.args)
    ensures var u := NvUngoto(x, inMotion);
      u.Done? && NvUngoto(u.value, inMotion).Done?
      && NvUngoto(u.value, inMotion).value.st.selectedDate == x.st.selectedDate
      && NvUngoto(u.value, inMotion).value.args.lastDateBeforeGoto == x.args.lastDateBeforeGoto
  {
    var t := x.args.lastDateBeforeGoto;
    JumpLands(x.(args := x.args.(lastDateBeforeGoto := x.st.selectedDate)), t, inMotion);
    var u := NvUngoto(x, inMotion).value;
    JumpLands(u.(args := u.args.(lastDateBeforeGoto := t)), x.st.selectedDate, inMotion);
  }

  /** `nv_g_cmd`: the key after `g` picks goto, week start, item up or item
      down; any other key does nothing. */
  function NvGCmd(x: Step, inMotion: Motion -> seq<Entities.Item>): (r: Outcome<Step>)
    requires Registers.Writable(x.st.regs.regs)
    ensures x.args.nextKey !in {"g", "0", "k", "j"} ==> r == Done(x)
  {
    if x.args.nextKey == "g" then NvGoto(x, inMotion)
    else if x.args.nextKey == "0" then NvWeekStart(x, inMotion)
    else if x.args.nextKey == "k" then ItemStep(x, -1, inMotion)
    else if x.args.nextKey == "j" then ItemStep(x, 1, inMotion)
    else Done(x)
  }

  /** `gk` and `gj` from an idle record on a non-empty day select the
      neighbouring item, clamped to the day's items; `gg` is goto and `g0`
      the week start. */
  lemma {:induction false} GCmdDispatch(x: Step, inMotion: Motion -> seq<Entities.Item>)
    requires Registers.Writable(x.st.regs.regs) && Idle(x.args)
    requires SelectedDayItems(x.st) != []
    ensures x.args.nextKey == "g" ==> NvGCmd(x, inMotion) == NvGoto(x, inMotion)
    ensures x.args.nextKey == "0" ==> NvGCmd(x, inMotion) == NvWeekStart(x, inMotion)
    ensures x.args.nextKey == "j" ==>
      NvGCmd(x, inMotion).Done?
      && NvGCmd(x, inMotion).value.st.itemIndex == Clamp(x.st.itemIndex + 1, 0, |SelectedDayItems(x.st)| - 1)
    ensures x.args.nextKey == "k" ==>
      NvGCmd(x, inMotion).Done?
      && NvGCmd(x, inMotion).value.st.itemIndex == Clamp(x.st.itemIndex - 1, 0, |SelectedDayItems(x.st)| - 1)
  {
  }

  // ------------------------------------------------------------ operators

  /** `nv_operator`: the operator key pressed again, an upper-case key or the
      space runs the operator on the selected item at once; any other key
      becomes the pending operator with the typed count (1 if none). */
  function NvOperator(x: Step): (r: Outcome<Step>)
    requires Registers.Writable(x.st.regs.regs)
    ensures !(x.args.opPendingKey == x.args.key || IsUpper(x.args.key) || x.args.key == " ") ==>
      r.Done? && r.value.st == x.st && r.value.args.opPendingKey == x.args.key
      && r.value.args.countBuffer == ""
      && r.value.args.opCount == (if x.args.countBuffer == "" then 1 else Value(x.args.countBuffer))
  {
    var key := x.args.key;
    if x.args.opPendingKey == key || IsUpper(key) || key == " " then ExecuteSingleUnit(x)
    else
      var count := if x.args.countBuffer != "" then Value(x.args.countBuffer) else 1;
      Done(x.(args := x.args.(opPendingKey := key, opCount := count, countBuffer := "")))
  }

  /** `_execute_single_unit_operator`: the operator on the selected item
      alone, then `clear()`; nothing at all when no item is selected. */
  function ExecuteSingleUnit(x: Step): (r: Outcome<Step>)
    requires Registers.Writable(x.st.regs.regs)
    ensures SelectedItem(x.st).None? ==> r == Done(x)
    ensures SelectedItem(x.st).Some? ==>
      var o := DoOperator(x.st, OpArgs(x.args.key, [SelectedItem(x.st).value], x.args.regname, ""));
      r.State().st == o.State() && (r.Done? <==> o.Done?)
      && (r.Done? ==> r.value.args == Clear(x.args))
  {
    match SelectedItem(x.st)
    case None => Done(x)
    case Some(it) =>
      match DoOperator(x.st, OpArgs(x.args.key, [it], x.args.regname, ""))
      case Done(st) => Done(Step(Clear(x.args), st))
      case Raised(err, st) => Raised(err, Step(x.args, st))
  }

  /** `_execute_operator_motion` as written: a non-zero `op_count` reaches
      the undefined name `total_count`; with a zero count the pending operator
      runs on the items the motion covers, as the editor reports them. */
  function ExecuteOperatorMotion(x: Step, inMotion: Motion -> seq<Entities.Item>): (r: Outcome<Step>)
    requires Registers.Writable(x.st.regs.regs)
    ensures x.args.opCount != 0 ==> r == Raised(NameError, x)
    ensures r.State().st.regs.regs.Keys == x.st.regs.regs.Keys
  {
    if x.args.opCount != 0 then Raised(NameError, x)
    else
      var items := match x.args.motion case Some(m) => inMotion(m) case None => [];
      var a := OpArgs(x.args.opPendingKey, items, x.args.regname, "");
      DoOperatorKeepsRegisters(x.st, a);
      match DoOperator(x.st, a)
      case Done(st) => Done(Step(Clear(x.args), st))
      case Raised(err, st) => Raised(err, Step(x.args, st))
  }

  /** Pressing an operator key twice ("dd") runs it on the selected item:
      the first press only makes it pending and keeps the editor, the second
      runs it as the single-unit form and then clears the record. */
  lemma {:induction false} OperatorTwice(x: Step, k: char)
    requires Registers.Writable(x.st.regs.regs)
    requires x.args.key == [k] && x.args.opPendingKey == "" && !IsUpperChar(k) && k != ' '
    ensures NvOperator(x).Done?
    ensures var y := NvOperator(x).value;
      y.args.opPendingKey == [k] && y.st == x.st && NvOperator(y) == ExecuteSingleUnit(y)
  {
    assert forall i :: 0 <= i < |[k]| ==> [k][i] == k;
  }

  /** An upper-case key or the space runs at once, whatever is pending. */
  lemma {:induction false} ImmediateOperators(x: Step)
    requires Registers.Writable(x.st.regs.regs)
    requires x.args.key == " " || (|x.args.key| == 1 && IsUpperChar(x.args.key[0]))
    ensures NvOperator(x) == ExecuteSingleUnit(x)
  {
    if x.args.key != " " {
      assert IsUpperChar(x.args.key[0]);
    }
  }

  // --------------------------------------------------------------- tasks

  /** `nv_task`: nothing while an operator is pending; a positive count is
      stored and the creation waits for a motion; otherwise one task on the
      selected date. */
  function NvTask(x: Step): (r: Outcome<Step>)
    ensures x.args.opPendingKey != "" ==> r == Done(x)
    ensures x.args.opPendingKey == "" && x.args.countBuffer != "" && Value(x.args.countBuffer) != 0 ==>
      r == Done(x.(args := x.args.(specialCount := Value(x.args.countBuffer), motionPending := true, countBuffer := "")))
    ensures r.State().st.regs == x.st.regs && r.State().st.selectedDate == x.st.selectedDate
  {
    if x.args.opPendingKey != "" then Done(x)
    else
      var count := if x.args.countBuffer != "" then Value(x.args.countBuffer) else 0;
      var x1 := x.(args := x.args.(countBuffer := ""));
      if count != 0 then Done(x1.(args := x1.args.(specialCount := count, motionPending := true)))
      else ExecuteSingleTask(x1)
  }

  /** The name of the task being created: the typed text, or the default. */
  function TaskName(a: Args): (n: string)
    ensures n != []
  {
    if a.inputText != "" then a.inputText else NewTaskName
  }

  /** `_execute_single_task`: one task on the selected date in the selected
      subcalendar. */
  function ExecuteSingleTask(x: Step): (r: Outcome<Step>)
    ensures r.State().args == x.args
    ensures r.State().st == DoCreateInBlock(x.st, TaskKind, [x.st.selectedDate], TaskName(x.args), x.st.selectedSubcal).State()
  {
    match DoCreateInBlock(x.st, TaskKind, [x.st.selectedDate], TaskName(x.args), x.st.selectedSubcal)
    case Done(st) => Done(x.(st := st))
    case Raised(err, st) => Raised(err, x.(st := st))
  }

  /** `_execute_task_motion`: only a date motion creates tasks, `special_count`
      of them (one if it is zero), then `clear()`. */
  function ExecuteTaskMotion(x: Step): (r: Outcome<Step>)
    ensures x.args.motion.None? || x.args.motion.value.ItemMotion? ==>
      r == Done(x.(args := x.args.(motionPending := false)))
    ensures r.State().st.regs == x.st.regs
  {
    match x.args.motion
    case None => Done(x.(args := x.args.(motionPending := false)))
    case Some(ItemMotion(_, _)) => Done(x.(args := x.args.(motionPending := false)))
    case Some(DateMotion(s, e)) =>
      var repeats := if x.args.specialCount != 0 then x.args.specialCount else 1;
      var dates := TaskDates(DateMotion(s, e), x.args.motionCount, repeats);
      match DoCreateInBlock(x.st, TaskKind, dates, TaskName(x.args), x.st.selectedSubcal)
      case Done(st) => Done(Step(Clear(x.args), st))
      case Raised(err, st) => Raised(err, Step(x.args, st))
  }

  /** A lone `T` with a subcalendar selected and no transaction open creates
      one task on the selected date, named by the typed text or "New Task",
      as one undoable transaction. */
  lemma {:induction false} SingleTaskCreates(x: Step)
    requires x.args.opPendingKey == "" && x.args.countBuffer == ""
    requires x.st.core.history.current.None? && x.st.settings.maxHistory > 0
    requires x.st.selectedSubcal.Some? && FindSubcal(x.st.core.cals, x.st.selectedSubcal.value).Some?
    ensures var r := NvTask(x);
      var ops := [InsertItemOp(x.st.selectedSubcal.value, Created(TaskKind, TaskName(x.args), x.st.selectedDate, Uid(x.st.uidCounter)))];
      r.Done? && r.value.st.uidCounter == x.st.uidCounter + 1
      && r.value.st.core.history.undo != []
      && r.value.st.core.history.undo[|r.value.st.core.history.undo| - 1] == Tx(x.st.core.nextId, ops, CreateLabel(1))
      && ApplyAll(ops, x.st.core.cals) == Done(r.value.st.core.cals)
  {
    var s := x.st;
    CreateInBlockCommits(s, TaskKind, [s.selectedDate], TaskName(x.args), s.selectedSubcal.value);
    var ops := CreationOps(TaskKind, s.selectedSubcal.value, TaskName(x.args), [s.selectedDate], s.uidCounter);
    assert ops == [InsertItemOp(s.selectedSubcal.value, Created(TaskKind, TaskName(x.args), s.selectedDate, Uid(s.uidCounter)))];
  }

  /** "<n>T" followed by a date motion creates `n` tasks starting at the
      selected date, each the scaled motion's displacement after the last,
      and clears the record; an item motion creates nothing and only drops
      the pending step. */
  lemma {:induction false} TaskMotionCreates(x: Step, delta: int, inMotion: Motion -> seq<Entities.Item>)
    requires Registers.Writable(x.st.regs.regs)
    requires x.args.opPendingKey == "" && x.args.countBuffer != "" && Value(x.args.countBuffer) != 0
    requires x.st.core.history.current.None? && x.st.settings.maxHistory > 0
    requires x.st.selectedSubcal.Some? && FindSubcal(x.st.core.cals, x.st.selectedSubcal.value).Some?
    ensures var y := NvTask(x).value;
      var n := Value(x.args.countBuffer);
      var r := DateStep(y, delta, inMotion);
      var dates := TaskDates(DateMove(x.st, delta), y.args.motionCount, n);
      r.Done? && Idle(r.value.args)
      && r.value.st.uidCounter == x.st.uidCounter + n
      && ApplyAll(CreationOps(TaskKind, x.st.selectedSubcal.value, TaskName(x.args), dates, x.st.uidCounter),
                  x.st.core.cals) == Done(r.value.st.core.cals)
      && |dates| == n && dates[0] == x.st.selectedDate
  {
    var y := NvTask(x).value;
    var n := Value(x.args.countBuffer);
    var m := DateMove(x.st, delta);
    var st1 := ApplyMotion(x.st.(anchorItem := None), Scale(m, y.args.motionCount));
    var dates := TaskDates(m, y.args.motionCount, n);
    CreateInBlockCommits(st1, TaskKind, dates, TaskName(x.args), x.st.selectedSubcal.value);
  }
}

=== FILE: operators.dfy ===
/** The operators of vical/commands/operators.py: delete, yank, change and
  complete, applied to a list of target items, dispatched on the lower-cased
  operator key.

  Items are passed as values; the operations find them in the subcalendars by
  uid. `op_delete` runs inside a transaction block; `op_change` and
  `op_complete` call `tx_set_item_attr` with no transaction open, so every
  real change raises RuntimeError from `record` (see `OpChangeAsWritten` and
  `OpCompleteAsWritten`). The corrected operators wrap their changes in a
  transaction block, as `op_delete` does.
 */
module Operators {
  import opened Wrappers
  import opened Text
  import opened Entities
  import opened Ops
  import opened Transactions
  import opened Session
  import Registers

  datatype OpArgs = OpArgs(opKey: string, targets: seq<Item>, regname: string, text: string)

  /** `OpArgs(op_key, target_items)` with the default register `"` and no text. */
  function DefaultOpArgs(opKey: string, targets: seq<Item>): OpArgs {
    OpArgs(opKey, targets, "\"", "")
  }

  /** The operators `do_operator` knows. */
  datatype Operator = Delete | Yank | Change | Complete

  /** The lookup of `op_key.lower()` in the operator table. */
  function OperatorOf(key: string): (r: Option<Operator>)
    ensures r.Some? ==> |key| == 1
    ensures r == Some(Delete) <==> |key| == 1 && key[0] in {'d', 'D'}
    ensures r == Some(Yank) <==> |key| == 1 && key[0] in {'y', 'Y'}
    ensures r == Some(Change) <==> |key| == 1 && key[0] in {'c', 'C'}
    ensures r == Some(Complete) <==> key == " "
  {
    if |key| != 1 then None
    else
      var c := Lower(key[0]);
      if c == 'd' then Some(Delete)
      else if c == 'y' then Some(Yank)
      else if c == 'c' then Some(Change)
      else if c == ' ' then Some(Complete)
      else None
  }

  // ---------------------------------------------------------------- delete

  /** The ops `tx_remove_item` records for each target, in order. */
  function RemoveOps(items: seq<Item>): (ops: seq<Op>)
    requires forall k :: 0 <= k < |items| ==> items[k].parent.Some?
    ensures |ops| == |items|
    decreases |items|
  {
    if items == [] then []
    else [RemoveItemOp(items[0].parent.value, items[0])] + RemoveOps(items[1..])
  }

  /** The `k`-th op removes the `k`-th item from its subcalendar. */
  lemma {:induction false} RemoveOpsAt(items: seq<Item>, k: nat)
    requires forall k :: 0 <= k < |items| ==> items[k].parent.Some?
    requires k < |items|
    ensures RemoveOps(items)[k] == RemoveItemOp(items[k].parent.value, items[k])
    decreases |items|
  {
    if k > 0 {
      RemoveOpsAt(items[1..], k - 1);
    }
  }

  /** The loop of `op_delete`: `tx_remove_item` per target, stopping at the
      first exception. */
  function RemoveAll(e: Editor, items: seq<Item>): (r: Outcome<Editor>)
    ensures r.State().history.undo == e.history.undo && r.State().history.redo == e.history.redo
    ensures r.State().nextId == e.nextId
    decreases |items|
  {
    if items == [] then Done(e)
    else match TxRemoveItem(e, items[0])
      case Raised(err, p) => Raised(err, p)
      case Done(c) => RemoveAll(c, items[1..])
  }

  /** A run of removals that completes has removed only attached items,
      recorded one op per item, and replaying the ops recorded so far
      reproduces the result. */
  lemma {:induction false} RemoveAllRecords(e: Editor, items: seq<Item>, done: seq<Op>, c0: seq<Subcal>)
    requires RemoveAll(e, items).Done? && e.history.current.Some?
    requires ApplyAll(done, c0) == Done(e.cals)
    ensures forall k :: 0 <= k < |items| ==> items[k].parent.Some?
    ensures Appended(e, RemoveAll(e, items).value, RemoveOps(items))
    ensures ApplyAll(done + RemoveOps(items), c0) == Done(RemoveAll(e, items).value.cals)
    decreases |items|
  {
    if items == [] {
      assert done + RemoveOps(items) == done;
      assert e.history.current.value.ops + RemoveOps(items) == e.history.current.value.ops;
    } else {
      var it := items[0];
      var c := TxRemoveItem(e, it).value;
      var op := RemoveItemOp(it.parent.value, it);
      ApplyAllSnoc(done, op, c0, e.cals, c.cals);
      RemoveAllRecords(c, items[1..], done + [op], c0);
      forall k | 0 <= k < |items| ensures items[k].parent.Some? {
        if k > 0 { assert items[k] == items[1..][k - 1]; }
      }
      var rest := RemoveOps(items[1..]);
      assert RemoveOps(items) == [op] + rest;
      Assoc(done, [op], rest);
      AppendedAfterRecorded(e, c, RemoveAll(c, items[1..]).value, op, rest);
    }
  }

  /** The label of the delete transaction: `f"Delete {n} items"`. */
  function DeleteLabel(n: nat): string {
    "Delete " + NatToString(n) + " items"
  }

  /** `op_delete`: the targets go to the register (numbered registers rotated)
      when there are any, then a transaction block removes them one by one. */
  function OpDelete(s: State, a: OpArgs): (r: Outcome<State>)
    requires Registers.Writable(s.regs.regs)
    ensures a.targets == [] ==> r.State().regs == s.regs
    ensures s.core.history.current.Some? ==> r.Raised? && r.error == RuntimeError && r.partial.core == s.core
    ensures r.Done? ==> r.value.core.history.current.None?
    ensures r.State() == s.(regs := r.State().regs, core := r.State().core)
    ensures r.Done? <==> DeleteBlock(s.core, a.targets, s.settings.maxHistory).Done?
    ensures r.State().core == DeleteBlock(s.core, a.targets, s.settings.maxHistory).State()
  {
    var regs := if a.targets != [] then Registers.Write(s.regs, a.regname, Registers.Many(a.targets), true) else s.regs;
    var s1 := s.(regs := regs);
    match DeleteBlock(s.core, a.targets, s.settings.maxHistory)
    case Done(c) => Done(s1.(core := c))
    case Raised(err, p) => Raised(err, s1.(core := p))
  }

  /** The transaction block of `op_delete`. */
  function DeleteBlock(e: Editor, targets: seq<Item>, maxHistory: nat): Outcome<Editor> {
    TransactionBlock(e, DeleteLabel(|targets|), e => RemoveAll(e, targets), maxHistory)
  }

  /** Deleting nothing touches no subcalendar and no stack: the empty
      transaction is discarded and only its id is used up. */
  lemma {:induction false} DeleteNothing(s: State, a: OpArgs)
    requires Registers.Writable(s.regs.regs)
    requires a.targets == [] && s.core.history.current.None?
    ensures OpDelete(s, a) == Done(s.(core := s.core.(nextId := s.core.nextId + 1)))
  {
  }

  /** A delete block that goes through leaves one transaction on top of the
      undo stack, labelled with the number of targets, whose ops remove the
      targets in order and replay to the new subcalendars; the redo stack is
      cleared. */
  lemma {:induction false} DeleteCommits(e: Editor, targets: seq<Item>, maxHistory: nat)
    requires e.history.current.None? && targets != [] && maxHistory > 0
    requires DeleteBlock(e, targets, maxHistory).Done?
    ensures forall k :: 0 <= k < |targets| ==> targets[k].parent.Some?
    ensures var h := DeleteBlock(e, targets, maxHistory).value.history;
      h.undo != [] && h.redo == []
      && h.undo[|h.undo| - 1] == Tx(e.nextId, RemoveOps(targets), DeleteLabel(|targets|))
      && ApplyAll(RemoveOps(targets), e.cals) == Done(DeleteBlock(e, targets, maxHistory).value.cals)
  {
    var started := Begin(e, DeleteLabel(|targets|)).value;
    assert RemoveAll(started, targets).Done?;
    RemoveAllRecords(started, targets, [], e.cals);
  }

  /** Undoing a delete whose removals are each reversible restores the
      subcalendars it found. */
  lemma {:induction false} DeleteThenUndo(s: State, a: OpArgs)
    requires Registers.Writable(s.regs.regs)
    requires s.core.history.current.None? && a.targets != [] && s.settings.maxHistory > 0
    requires OpDelete(s, a).Done?
    requires forall k :: 0 <= k < |a.targets| ==> a.targets[k].parent.Some?
    requires ChainReversible(RemoveOps(a.targets), s.core.cals)
    ensures Undo(OpDelete(s, a).value.core).Done?
    ensures Undo(OpDelete(s, a).value.core).value.cals == s.core.cals
  {
    BlockUndo(s.core, a.targets, s.settings.maxHistory);
  }

  lemma {:induction false} BlockUndo(e: Editor, targets: seq<Item>, maxHistory: nat)
    requires e.history.current.None? && targets != [] && maxHistory > 0
    requires DeleteBlock(e, targets, maxHistory).Done?
    requires forall k :: 0 <= k < |targets| ==> targets[k].parent.Some?
    requires ChainReversible(RemoveOps(targets), e.cals)
    ensures Undo(DeleteBlock(e, targets, maxHistory).value).Done?
    ensures Undo(DeleteBlock(e, targets, maxHistory).value).value.cals == e.cals
  {
    var after := DeleteBlock(e, targets, maxHistory).value;
    var tx := Tx(e.nextId, RemoveOps(targets), DeleteLabel(|targets|));
    assert after.history.undo != [] && after.history.undo[|after.history.undo| - 1] == tx
      && ApplyAll(tx.ops, e.cals) == Done(after.cals) by {
      DeleteCommits(e, targets, maxHistory);
    }
    assert ChainReversible(tx.ops, e.cals);
    assert Undo(after).Done? && Undo(after).value.cals == e.cals by {
      UndoCommitted(after, e.cals, tx);
    }
  }

  /** A delete that raises part-way keeps the removals made so far but pushes
      nothing and leaves no transaction open. */
  lemma {:induction false} DeleteRaisesPushesNothing(s: State, a: OpArgs)
    requires Registers.Writable(s.regs.regs)
    requires s.core.history.current.None?
    requires OpDelete(s, a).Raised?
    ensures OpDelete(s, a).partial.core.history == s.core.history
  {
    BlockRaisePushesNothing(s.core, DeleteLabel(|a.targets|), e => RemoveAll(e, a.targets), s.settings.maxHistory);
    assert DeleteBlock(s.core, a.targets, s.settings.maxHistory).Raised?;
  }

  /** Deleted items land in the unnamed register and, unless register `1` is
      named, in register `1`, the older deletions moving down. */
  lemma {:induction false} DeleteRegisters(s: State, a: OpArgs)
    requires Registers.Writable(s.regs.regs)
    requires a.targets != [] && a.regname != "_"
    ensures var regs := OpDelete(s, a).State().regs.regs;
      regs["\""] == Registers.Payloads(a.targets)
      && (a.regname != "1" ==> regs["1"] == Registers.Payloads(a.targets))
  {
    Registers.WriteSetsUnnamed(s.regs, a.regname, Registers.Many(a.targets), true);
    Registers.DeleteFillsFirst(s.regs, a.regname, Registers.Many(a.targets));
  }

  // ------------------------------------------------------------------ yank

  /** `op_yank`: the targets go to the register (register `0` filled), and
      nothing else changes. */
  function OpYank(s: State, a: OpArgs): (r: State)
    requires Registers.Writable(s.regs.regs)
    ensures r == s.(regs := r.regs)
    ensures r.regs.regs.Keys == s.regs.regs.Keys
    ensures a.targets == [] || a.regname == "_" ==> r == s
  {
    if a.targets != [] then s.(regs := Registers.Write(s.regs, a.regname, Registers.Many(a.targets), false))
    else s
  }

  /** Yanked items land in the unnamed register and in register `0`. */
  lemma {:induction false} YankRegisters(s: State, a: OpArgs)
    requires Registers.Writable(s.regs.regs)
    requires a.targets != [] && a.regname != "_"
    ensures OpYank(s, a).regs.regs["\""] == Registers.Payloads(a.targets)
    ensures OpYank(s, a).regs.regs["0"] == Registers.Payloads(a.targets)
  {
    Registers.WriteSetsUnnamed(s.regs, a.regname, Registers.Many(a.targets), false);
    Registers.YankEffect(s.regs, a.regname, Registers.Many(a.targets));
  }

  // ------------------------------------------------- attribute assignments

  /** The loop of `op_change` and `op_complete`: `tx_set_item_attr` per item,
      stopping at the first exception. */
  function SetAll(e: Editor, items: seq<Item>, a: ItemAttr, v: Value): (r: Outcome<Editor>)
    ensures r.State().history.undo == e.history.undo && r.State().history.redo == e.history.redo
    ensures r.State().nextId == e.nextId
    decreases |items|
  {
    if items == [] then Done(e)
    else match TxSetItemAttr(e, items[0], a, v)
      case Raised(err, p) => Raised(err, p)
      case Done(c) => SetAll(c, items[1..], a, v)
  }

  /** The ops `tx_set_item_attr` records for `items`: one for each item whose
      attribute differs from `v`. */
  function SetOps(items: seq<Item>, a: ItemAttr, v: Value): (ops: seq<Op>)
    requires forall k :: 0 <= k < |items| ==> GetItemAttr(items[k], a).Ok?
    ensures |ops| <= |items|
    ensures ops == [] <==> forall k :: 0 <= k < |items| ==> GetItemAttr(items[k], a) == Ok(v)
    decreases |items|
  {
    if items == [] then []
    else
      var prev := GetItemAttr(items[0], a).value;
      (if prev == v then [] else [SetItemAttrOp(items[0].uid, a, prev, v)]) + SetOps(items[1..], a, v)
  }

  /** Every item has the attribute and `v` fits it. */
  ghost predicate Settable(items: seq<Item>, a: ItemAttr, v: Value) {
    Fits(a, v) && forall k :: 0 <= k < |items| ==> GetItemAttr(items[k], a).Ok?
  }

  /** Outside a transaction the run does nothing when every item already
      holds `v`, and otherwise raises RuntimeError at the first item that
      differs, before any change. */
  lemma {:induction false} SetAllOutside(e: Editor, items: seq<Item>, a: ItemAttr, v: Value)
    requires e.history.current.None? && Settable(items, a, v)
    ensures SetAll(e, items, a, v) == if SetOps(items, a, v) == [] then Done(e) else Raised(RuntimeError, e)
    decreases |items|
  {
    if items != [] {
      assert Settable(items[1..], a, v) by {
        forall k | 0 <= k < |items| - 1 ensures GetItemAttr(items[1..][k], a).Ok? {
          assert items[1..][k] == items[k + 1];
        }
      }
      SetAllOutside(e, items[1..], a, v);
    }
  }

  /** Inside a transaction the run completes and records exactly `SetOps`. */
  lemma {:induction false} SetAllInside(e: Editor, items: seq<Item>, a: ItemAttr, v: Value)
    requires e.history.current.Some? && Settable(items, a, v)
    ensures SetAll(e, items, a, v).Done?
    ensures Appended(e, SetAll(e, items, a, v).value, SetOps(items, a, v))
    decreases |items|
  {
    if items == [] {
      assert e.history.current.value.ops + [] == e.history.current.value.ops;
    } else {
      assert Settable(items[1..], a, v) by {
        forall k | 0 <= k < |items| - 1 ensures GetItemAttr(items[1..][k], a).Ok? {
          assert items[1..][k] == items[k + 1];
        }
      }
      var prev := GetItemAttr(items[0], a).value;
      var c := TxSetItemAttr(e, items[0], a, v).value;
      SetAllInside(c, items[1..], a, v);
      var rest := SetOps(items[1..], a, v);
      if prev != v {
        AppendedAfterRecorded(e, c, SetAll(c, items[1..], a, v).value, SetItemAttrOp(items[0].uid, a, prev, v), rest);
      } else {
        assert c == e;
        assert SetOps(items, a, v) == rest;
      }
    }
  }

  /** The item with this uid is in a subcalendar and its attribute holds `v`. */
  ghost predicate Holds(cals: seq<Subcal>, uid: string, a: ItemAttr, v: Value) {
    FindItem(cals, uid).Some?
    && GetItemAttr(cals[FindItem(cals, uid).value.0].items[FindItem(cals, uid).value.1], a) == Ok(v)
  }

  /** The item stored under `uid`. */
  ghost function Stored(cals: seq<Subcal>, uid: string): Item
    requires FindItem(cals, uid).Some?
  {
    cals[FindItem(cals, uid).value.0].items[FindItem(cals, uid).value.1]
  }

  /** Writing one item's attribute leaves every other uid where it was, with
      the same item. */
  lemma {:induction false} SetInPlaceOther(cals: seq<Subcal>, uid: string, a: ItemAttr, v: Value, other: string)
    requires other != uid
    ensures FindItem(SetInPlace(cals, uid, a, v), other) == FindItem(cals, other)
    ensures FindItem(cals, other).Some? ==> Stored(SetInPlace(cals, uid, a, v), other) == Stored(cals, other)
  {
    var w := WriteItemAttr(cals, uid, a, v);
    if w.Ok? {
      FindSameUids(cals, w.value, other);
      if FindItem(cals, other).Some? {
        var (i, j) := FindItem(cals, uid).value;
        var (i2, j2) := FindItem(cals, other).value;
        assert (i, j) != (i2, j2);
        if i2 == i {
          assert w.value[i].items[j2] == cals[i].items[j2];
        }
      }
    }
  }

  /** Writing an attribute the stored item has, with a fitting value, makes it hold. */
  lemma {:induction false} SetInPlaceSelf(cals: seq<Subcal>, uid: string, a: ItemAttr, v: Value)
    requires FindItem(cals, uid).Some? && GetItemAttr(Stored(cals, uid), a).Ok? && Fits(a, v)
    ensures Holds(SetInPlace(cals, uid, a, v), uid, a, v)
  {
    var w := WriteItemAttr(cals, uid, a, v);
    assert w.Ok?;
    FindSameUids(cals, w.value, uid);
  }

  /** Inside a transaction, when the targets are the current contents of the
      subcalendars under distinct uids and every item has the attribute,
      afterwards every target still in a subcalendar holds `v`. */
  lemma {:induction false} SetAllHolds(e: Editor, items: seq<Item>, a: ItemAttr, v: Value)
    requires e.history.current.Some? && Fits(a, v)
    requires forall it: Item :: GetItemAttr(it, a).Ok?
    requires forall k, l :: 0 <= k < l < |items| ==> items[k].uid != items[l].uid
    requires forall k :: 0 <= k < |items| && FindItem(e.cals, items[k].uid).Some? ==>
      Stored(e.cals, items[k].uid) == items[k]
    ensures SetAll(e, items, a, v).Done?
    ensures forall k :: 0 <= k < |items| && FindItem(e.cals, items[k].uid).Some? ==>
      Holds(SetAll(e, items, a, v).value.cals, items[k].uid, a, v)
    decreases |items|
  {
    if items != [] {
      var it := items[0];
      var c := TxSetItemAttr(e, it, a, v).value;
      SetFirst(e, items, a, v);
      var tail := items[1..];
      SetAllHolds(c, tail, a, v);
      var r := SetAll(c, tail, a, v).value;
      if FindItem(e.cals, it.uid).Some? {
        SetAllKeeps(c, tail, a, v, it.uid);
      }
      forall k | 1 <= k < |items| && FindItem(e.cals, items[k].uid).Some?
        ensures Holds(r.cals, items[k].uid, a, v)
      {
        assert tail[k - 1] == items[k];
      }
    }
  }

  /** The first step of `SetAllHolds`: the first target holds `v` and the
      rest still meet the requirements. */
  lemma {:induction false} SetFirst(e: Editor, items: seq<Item>, a: ItemAttr, v: Value)
    requires items != [] && e.history.current.Some? && Fits(a, v)
    requires forall it: Item :: GetItemAttr(it, a).Ok?
    requires forall k, l :: 0 <= k < l < |items| ==> items[k].uid != items[l].uid
    requires forall k :: 0 <= k < |items| && FindItem(e.cals, items[k].uid).Some? ==>
      Stored(e.cals, items[k].uid) == items[k]
    ensures TxSetItemAttr(e, items[0], a, v).Done?
    ensures var c := TxSetItemAttr(e, items[0], a, v).value; var tail := items[1..];
      && c.history.current.Some?
      && (FindItem(e.cals, items[0].uid).Some? ==> Holds(c.cals, items[0].uid, a, v))
      && (forall k, l :: 0 <= k < l < |tail| ==> tail[k].uid != tail[l].uid)
      && (forall k :: 0 <= k < |tail| && FindItem(c.cals, tail[k].uid).Some? ==> Stored(c.cals, tail[k].uid) == tail[k])
      && (forall k :: 0 <= k < |tail| ==> FindItem(c.cals, tail[k].uid) == FindItem(e.cals, tail[k].uid))
  {
    var it := items[0];
    var prev := GetItemAttr(it, a).value;
    var c := TxSetItemAttr(e, it, a, v).value;
    assert c.cals == e.cals || c.cals == SetInPlace(e.cals, it.uid, a, v);
    forall k | 1 <= k < |items|
      ensures FindItem(c.cals, items[k].uid) == FindItem(e.cals, items[k].uid)
      ensures FindItem(e.cals, items[k].uid).Some? ==> Stored(c.cals, items[k].uid) == items[k]
    {
      SetInPlaceOther(e.cals, it.uid, a, v, items[k].uid);
    }
    var tail := items[1..];
    forall k, l | 0 <= k < l < |tail| ensures tail[k].uid != tail[l].uid {
      assert tail[k] == items[k + 1] && tail[l] == items[l + 1];
    }
    forall k | 0 <= k < |tail| ensures FindItem(c.cals, tail[k].uid) == FindItem(e.cals, tail[k].uid)
      && (FindItem(c.cals, tail[k].uid).Some? ==> Stored(c.cals, tail[k].uid) == tail[k])
    {
      assert tail[k] == items[k + 1];
    }
    if FindItem(e.cals, it.uid).Some? {
      if prev == v {
        assert Holds(c.cals, it.uid, a, v);
      } else {
        SetInPlaceSelf(e.cals, it.uid, a, v);
      }
    }
  }

  /** A run over items none of which has this uid leaves its item alone. */
  lemma {:induction false} SetAllKeeps(e: Editor, items: seq<Item>, a: ItemAttr, v: Value, uid: string)
    requires SetAll(e, items, a, v).Done?
    requires forall k :: 0 <= k < |items| ==> items[k].uid != uid
    requires Holds(e.cals, uid, a, v)
    ensures Holds(SetAll(e, items, a, v).value.cals, uid, a, v)
    decreases |items|
  {
    if items != [] {
      var c := TxSetItemAttr(e, items[0], a, v).value;
      SetInPlaceOther(e.cals, items[0].uid, a, v, uid);
      assert Holds(c.cals, uid, a, v);
      forall k | 0 <= k < |items| - 1 ensures items[1..][k].uid != uid {
        assert items[1..][k] == items[k + 1];
      }
      SetAllKeeps(c, items[1..], a, v, uid);
    }
  }

  // ---------------------------------------------------------------- change

  /** `op_change` as written: nothing without targets or text, otherwise
      `tx_set_item_attr(name)` per target with no transaction of its own. */
  function OpChangeAsWritten(s: State, a: OpArgs): (r: Outcome<State>)
    ensures r.State() == s.(core := r.State().core)
  {
    if a.targets == [] || a.text == "" then Done(s)
    else match SetAll(s.core, a.targets, Name, Text(a.text))
      case Done(c) => Done(s.(core := c))
      case Raised(err, p) => Raised(err, s.(core := p))
  }

  /** Renaming an item outside a transaction raises RuntimeError and changes nothing. */
  lemma {:induction false} ChangeAsWrittenRaises(s: State, it: Item)
    requires s.core.history.current.None? && it.name != "x"
    ensures OpChangeAsWritten(s, OpArgs("c", [it], "\"", "x")) == Raised(RuntimeError, s)
  {
    SetAllOutside(s.core, [it], Name, Text("x"));
  }

  /** The label of the change transaction. */
  function ChangeLabel(n: nat): string {
    "Change " + NatToString(n) + " items"
  }

  /** `op_change` with its renames wrapped in a transaction block, as
      `op_delete` wraps its removals. */
  function OpChange(s: State, a: OpArgs): (r: Outcome<State>)
    ensures a.targets == [] || a.text == "" ==> r == Done(s)
    ensures a.targets != [] && a.text != "" && s.core.history.current.Some? ==>
      r == Raised(RuntimeError, s)
    ensures r.State() == s.(core := r.State().core)
  {
    if a.targets == [] || a.text == "" then Done(s)
    else match TransactionBlock(s.core, ChangeLabel(|a.targets|), e => SetAll(e, a.targets, Name, Text(a.text)), s.settings.maxHistory)
      case Done(c) => Done(s.(core := c))
      case Raised(err, p) => Raised(err, s.(core := p))
  }

  /** A change with no transaction open always completes; it pushes one
      transaction recording a rename for each target whose name differs (and
      none if there is none), and every target found by uid now has the new
      name when the targets are current and distinct. */
  lemma {:induction false} ChangeCommits(s: State, a: OpArgs)
    requires s.core.history.current.None? && a.targets != [] && a.text != "" && s.settings.maxHistory > 0
    ensures OpChange(s, a).Done?
    ensures var h := OpChange(s, a).value.core.history;
      var ops := SetOps(a.targets, Name, Text(a.text));
      h.current.None?
      && (ops == [] ==> h.undo == s.core.history.undo && h.redo == s.core.history.redo)
      && (ops != [] ==> h.redo == [] && h.undo != []
                        && h.undo[|h.undo| - 1] == Tx(s.core.nextId, ops, ChangeLabel(|a.targets|)))
  {
    var started := Begin(s.core, ChangeLabel(|a.targets|)).value;
    SetAllInside(started, a.targets, Name, Text(a.text));
    var after := SetAll(started, a.targets, Name, Text(a.text)).value;
    assert [] + SetOps(a.targets, Name, Text(a.text)) == SetOps(a.targets, Name, Text(a.text));
  }

  /** After a change, every current, distinct target still in a subcalendar
      carries the new name. */
  lemma {:induction false} ChangeRenames(s: State, a: OpArgs)
    requires s.core.history.current.None? && a.targets != [] && a.text != ""
    requires forall k, l :: 0 <= k < l < |a.targets| ==> a.targets[k].uid != a.targets[l].uid
    requires forall k :: 0 <= k < |a.targets| && FindItem(s.core.cals, a.targets[k].uid).Some? ==>
      Stored(s.core.cals, a.targets[k].uid) == a.targets[k]
    ensures OpChange(s, a).Done?
    ensures forall k :: 0 <= k < |a.targets| && FindItem(s.core.cals, a.targets[k].uid).Some? ==>
      Holds(OpChange(s, a).value.core.cals, a.targets[k].uid, Name, Text(a.text))
  {
    var started := Begin(s.core, ChangeLabel(|a.targets|)).value;
    assert started.cals == s.core.cals;
    SetAllHolds(started, a.targets, Name, Text(a.text));
  }

  // -------------------------------------------------------------- complete

  /** The targets that are tasks, in order. */
  function TasksOf(items: seq<Item>): (r: seq<Item>)
    ensures forall it :: it in r <==> it in items && it.Task?
    ensures |r| <= |items|
  {
    if items == [] then []
    else (if items[0].Task? then [items[0]] else []) + TasksOf(items[1..])
  }

  /** Whether every task is completed. */
  predicate AllCompleted(tasks: seq<Item>)
    requires forall k :: 0 <= k < |tasks| ==> tasks[k].Task?
  {
    forall k :: 0 <= k < |tasks| ==> tasks[k].completed
  }

  /** `op_complete` as written: the filter calls `ifinstance`, a name that is
      not defined, so any target raises NameError before anything happens;
      with no targets the filter never runs and the operator returns. */
  function OpCompleteAsWritten(s: State, a: OpArgs): (r: Outcome<State>)
    ensures a.targets == [] <==> r.Done?
    ensures r.State() == s
  {
    if a.targets == [] then Done(s) else Raised(NameError, s)
  }

  /** Completing one task raises NameError. */
  lemma {:induction false} CompleteAsWrittenRaises(s: State, t: Item)
    requires t.Task?
    ensures OpCompleteAsWritten(s, OpArgs(" ", [t], "\"", "")) == Raised(NameError, s)
  {
  }

  /** The label of the completion transaction. */
  function CompleteLabel(n: nat): string {
    "Complete " + NatToString(n) + " items"
  }

  /** `op_complete` with `isinstance` and its assignments wrapped in a
      transaction block: all tasks become completed unless all already are,
      in which case all become open. */
  function OpComplete(s: State, a: OpArgs): (r: Outcome<State>)
    ensures TasksOf(a.targets) == [] ==> r == Done(s)
    ensures r.State() == s.(core := r.State().core)
  {
    var tasks := TasksOf(a.targets);
    if tasks == [] then Done(s)
    else
      var toggle := !AllCompleted(tasks);
      match TransactionBlock(s.core, CompleteLabel(|tasks|), e => SetAll(e, tasks, Completed, Flag(toggle)), s.settings.maxHistory)
      case Done(c) => Done(s.(core := c))
      case Raised(err, p) => Raised(err, s.(core := p))
  }

  /** The toggle always changes some task: completion of a non-empty list of
      tasks is never a no-op. */
  lemma {:induction false} ToggleChangesSome(tasks: seq<Item>)
    requires tasks != [] && forall k :: 0 <= k < |tasks| ==> tasks[k].Task?
    ensures SetOps(tasks, Completed, Flag(!AllCompleted(tasks))) != []
  {
    if AllCompleted(tasks) {
      assert GetItemAttr(tasks[0], Completed) != Ok(Flag(false));
    } else {
      var k :| 0 <= k < |tasks| && !tasks[k].completed;
      assert GetItemAttr(tasks[k], Completed) != Ok(Flag(true));
    }
  }

  /** With tasks among the targets and no transaction open, completion pushes
      one transaction that sets `completed` on every task whose flag differs
      from the toggle. */
  lemma {:induction false} CompleteCommits(s: State, a: OpArgs)
    requires s.core.history.current.None? && TasksOf(a.targets) != [] && s.settings.maxHistory > 0
    ensures OpComplete(s, a).Done?
    ensures var tasks := TasksOf(a.targets);
      var h := OpComplete(s, a).value.core.history;
      h.current.None? && h.redo == [] && h.undo != []
      && h.undo[|h.undo| - 1]
         == Tx(s.core.nextId, SetOps(tasks, Completed, Flag(!AllCompleted(tasks))), CompleteLabel(|tasks|))
  {
    var tasks := TasksOf(a.targets);
    assert forall k :: 0 <= k < |tasks| ==> tasks[k] in tasks;
    var toggle := !AllCompleted(tasks);
    SetAllInside(Begin(s.core, CompleteLabel(|tasks|)).value, tasks, Completed, Flag(toggle));
    ToggleChangesSome(tasks);
    var body := e => SetAll(e, tasks, Completed, Flag(toggle));
    BlockPushes(s.core, CompleteLabel(|tasks|), body, s.settings.maxHistory, SetOps(tasks, Completed, Flag(toggle)));
    assert OpComplete(s, a) == Done(s.(core := TransactionBlock(s.core, CompleteLabel(|tasks|), body, s.settings.maxHistory).value));
  }

  /** Completing tasks outside the corrected block, as the source does, always
      raises RuntimeError. */
  lemma {:induction false} CompleteOutsideRaises(e: Editor, tasks: seq<Item>)
    requires e.history.current.None? && tasks != []
    requires forall k :: 0 <= k < |tasks| ==> tasks[k].Task?
    ensures SetAll(e, tasks, Completed, Flag(!AllCompleted(tasks))) == Raised(RuntimeError, e)
  {
    ToggleChangesSome(tasks);
    SetAllOutside(e, tasks, Completed, Flag(!AllCompleted(tasks)));
  }

  // -------------------------------------------------------------- dispatch

  /** `do_operator`: the operator the key names, or nothing for an unknown key. */
  function DoOperator(s: State, a: OpArgs): (r: Outcome<State>)
    requires Registers.Writable(s.regs.regs)
    ensures OperatorOf(a.opKey).None? ==> r == Done(s)
    ensures OperatorOf(a.opKey) == Some(Delete) ==> r == OpDelete(s, a)
    ensures OperatorOf(a.opKey) == Some(Yank) ==> r == Done(OpYank(s, a))
    ensures OperatorOf(a.opKey) == Some(Change) ==> r == OpChange(s, a)
    ensures OperatorOf(a.opKey) == Some(Complete) ==> r == OpComplete(s, a)
  {
    match OperatorOf(a.opKey)
    case None => Done(s)
    case Some(Delete) => OpDelete(s, a)
    case Some(Yank) => Done(OpYank(s, a))
    case Some(Change) => OpChange(s, a)
    case Some(Complete) => OpComplete(s, a)
  }

  /** Every operator keeps the register map's keys, so the registers stay writable. */
  lemma {:induction false} DoOperatorKeepsRegisters(s: State, a: OpArgs)
    requires Registers.Writable(s.regs.regs)
    ensures DoOperator(s, a).State().regs.regs.Keys == s.regs.regs.Keys
    ensures Registers.Writable(DoOperator(s, a).State().regs.regs)
  {
  }
}

=== FILE: ops.dfy ===
/** Atomic mutations of the calendar list (the Op classes of
  vical/core/transaction.py).

  An op either succeeds and yields the new list of subcalendars or fails before
  touching anything; the failures are the `assert`s of the source
  (AssertionError) and `list.remove` of a missing element (ValueError).
  Objects are located by uid: `get_subcal_by_uid` and `get_item_by_uid` return
  the first match in subcalendar order, and `list.remove(x)` removes the first
  element with the uid of `x`.
 */
module Ops {
  import opened Wrappers
  import opened Sorted
  import opened Entities

  datatype Op =
    | SetItemAttrOp(itemUid: string, attr: ItemAttr, before: Value, after: Value)
    | InsertItemOp(subcalUid: string, item: Item)
    | RemoveItemOp(subcalUid: string, item: Item)
    | MoveItemOp(itemUid: string, srcUid: string, dstUid: string)
    | SetSubcalAttrOp(subcalUid: string, sattr: SubcalAttr, before: Value, after: Value)
    | InsertSubcalOp(index: nat, subcal: Subcal)
    | RemoveSubcalOp(index: nat, subcal: Subcal)

  /** `get_subcal_by_uid`: the position of the first subcalendar with this uid. */
  function FindSubcal(cals: seq<Subcal>, uid: string): (r: Option<nat>)
    ensures r.Some? ==> r.value < |cals| && cals[r.value].uid == uid
    ensures r.Some? ==> forall k :: 0 <= k < r.value ==> cals[k].uid != uid
    ensures r.None? ==> forall k :: 0 <= k < |cals| ==> cals[k].uid != uid
    decreases |cals|
  {
    if |cals| == 0 then None
    else if cals[0].uid == uid then Some(0)
    else match FindSubcal(cals[1..], uid)
      case None => None
      case Some(k) => Some(k + 1)
  }

  /** The position of the first item with this uid. */
  function FindItemIn(items: seq<Item>, uid: string): (r: Option<nat>)
    ensures r.Some? ==> r.value < |items| && items[r.value].uid == uid
    ensures r.Some? ==> forall k :: 0 <= k < r.value ==> items[k].uid != uid
    ensures r.None? ==> forall k :: 0 <= k < |items| ==> items[k].uid != uid
    decreases |items|
  {
    if |items| == 0 then None
    else if items[0].uid == uid then Some(0)
    else match FindItemIn(items[1..], uid)
      case None => None
      case Some(k) => Some(k + 1)
  }

  /** `get_item_by_uid`: subcalendar and item position of the first item with this uid. */
  function FindItem(cals: seq<Subcal>, uid: string): (r: Option<(nat, nat)>)
    ensures r.Some? ==> r.value.0 < |cals| && r.value.1 < |cals[r.value.0].items|
    ensures r.Some? ==> cals[r.value.0].items[r.value.1].uid == uid
    ensures r.Some? ==> FindItemIn(cals[r.value.0].items, uid) == Some(r.value.1)
    ensures r.None? ==> forall i, j :: 0 <= i < |cals| && 0 <= j < |cals[i].items| ==> cals[i].items[j].uid != uid
    decreases |cals|
  {
    if |cals| == 0 then None
    else match FindItemIn(cals[0].items, uid)
      case Some(j) => Some((0, j))
      case None =>
        match FindItem(cals[1..], uid)
        case None => None
        case Some(p) => Some((p.0 + 1, p.1))
  }

  /** Two lists with the same uids at the same places. */
  ghost predicate SameUids(s: seq<Subcal>, t: seq<Subcal>) {
    |s| == |t| &&
    forall i :: 0 <= i < |s| ==>
      s[i].uid == t[i].uid && |s[i].items| == |t[i].items| &&
      forall j :: 0 <= j < |s[i].items| ==> s[i].items[j].uid == t[i].items[j].uid
  }

  lemma {:induction false} FindItemInSameUids(s: seq<Item>, t: seq<Item>, uid: string)
    requires |s| == |t| && forall j :: 0 <= j < |s| ==> s[j].uid == t[j].uid
    ensures FindItemIn(s, uid) == FindItemIn(t, uid)
    decreases |s|
  {
    if |s| > 0 {
      FindItemInSameUids(s[1..], t[1..], uid);
    }
  }

  /** Lookups only look at uids. */
  lemma {:induction false} FindSameUids(s: seq<Subcal>, t: seq<Subcal>, uid: string)
    requires SameUids(s, t)
    ensures FindItem(s, uid) == FindItem(t, uid)
    ensures FindSubcal(s, uid) == FindSubcal(t, uid)
    decreases |s|
  {
    if |s| > 0 {
      FindItemInSameUids(s[0].items, t[0].items, uid);
      FindSameUids(s[1..], t[1..], uid);
    }
  }

  /** `list.remove(x)` for the item with this uid: ValueError when absent. */
  function RemoveItemByUid(items: seq<Item>, uid: string): (r: Result<seq<Item>>)
    ensures r.Err? <==> FindItemIn(items, uid).None?
    ensures r.Err? ==> r.error == ValueError
    ensures r.Ok? ==> var k := FindItemIn(items, uid).value; r.value == items[..k] + items[k + 1..]
  {
    match FindItemIn(items, uid)
    case None => Err(ValueError)
    case Some(k) => Ok(items[..k] + items[k + 1..])
  }

  /** `sc.items.remove(item); sc.items.sort(...)` on the subcalendar with uid `scUid`. */
  function Detach(cals: seq<Subcal>, scUid: string, itemUid: string): (r: Result<seq<Subcal>>)
    ensures FindSubcal(cals, scUid).None? ==> r == Err(AssertionError)
    ensures FindSubcal(cals, scUid).Some? && FindItemIn(cals[FindSubcal(cals, scUid).value].items, itemUid).None?
            ==> r == Err(ValueError)
    ensures r.Ok? ==> FindSubcal(cals, scUid).Some? && |r.value| == |cals|
  {
    match FindSubcal(cals, scUid)
    case None => Err(AssertionError)
    case Some(i) =>
      match RemoveItemByUid(cals[i].items, itemUid)
      case Err(e) => Err(e)
      case Ok(rest) => Ok(cals[i := cals[i].(items := SortBy(rest, SortKey))])
  }

  /** What a successful `Detach` leaves: the subcalendar lost the first item with
      the uid and is sorted; nothing else changed. */
  lemma {:induction false} DetachEffect(cals: seq<Subcal>, scUid: string, itemUid: string)
    requires Detach(cals, scUid, itemUid).Ok?
    ensures var i := FindSubcal(cals, scUid).value;
      var r := Detach(cals, scUid, itemUid).value;
      FindItemIn(cals[i].items, itemUid).Some? &&
      r == cals[i := cals[i].(items := r[i].items)] && ItemsSorted(r[i].items) &&
      multiset(r[i].items) + multiset{cals[i].items[FindItemIn(cals[i].items, itemUid).value]}
        == multiset(cals[i].items)
  {
    var i := FindSubcal(cals, scUid).value;
    var items := cals[i].items;
    var k := FindItemIn(items, itemUid).value;
    var rest := items[..k] + items[k + 1..];
    assert items == items[..k] + [items[k]] + items[k + 1..];
    SortByCorrect(rest, SortKey);
  }

  /** `item.parent_subcal = sc; sc.items.append(item); sc.items.sort(...)`. */
  function Attach(cals: seq<Subcal>, scUid: string, it: Item): (r: Result<seq<Subcal>>)
    ensures r.Err? <==> FindSubcal(cals, scUid).None?
    ensures r.Err? ==> r.error == AssertionError
    ensures r.Ok? ==> |r.value| == |cals|
    ensures r.Ok? ==> var i := FindSubcal(cals, scUid).value;
      r.value == cals[i := cals[i].(items := r.value[i].items)]
      && ItemsSorted(r.value[i].items)
      && multiset(r.value[i].items) == multiset(cals[i].items) + multiset{WithParent(it, Some(scUid))}
  {
    match FindSubcal(cals, scUid)
    case None => Err(AssertionError)
    case Some(i) => Ok(cals[i := cals[i].(items := AddSorted(cals[i].items, WithParent(it, Some(scUid))))])
  }

  /** The body of `OpMoveItem.apply` with the roles of `src` and `dst` as given. */
  function MoveBetween(cals: seq<Subcal>, itemUid: string, src: string, dst: string): (r: Result<seq<Subcal>>)
    ensures FindItem(cals, itemUid).None? || FindSubcal(cals, src).None? || FindSubcal(cals, dst).None?
            ==> r == Err(AssertionError)
  {
    if FindItem(cals, itemUid).None? || FindSubcal(cals, src).None? || FindSubcal(cals, dst).None? then
      Err(AssertionError)
    else
      var p := FindItem(cals, itemUid).value;
      var it := cals[p.0].items[p.1];
      match Detach(cals, src, itemUid)
      case Err(e) => Err(e)
      case Ok(mid) => Attach(mid, dst, it)
  }

  /** `setattr(get_item_by_uid(uid), attr, value)`; the list is not re-sorted. */
  function WriteItemAttr(cals: seq<Subcal>, uid: string, a: ItemAttr, v: Value): (r: Result<seq<Subcal>>)
    ensures FindItem(cals, uid).None? ==> r == Err(AssertionError)
    ensures r.Ok? ==> FindItem(cals, uid).Some? && SameUids(cals, r.value)
    ensures r.Ok? ==> var (i, j) := FindItem(cals, uid).value;
      GetItemAttr(r.value[i].items[j], a) == Ok(v) &&
      r.value == cals[i := cals[i].(items := cals[i].items[j := r.value[i].items[j]])]
  {
    match FindItem(cals, uid)
    case None => Err(AssertionError)
    case Some((i, j)) =>
      match SetItemAttr(cals[i].items[j], a, v)
      case Err(e) => Err(e)
      case Ok(it) =>
        SetThenGetItemAttr(cals[i].items[j], a, v, a);
        Ok(cals[i := cals[i].(items := cals[i].items[j := it])])
  }

  /** `setattr(get_subcal_by_uid(uid), attr, value)`. */
  function WriteSubcalAttr(cals: seq<Subcal>, uid: string, a: SubcalAttr, v: Value): (r: Result<seq<Subcal>>)
    ensures FindSubcal(cals, uid).None? ==> r == Err(AssertionError)
    ensures r.Ok? ==> FindSubcal(cals, uid).Some? && SameUids(cals, r.value)
    ensures r.Ok? ==> var i := FindSubcal(cals, uid).value;
      GetSubcalAttr(r.value[i], a) == v && r.value == cals[i := r.value[i]]
  {
    match FindSubcal(cals, uid)
    case None => Err(AssertionError)
    case Some(i) =>
      match SetSubcalAttr(cals[i], a, v)
      case Err(e) => Err(e)
      case Ok(sc) =>
        SetThenGetSubcalAttr(cals[i], a, v, a);
        Ok(cals[i := sc])
  }

  /** Python's `list.insert(index, x)` for a non-negative index: past the end it appends. */
  function ListInsert(cals: seq<Subcal>, index: nat, sc: Subcal): (r: seq<Subcal>)
    ensures |r| == |cals| + 1
    ensures index <= |cals| ==> r[index] == sc
    ensures index > |cals| ==> r == cals + [sc]
  {
    if index >= |cals| then cals + [sc]
    else cals[..index] + [sc] + cals[index..]
  }

  /** `subcalendars.remove(sc)`: ValueError when no subcalendar has its uid. */
  function RemoveSubcalByUid(cals: seq<Subcal>, uid: string): (r: Result<seq<Subcal>>)
    ensures r.Err? <==> FindSubcal(cals, uid).None?
    ensures r.Err? ==> r.error == ValueError
    ensures r.Ok? ==> |r.value| + 1 == |cals|
    ensures r.Ok? ==> var k := FindSubcal(cals, uid).value; r.value == cals[..k] + cals[k + 1..]
  {
    match FindSubcal(cals, uid)
    case None => Err(ValueError)
    case Some(k) => Ok(cals[..k] + cals[k + 1..])
  }

  /** `op.apply(editor)`. */
  function Apply(op: Op, cals: seq<Subcal>): Result<seq<Subcal>> {
    match op
    case SetItemAttrOp(u, a, _, after) => WriteItemAttr(cals, u, a, after)
    case InsertItemOp(scu, it) => Attach(cals, scu, it)
    case RemoveItemOp(scu, it) => Detach(cals, scu, it.uid)
    case MoveItemOp(u, src, dst) => MoveBetween(cals, u, src, dst)
    case SetSubcalAttrOp(scu, a, _, after) => WriteSubcalAttr(cals, scu, a, after)
    case InsertSubcalOp(k, sc) => Ok(ListInsert(cals, k, sc))
    case RemoveSubcalOp(_, sc) => RemoveSubcalByUid(cals, sc.uid)
  }

  /** `op.revert(editor)`. */
  function Revert(op: Op, cals: seq<Subcal>): Result<seq<Subcal>> {
    match op
    case SetItemAttrOp(u, a, before, _) => WriteItemAttr(cals, u, a, before)
    case InsertItemOp(scu, it) => Detach(cals, scu, it.uid)
    case RemoveItemOp(scu, it) => Attach(cals, scu, it)
    case MoveItemOp(u, src, dst) => MoveBetween(cals, u, dst, src)
    case SetSubcalAttrOp(scu, a, before, _) => WriteSubcalAttr(cals, scu, a, before)
    case InsertSubcalOp(_, sc) => RemoveSubcalByUid(cals, sc.uid)
    case RemoveSubcalOp(k, sc) => Ok(ListInsert(cals, k, sc))
  }

  /** The op that undoes `op`: the paired class with the roles exchanged. */
  function Mirror(op: Op): Op {
    match op
    case SetItemAttrOp(u, a, before, after) => SetItemAttrOp(u, a, after, before)
    case InsertItemOp(scu, it) => RemoveItemOp(scu, it)
    case RemoveItemOp(scu, it) => InsertItemOp(scu, it)
    case MoveItemOp(u, src, dst) => MoveItemOp(u, dst, src)
    case SetSubcalAttrOp(scu, a, before, after) => SetSubcalAttrOp(scu, a, after, before)
    case InsertSubcalOp(k, sc) => RemoveSubcalOp(k, sc)
    case RemoveSubcalOp(k, sc) => InsertSubcalOp(k, sc)
  }

  lemma {:induction false} MirrorInvolution(op: Op)
    ensures Mirror(Mirror(op)) == op
  {
  }

  /** Every `revert` is the `apply` of the mirrored op, so the op classes come in
      inverse pairs and a lemma about `apply` then `revert` also covers
      `revert` then `apply`. */
  lemma {:induction false} RevertIsMirrorApply(op: Op, cals: seq<Subcal>)
    ensures Revert(op, cals) == Apply(Mirror(op), cals)
    ensures Apply(op, cals) == Revert(Mirror(op), cals)
  {
  }

  /** Setting an item attribute and setting it back restores the calendar list,
      provided the attribute held the value the op records as `before`. */
  lemma {:induction false} SetItemAttrRoundTrip(cals: seq<Subcal>, uid: string, a: ItemAttr, before: Value, after: Value)
    requires FindItem(cals, uid).Some?
    requires GetItemAttr(cals[FindItem(cals, uid).value.0].items[FindItem(cals, uid).value.1], a) == Ok(before)
    requires Apply(SetItemAttrOp(uid, a, before, after), cals).Ok?
    ensures Revert(SetItemAttrOp(uid, a, before, after), Apply(SetItemAttrOp(uid, a, before, after), cals).value) == Ok(cals)
  {
    var (i, j) := FindItem(cals, uid).value;
    var mid := WriteItemAttr(cals, uid, a, after).value;
    FindSameUids(cals, mid, uid);
    var it := cals[i].items[j];
    var it' := SetItemAttr(it, a, after).value;
    assert mid[i].items[j] == it';
    SetThenGetItemAttr(it, a, after, a);
    assert SetItemAttr(it', a, before) == Ok(it) by {
      GetThenSetItemAttr(it, a);
    }
    assert mid[i].items[j := it] == cals[i].items;
    assert mid[i := mid[i].(items := cals[i].items)] == cals;
  }

  /** The same round trip for subcalendar attributes. */
  lemma {:induction false} SetSubcalAttrRoundTrip(cals: seq<Subcal>, uid: string, a: SubcalAttr, before: Value, after: Value)
    requires FindSubcal(cals, uid).Some?
    requires GetSubcalAttr(cals[FindSubcal(cals, uid).value], a) == before
    requires Apply(SetSubcalAttrOp(uid, a, before, after), cals).Ok?
    ensures Revert(SetSubcalAttrOp(uid, a, before, after), Apply(SetSubcalAttrOp(uid, a, before, after), cals).value) == Ok(cals)
  {
    var i := FindSubcal(cals, uid).value;
    var mid := WriteSubcalAttr(cals, uid, a, after).value;
    FindSameUids(cals, mid, uid);
    GetThenSetSubcalAttr(cals[i], a);
    assert mid[i := cals[i]] == cals;
  }

  /** Reverting an item insertion into a sorted subcalendar that held no item
      with the same uid gives back exactly the list before the insertion. */
  lemma {:induction false} InsertItemRoundTrip(cals: seq<Subcal>, scUid: string, it: Item)
    requires FindSubcal(cals, scUid).Some?
    requires ItemsSorted(cals[FindSubcal(cals, scUid).value].items)
    requires FindItemIn(cals[FindSubcal(cals, scUid).value].items, it.uid).None?
    ensures Apply(InsertItemOp(scUid, it), cals).Ok?
    ensures Revert(InsertItemOp(scUid, it), Apply(InsertItemOp(scUid, it), cals).value) == Ok(cals)
  {
    var i := FindSubcal(cals, scUid).value;
    var items := cals[i].items;
    var x := WithParent(it, Some(scUid));
    var mid := cals[i := cals[i].(items := AddSorted(items, x))];
    assert Attach(cals, scUid, it) == Ok(mid);
    FindSubcalSameUids(cals, mid, scUid);
    RemoveAfterAdd(items, x);
    SortBySortedIsIdentity(items, SortKey);
    assert Detach(mid, scUid, it.uid) == Ok(mid[i := mid[i].(items := items)]);
    assert mid[i := mid[i].(items := items)] == cals;
  }

  /** Removing the item just added to a sorted list gives the list back. */
  lemma {:induction false} RemoveAfterAdd(items: seq<Item>, x: Item)
    requires ItemsSorted(items) && FindItemIn(items, x.uid).None?
    ensures RemoveItemByUid(AddSorted(items, x), x.uid) == Ok(items)
  {
    AppendSortIsInsert(items, x, SortKey);
    InsertByShape(items, x, SortKey);
    var k := InsertPos(items, x, SortKey);
    RemoveFirstUid(items[..k], x, items[k..]);
    TakeDrop(items, k);
  }

  /** `list.remove` takes out `x` when nothing before it has its uid. */
  lemma {:induction false} RemoveFirstUid(pre: seq<Item>, x: Item, post: seq<Item>)
    requires forall m :: 0 <= m < |pre| ==> pre[m].uid != x.uid
    ensures RemoveItemByUid(pre + [x] + post, x.uid) == Ok(pre + post)
  {
    FirstUidAt(pre, x, post, x.uid);
    DropAt(pre, x, post);
  }


  lemma {:induction false} FindSubcalSameUids(s: seq<Subcal>, t: seq<Subcal>, uid: string)
    requires |s| == |t| && forall i :: 0 <= i < |s| ==> s[i].uid == t[i].uid
    ensures FindSubcal(s, uid) == FindSubcal(t, uid)
    decreases |s|
  {
    if |s| > 0 {
      FindSubcalSameUids(s[1..], t[1..], uid);
    }
  }

  lemma {:induction false} MultisetCancel<T>(a: multiset<T>, b: multiset<T>, x: T)
    requires a + multiset{x} == b + multiset{x}
    ensures a == b
  {
    assert a == (a + multiset{x}) - multiset{x};
    assert b == (b + multiset{x}) - multiset{x};
  }

  lemma {:induction false} TakeDrop<T>(s: seq<T>, k: nat)
    requires k <= |s|
    ensures s[..k] + s[k..] == s
  {
  }

  lemma {:induction false} DropAt<T>(pre: seq<T>, x: T, post: seq<T>)
    ensures var s := pre + [x] + post; s[..|pre|] + s[|pre| + 1..] == pre + post
  {
    var s := pre + [x] + post;
    assert s[..|pre|] == pre;
    assert s[|pre| + 1..] == post;
  }

  /** In `pre + [x] + post` where `pre` has no item with `x`'s uid, the first
      item with that uid is `x`. */
  lemma {:induction false} FirstUidAt(pre: seq<Item>, x: Item, post: seq<Item>, uid: string)
    requires x.uid == uid && FindItemIn(pre, uid).None?
    ensures FindItemIn(pre + [x] + post, uid) == Some(|pre|)
  {
    var s := pre + [x] + post;
    assert s[|pre|] == x;
    assert forall k :: 0 <= k < |pre| ==> s[k] == pre[k];
  }

  /** Removing an item and reverting the removal leaves the subcalendar with the
      same items, sorted, provided the op's snapshot is the item's state and the
      item is the first with its uid. */
  lemma {:induction false} RemoveItemRoundTrip(cals: seq<Subcal>, scUid: string, it: Item)
    requires FindSubcal(cals, scUid).Some?
    requires var i := FindSubcal(cals, scUid).value;
      FindItemIn(cals[i].items, it.uid).Some? &&
      cals[i].items[FindItemIn(cals[i].items, it.uid).value] == WithParent(it, Some(scUid))
    ensures Apply(RemoveItemOp(scUid, it), cals).Ok?
    ensures var i := FindSubcal(cals, scUid).value;
      var r := Revert(RemoveItemOp(scUid, it), Apply(RemoveItemOp(scUid, it), cals).value);
      r.Ok? && r.value == cals[i := cals[i].(items := r.value[i].items)]
      && ItemsSorted(r.value[i].items)
      && multiset(r.value[i].items) == multiset(cals[i].items)
  {
    var i := FindSubcal(cals, scUid).value;
    var mid := Detach(cals, scUid, it.uid).value;
    DetachEffect(cals, scUid, it.uid);
    FindSubcalSameUids(cals, mid, scUid);
    var r := Attach(mid, scUid, it).value;
    assert r == mid[i := mid[i].(items := r[i].items)];
  }

  /** The only item with this uid sits at position `j` of subcalendar `i`. */
  ghost predicate UniqueAt(cals: seq<Subcal>, uid: string, i: nat, j: nat) {
    i < |cals| && j < |cals[i].items| && cals[i].items[j].uid == uid &&
    forall i', j' :: 0 <= i' < |cals| && 0 <= j' < |cals[i'].items| && cals[i'].items[j'].uid == uid
      ==> i' == i && j' == j
  }

  ghost predicate NoUid(items: seq<Item>, uid: string) {
    forall m :: 0 <= m < |items| ==> items[m].uid != uid
  }

  lemma {:induction false} NoUidMultiset(a: seq<Item>, b: seq<Item>, uid: string)
    requires NoUid(a, uid) && multiset(a) == multiset(b)
    ensures NoUid(b, uid)
  {
    forall m | 0 <= m < |b| ensures b[m].uid != uid {
      assert b[m] in multiset(b);
      assert b[m] in a;
    }
  }

  /** Once `x` has been added to items without its uid, `x` is the first (and
      only) item with that uid. */
  lemma {:induction false} FindAdded(items: seq<Item>, rest: seq<Item>, x: Item)
    requires NoUid(rest, x.uid) && multiset(items) == multiset(rest) + multiset{x}
    ensures FindItemIn(items, x.uid).Some? && items[FindItemIn(items, x.uid).value] == x
  {
    assert x in multiset(items);
    assert x in items;
    var q := FindItemIn(items, x.uid);
    var y := items[q.value];
    assert y in multiset(items);
  }

  /** Taking the unique item with a uid out of a list leaves no item with it. */
  lemma {:induction false} NoUidAfterRemove(items: seq<Item>, rest: seq<Item>, j: nat, uid: string)
    requires j < |items| && items[j].uid == uid
    requires forall m :: 0 <= m < |items| && items[m].uid == uid ==> m == j
    requires multiset(rest) + multiset{items[j]} == multiset(items)
    ensures NoUid(rest, uid)
  {
    var others := items[..j] + items[j + 1..];
    assert items == items[..j] + [items[j]] + items[j + 1..];
    assert multiset(others) + multiset{items[j]} == multiset(items);
    MultisetCancel(multiset(others), multiset(rest), items[j]);
    assert NoUid(others, uid) by {
      forall m | 0 <= m < |others| ensures others[m].uid != uid {
        if m < j { assert others[m] == items[m]; } else { assert others[m] == items[m + 1]; }
      }
    }
    NoUidMultiset(others, rest, uid);
  }

  /** When only subcalendar `d` holds an item with the uid, the lookup finds it there. */
  lemma {:induction false} FindItemOnlyIn(cals: seq<Subcal>, uid: string, d: nat)
    requires d < |cals| && FindItemIn(cals[d].items, uid).Some?
    requires forall k :: 0 <= k < |cals| && k != d ==> NoUid(cals[k].items, uid)
    ensures FindItem(cals, uid) == Some((d, FindItemIn(cals[d].items, uid).value))
  {
    var q := FindItemIn(cals[d].items, uid).value;
    assert cals[d].items[q].uid == uid;
  }

  /** Replacing the items of one subcalendar does not move any subcalendar. */
  lemma {:induction false} FindSubcalAfterUpdate(cals: seq<Subcal>, i: nat, items: seq<Item>, uid: string)
    requires i < |cals|
    ensures FindSubcal(cals[i := cals[i].(items := items)], uid) == FindSubcal(cals, uid)
  {
    FindSubcalSameUids(cals, cals[i := cals[i].(items := items)], uid);
  }

  /** Taking the unique item with the uid out of the source subcalendar. */
  lemma {:induction false} DetachUnique(cals: seq<Subcal>, uid: string, src: string, j: nat)
    requires FindSubcal(cals, src).Some?
    requires UniqueAt(cals, uid, FindSubcal(cals, src).value, j)
    ensures Detach(cals, src, uid).Ok?
    ensures var si := FindSubcal(cals, src).value;
      var mid := Detach(cals, src, uid).value;
      mid == cals[si := cals[si].(items := mid[si].items)]
      && NoUid(mid[si].items, uid)
      && multiset(mid[si].items) + multiset{cals[si].items[j]} == multiset(cals[si].items)
  {
    var si := FindSubcal(cals, src).value;
    assert FindItemIn(cals[si].items, uid) == Some(j);
    var mid := Detach(cals, src, uid).value;
    DetachEffect(cals, src, uid);
    NoUidAfterRemove(cals[si].items, mid[si].items, j, uid);
  }

  /** `OpMoveItem.apply` on a unique item: the source loses it, the destination
      gains it with its parent changed, and afterwards the destination copy is the
      only item with the uid. */
  lemma {:induction false} MoveItemForward(cals: seq<Subcal>, uid: string, src: string, dst: string, j: nat)
    requires src != dst
    requires FindSubcal(cals, src).Some? && FindSubcal(cals, dst).Some?
    requires UniqueAt(cals, uid, FindSubcal(cals, src).value, j)
    ensures Apply(MoveItemOp(uid, src, dst), cals).Ok?
    ensures var si := FindSubcal(cals, src).value;
      var di := FindSubcal(cals, dst).value;
      var it := cals[si].items[j];
      var moved := Apply(MoveItemOp(uid, src, dst), cals).value;
      |moved| == |cals| && si != di
      && FindSubcal(moved, src) == Some(si) && FindSubcal(moved, dst) == Some(di)
      && (forall k :: 0 <= k < |cals| && k != si && k != di ==> moved[k] == cals[k])
      && multiset(moved[si].items) + multiset{it} == multiset(cals[si].items)
      && multiset(moved[di].items) == multiset(cals[di].items) + multiset{WithParent(it, Some(dst))}
      && FindItemIn(moved[di].items, uid).Some?
      && FindItem(moved, uid) == Some((di, FindItemIn(moved[di].items, uid).value))
      && moved[di].items[FindItemIn(moved[di].items, uid).value] == WithParent(it, Some(dst))
  {
    var si := FindSubcal(cals, src).value;
    var di := FindSubcal(cals, dst).value;
    var it := cals[si].items[j];
    var x := WithParent(it, Some(dst));
    assert FindItem(cals, uid) == Some((si, j));
    DetachUnique(cals, uid, src, j);
    var mid := Detach(cals, src, uid).value;
    FindSubcalAfterUpdate(cals, si, mid[si].items, dst);
    FindSubcalAfterUpdate(cals, si, mid[si].items, src);
    var moved := Attach(mid, dst, it).value;
    MoveFound(cals, uid, src, dst, (si, j));
    FindSubcalAfterUpdate(mid, di, moved[di].items, dst);
    FindSubcalAfterUpdate(mid, di, moved[di].items, src);
    forall k | 0 <= k < |cals| && k != di ensures NoUid(moved[k].items, uid) {
      if k != si {
        assert moved[k] == cals[k];
      }
    }
    FindAdded(moved[di].items, cals[di].items, x);
    FindItemOnlyIn(moved, uid, di);
  }

  /** With the item and both subcalendars found, the move op detaches the item
      and attaches the copy it found. */
  lemma {:induction false} MoveFound(cals: seq<Subcal>, uid: string, src: string, dst: string, p: (nat, nat))
    requires FindItem(cals, uid) == Some(p) && FindSubcal(cals, src).Some? && FindSubcal(cals, dst).Some?
    requires Detach(cals, src, uid).Ok?
    ensures Apply(MoveItemOp(uid, src, dst), cals) == Attach(Detach(cals, src, uid).value, dst, cals[p.0].items[p.1])
  {
    assert Apply(MoveItemOp(uid, src, dst), cals) == MoveBetween(cals, uid, src, dst);
  }

  /** Moving an item and moving it back leaves every subcalendar with the items
      it had, when the source and destination differ and the item's uid is
      unique. */
  lemma {:induction false} MoveItemRoundTrip(cals: seq<Subcal>, uid: string, src: string, dst: string, j: nat)
    requires src != dst
    requires FindSubcal(cals, src).Some? && FindSubcal(cals, dst).Some?
    requires UniqueAt(cals, uid, FindSubcal(cals, src).value, j)
    requires cals[FindSubcal(cals, src).value].items[j].parent == Some(src)
    ensures Apply(MoveItemOp(uid, src, dst), cals).Ok?
    ensures var r := Revert(MoveItemOp(uid, src, dst), Apply(MoveItemOp(uid, src, dst), cals).value);
      r.Ok? && |r.value| == |cals|
      && forall k :: 0 <= k < |cals| ==> multiset(r.value[k].items) == multiset(cals[k].items)
  {
    MoveItemForward(cals, uid, src, dst, j);
    var si := FindSubcal(cals, src).value;
    var di := FindSubcal(cals, dst).value;
    var it := cals[si].items[j];
    var x := WithParent(it, Some(dst));
    var moved := Apply(MoveItemOp(uid, src, dst), cals).value;
    var back := Detach(moved, dst, uid).value;
    DetachEffect(moved, dst, uid);
    FindSubcalAfterUpdate(moved, di, back[di].items, src);
    assert WithParent(x, Some(src)) == it;
    var r := Attach(back, src, x).value;
    assert Revert(MoveItemOp(uid, src, dst), moved) == Ok(r);
    MultisetCancel(multiset(back[di].items), multiset(cals[di].items), x);
    forall k | 0 <= k < |cals| ensures multiset(r[k].items) == multiset(cals[k].items) {
      if k != si && k != di {
        assert r[k] == cals[k];
      }
    }
  }

  /** Removing a subcalendar at the recorded index and reinserting it there
      restores the list exactly. */
  lemma {:induction false} RemoveSubcalRoundTrip(cals: seq<Subcal>, sc: Subcal)
    requires FindSubcal(cals, sc.uid).Some? && cals[FindSubcal(cals, sc.uid).value] == sc
    ensures var op := RemoveSubcalOp(FindSubcal(cals, sc.uid).value, sc);
      Apply(op, cals).Ok? && Revert(op, Apply(op, cals).value) == Ok(cals)
  {
    var k := FindSubcal(cals, sc.uid).value;
    var rest := cals[..k] + cals[k + 1..];
    assert RemoveSubcalByUid(cals, sc.uid) == Ok(rest);
    if k == |rest| {
      assert ListInsert(rest, k, sc) == rest + [sc];
      assert rest + [sc] == cals;
    } else {
      assert rest[..k] == cals[..k];
      assert rest[k..] == cals[k + 1..];
      assert ListInsert(rest, k, sc) == cals[..k] + [sc] + cals[k + 1..];
      assert cals == cals[..k] + [sc] + cals[k + 1..];
    }
  }

  /** Appending a subcalendar with a new uid at the recorded index `len` and
      removing it again restores the list exactly. */
  lemma {:induction false} InsertSubcalRoundTrip(cals: seq<Subcal>, sc: Subcal)
    requires FindSubcal(cals, sc.uid).None?
    ensures var op := InsertSubcalOp(|cals|, sc);
      Apply(op, cals) == Ok(cals + [sc]) && Revert(op, cals + [sc]) == Ok(cals)
  {
    FindSubcalLast(cals, sc);
    DropAt(cals, sc, []);
    assert cals + [sc] + [] == cals + [sc];
    assert cals + [] == cals;
  }

  lemma {:induction false} FindSubcalLast(cals: seq<Subcal>, sc: Subcal)
    requires FindSubcal(cals, sc.uid).None?
    ensures FindSubcal(cals + [sc], sc.uid) == Some(|cals|)
  {
    var s := cals + [sc];
    assert s[|cals|].uid == sc.uid;
    assert forall k :: 0 <= k < |cals| ==> s[k] == cals[k];
  }

}

=== FILE: prompt.dfy ===
/** `prompt_input` of vical/input/prompt.py: one key typed into the editor's
  prompt. The prompt's `on_submit` callback is the caller's; the model
  returns the text it is called with, in the order the source calls it
  (after the prompt is closed, before the redraw flag is set). The cursor
  visibility and the prompt window drawing are terminal output and are not
  modelled.
 */
module Prompt {
  import opened Wrappers
  import KeyParser
  import opened CoreEditor

  /** The editor after the key, and the text `on_submit` was called with. */
  datatype PromptStep = PromptStep(ed: Editor, submitted: Option<string>)

  /** `prompt_input(ui, editor, key)`. With no prompt open, `prompt["text"]`
      subscripts None and raises TypeError before anything changes. */
  function PromptInput(ed: Editor, key: int): (r: Result<PromptStep>)
    ensures ed.prompt.None? <==> r == Err(TypeError)
    ensures r.Ok? && key == KeyParser.Esc ==>
      r.value == PromptStep(ed.(mode := Normal, prompt := None, redraw := true), None)
    ensures r.Ok? && KeyParser.IsEnter(key) ==>
      r.value == PromptStep(ed.(mode := Normal, prompt := None, redraw := true), Some(ed.prompt.value.value))
    ensures r.Ok? && key != KeyParser.Esc && !KeyParser.IsEnter(key) ==>
      r.value.submitted.None? && r.value.ed.prompt.Some?
      && r.value.ed == ed.(prompt := r.value.ed.prompt)
      && r.value.ed.prompt.value.text == ed.prompt.value.text
  {
    match ed.prompt
    case None => Err(TypeError)
    case Some(p) =>
      if key == KeyParser.Esc then
        Ok(PromptStep(ed.(mode := Normal, prompt := None, redraw := true), None))
      else if KeyParser.IsEnter(key) then
        Ok(PromptStep(ed.(mode := Normal, prompt := None, redraw := true), Some(p.value)))
      else
        Ok(PromptStep(ed.(prompt := Some(p.(value := EditValue(p.value, key)))), None))
  }

  /** The value after a key that neither cancels nor submits: backspace drops
      the last character (`value[:-1]`), a printable ASCII code appends its
      character, anything else leaves the value as it is. */
  function EditValue(value: string, key: int): (r: string)
    ensures KeyParser.IsBackspace(key) ==> r == (if value == [] then [] else value[..|value| - 1])
    ensures !KeyParser.IsBackspace(key) && 32 <= key <= 126 ==> r == value + [key as char]
    ensures !KeyParser.IsBackspace(key) && !(32 <= key <= 126) ==> r == value
  {
    if KeyParser.IsBackspace(key) then (if |value| == 0 then value else value[..|value| - 1])
    else if 32 <= key <= 126 then value + [key as char]
    else value
  }

  /** The typed value: the keys as the prompt receives them, from `value`. */
  function Typed(value: string, keys: seq<int>): string
    decreases |keys|
  {
    if keys == [] then value else Typed(EditValue(value, keys[0]), keys[1..])
  }

  /** Typing printable characters appends them, one per key. */
  lemma {:induction false} TypePrintable(value: string, s: string)
    requires forall i :: 0 <= i < |s| ==> 32 <= s[i] as int <= 126
    ensures Typed(value, seq(|s|, i requires 0 <= i < |s| => s[i] as int)) == value + s
    decreases |s|
  {
    var keys := seq(|s|, i requires 0 <= i < |s| => s[i] as int);
    if s != [] {
      assert keys[0] == s[0] as int && !KeyParser.IsBackspace(keys[0]);
      assert keys[1..] == seq(|s[1..]|, i requires 0 <= i < |s[1..]| => s[1..][i] as int);
      assert (s[0] as int) as char == s[0];
      TypePrintable(value + [s[0]], s[1..]);
      assert value + [s[0]] + s[1..] == value + s;
    }
  }

  /** A printable key followed by backspace gives the value back. */
  lemma {:induction false} AppendThenBackspace(value: string, key: int)
    requires 32 <= key <= 126
    ensures EditValue(EditValue(value, key), KeyParser.KeyBackspace) == value
  {
    var v := value + [key as char];
    assert v[..|v| - 1] == value;
  }

  /** Escape never submits, Enter submits the typed value exactly once, and
      either way the prompt is closed and the editor is back in normal mode. */
  lemma {:induction false} SubmitOnlyOnEnter(ed: Editor, key: int)
    requires ed.prompt.Some?
    ensures var r := PromptInput(ed, key);
      r.Ok? && (r.value.submitted.Some? <==> KeyParser.IsEnter(key))
      && (key == KeyParser.Esc || KeyParser.IsEnter(key) ==> r.value.ed.mode == Normal && r.value.ed.prompt.None?)
  {
  }

  /** Backspace on an empty value leaves it empty. */
  lemma {:induction false} BackspaceOnEmpty(key: int)
    requires KeyParser.IsBackspace(key)
    ensures EditValue([], key) == []
  {
  }
}

=== FILE: registers.dfy ===
/** The clipboard of vical/core/register.py: named registers holding immutable
  payload snapshots of calendar items, with vim's unnamed, yank, numbered
  delete-history and append-by-uppercase conventions.
 */
module Registers {
  import opened Wrappers
  import opened Dates
  import opened Text
  import opened Entities

  /** `RegisterPayload(kind, data)`. `Other` stands for a payload of any other
      kind, which only code outside this module could build. */
  datatype Payload =
    | TaskPayload(name: string, completed: bool, deadline: Option<Date>, originalSubcal: Option<string>)
    | EventPayload(name: string, startDate: Option<Date>, endDate: Option<Date>, originalSubcal: Option<string>)
    | Other(kind: string)

  /** `calitem_to_register`: what a paste needs, plus the uid of the
      subcalendar the item came from. */
  function ToPayload(it: Item): (p: Payload)
    ensures it.Task? <==> p.TaskPayload?
    ensures !p.Other? && p.name == it.name && p.originalSubcal == it.parent
    ensures p.TaskPayload? ==> p.completed == it.completed && p.deadline == it.deadline
    ensures p.EventPayload? ==> p.startDate == it.startDate && p.endDate == it.endDate
  {
    match it
    case Task(_, name, _, deadline, completed, _, _, parent) => TaskPayload(name, completed, deadline, parent)
    case Event(_, name, start, end, _, _, parent) => EventPayload(name, start, end, parent)
  }

  /** `calitem_from_register`: a new unattached item under the uid `newUid`; a
      task's date is left for the paste to choose. */
  function FromPayload(p: Payload, newUid: string): (r: Result<Item>)
    requires newUid != []
    ensures p.Other? ==> r == Err(ValueError)
    ensures r.Ok? ==> r.value.uid == newUid && r.value.parent.None? && r.value.name == p.name
  {
    match p
    case TaskPayload(name, completed, deadline, _) =>
      Ok(NewTask(None, newUid, name, None, deadline, completed, "", 0))
    case EventPayload(name, start, end, _) => NewEvent(None, newUid, name, start, end, "", 0)
    case Other(_) => Err(ValueError)
  }

  /** A task survives the register with its name, completion and deadline, and
      comes back undated, unattached and under a new uid. */
  lemma {:induction false} TaskPayloadRoundTrip(t: Item, newUid: string)
    requires t.Task? && newUid != []
    ensures FromPayload(ToPayload(t), newUid).Ok?
    ensures var r := FromPayload(ToPayload(t), newUid).value;
      r.Task? && r.name == t.name && r.completed == t.completed && r.deadline == t.deadline
      && r.date.None? && r.uid == newUid && r.parent.None?
  {
  }

  /** An event whose bounds are in order survives with its name and both dates. */
  lemma {:induction false} EventPayloadRoundTrip(e: Item, newUid: string)
    requires e.Event? && newUid != []
    requires !(e.startDate.Some? && e.endDate.Some? && e.endDate.value < e.startDate.value)
    ensures FromPayload(ToPayload(e), newUid).Ok?
    ensures var r := FromPayload(ToPayload(e), newUid).value;
      r.Event? && r.name == e.name && r.startDate == e.startDate && r.endDate == e.endDate
  {
  }

  /** Pasting a payload and yanking the result gives back the payload, except
      for the origin, which a fresh item does not have. */
  lemma {:induction false} PayloadFromThenTo(p: Payload, newUid: string)
    requires newUid != [] && FromPayload(p, newUid).Ok?
    ensures ToPayload(FromPayload(p, newUid).value) == p.(originalSubcal := None)
  {
  }

  datatype Registers = Registers(regs: map<string, seq<Payload>>, previous: Option<string>)

  /** The register name holding digit `i`. */
  function Numbered(i: nat): string
    requires i < 10
  {
    [DigitChar(i)]
  }

  /** The names the constructor creates: `"`, `0`, `-`, `1`-`9` and `a`-`z`. */
  function StandardNames(): set<string> {
    {"\"", "0", "-"} + (set i: nat | 1 <= i <= 9 :: Numbered(i))
    + (set c: char | 'a' <= c <= 'z' :: [c])
  }

  ghost predicate WellFormed(r: Registers) {
    StandardNames() <= r.regs.Keys
  }

  /** The numbered registers exist, as the rotation in `write` needs. */
  ghost predicate HasNumbered(m: map<string, seq<Payload>>) {
    forall i: nat :: 1 <= i <= 9 ==> Numbered(i) in m
  }

  /** The registers `write` always touches exist. */
  ghost predicate Writable(m: map<string, seq<Payload>>) {
    "\"" in m && "0" in m && HasNumbered(m)
  }

  /** Every register the constructor creates stays, so `write` can always rotate. */
  lemma {:induction false} WellFormedWritable(r: Registers)
    requires WellFormed(r)
    ensures Writable(r.regs)
    ensures forall c: char :: 'a' <= c <= 'z' ==> [c] in r.regs
  {
    assert forall i: nat :: 1 <= i <= 9 ==> Numbered(i) in StandardNames();
  }

  /** `Register()`: every standard register empty and nothing written yet. */
  function Init(): (r: Registers)
    ensures WellFormed(r) && r.regs.Keys == StandardNames() && r.previous.None?
    ensures forall n :: n in r.regs ==> r.regs[n] == []
  {
    Registers(map n | n in StandardNames() :: [], None)
  }

  /** `_normalize_regname`: an upper-case name selects the lower-case register
      in append mode. */
  function Normalize(name: string): (r: (string, bool))
    ensures r.1 <==> IsUpper(name)
    ensures r.1 ==> r.0 == LowerStr(name)
    ensures !r.1 ==> r.0 == name
  {
    if IsUpper(name) then (LowerStr(name), true) else (name, false)
  }

  /** The argument of `write`: one item, or an iterable of them. */
  datatype Yank = One(item: Item) | Many(items: seq<Item>)

  function YankItems(y: Yank): (r: seq<Item>)
    ensures y.One? ==> r == [y.item]
    ensures y.Many? ==> r == y.items
  {
    match y
    case One(it) => [it]
    case Many(its) => its
  }

  function Payloads(items: seq<Item>): (ps: seq<Payload>)
    ensures |ps| == |items|
    ensures forall k :: 0 <= k < |items| ==> ps[k] == ToPayload(items[k])
  {
    seq(|items|, k requires 0 <= k < |items| => ToPayload(items[k]))
  }

  /** The rotation loop of `write`: for `i` from `top` down to 2, register `i`
      takes a copy of register `i - 1`. */
  function ShiftDown(m: map<string, seq<Payload>>, top: nat): (r: map<string, seq<Payload>>)
    requires top <= 9
    requires HasNumbered(m)
    ensures r.Keys == m.Keys
    decreases top
  {
    if top < 2 then m else ShiftDown(m[Numbered(top) := m[Numbered(top - 1)]], top - 1)
  }

  lemma {:induction false} NumberedInjective(i: nat, j: nat)
    requires i < 10 && j < 10
    ensures Numbered(i) == Numbered(j) <==> i == j
  {
    if Numbered(i) == Numbered(j) { assert Numbered(i)[0] == Numbered(j)[0]; }
  }

  /** The names of registers `2`..`top`, which the rotation overwrites. */
  predicate Shifted(n: string, top: nat) {
    |n| == 1 && '2' <= n[0] && n[0] as int <= '0' as int + top
  }

  /** After the rotation each register `k` in `2..top` holds what `k - 1` held
      before, and every other register is untouched. */
  lemma {:induction false} ShiftDownEffect(m: map<string, seq<Payload>>, top: nat)
    requires top <= 9
    requires HasNumbered(m)
    ensures forall k: nat :: 2 <= k <= top ==> ShiftDown(m, top)[Numbered(k)] == m[Numbered(k - 1)]
    ensures forall n :: n in m && !Shifted(n, top) ==> ShiftDown(m, top)[n] == m[n]
    decreases top
  {
    if top >= 2 {
      var m' := m[Numbered(top) := m[Numbered(top - 1)]];
      ShiftDownEffect(m', top - 1);
      var r := ShiftDown(m, top);
      assert r == ShiftDown(m', top - 1);
      forall k: nat | 2 <= k <= top
        ensures r[Numbered(k)] == m[Numbered(k - 1)]
      {
        if k < top {
          var j: nat := k - 1;
          assert !Shifted(Numbered(top), top - 1);
          assert Numbered(j) != Numbered(top) by { NumberedInjective(j, top); }
          assert m'[Numbered(j)] == m[Numbered(j)];
        } else {
          assert !Shifted(Numbered(top), top - 1);
        }
      }
    }
  }

  /** The fixed part of `write`: the unnamed register, then register `0` for a
      yank or the rotation of the numbered registers for a delete. */
  function Spread(m: map<string, seq<Payload>>, ps: seq<Payload>, rotate: bool): (m3: map<string, seq<Payload>>)
    requires Writable(m)
    ensures m3.Keys == m.Keys
  {
    var m1 := m["\"" := ps];
    if rotate then ShiftDown(m1, 9)["1" := ps] else m1["0" := ps]
  }

  /** The named-register part of `write`: only an existing register is written,
      extended in append mode and replaced otherwise. */
  function Store(m: map<string, seq<Payload>>, n: string, append: bool, ps: seq<Payload>): (r: map<string, seq<Payload>>)
    ensures r.Keys == m.Keys
    ensures n in m ==> r[n] == (if append then m[n] + ps else ps)
    ensures forall k :: k in m && k != n ==> r[k] == m[k]
  {
    if n in m then (if append then m[n := m[n] + ps] else m[n := ps]) else m
  }

  /** `Register.write(regname, items, rotate)`. */
  function Write(r: Registers, name: string, y: Yank, rotate: bool): (w: Registers)
    requires Writable(r.regs)
    ensures w.regs.Keys == r.regs.Keys
    ensures name == "_" ==> w == r
  {
    if name == "_" then r
    else
      var ps := Payloads(YankItems(y));
      var n := Normalize(name);
      Registers(Store(Spread(r.regs, ps, rotate), n.0, n.1, ps), Some(n.0))
  }

  /** Upper-case names never select the unnamed, yank or numbered registers. */
  lemma {:induction false} UpperNotSpecial(name: string)
    requires IsUpper(name)
    ensures LowerStr(name) != "\"" && LowerStr(name) != "0" && LowerStr(name) != "-"
    ensures forall i: nat :: 1 <= i <= 9 ==> LowerStr(name) != Numbered(i)
  {
    var i :| 0 <= i < |name| && IsUpperChar(name[i]);
    assert LowerStr(name)[i] == Lower(name[i]);
    assert 'a' <= LowerStr(name)[i] <= 'z';
  }

  /** Every write except to `_` leaves the new payloads in the unnamed register. */
  lemma {:induction false} WriteSetsUnnamed(r: Registers, name: string, y: Yank, rotate: bool)
    requires Writable(r.regs) && name != "_"
    ensures Write(r, name, y, rotate).regs["\""] == Payloads(YankItems(y))
    ensures Write(r, name, y, rotate).previous == Some(Normalize(name).0)
  {
    if IsUpper(name) { UpperNotSpecial(name); }
    var ps := Payloads(YankItems(y));
    if rotate {
      assert "\"" != "1";
      ShiftDownEffect(r.regs["\"" := ps], 9);
      assert !Shifted("\"", 9);
    }
  }

  /** A yank also fills register `0` and leaves the numbered registers alone
      (unless one of them is the target). */
  lemma {:induction false} YankEffect(r: Registers, name: string, y: Yank)
    requires Writable(r.regs) && name != "_"
    ensures Write(r, name, y, false).regs["0"] == Payloads(YankItems(y))
    ensures forall i: nat :: 1 <= i <= 9 && name != Numbered(i) ==>
      Write(r, name, y, false).regs[Numbered(i)] == r.regs[Numbered(i)]
  {
    if IsUpper(name) { UpperNotSpecial(name); }
    forall i: nat | 1 <= i <= 9 ensures Numbered(i) != "\"" && Numbered(i) != "0" {
      assert Numbered(i)[0] == DigitChar(i);
    }
  }

  /** A delete puts the new payloads in register `1` (unless `1` itself is the
      target). */
  lemma {:induction false} DeleteFillsFirst(r: Registers, name: string, y: Yank)
    requires Writable(r.regs) && name != "_"
    ensures name != "1" ==> Write(r, name, y, true).regs["1"] == Payloads(YankItems(y))
  {
    if IsUpper(name) { UpperNotSpecial(name); assert Numbered(1) == "1"; }
  }

  /** A delete moves registers `1`-`8` to `2`-`9` (except the target). */
  lemma {:induction false} DeleteShifts(r: Registers, name: string, y: Yank)
    requires Writable(r.regs) && name != "_"
    ensures forall k: nat :: 2 <= k <= 9 && name != Numbered(k) ==>
      Write(r, name, y, true).regs[Numbered(k)] == r.regs[Numbered(k - 1)]
  {
    if IsUpper(name) { UpperNotSpecial(name); }
    RotateStage(r.regs, Payloads(YankItems(y)));
  }

  /** A delete leaves the yank register `0` alone (unless it is the target). */
  lemma {:induction false} DeleteKeepsYank(r: Registers, name: string, y: Yank)
    requires Writable(r.regs) && name != "_"
    ensures name != "0" ==> Write(r, name, y, true).regs["0"] == r.regs["0"]
  {
    if IsUpper(name) { UpperNotSpecial(name); }
    RotateKeepsYank(r.regs, Payloads(YankItems(y)));
  }

  /** One numbered register after the unnamed write, the rotation and the
      write to `1`. */
  lemma {:induction false} RotateStageAt(m: map<string, seq<Payload>>, ps: seq<Payload>, k: nat)
    requires HasNumbered(m)
    requires 2 <= k <= 9
    ensures ShiftDown(m["\"" := ps], 9)["1" := ps][Numbered(k)] == m[Numbered(k - 1)]
  {
    var m1 := m["\"" := ps];
    ShiftDownEffect(m1, 9);
    var j: nat := k - 1;
    assert Numbered(k) != "1" by { NumberedInjective(k, 1); }
    assert Numbered(j) != "\"" by { assert Numbered(j)[0] == DigitChar(j); }
    assert m1[Numbered(j)] == m[Numbered(j)];
  }

  /** The numbered registers after the unnamed write, the rotation and the
      write to `1`. */
  lemma {:induction false} RotateStage(m: map<string, seq<Payload>>, ps: seq<Payload>)
    requires HasNumbered(m)
    ensures forall k: nat :: 2 <= k <= 9 ==> ShiftDown(m["\"" := ps], 9)["1" := ps][Numbered(k)] == m[Numbered(k - 1)]
  {
    forall k: nat | 2 <= k <= 9 ensures ShiftDown(m["\"" := ps], 9)["1" := ps][Numbered(k)] == m[Numbered(k - 1)] {
      RotateStageAt(m, ps, k);
    }
  }

  /** The rotation leaves the yank register alone. */
  lemma {:induction false} RotateKeepsYank(m: map<string, seq<Payload>>, ps: seq<Payload>)
    requires HasNumbered(m)
    requires "0" in m
    ensures ShiftDown(m["\"" := ps], 9)["1" := ps]["0"] == m["0"]
  {
    ShiftDownEffect(m["\"" := ps], 9);
    assert !Shifted("0", 9);
  }

  /** Three deletes into the unnamed register stack up most recent first. */
  lemma {:induction false} DeleteHistoryOrder(r: Registers, a: Yank, b: Yank, c: Yank)
    requires Writable(r.regs)
    ensures var w := Write(Write(Write(r, "\"", a, true), "\"", b, true), "\"", c, true);
      w.regs["1"] == Payloads(YankItems(c)) && w.regs["2"] == Payloads(YankItems(b))
      && w.regs["3"] == Payloads(YankItems(a))
  {
    var w1 := Write(r, "\"", a, true);
    var w2 := Write(w1, "\"", b, true);
    assert !IsUpper("\"");
    DeleteFillsFirst(w2, "\"", c);
    DeleteShifts(w1, "\"", b);
    DeleteShifts(w2, "\"", c);
    DeleteFillsFirst(r, "\"", a);
    DeleteFillsFirst(w1, "\"", b);
    assert Numbered(1) == "1" && Numbered(2) == "2" && Numbered(3) == "3";
  }

  /** An upper-case letter appends to its letter register; a lower-case letter
      replaces it. */
  lemma {:induction false} NamedRegisterEffect(r: Registers, c: char, y: Yank, rotate: bool)
    requires Writable(r.regs) && 'a' <= c <= 'z' && [c] in r.regs
    ensures Write(r, [c], y, rotate).regs[[c]] == Payloads(YankItems(y))
    ensures Write(r, [(c as int - 32) as char], y, rotate).regs[[c]] == r.regs[[c]] + Payloads(YankItems(y))
  {
    var up := [(c as int - 32) as char];
    assert IsUpperChar(up[0]);
    assert IsUpper(up);
    assert LowerStr(up) == [c] by { assert LowerStr(up)[0] == c; }
    assert !IsUpper([c]) by { assert IsLowerChar([c][0]); }
    var ps := Payloads(YankItems(y));
    SpreadKeepsLetter(r.regs, ps, rotate, c);
    assert Normalize([c]) == ([c], false);
    assert Normalize(up) == ([c], true);
  }

  /** The fixed part of a write leaves the letter registers alone. */
  lemma {:induction false} SpreadKeepsLetter(m: map<string, seq<Payload>>, ps: seq<Payload>, rotate: bool, c: char)
    requires Writable(m) && 'a' <= c <= 'z' && [c] in m
    ensures Spread(m, ps, rotate)[[c]] == m[[c]]
  {
    assert [c] != "\"" && [c] != "0" && [c] != "1";
    if rotate {
      ShiftDownEffect(m["\"" := ps], 9);
      assert !Shifted([c], 9);
    }
  }

  /** `Register.get(regname)`: a copy of the register, an empty list for an
      unknown name. */
  function Get(r: Registers, name: string): (ps: seq<Payload>)
    ensures Normalize(name).0 in r.regs ==> ps == r.regs[Normalize(name).0]
    ensures Normalize(name).0 !in r.regs ==> ps == []
  {
    var n := Normalize(name).0;
    if n in r.regs then r.regs[n] else []
  }

  /** `Register.clear(regname)`: the (normalised) register becomes empty. */
  function Clear(r: Registers, name: string): (c: Registers)
    ensures c.regs.Keys == r.regs.Keys + {Normalize(name).0}
    ensures forall n :: n in r.regs && n != Normalize(name).0 ==> c.regs[n] == r.regs[n]
    ensures c.previous == r.previous
  {
    r.(regs := r.regs[Normalize(name).0 := []])
  }

  lemma {:induction false} ClearThenGet(r: Registers, name: string)
    ensures Get(Clear(r, name), name) == []
    ensures WellFormed(r) ==> WellFormed(Clear(r, name))
  {
  }

  /** A write followed by a read of the same lower-case letter register gives
      back the payloads written. */
  lemma {:induction false} WriteThenGet(r: Registers, c: char, y: Yank, rotate: bool)
    requires Writable(r.regs) && 'a' <= c <= 'z' && [c] in r.regs
    ensures Get(Write(r, [c], y, rotate), [c]) == Payloads(YankItems(y))
  {
    NamedRegisterEffect(r, c, y, rotate);
    assert !IsUpper([c]) by { assert IsLowerChar([c][0]); }
  }
}

=== FILE: scroll.dfy ===
/** `get_scroll_offset` of vical/gui/curses_ui.py: the first visible row of a
  day cell's item list. The result is also what the UI stores back in
  `day_cell_scroll_offset`, so the next call starts from it.
 */
module CursesScroll {

  function Max(a: int, b: int): int { if a < b then b else a }
  function Min(a: int, b: int): int { if a < b then a else b }

  /** `get_scroll_offset(num_items, max_visible, selected_index)` with the
      stored offset `stored`. */
  function ScrollOffset(stored: int, numItems: int, maxVisible: int, selected: int): (r: int)
    ensures selected < 0 ==> r == stored
    ensures selected >= 0 ==> 0 <= r <= Max(0, numItems - maxVisible)
    ensures 0 <= selected < numItems && maxVisible >= 1 ==> r <= selected < r + maxVisible
  {
    if selected >= 0 then
      var moved := if selected >= stored + maxVisible then selected - maxVisible + 1
                   else if selected < stored then selected
                   else stored;
      Max(0, Min(moved, Max(0, numItems - maxVisible)))
    else stored
  }

  /** A selection below the window makes it the bottom row and one above it
      the top row, as long as that window fits in the list. */
  lemma {:induction false} ScrollFollowsSelection(stored: int, numItems: int, maxVisible: int, selected: int)
    requires 0 <= selected < numItems && maxVisible >= 1
    ensures 0 <= stored && selected >= stored + maxVisible ==> ScrollOffset(stored, numItems, maxVisible, selected) == selected - maxVisible + 1
    ensures selected < stored && selected <= numItems - maxVisible ==> ScrollOffset(stored, numItems, maxVisible, selected) == selected
    ensures stored <= selected < stored + maxVisible && 0 <= stored <= numItems - maxVisible ==>
      ScrollOffset(stored, numItems, maxVisible, selected) == stored
  {
  }

  /** Asking again with the offset just stored changes nothing. */
  lemma {:induction false} ScrollOffsetStable(stored: int, numItems: int, maxVisible: int, selected: int)
    requires 0 <= selected < numItems && maxVisible >= 1
    ensures var r := ScrollOffset(stored, numItems, maxVisible, selected);
      ScrollOffset(r, numItems, maxVisible, selected) == r
  {
  }
}

=== FILE: session.dfy ===
/** The editor state the newest command layer (the files under vical/commands) reads and
  writes, the motion factory of vical/commands/motions.py that builds motions
  from it, and `change_mode` of vical/commands/utils.py.

  The editor class of this generation is not part of this model. Its
  attributes are gathered in `State`, and the few of its members the commands
  call (`get_items_for_selected_date`, `selected_item`, `set_selected_date`,
  `selected_subcal`) get the plainest definitions consistent with their use.
  `uuid4()` is a counter and `date.today()` a field.
 */
module Session {
  import opened Wrappers
  import opened Dates
  import opened Text
  import opened Entities
  import opened Transactions
  import Registers
  import opened Motions
  import opened CmdArgs

  /** vical/settings.py. */
  datatype Settings = Settings(dateFormat: string, weekStart: int, maxHistory: nat)

  const DefaultSettings: Settings := Settings("mdy", 6, 50)

  datatype State = State(
    /** The subcalendars and the op log. */
    core: Editor,
    regs: Registers.Registers,
    selectedDate: Date,
    itemIndex: int,
    /** `visual_anchor_date`, `last_visual_anchor_date`, `visual_anchor_item_index`. */
    anchorDate: Option<Date>,
    lastAnchorDate: Option<Date>,
    anchorItem: Option<int>,
    /** The editor's own `mode` attribute, which `change_mode` consults. */
    editorMode: Mode,
    /** The uid of `selected_subcal`, if one is selected. */
    selectedSubcal: Option<string>,
    redraw: bool,
    settings: Settings,
    today: Date,
    /** The state of the uid oracle. */
    uidCounter: nat)

  /** A command handler acts on the key parser's argument record and the
      editor together. */
  datatype Step = Step(args: Args, st: State)

  /** The uid oracle's `n`-th answer. */
  function Uid(n: nat): (u: string)
    ensures |u| >= 2 && u[0] == 'u'
  {
    "u" + NatToString(n)
  }

  /** Distinct draws give distinct uids. */
  lemma {:induction false} UidInjective(m: nat, n: nat)
    requires Uid(m) == Uid(n)
    ensures m == n
  {
    assert NatToString(m) == Uid(m)[1..];
    assert NatToString(n) == Uid(n)[1..];
    NatToStringValue(m);
    NatToStringValue(n);
  }

  /** A fresh uid and the oracle advanced past it. */
  function FreshUid(s: State): (r: (string, State))
    ensures r.0 == Uid(s.uidCounter) && r.0 != []
    ensures r.1 == s.(uidCounter := s.uidCounter + 1)
  {
    (Uid(s.uidCounter), s.(uidCounter := s.uidCounter + 1))
  }

  /** The items of one subcalendar that occur on `day`, in list order. */
  function DayItems(items: seq<Item>, day: Date): (r: seq<Item>)
    ensures |r| <= |items|
    ensures forall it :: it in r <==> it in items && OccursOn(it, day)
  {
    if items == [] then []
    else (if OccursOn(items[0], day) then [items[0]] else []) + DayItems(items[1..], day)
  }

  /** The items shown on `day`: visible subcalendars only, in subcalendar order
      and then item order. */
  function ItemsOn(cals: seq<Subcal>, day: Date): (r: seq<Item>)
  {
    if cals == [] then []
    else (if cals[0].hidden then [] else DayItems(cals[0].items, day)) + ItemsOn(cals[1..], day)
  }

  /** An item is shown on a day exactly when some visible subcalendar holds it
      and it occurs on that day. */
  lemma {:induction false} ItemsOnMembers(cals: seq<Subcal>, day: Date, it: Item)
    ensures it in ItemsOn(cals, day) <==>
      OccursOn(it, day) && exists i :: 0 <= i < |cals| && !cals[i].hidden && it in cals[i].items
    decreases |cals|
  {
    if cals != [] {
      ItemsOnMembers(cals[1..], day, it);
      if exists i :: 0 < i < |cals| && !cals[i].hidden && it in cals[i].items {
        var i :| 0 < i < |cals| && !cals[i].hidden && it in cals[i].items;
        assert cals[1..][i - 1] == cals[i];
      }
      if exists i :: 0 <= i < |cals| - 1 && !cals[1..][i].hidden && it in cals[1..][i].items {
        var i :| 0 <= i < |cals| - 1 && !cals[1..][i].hidden && it in cals[1..][i].items;
        assert cals[i + 1] == cals[1..][i];
      }
    }
  }

  /** `get_items_for_selected_date()`. */
  function SelectedDayItems(s: State): seq<Item> {
    ItemsOn(s.core.cals, s.selectedDate)
  }

  /** `selected_item`: the item at the selected index, if the index is in range. */
  function SelectedItem(s: State): (r: Option<Item>)
    ensures r.Some? <==> 0 <= s.itemIndex < |SelectedDayItems(s)|
    ensures r.Some? ==> r.value in SelectedDayItems(s) && OccursOn(r.value, s.selectedDate)
  {
    var items := SelectedDayItems(s);
    if 0 <= s.itemIndex < |items| then
      ItemsOnMembers(s.core.cals, s.selectedDate, items[s.itemIndex]);
      Some(items[s.itemIndex])
    else None
  }

  /** `max(lo, min(x, hi))`. */
  function Clamp(x: int, lo: int, hi: int): (r: int)
    requires lo <= hi
  {
    if x < lo then lo else if x > hi then hi else x
  }

  function Dist(a: int, b: int): nat {
    if a >= b then a - b else b - a
  }

  /** The clamped value is the point of `[lo, hi]` nearest to `x`, and `x` itself
      when it is in range. */
  lemma {:induction false} ClampNearest(x: int, lo: int, hi: int)
    requires lo <= hi
    ensures lo <= Clamp(x, lo, hi) <= hi
    ensures lo <= x <= hi ==> Clamp(x, lo, hi) == x
    ensures forall k :: lo <= k <= hi ==> Dist(Clamp(x, lo, hi), x) <= Dist(k, x)
  {
  }

  /** `Motions.date_move(delta)`. */
  function DateMove(s: State, delta: int): (m: Motion)
    ensures m.DateMotion? && m.start == s.selectedDate && m.end - m.start == delta
  {
    DateMotion(s.selectedDate, s.selectedDate + delta)
  }

  /** `Motions.item_move(delta)`: from the selected index, clamped to the day's
      items; `ItemMotion(0, 0)` on an empty day. */
  function ItemMove(s: State, delta: int): (m: Motion)
    ensures m.ItemMotion?
    ensures SelectedDayItems(s) == [] ==> m == ItemMotion(0, 0)
    ensures SelectedDayItems(s) != [] ==>
      m.start == s.itemIndex && m.end == Clamp(s.itemIndex + delta, 0, |SelectedDayItems(s)| - 1)
  {
    var n := |SelectedDayItems(s)|;
    if n == 0 then ItemMotion(0, 0)
    else ItemMotion(s.itemIndex, if s.itemIndex + delta < 0 then 0 else if s.itemIndex + delta > n - 1 then n - 1 else s.itemIndex + delta)
  }

  /** `Motions.date_set(target)`. */
  function DateSet(s: State, target: Date): (m: Motion)
    ensures m.DateMotion? && m.start == s.selectedDate && m.end == target
  {
    DateMotion(s.selectedDate, target)
  }

  /** `motion.apply(editor)`: a date motion selects its end date, an item motion
      its end index. */
  function ApplyMotion(s: State, m: Motion): (r: State)
    ensures m.DateMotion? ==> r == s.(selectedDate := m.end)
    ensures m.ItemMotion? ==> r == s.(itemIndex := m.end)
  {
    match m
    case DateMotion(_, e) => s.(selectedDate := e)
    case ItemMotion(_, e) => s.(itemIndex := e)
  }

  /** Date moves compose by adding their deltas, a date set lands on its
      target, and an item move on a non-empty day always selects an item. */
  lemma {:induction false} MotionFactoryLaws(s: State, a: int, b: int, target: Date)
    ensures var s1 := ApplyMotion(s, DateMove(s, a));
      ApplyMotion(s1, DateMove(s1, b)).selectedDate == s.selectedDate + (a + b)
    ensures ApplyMotion(s, DateSet(s, target)).selectedDate == target
    ensures ApplyMotion(s, DateMove(s, a)) == ApplyMotion(s, DateSet(s, s.selectedDate + a))
    ensures SelectedDayItems(s) != [] ==> SelectedItem(ApplyMotion(s, ItemMove(s, a))).Some?
    ensures 0 <= s.itemIndex < |SelectedDayItems(s)| ==> ApplyMotion(s, ItemMove(s, 0)) == s
  {
  }

  /** `change_mode(cmdargs, mode)`. Leaving visual mode pins the anchor to the
      selected date; entering normal mode while the editor is in visual mode
      saves and drops the anchor. Every real change requests a redraw. */
  function ChangeMode(x: Step, mode: Mode): (r: Step)
    ensures r.args == x.args.(mode := mode)
    ensures x.args.mode == mode ==> r == x
    ensures x.args.mode != mode ==> r.st.redraw
    ensures x.args.mode != mode && x.args.mode == Visual ==> r.st.anchorDate == Some(x.st.selectedDate)
    ensures x.args.mode != mode && x.args.mode != Visual && mode == Normal && x.st.editorMode == Visual ==>
      r.st.anchorDate.None? && r.st.lastAnchorDate == x.st.anchorDate
    ensures r.st.core == x.st.core && r.st.selectedDate == x.st.selectedDate && r.st.regs == x.st.regs
  {
    if x.args.mode == mode then x
    else
      var st :=
        if x.args.mode == Visual then x.st.(anchorDate := Some(x.st.selectedDate))
        else if mode == Normal && x.st.editorMode == Visual then
          x.st.(lastAnchorDate := x.st.anchorDate, anchorDate := None)
        else x.st;
      Step(x.args.(mode := mode), st.(redraw := true))
  }

  /** Changing to a mode twice is changing to it once. */
  lemma {:induction false} ChangeModeIdempotent(x: Step, mode: Mode)
    ensures ChangeMode(ChangeMode(x, mode), mode) == ChangeMode(x, mode)
  {
  }

  /** `reset_editor`: back to normal mode, always with a redraw. */
  function ResetEditor(x: Step): (r: Step)
    ensures r.args.mode == Normal && r.st.redraw
    ensures r.st.core == x.st.core && r.st.selectedDate == x.st.selectedDate
  {
    var y := ChangeMode(x, Normal);
    y.(st := y.st.(redraw := true))
  }
}

=== FILE: sorted.dfy ===
/** Ordering by sort keys, the way Python compares tuples and strings.

  Every sort key of the source is a tuple of integers, dates and strings. A date
  is its day number and a string is the sequence of its code points, so each key
  flattens to a `seq<int>` whose lexicographic order (a proper prefix first) is
  Python's tuple order. `list.sort` is stable; appending to a sorted list and
  sorting is the stable insertion `InsertBy` below.
 */
module Sorted {

  /** Python's `<=` on tuples and strings. */
  predicate LexLe(a: seq<int>, b: seq<int>)
    decreases |a|
  {
    if |a| == 0 then true
    else if |b| == 0 then false
    else if a[0] != b[0] then a[0] < b[0]
    else LexLe(a[1..], b[1..])
  }

  lemma {:induction false} LexLeRefl(a: seq<int>)
    ensures LexLe(a, a)
    decreases |a|
  {
    if |a| > 0 {
      LexLeRefl(a[1..]);
    }
  }

  lemma {:induction false} LexLeTotal(a: seq<int>, b: seq<int>)
    ensures LexLe(a, b) || LexLe(b, a)
    decreases |a|
  {
    if |a| > 0 && |b| > 0 && a[0] == b[0] {
      LexLeTotal(a[1..], b[1..]);
    }
  }

  lemma {:induction false} LexLeTrans(a: seq<int>, b: seq<int>, c: seq<int>)
    requires LexLe(a, b) && LexLe(b, c)
    ensures LexLe(a, c)
    decreases |a|
  {
    if |a| > 0 && |b| > 0 && |c| > 0 && a[0] == b[0] && b[0] == c[0] {
      LexLeTrans(a[1..], b[1..], c[1..]);
    }
  }

  /** Keys are compared on a fixed-width prefix first: `(p1, s1) <= (p2, s2)`. */
  lemma {:induction false} LexLePrefix(p1: seq<int>, s1: seq<int>, p2: seq<int>, s2: seq<int>)
    requires |p1| == |p2|
    ensures LexLe(p1 + s1, p2 + s2) <==> (p1 != p2 && LexLe(p1, p2)) || (p1 == p2 && LexLe(s1, s2))
    decreases |p1|
  {
    if |p1| > 0 {
      assert (p1 + s1)[1..] == p1[1..] + s1;
      assert (p2 + s2)[1..] == p2[1..] + s2;
      LexLePrefix(p1[1..], s1, p2[1..], s2);
      if p1[0] == p2[0] && p1[1..] == p2[1..] {
        assert p1 == [p1[0]] + p1[1..];
        assert p2 == [p2[0]] + p2[1..];
      }
    } else {
      assert p1 + s1 == s1;
      assert p2 + s2 == s2;
    }
  }

  ghost predicate SortedBy<T>(s: seq<T>, key: T -> seq<int>) {
    forall i, j :: 0 <= i < j < |s| ==> LexLe(key(s[i]), key(s[j]))
  }

  /** Stable insertion: `x` goes after every element whose key is `<=` its own. */
  function InsertBy<T>(s: seq<T>, x: T, key: T -> seq<int>): seq<T>
    decreases |s|
  {
    if |s| == 0 then [x]
    else if LexLe(key(s[|s| - 1]), key(x)) then s + [x]
    else InsertBy(s[..|s| - 1], x, key) + [s[|s| - 1]]
  }

  /** Where `InsertBy` puts the new element. */
  function InsertPos<T>(s: seq<T>, x: T, key: T -> seq<int>): (k: nat)
    ensures k <= |s|
    decreases |s|
  {
    if |s| == 0 then 0
    else if LexLe(key(s[|s| - 1]), key(x)) then |s|
    else InsertPos(s[..|s| - 1], x, key)
  }

  lemma {:induction false} InsertByShape<T>(s: seq<T>, x: T, key: T -> seq<int>)
    ensures InsertBy(s, x, key) == s[..InsertPos(s, x, key)] + [x] + s[InsertPos(s, x, key)..]
    decreases |s|
  {
    if |s| > 0 && !LexLe(key(s[|s| - 1]), key(x)) {
      var init := s[..|s| - 1];
      InsertByShape(init, x, key);
      var k := InsertPos(init, x, key);
      assert init[..k] == s[..k];
      assert init[k..] + [s[|s| - 1]] == s[k..];
    }
  }

  /** The keys after the insertion point are strictly greater than the new key. */
  lemma {:induction false} InsertPosBound<T>(s: seq<T>, x: T, key: T -> seq<int>)
    requires SortedBy(s, key)
    ensures forall i :: 0 <= i < InsertPos(s, x, key) ==> LexLe(key(s[i]), key(x))
    ensures forall i :: InsertPos(s, x, key) <= i < |s| ==> !LexLe(key(s[i]), key(x))
    decreases |s|
  {
    if |s| > 0 {
      var init := s[..|s| - 1];
      if LexLe(key(s[|s| - 1]), key(x)) {
        forall i | 0 <= i < |s|
          ensures LexLe(key(s[i]), key(x))
        {
          if i < |s| - 1 {
            LexLeTrans(key(s[i]), key(s[|s| - 1]), key(x));
          }
        }
      } else {
        InsertPosBound(init, x, key);
        var k := InsertPos(init, x, key);
        forall i | k <= i < |s|
          ensures !LexLe(key(s[i]), key(x))
        {
          if i < |s| - 1 {
            assert init[i] == s[i];
          }
        }
      }
    }
  }

  lemma {:induction false} InsertByMultiset<T>(s: seq<T>, x: T, key: T -> seq<int>)
    ensures multiset(InsertBy(s, x, key)) == multiset(s) + multiset{x}
    ensures |InsertBy(s, x, key)| == |s| + 1
  {
    InsertByShape(s, x, key);
    var k := InsertPos(s, x, key);
    assert s == s[..k] + s[k..];
  }

  /** Inserting into a sorted sequence keeps it sorted. */
  lemma {:induction false} InsertBySorted<T>(s: seq<T>, x: T, key: T -> seq<int>)
    requires SortedBy(s, key)
    ensures SortedBy(InsertBy(s, x, key), key)
  {
    InsertByShape(s, x, key);
    InsertPosBound(s, x, key);
    var k := InsertPos(s, x, key);
    var r := InsertBy(s, x, key);
    forall i, j | 0 <= i < j < |r|
      ensures LexLe(key(r[i]), key(r[j]))
    {
      if i < k && j == k {
      } else if i < k && j > k {
        assert r[j] == s[j - 1];
      } else if i == k {
        assert r[j] == s[j - 1];
        LexLeTotal(key(s[j - 1]), key(x));
      } else if i > k {
        assert r[i] == s[i - 1] && r[j] == s[j - 1];
      }
    }
  }

  /** An element whose key is not below any other goes at the end. */
  lemma {:induction false} InsertByLast<T>(s: seq<T>, x: T, key: T -> seq<int>)
    requires |s| > 0 ==> LexLe(key(s[|s| - 1]), key(x))
    ensures InsertBy(s, x, key) == s + [x]
  {
  }

  /** Stable insertion sort: Python's `list.sort(key=...)`. */
  function SortBy<T>(s: seq<T>, key: T -> seq<int>): seq<T>
    decreases |s|
  {
    if |s| == 0 then []
    else InsertBy(SortBy(s[..|s| - 1], key), s[|s| - 1], key)
  }

  lemma {:induction false} SortByCorrect<T>(s: seq<T>, key: T -> seq<int>)
    ensures SortedBy(SortBy(s, key), key)
    ensures multiset(SortBy(s, key)) == multiset(s)
  {
    SortBySorted(s, key);
    SortByPermutes(s, key);
  }

  lemma {:induction false} SortBySorted<T>(s: seq<T>, key: T -> seq<int>)
    ensures SortedBy(SortBy(s, key), key)
    decreases |s|
  {
    if |s| > 0 {
      SortBySorted(s[..|s| - 1], key);
      InsertBySorted(SortBy(s[..|s| - 1], key), s[|s| - 1], key);
    }
  }

  lemma {:induction false} SortByPermutes<T>(s: seq<T>, key: T -> seq<int>)
    ensures multiset(SortBy(s, key)) == multiset(s)
    decreases |s|
  {
    if |s| > 0 {
      var init := s[..|s| - 1];
      SortByPermutes(init, key);
      InsertByMultiset(SortBy(init, key), s[|s| - 1], key);
      assert s == init + [s[|s| - 1]];
    }
  }

  /** Sorting an already sorted sequence changes nothing. */
  lemma {:induction false} SortBySortedIsIdentity<T>(s: seq<T>, key: T -> seq<int>)
    requires SortedBy(s, key)
    ensures SortBy(s, key) == s
    decreases |s|
  {
    if |s| > 0 {
      var init := s[..|s| - 1];
      assert SortedBy(init, key);
      SortBySortedIsIdentity(init, key);
      if |init| > 0 {
        assert LexLe(key(init[|init| - 1]), key(s[|s| - 1]));
      }
      InsertByLast(init, s[|s| - 1], key);
      assert init + [s[|s| - 1]] == s;
    }
  }

  /** Appending to a sorted sequence and sorting is the stable insertion. */
  lemma {:induction false} AppendSortIsInsert<T>(s: seq<T>, x: T, key: T -> seq<int>)
    requires SortedBy(s, key)
    ensures SortBy(s + [x], key) == InsertBy(s, x, key)
  {
    assert (s + [x])[..|s|] == s;
    SortBySortedIsIdentity(s, key);
  }

  /** Dropping elements keeps a sorted sequence sorted. */
  lemma {:induction false} SortedRemoveAt<T>(s: seq<T>, k: nat, key: T -> seq<int>)
    requires SortedBy(s, key) && k < |s|
    ensures SortedBy(s[..k] + s[k + 1..], key)
  {
    var r := s[..k] + s[k + 1..];
    forall i, j | 0 <= i < j < |r|
      ensures LexLe(key(r[i]), key(r[j]))
    {
      var i' := if i < k then i else i + 1;
      var j' := if j < k then j else j + 1;
      assert r[i] == s[i'] && r[j] == s[j'];
    }
  }
}

=== FILE: tasklists.dfy ===
/** The task lists of the two older generations, vical/subcalendar.py and the
  top-level subcalendar.py: a task is a name, a `"%Y%m%d"` date string and a
  completion flag, and a subcalendar keeps its tasks sorted by
  `(year, month, day, name)`. Both files behave alike; where they differ (the
  default of `completed`, the `int(completed)` in the older `copy`) the model
  says so.

  Python compares tasks by identity (`Task` has no `__eq__`); the model
  compares them by value, which gives the same lists whenever no two distinct
  task objects carry the same fields.
 */
module TaskLists {
  import opened Wrappers
  import opened Dates
  import opened Sorted
  import opened Text
  import opened Ymd
  import opened JsonStore

  /** A `Task`: the date string together with the date parsed from it. */
  datatype Task = Task(name: string, dateStr: string, completed: bool, date: Date)

  /** A legacy `Subcalendar`; `color` is a curses colour-pair number. */
  datatype Subcal = Subcal(name: string, color: int, hidden: bool, tasks: seq<Task>)

  /** The default colour pair of both constructors. */
  const DefaultPair: int := 1

  /** A task as the constructor leaves it: its date is the one its string spells. */
  predicate WellFormed(t: Task) {
    ParseYmd(t.dateStr) == Ok(t.date)
  }

  /** `Task(name, date_str, completed)`: strptime raises ValueError on a string
      that is not a date. */
  function NewTask(name: string, dateStr: string, completed: bool): (r: Result<Task>)
    ensures r.Ok? <==> ParseYmd(dateStr).Ok?
    ensures r.Err? ==> r.error == ValueError
    ensures r.Ok? ==> WellFormed(r.value)
    ensures r.Ok? ==> r.value.name == name && r.value.dateStr == dateStr && r.value.completed == completed
  {
    var d :- ParseYmd(dateStr);
    Ok(Task(name, dateStr, completed, d))
  }

  /** `task.year`, `task.month`, `task.day` are the fields of the date string:
      four digits of year, two of month, two of day. */
  lemma {:induction false} TaskFields(t: Task)
    requires WellFormed(t)
    ensures |t.dateStr| == 8 && AllDigits(t.dateStr)
    ensures ToCivil(t.date) == SplitYmd(t.dateStr)
  {
    var c := SplitYmd(t.dateStr);
    assert MakeDate(c.year, c.month, c.day) == Some(t.date);
  }

  /** The date string is the date's own `"%Y%m%d"` spelling. */
  lemma {:induction false} TaskDateCanonical(t: Task)
    requires WellFormed(t)
    ensures FormatYmd(t.date) == t.dateStr
  {
    ParsedIsCanonical(t.dateStr);
  }

  /** `toggle_completed`. */
  function ToggleCompleted(t: Task): (r: Task)
    ensures r.completed != t.completed
    ensures r.(completed := t.completed) == t
  {
    t.(completed := !t.completed)
  }

  lemma {:induction false} ToggleCompletedInvolution(t: Task)
    ensures ToggleCompleted(ToggleCompleted(t)) == t
  {
  }

  /** `copy` of vical/subcalendar.py: a new task from the same three fields. */
  function Copy(t: Task): (r: Result<Task>)
    requires WellFormed(t)
    ensures r == Ok(t)
  {
    NewTask(t.name, t.dateStr, t.completed)
  }

  /** `int(b)` and `bool(i)`. */
  function BoolToInt(b: bool): int { if b then 1 else 0 }
  function IntToBool(i: int): bool { i != 0 }

  /** `copy` of subcalendar.py, which passes `int(self.completed)` and lets
      the constructor's `bool(...)` turn it back into a flag. */
  function CopyViaInt(t: Task): (r: Result<Task>)
    requires WellFormed(t)
    ensures r == Ok(t)
  {
    NewTask(t.name, t.dateStr, IntToBool(BoolToInt(t.completed)))
  }

  /** Python truth value of a JSON value, as `bool(...)` computes it. */
  function Truthy(j: Json): bool {
    match j
    case JNull => false
    case JBool(b) => b
    case JInt(i) => i != 0
    case JStr(s) => s != ""
    case JList(e) => e != []
    case JObj(f) => f != map[]
  }

  /** `Task.to_dict`. */
  function TaskToDict(t: Task): (r: Dict)
    ensures r.Keys == {"name", "date_str", "completed"}
    ensures r["name"] == JStr(t.name) && r["date_str"] == JStr(t.dateStr)
    ensures r["completed"] == JBool(t.completed)
  {
    map["name" := JStr(t.name), "date_str" := JStr(t.dateStr), "completed" := JBool(t.completed)]
  }

  /** `Task.from_dict`: name and date_str are required, completed defaults to
      False and is read through `bool(...)`. */
  function TaskFromDict(data: Dict): (r: Result<Task>)
    ensures "name" !in data || "date_str" !in data ==> r == Err(KeyError)
    ensures r.Ok? ==> WellFormed(r.value)
    ensures r.Ok? ==> "name" in data && data["name"] == JStr(r.value.name)
    ensures r.Ok? ==> "date_str" in data && data["date_str"] == JStr(r.value.dateStr)
    ensures r.Ok? ==> r.value.completed == ("completed" in data && Truthy(data["completed"]))
  {
    if "name" !in data || "date_str" !in data then Err(KeyError)
    else
    var name :- ReadStr(data, "name");
    var dateStr :- ReadStr(data, "date_str");
    var completed := "completed" in data && Truthy(data["completed"]);
    NewTask(name, dateStr, completed)
  }

  /** A task loads back from its dictionary unchanged. */
  lemma {:induction false} TaskRoundTrip(t: Task)
    requires WellFormed(t)
    ensures TaskFromDict(TaskToDict(t)) == Ok(t)
  {
    var d := TaskToDict(t);
    assert "name" in d && "date_str" in d && "completed" in d;
    assert ReadStr(d, "name") == Ok(t.name);
    assert ReadStr(d, "date_str") == Ok(t.dateStr);
    assert Truthy(d["completed"]) == t.completed;
    assert NewTask(t.name, t.dateStr, t.completed) == Ok(t);
  }

  /** The sort key `(t.year, t.month, t.day, t.name)`, names compared by code
      point as Python compares strings. */
  function TaskKey(t: Task): (k: seq<int>)
    ensures |k| == 3 + |t.name|
  {
    var c := ToCivil(t.date);
    [c.year, c.month, c.day] + Codes(t.name)
  }

  ghost predicate TasksSorted(tasks: seq<Task>) {
    SortedBy(tasks, TaskKey)
  }

  /** Days in the months before `m`, plus those of `m`, are the days before `m + 1`. */
  lemma {:induction false} MonthStep(y: int, m: int)
    requires 1 <= m < 12
    ensures DaysBeforeMonth(y, m) + DaysInMonth(y, m) == DaysBeforeMonth(y, m + 1)
  {
  }

  lemma {:induction false} MonthsBefore(y: int, a: int, b: int)
    requires 1 <= a < b <= 12
    ensures DaysBeforeMonth(y, a) + DaysInMonth(y, a) <= DaysBeforeMonth(y, b)
    decreases b - a
  {
    MonthStep(y, a);
    if a + 1 < b {
      MonthsBefore(y, a + 1, b);
    }
  }

  lemma {:induction false} DayOfYearFits(c: Civil)
    requires ValidCivil(c)
    ensures DaysBeforeMonth(c.year, c.month) + c.day <= DaysInYear(c.year)
  {
  }

  /** Lexicographic order on valid `(year, month, day)` triples is the order of
      their day numbers. */
  lemma {:induction false} CivilOrder(a: Civil, b: Civil)
    requires ValidCivil(a) && ValidCivil(b)
    ensures ToOrdinal(a) < ToOrdinal(b) <==>
      a.year < b.year || (a.year == b.year && a.month < b.month)
      || (a.year == b.year && a.month == b.month && a.day < b.day)
  {
    if a.year < b.year {
      EarlierYear(a, b);
    } else if b.year < a.year {
      EarlierYear(b, a);
    } else if a.month < b.month {
      EarlierMonth(a, b);
    } else if b.month < a.month {
      EarlierMonth(b, a);
    }
  }

  lemma {:induction false} EarlierYear(a: Civil, b: Civil)
    requires ValidCivil(a) && ValidCivil(b) && a.year < b.year
    ensures ToOrdinal(a) < ToOrdinal(b)
  {
    DayOfYearFits(a);
    DayOfYearBounds(b);
    YearStep(a.year);
    DaysBeforeYearMonotone(a.year + 1, b.year);
  }

  lemma {:induction false} EarlierMonth(a: Civil, b: Civil)
    requires ValidCivil(a) && ValidCivil(b) && a.year == b.year && a.month < b.month
    ensures ToOrdinal(a) < ToOrdinal(b)
  {
    MonthsBefore(a.year, a.month, b.month);
  }

  /** Sorting by `(year, month, day, name)` is sorting by date and then by name. */
  lemma {:induction false} TaskKeyOrder(a: Task, b: Task)
    ensures LexLe(TaskKey(a), TaskKey(b)) <==>
      a.date < b.date || (a.date == b.date && LexLe(Codes(a.name), Codes(b.name)))
  {
    var ca, cb := ToCivil(a.date), ToCivil(b.date);
    var pa, pb := [ca.year, ca.month, ca.day], [cb.year, cb.month, cb.day];
    LexLePrefix(pa, Codes(a.name), pb, Codes(b.name));
    CivilOrder(ca, cb);
    CivilOrder(cb, ca);
    TripleLe(pa, pb);
  }

  lemma {:induction false} TripleLe(p: seq<int>, q: seq<int>)
    requires |p| == 3 && |q| == 3
    ensures LexLe(p, q) <==>
      (p[0] < q[0] || (p[0] == q[0] && p[1] < q[1]) || (p[0] == q[0] && p[1] == q[1] && p[2] <= q[2]))
  {
    var p1, q1 := p[1..], q[1..];
    var p2, q2 := p1[1..], q1[1..];
    assert p2[1..] == [] && q2[1..] == [];
    assert LexLe(p2, q2) <==> p[2] <= q[2];
    assert LexLe(p1, q1) <==> p[1] < q[1] || (p[1] == q[1] && p[2] <= q[2]);
  }

  /** `Subcalendar(name, color, hidden)`: no tasks. */
  function NewSubcal(name: string, color: int, hidden: bool): (r: Subcal)
    ensures r.tasks == [] && TasksSorted(r.tasks)
    ensures r.name == name && r.color == color && r.hidden == hidden
  {
    Subcal(name, color, hidden, [])
  }

  /** `insert_task`: append, then the stable sort by the key. */
  function InsertTask(sc: Subcal, t: Task): (r: Subcal)
    ensures TasksSorted(r.tasks)
    ensures multiset(r.tasks) == multiset(sc.tasks) + multiset{t}
    ensures r == sc.(tasks := r.tasks)
  {
    SortByCorrect(sc.tasks + [t], TaskKey);
    sc.(tasks := SortBy(sc.tasks + [t], TaskKey))
  }

  /** On a sorted list, `insert_task` puts the task after every task whose key
      is not greater and keeps the others in order. */
  lemma {:induction false} InsertTaskPlacement(sc: Subcal, t: Task)
    requires TasksSorted(sc.tasks)
    ensures InsertTask(sc, t).tasks == InsertBy(sc.tasks, t, TaskKey)
    ensures InsertTask(sc, t).tasks == sc.tasks[..InsertPos(sc.tasks, t, TaskKey)] + [t]
      + sc.tasks[InsertPos(sc.tasks, t, TaskKey)..]
  {
    AppendSortIsInsert(sc.tasks, t, TaskKey);
    InsertByShape(sc.tasks, t, TaskKey);
  }

  /** The position of the first element equal to `x`. */
  function IndexOf(s: seq<Task>, x: Task): (r: Option<nat>)
    ensures r.Some? ==> r.value < |s| && s[r.value] == x && x !in s[..r.value]
    ensures r.None? <==> x !in s
    decreases |s|
  {
    if |s| == 0 then None
    else if s[0] == x then Some(0)
    else match IndexOf(s[1..], x)
      case None => None
      case Some(k) =>
        assert s[..k + 1] == [s[0]] + s[1..][..k];
        Some(k + 1)
  }

  /** `pop_task(task)`: the task and the list without its first occurrence, or
      None and the list unchanged. */
  function PopTask(sc: Subcal, t: Task): (r: (Subcal, Option<Task>))
    ensures t in sc.tasks ==> r.1 == Some(t) && multiset(r.0.tasks) == multiset(sc.tasks) - multiset{t}
    ensures t !in sc.tasks ==> r == (sc, None)
    ensures r.0 == sc.(tasks := r.0.tasks)
  {
    match IndexOf(sc.tasks, t)
    case None => (sc, None)
    case Some(k) =>
      var rest := sc.tasks[..k] + sc.tasks[k + 1..];
      assert sc.tasks == sc.tasks[..k] + [t] + sc.tasks[k + 1..];
      (sc.(tasks := rest), Some(t))
  }

  /** Popping keeps a sorted list sorted, and popping an inserted task
      gives back the list before the insertion. */
  lemma {:induction false} PopKeepsSorted(sc: Subcal, t: Task)
    requires TasksSorted(sc.tasks)
    ensures TasksSorted(PopTask(sc, t).0.tasks)
  {
    var i := IndexOf(sc.tasks, t);
    if i.Some? {
      var k := i.value;
      assert PopTask(sc, t).0.tasks == sc.tasks[..k] + sc.tasks[k + 1..];
      SortedRemoveAt(sc.tasks, k, TaskKey);
    }
  }

  lemma {:induction false} PopAfterInsert(sc: Subcal, t: Task)
    requires TasksSorted(sc.tasks)
    ensures multiset(PopTask(InsertTask(sc, t), t).0.tasks) == multiset(sc.tasks)
    ensures PopTask(InsertTask(sc, t), t).1 == Some(t)
  {
    var ins := InsertTask(sc, t);
    assert t in multiset(ins.tasks);
  }

  /** `toggle_hidden`. */
  function ToggleHidden(sc: Subcal): (r: Subcal)
    ensures r.hidden != sc.hidden && r.(hidden := sc.hidden) == sc
  {
    sc.(hidden := !sc.hidden)
  }

  lemma {:induction false} ToggleHiddenInvolution(sc: Subcal)
    ensures ToggleHidden(ToggleHidden(sc)) == sc
  {
  }

  /** `[t.to_dict() for t in self.tasks]`. */
  function TaskDicts(tasks: seq<Task>): (r: seq<Json>)
    ensures |r| == |tasks|
    ensures forall i :: 0 <= i < |tasks| ==> r[i] == JObj(TaskToDict(tasks[i]))
  {
    seq(|tasks|, i requires 0 <= i < |tasks| => JObj(TaskToDict(tasks[i])))
  }

  /** `Subcalendar.to_dict`. */
  function SubcalToDict(sc: Subcal): (r: Dict)
    ensures r.Keys == {"name", "color", "hidden", "tasks"}
    ensures r["name"] == JStr(sc.name) && r["color"] == JInt(sc.color) && r["hidden"] == JBool(sc.hidden)
    ensures r["tasks"] == JList(TaskDicts(sc.tasks))
  {
    map["name" := JStr(sc.name), "color" := JInt(sc.color), "hidden" := JBool(sc.hidden),
        "tasks" := JList(TaskDicts(sc.tasks))]
  }

  /** The `Task.from_dict` loop: the first failing element raises. A string,
      list or other non-dictionary element cannot be indexed by "name" and
      raises TypeError. */
  function LoadTasks(elems: seq<Json>): (r: Result<seq<Task>>)
    ensures r.Ok? ==> |r.value| == |elems|
    ensures r.Ok? ==> forall t :: t in r.value ==> WellFormed(t)
    decreases |elems|
  {
    if elems == [] then Ok([])
    else
      var init :- LoadTasks(elems[..|elems| - 1]);
      var last := elems[|elems| - 1];
      if !last.JObj? then Err(TypeError)
      else
        var t :- TaskFromDict(last.fields);
        Ok(init + [t])
  }

  /** What `for task_data in data.get("tasks", [])` iterates: a list's
      elements; an empty dictionary or string gives nothing; a non-empty one
      yields strings, which `from_dict` cannot index (TypeError), and any other
      value is not iterable (TypeError). */
  function TaskElems(data: Dict): (r: Result<seq<Json>>)
    ensures "tasks" !in data ==> r == Ok([])
    ensures "tasks" in data && data["tasks"].JList? ==> r == Ok(data["tasks"].elems)
    ensures r.Err? ==> r.error == TypeError
  {
    if "tasks" !in data then Ok([])
    else match data["tasks"]
      case JList(e) => Ok(e)
      case JObj(f) => if f == map[] then Ok([]) else Err(TypeError)
      case JStr(s) => if s == "" then Ok([]) else Err(TypeError)
      case _ => Err(TypeError)
  }

  /** `Subcalendar.from_dict`: name required, color defaulting to 1, hidden to
      False, the tasks loaded in order and then sorted. */
  function SubcalFromDict(data: Dict): (r: Result<Subcal>)
    ensures "name" !in data ==> r == Err(KeyError)
    ensures r.Ok? ==> TasksSorted(r.value.tasks) && forall t :: t in r.value.tasks ==> WellFormed(t)
    ensures r.Ok? ==> "name" in data && data["name"] == JStr(r.value.name)
    ensures r.Ok? ==> ("color" !in data ==> r.value.color == DefaultPair)
    ensures r.Ok? ==> ("color" in data ==> data["color"] == JInt(r.value.color))
    ensures r.Ok? ==> ("hidden" !in data ==> !r.value.hidden)
  {
    var name :- ReadStr(data, "name");
    var color :- if "color" !in data then Ok(DefaultPair)
                 else if data["color"].JInt? then Ok(data["color"].i)
                 else Err(TypeError);
    var hidden :- GetFlag(data, "hidden");
    var elems :- TaskElems(data);
    var tasks :- LoadTasks(elems);
    Ok(Subcal(name, color, hidden, SortTasks(tasks)))
  }

  /** `tasks.sort(key=...)`. */
  function SortTasks(tasks: seq<Task>): (r: seq<Task>)
    ensures TasksSorted(r) && multiset(r) == multiset(tasks)
    ensures forall t :: t in r <==> t in tasks
  {
    SortByCorrect(tasks, TaskKey);
    var r := SortBy(tasks, TaskKey);
    assert forall t :: t in r <==> t in multiset(tasks);
    r
  }

  /** The saved tasks load back in order. */
  lemma {:induction false} LoadSavedTasks(tasks: seq<Task>)
    requires forall t :: t in tasks ==> WellFormed(t)
    ensures LoadTasks(TaskDicts(tasks)) == Ok(tasks)
    decreases |tasks|
  {
    if tasks != [] {
      var n := |tasks| - 1;
      var elems := TaskDicts(tasks);
      assert elems[..n] == TaskDicts(tasks[..n]);
      LoadSavedTasks(tasks[..n]);
      assert tasks[n] in tasks;
      TaskRoundTrip(tasks[n]);
      assert elems[n] == JObj(TaskToDict(tasks[n]));
      assert LoadTasks(elems) == Ok(tasks[..n] + [tasks[n]]);
      assert tasks[..n] + [tasks[n]] == tasks;
    }
  }

  /** A subcalendar whose tasks are in sorted order loads back from its
      dictionary unchanged. */
  lemma {:induction false} SubcalRoundTrip(sc: Subcal)
    requires TasksSorted(sc.tasks) && forall t :: t in sc.tasks ==> WellFormed(t)
    ensures SubcalFromDict(SubcalToDict(sc)) == Ok(sc)
  {
    var d := SubcalToDict(sc);
    assert ReadStr(d, "name") == Ok(sc.name);
    assert GetFlag(d, "hidden") == Ok(sc.hidden);
    assert TaskElems(d) == Ok(TaskDicts(sc.tasks));
    LoadSavedTasks(sc.tasks);
    SortBySortedIsIdentity(sc.tasks, TaskKey);
  }
}

=== FILE: text.dfy ===
/** The few Python string operations the modelled code relies on.

  Case mapping covers ASCII letters only; whitespace is Python's `str.isspace`
  set.
 */
module Text {

  /** `c.lower()` for ASCII letters; every other character maps to itself. */
  function Lower(c: char): (r: char)
    ensures 'A' <= c <= 'Z' ==> r as int == c as int + 32
    ensures !('A' <= c <= 'Z') ==> r == c
  {
    if 'A' <= c <= 'Z' then (c as int + 32) as char else c
  }

  function LowerStr(s: string): (r: string)
    ensures |r| == |s|
    ensures forall i :: 0 <= i < |s| ==> r[i] == Lower(s[i])
  {
    seq(|s|, i requires 0 <= i < |s| => Lower(s[i]))
  }

  predicate IsUpperChar(c: char) { 'A' <= c <= 'Z' }
  predicate IsLowerChar(c: char) { 'a' <= c <= 'z' }

  /** `s.isupper()`: some cased character and no lower-case one. */
  predicate IsUpper(s: string) {
    (exists i :: 0 <= i < |s| && IsUpperChar(s[i])) &&
    (forall i :: 0 <= i < |s| ==> !IsLowerChar(s[i]))
  }

  /** The code points of a string, the form in which sort keys compare it. */
  function Codes(s: string): (r: seq<int>)
    ensures |r| == |s|
    ensures forall i :: 0 <= i < |s| ==> r[i] == s[i] as int
  {
    seq(|s|, i requires 0 <= i < |s| => s[i] as int)
  }

  predicate IsDigit(c: char) { '0' <= c <= '9' }

  predicate AllDigits(s: string) {
    forall i :: 0 <= i < |s| ==> IsDigit(s[i])
  }

  /** A string of ASCII decimal digits, such as a count buffer. */
  type Digits = s: string | AllDigits(s) witness ""

  /** `int(s)` for a non-empty digit string; the empty string has value 0. */
  function Value(s: Digits): (n: nat)
    decreases |s|
  {
    if |s| == 0 then 0
    else Value(s[..|s| - 1]) * 10 + (s[|s| - 1] as int - '0' as int)
  }

  /** A string of zeros has value 0 and every other digit string a positive value. */
  lemma {:induction false} ValueZero(s: Digits)
    ensures Value(s) == 0 <==> forall i :: 0 <= i < |s| ==> s[i] == '0'
    decreases |s|
  {
    if |s| > 0 {
      ValueZero(s[..|s| - 1]);
      var init := s[..|s| - 1];
      assert forall i :: 0 <= i < |init| ==> init[i] == s[i];
    }
  }

  function DigitChar(d: nat): char
    requires d < 10
  {
    ('0' as int + d) as char
  }

  /** `str(n)` for a natural number. */
  function NatToString(n: nat): (r: Digits)
    ensures |r| > 0
    decreases n
  {
    if n < 10 then [DigitChar(n)] else NatToString(n / 10) + [DigitChar(n % 10)]
  }

  /** Decimal printing and digit reading are inverse. */
  lemma {:induction false} NatToStringValue(n: nat)
    ensures Value(NatToString(n)) == n
    decreases n
  {
    if n >= 10 {
      NatToStringValue(n / 10);
      var r := NatToString(n);
      assert r[..|r| - 1] == NatToString(n / 10);
    }
  }

  function Pow10(w: nat): (p: nat)
    ensures p >= 1
  {
    if w == 0 then 1 else 10 * Pow10(w - 1)
  }

  /** The last `w` decimal digits of `n`, zero-padded: `f"{n:0{w}d}"` for
      `n < 10^w`. */
  function Pad(n: nat, w: nat): (r: Digits)
    ensures |r| == w
    decreases w
  {
    if w == 0 then "" else Pad(n / 10, w - 1) + [DigitChar(n % 10)]
  }

  /** A number below `10^w` reads back from its `w`-digit padding. */
  lemma {:induction false} PadRoundTrip(n: nat, w: nat)
    requires n < Pow10(w)
    ensures Value(Pad(n, w)) == n
  {
    PadValue(n, w);
    SmallMod(n, Pow10(w));
  }

  lemma {:induction false} SmallMod(n: nat, p: nat)
    requires n < p
    ensures n % p == n
  {
  }

  /** Reading a padded number back gives the number modulo `10^w`. */
  lemma {:induction false} PadValue(n: nat, w: nat)
    ensures Value(Pad(n, w)) == n % Pow10(w)
    decreases w
  {
    if w > 0 {
      PadValue(n / 10, w - 1);
      var r := Pad(n, w);
      assert r[..|r| - 1] == Pad(n / 10, w - 1);
      var p := Pow10(w - 1);
      assert (n / 10) % p * 10 + n % 10 == n % (10 * p) by {
        DivModNested(n, p);
      }
    }
  }

  lemma {:induction false} DivModNested(n: nat, p: nat)
    requires p >= 1
    ensures (n / 10) % p * 10 + n % 10 == n % (10 * p)
  {
    var q := n / 10;
    var a := q / p;
    var rest := (q % p) * 10 + n % 10;
    assert n == a * (10 * p) + rest by {
      assert q == a * p + q % p;
      assert n == q * 10 + n % 10;
      assert q * 10 == a * (10 * p) + (q % p) * 10;
    }
    assert rest < 10 * p by {
      assert q % p <= p - 1;
      assert (q % p) * 10 <= (p - 1) * 10;
    }
    ModUnique(n, 10 * p, a, rest);
  }

  lemma {:induction false} ModUnique(n: int, d: int, q: int, r: int)
    requires d > 0 && n == q * d + r && 0 <= r < d
    ensures n % d == r
  {
    var q' := n / d;
    var r' := n % d;
    assert (q - q') * d == r' - r;
    assert q - q' >= 1 ==> (q - q') * d >= d;
    assert q - q' <= -1 ==> (q - q') * d <= -d;
  }

  lemma {:induction false} MulTen(x: int, p: int)
    ensures (x * p) * 10 == x * (10 * p)
  {
  }

  /** The value of a digit string is read most significant digit first. */
  lemma {:induction false} ValueConcat(a: Digits, b: Digits)
    ensures AllDigits(a + b)
    ensures Value(a + b) == Value(a) * Pow10(|b|) + Value(b)
    decreases |b|
  {
    if |b| > 0 {
      var b' := b[..|b| - 1];
      ValueConcat(a, b');
      var ab: Digits := a + b;
      var ab': Digits := a + b';
      assert ab[..|ab| - 1] == ab';
      assert ab[|ab| - 1] == b[|b| - 1];
      var x, p, y, l := Value(a), Pow10(|b'|), Value(b'), b[|b| - 1] as int - '0' as int;
      assert Value(ab) == Value(ab') * 10 + l;
      assert Value(b) == y * 10 + l;
      assert Pow10(|b|) == 10 * p;
      assert Value(ab') == x * p + y;
      assert (x * p + y) * 10 == (x * p) * 10 + y * 10;
      MulTen(x, p);
    } else {
      assert a + b == a;
    }
  }

  /** `str(i)` for an integer. */
  function IntToString(i: int): (r: string)
    ensures |r| > 0
    ensures (r[0] == '-') <==> i < 0
  {
    if i < 0 then "-" + NatToString(-i) else NatToString(i)
  }

  /** `c.isspace()`. */
  predicate IsSpace(c: char) {
    c == ' ' || c == '\t' || c == '\n' || c == '\r' || c == 11 as char || c == 12 as char
    || (28 <= c as int <= 31) || c as int == 0x85 || c as int == 0xA0 || c as int == 0x1680
    || (0x2000 <= c as int <= 0x200A) || c as int == 0x2028 || c as int == 0x2029
    || c as int == 0x202F || c as int == 0x205F || c as int == 0x3000
  }

  function DropSpace(s: string): (r: string)
    ensures |r| <= |s| && r == s[|s| - |r|..]
    ensures |r| > 0 ==> !IsSpace(r[0])
    ensures forall i :: 0 <= i < |s| - |r| ==> IsSpace(s[i])
    decreases |s|
  {
    if |s| > 0 && IsSpace(s[0]) then DropSpace(s[1..]) else s
  }

  function DropSpaceRight(s: string): (r: string)
    ensures |r| <= |s| && r == s[..|r|]
    ensures |r| > 0 ==> !IsSpace(r[|r| - 1])
    ensures forall i :: |r| <= i < |s| ==> IsSpace(s[i])
    decreases |s|
  {
    if |s| > 0 && IsSpace(s[|s| - 1]) then DropSpaceRight(s[..|s| - 1]) else s
  }

  /** `s.strip()`. */
  function Strip(s: string): (r: string)
    ensures |r| > 0 ==> !IsSpace(r[0]) && !IsSpace(r[|r| - 1])
    ensures |r| == 0 <==> forall i :: 0 <= i < |s| ==> IsSpace(s[i])
  {
    StripEmpty(s);
    DropSpaceRight(DropSpace(s))
  }

  /** Stripping leaves nothing exactly when every character is whitespace. */
  lemma {:induction false} StripEmpty(s: string)
    ensures |DropSpaceRight(DropSpace(s))| == 0 <==> forall i :: 0 <= i < |s| ==> IsSpace(s[i])
  {
    var t := DropSpace(s);
    var r := DropSpaceRight(t);
    if |r| == 0 {
      assert |t| == 0;
    } else {
      assert t[0] == s[|s| - |t|];
      assert r[0] == t[0];
    }
  }

  /** The leading run of non-whitespace characters. */
  function TakeWord(s: string): (w: string)
    ensures |w| <= |s| && w == s[..|w|]
    ensures |s| > 0 && !IsSpace(s[0]) ==> |w| > 0
    ensures forall i :: 0 <= i < |w| ==> !IsSpace(w[i])
    ensures |w| < |s| ==> IsSpace(s[|w|])
    decreases |s|
  {
    if |s| > 0 && !IsSpace(s[0]) then [s[0]] + TakeWord(s[1..]) else ""
  }

  /** A non-empty string that does not start with whitespace. */
  predicate IsWord(w: string) {
    |w| > 0 && !IsSpace(w[0])
  }

  /** `s.split()`: the maximal runs of non-whitespace characters. */
  function Words(s: string): (ws: seq<string>)
    ensures forall k :: 0 <= k < |ws| ==> IsWord(ws[k])
    decreases |s|
  {
    var t := DropSpace(s);
    if |t| == 0 then []
    else
      var w := TakeWord(t);
      assert 0 < |w| <= |t| <= |s|;
      var rest := Words(t[|w|..]);
      assert w[0] == t[0];
      assert IsWord(w);
      PrependWord(w, rest);
      [w] + rest
  }

  lemma {:induction false} PrependWord(w: string, rest: seq<string>)
    requires IsWord(w) && forall k :: 0 <= k < |rest| ==> IsWord(rest[k])
    ensures forall k :: 0 <= k < |[w] + rest| ==> IsWord(([w] + rest)[k])
  {
    var ws := [w] + rest;
    forall k | 0 <= k < |ws| ensures IsWord(ws[k]) {
      if k > 0 { assert ws[k] == rest[k - 1]; }
    }
  }
}

=== FILE: transactions.dfy ===
/** The undo/redo engine of vical/core/transaction.py: transactions of ops, the
  begin/record/commit protocol, the `tx_*` mutation helpers and undo/redo.

  The editor state the engine touches is the list of subcalendars, the history
  (undo stack, redo stack, open transaction) and the class-wide counter
  `Transaction._next_id`, all threaded through explicitly.
 */
module Transactions {
  import opened Wrappers
  import opened Entities
  import opened Ops

  datatype Tx = Tx(id: int, ops: seq<Op>, name: string)

  datatype History = History(undo: seq<Tx>, redo: seq<Tx>, current: Option<Tx>)

  datatype Editor = Editor(cals: seq<Subcal>, history: History, nextId: int)

  /** `Settings.max_history`. */
  const MaxHistory: nat := 50

  const EmptyHistory: History := History([], [], None)

  /** `Transaction.apply`: the ops in order; the first failure stops the run and
      leaves the earlier ops applied. */
  function ApplyAll(ops: seq<Op>, cals: seq<Subcal>): Outcome<seq<Subcal>>
    decreases |ops|
  {
    if |ops| == 0 then Done(cals)
    else match ApplyAll(ops[..|ops| - 1], cals)
      case Raised(e, p) => Raised(e, p)
      case Done(c) =>
        match Apply(ops[|ops| - 1], c)
        case Ok(c') => Done(c')
        case Err(e) => Raised(e, c)
  }

  /** `Transaction.revert`: the ops in reverse order. */
  function RevertAll(ops: seq<Op>, cals: seq<Subcal>): Outcome<seq<Subcal>>
    decreases |ops|
  {
    if |ops| == 0 then Done(cals)
    else match Revert(ops[|ops| - 1], cals)
      case Err(e) => Raised(e, cals)
      case Ok(c) => RevertAll(ops[..|ops| - 1], c)
  }

  /** `op` applied to `cals` can be reverted back to `cals`. */
  ghost predicate Reversible(op: Op, cals: seq<Subcal>) {
    Apply(op, cals).Ok? && Revert(op, Apply(op, cals).value) == Ok(cals)
  }

  /** Every op of the sequence is reversible at the point where it is applied. */
  ghost predicate ChainReversible(ops: seq<Op>, cals: seq<Subcal>)
    decreases |ops|
  {
    |ops| == 0 ||
    (ChainReversible(ops[..|ops| - 1], cals) && ApplyAll(ops[..|ops| - 1], cals).Done?
     && Reversible(ops[|ops| - 1], ApplyAll(ops[..|ops| - 1], cals).value))
  }

  /** Reverting a transaction whose ops are each reversible where they were
      applied restores the list from before the transaction. */
  lemma {:induction false} RevertAllUndoesApplyAll(ops: seq<Op>, cals: seq<Subcal>)
    requires ChainReversible(ops, cals)
    ensures ApplyAll(ops, cals).Done?
    ensures RevertAll(ops, ApplyAll(ops, cals).value) == Done(cals)
    decreases |ops|
  {
    if |ops| > 0 {
      var init := ops[..|ops| - 1];
      RevertAllUndoesApplyAll(init, cals);
    }
  }

  /** `begin_transaction`: RuntimeError when one is already open; otherwise a new
      empty transaction with the next id. */
  function Begin(e: Editor, name: string): (r: Outcome<Editor>)
    ensures e.history.current.Some? <==> r.Raised?
    ensures r.Raised? ==> r.error == RuntimeError && r.partial == e
    ensures r.Done? ==> r.value == e.(history := e.history.(current := Some(Tx(e.nextId, [], name))),
                                     nextId := e.nextId + 1)
  {
    if e.history.current.Some? then Raised(RuntimeError, e)
    else Done(e.(history := e.history.(current := Some(Tx(e.nextId, [], name))), nextId := e.nextId + 1))
  }

  /** `record`: RuntimeError outside a transaction; otherwise the op joins the open one. */
  function Record(e: Editor, op: Op): (r: Outcome<Editor>)
    ensures e.history.current.None? <==> r.Raised?
    ensures r.Raised? ==> r.error == RuntimeError && r.partial == e
    ensures r.Done? ==> r.value.cals == e.cals && r.value.nextId == e.nextId
    ensures r.Done? ==> var h := r.value.history;
      h.undo == e.history.undo && h.redo == e.history.redo && h.current.Some?
      && h.current.value == e.history.current.value.(ops := e.history.current.value.ops + [op])
  {
    match e.history.current
    case None => Raised(RuntimeError, e)
    case Some(tx) => Done(e.(history := e.history.(current := Some(tx.(ops := tx.ops + [op])))))
  }

  /** `after` holds `before`'s open transaction with `op` appended, and the same stacks. */
  ghost predicate Recorded(before: Editor, after: Editor, op: Op) {
    before.history.current.Some?
    && after.history.current == Some(before.history.current.value.(ops := before.history.current.value.ops + [op]))
    && after.history.undo == before.history.undo && after.history.redo == before.history.redo
    && after.nextId == before.nextId
  }

  /** Replaying an op after a prefix extends the replay of the prefix. */
  lemma {:induction false} ApplyAllSnoc(ops: seq<Op>, op: Op, c0: seq<Subcal>, c1: seq<Subcal>, c2: seq<Subcal>)
    requires ApplyAll(ops, c0) == Done(c1) && Apply(op, c1) == Ok(c2)
    ensures ApplyAll(ops + [op], c0) == Done(c2)
  {
    assert (ops + [op])[..|ops|] == ops;
  }

  lemma {:induction false} Assoc<T>(a: seq<T>, b: seq<T>, c: seq<T>)
    ensures a + b + c == a + (b + c)
  {
  }

  /** `after` holds `before`'s open transaction with `ops` appended, and the same stacks. */
  ghost predicate Appended(before: Editor, after: Editor, ops: seq<Op>) {
    before.history.current.Some?
    && after.history.current == Some(before.history.current.value.(ops := before.history.current.value.ops + ops))
    && after.history.undo == before.history.undo && after.history.redo == before.history.redo
    && after.nextId == before.nextId
  }

  /** A recorded op followed by appended ops is one append. */
  lemma {:induction false} AppendedAfterRecorded(e0: Editor, e1: Editor, e2: Editor, op: Op, rest: seq<Op>)
    requires Recorded(e0, e1, op) && Appended(e1, e2, rest)
    ensures Appended(e0, e2, [op] + rest)
  {
    Assoc(e0.history.current.value.ops, [op], rest);
  }

  /** `commit_transaction`: a non-empty transaction goes on the undo stack (the
      oldest entry dropping off past `maxHistory`) and clears the redo stack; an
      empty one is discarded. */
  function Commit(e: Editor, maxHistory: nat): (r: Editor)
    ensures r.cals == e.cals && r.nextId == e.nextId && r.history.current.None?
    ensures e.history.current.None? ==> r == e
    ensures e.history.current.Some? && e.history.current.value.ops == [] ==>
      r.history.undo == e.history.undo && r.history.redo == e.history.redo
    ensures e.history.current.Some? && e.history.current.value.ops != [] ==>
      var pushed := e.history.undo + [e.history.current.value];
      r.history.redo == [] &&
      r.history.undo == (if |pushed| > maxHistory then pushed[1..] else pushed)
  {
    match e.history.current
    case None => e
    case Some(tx) =>
      if |tx.ops| == 0 then e.(history := e.history.(current := None))
      else
        var pushed := e.history.undo + [tx];
        var undo := if |pushed| > maxHistory then pushed[1..] else pushed;
        e.(history := History(undo, [], None))
  }

  /** Committing keeps the undo stack within `maxHistory` and puts the
      committed transaction on top. */
  lemma {:induction false} CommitBound(e: Editor, maxHistory: nat)
    requires |e.history.undo| <= maxHistory
    requires e.history.current.Some? && e.history.current.value.ops != []
    ensures |Commit(e, maxHistory).history.undo| <= maxHistory
    ensures maxHistory > 0 ==> Commit(e, maxHistory).history.undo[|Commit(e, maxHistory).history.undo| - 1]
                               == e.history.current.value
  {
  }

  /** A block whose body appends a non-empty list of ops to the fresh
      transaction pushes exactly that transaction and clears the redo stack. */
  lemma {:induction false} BlockPushes(e: Editor, name: string, body: Editor -> Outcome<Editor>, maxHistory: nat, ops: seq<Op>)
    requires e.history.current.None? && maxHistory > 0 && ops != []
    requires body(Begin(e, name).value).Done?
    requires Appended(Begin(e, name).value, body(Begin(e, name).value).value, ops)
    ensures TransactionBlock(e, name, body, maxHistory).Done?
    ensures var h := TransactionBlock(e, name, body, maxHistory).value.history;
      h.current.None? && h.redo == [] && h.undo != [] && h.undo[|h.undo| - 1] == Tx(e.nextId, ops, name)
  {
    var after := body(Begin(e, name).value).value;
    assert [] + ops == ops;
    assert after.history.current == Some(Tx(e.nextId, ops, name));
  }

  /** Committing a non-empty transaction with room for it puts it on top of
      the undo stack and empties the redo stack. */
  lemma {:induction false} CommitTop(e: Editor, maxHistory: nat)
    requires e.history.current.Some? && e.history.current.value.ops != [] && maxHistory > 0
    ensures var h := Commit(e, maxHistory).history;
      h.redo == [] && h.undo != [] && h.undo[|h.undo| - 1] == e.history.current.value
  {
    var pushed := e.history.undo + [e.history.current.value];
    assert pushed[|pushed| - 1] == e.history.current.value;
  }

  /** `rollback_transaction`. */
  function Rollback(e: Editor): (r: Editor)
    ensures r == e.(history := e.history.(current := None))
  {
    e.(history := e.history.(current := None))
  }

  /** `with transaction_block(editor, name): body`. When `body` raises, the open
      transaction is dropped, nothing is pushed and the exception propagates with
      every mutation `body` made still in place. */
  function TransactionBlock(e: Editor, name: string, body: Editor -> Outcome<Editor>, maxHistory: nat): (r: Outcome<Editor>)
    ensures e.history.current.Some? ==> r == Raised(RuntimeError, e)
    ensures e.history.current.None? ==>
      var started := Begin(e, name).value;
      match body(started)
      case Done(after) => r == Done(Commit(after, maxHistory))
      case Raised(err, p) =>
        r.Raised? && r.error == err && r.partial.cals == p.cals
        && r.partial.history == p.history.(current := None)
  {
    match Begin(e, name)
    case Raised(err, p) => Raised(err, p)
    case Done(started) =>
      match body(started)
      case Done(after) => Done(Commit(after, maxHistory))
      case Raised(err, p) => Raised(err, Rollback(p))
  }

  /** An exception inside a block that only records leaves both stacks as
      they were before the block. */
  lemma {:induction false} BlockRaisePushesNothing(e: Editor, name: string, body: Editor -> Outcome<Editor>, maxHistory: nat)
    requires e.history.current.None?
    requires body(Begin(e, name).value).Raised?
    requires body(Begin(e, name).value).partial.history.undo == e.history.undo
    requires body(Begin(e, name).value).partial.history.redo == e.history.redo
    ensures TransactionBlock(e, name, body, maxHistory).Raised?
    ensures TransactionBlock(e, name, body, maxHistory).partial.history == e.history
  {
  }

  /** The calendar list after `setattr` on the item with this uid; an item that
      is not in any subcalendar is invisible to the editor. */
  function SetInPlace(cals: seq<Subcal>, uid: string, a: ItemAttr, v: Value): seq<Subcal> {
    match WriteItemAttr(cals, uid, a, v)
    case Ok(c) => c
    case Err(_) => cals
  }

  /** `tx_set_item_attr`: nothing is recorded or changed when the value is
      unchanged; otherwise the op is recorded and the attribute written. */
  function TxSetItemAttr(e: Editor, it: Item, a: ItemAttr, v: Value): (r: Outcome<Editor>)
    ensures GetItemAttr(it, a).Err? ==> r == Raised(AttributeError, e)
    ensures GetItemAttr(it, a) == Ok(v) ==> r == Done(e)
    ensures GetItemAttr(it, a).Ok? && GetItemAttr(it, a) != Ok(v) && Fits(a, v) ==>
      match Record(e, SetItemAttrOp(it.uid, a, GetItemAttr(it, a).value, v))
      case Raised(err, _) => r == Raised(err, e)
      case Done(e1) => r.Done? && r.value.history == e1.history
  {
    match GetItemAttr(it, a)
    case Err(err) => Raised(err, e)
    case Ok(prev) =>
      if prev == v then Done(e)
      else if !Fits(a, v) then Raised(TypeError, e)
      else match Record(e, SetItemAttrOp(it.uid, a, prev, v))
        case Raised(err, p) => Raised(err, p)
        case Done(e1) => Done(e1.(cals := SetInPlace(e1.cals, it.uid, a, v)))
  }

  /** `tx_insert_item`: the item must be unattached; the op is recorded, then the
      item joins the subcalendar, which is re-sorted. The subcalendar is the
      object the caller holds: when no subcalendar of the editor has its uid,
      the insertion happens where the editor does not see it and nothing is
      raised (only a later replay of the op asserts). */
  function TxInsertItem(e: Editor, scUid: string, it: Item): (r: Outcome<Editor>)
    ensures it.parent.Some? ==> r == Raised(AssertionError, e)
    ensures it.parent.None? && e.history.current.None? ==> r == Raised(RuntimeError, e)
    ensures it.parent.None? && e.history.current.Some? ==> r.Done?
    ensures r.Done? ==> Recorded(e, r.value, InsertItemOp(scUid, it))
    ensures r.Done? && FindSubcal(e.cals, scUid).Some? ==> Apply(InsertItemOp(scUid, it), e.cals) == Ok(r.value.cals)
    ensures r.Done? && FindSubcal(e.cals, scUid).None? ==> r.value.cals == e.cals
  {
    if it.parent.Some? then Raised(AssertionError, e)
    else match Record(e, InsertItemOp(scUid, it))
      case Raised(err, p) => Raised(err, p)
      case Done(e1) =>
        match Attach(e1.cals, scUid, it)
        case Ok(c) => Done(e1.(cals := c))
        case Err(_) => Done(e1)
  }

  /** `tx_remove_item`: the item must be attached; the op is recorded, then the
      item leaves its subcalendar. */
  function TxRemoveItem(e: Editor, it: Item): (r: Outcome<Editor>)
    ensures it.parent.None? ==> r == Raised(AssertionError, e)
    ensures it.parent.Some? && e.history.current.None? ==> r == Raised(RuntimeError, e)
    ensures r.Done? ==> Recorded(e, r.value, RemoveItemOp(it.parent.value, it))
    ensures r.Done? ==> Apply(RemoveItemOp(it.parent.value, it), e.cals) == Ok(r.value.cals)
  {
    if it.parent.None? then Raised(AssertionError, e)
    else match Record(e, RemoveItemOp(it.parent.value, it))
      case Raised(err, p) => Raised(err, p)
      case Done(e1) =>
        match Detach(e1.cals, it.parent.value, it.uid)
        case Ok(c) => Done(e1.(cals := c))
        case Err(err) => Raised(err, e1)
  }

  /** `tx_move_item`: the item must be attached to a subcalendar other than the
      destination; the op is recorded, then the item is moved. A destination
      no subcalendar of the editor has the uid of is an object the editor does
      not see: the item leaves its source and is attached there, unseen. */
  function TxMoveItem(e: Editor, it: Item, dstUid: string): (r: Outcome<Editor>)
    ensures it.parent.None? || it.parent == Some(dstUid) ==> r == Raised(AssertionError, e)
    ensures r.Done? ==> Recorded(e, r.value, MoveItemOp(it.uid, it.parent.value, dstUid))
    ensures r.Done? ==> Detach(e.cals, it.parent.value, it.uid).Ok?
    ensures r.Done? && FindSubcal(e.cals, dstUid).None? ==> r.value.cals == Detach(e.cals, it.parent.value, it.uid).value
  {
    if it.parent.None? || it.parent.value == dstUid then Raised(AssertionError, e)
    else match Record(e, MoveItemOp(it.uid, it.parent.value, dstUid))
      case Raised(err, p) => Raised(err, p)
      case Done(e1) =>
        match Detach(e1.cals, it.parent.value, it.uid)
        case Err(err) => Raised(err, e1)
        case Ok(mid) =>
          match Attach(mid, dstUid, it)
          case Ok(c) => Done(e1.(cals := c))
          case Err(_) => Done(e1.(cals := mid))
  }

  /** When the item is the one the editor holds under its uid, the recorded
      move op replays exactly the mutation `tx_move_item` made. */
  lemma {:induction false} TxMoveItemReplays(e: Editor, it: Item, dstUid: string)
    requires TxMoveItem(e, it, dstUid).Done?
    requires FindItem(e.cals, it.uid).Some? && FindSubcal(e.cals, dstUid).Some?
    requires e.cals[FindItem(e.cals, it.uid).value.0].items[FindItem(e.cals, it.uid).value.1] == it
    ensures Apply(MoveItemOp(it.uid, it.parent.value, dstUid), e.cals) == Ok(TxMoveItem(e, it, dstUid).value.cals)
  {
    var src := it.parent.value;
    var mid := Detach(e.cals, src, it.uid).value;
    assert FindSubcal(mid, dstUid).Some? by {
      DetachEffect(e.cals, src, it.uid);
      FindSubcalAfterUpdate(e.cals, FindSubcal(e.cals, src).value, mid[FindSubcal(e.cals, src).value].items, dstUid);
    }
    MoveFound(e.cals, it.uid, src, dstUid, FindItem(e.cals, it.uid).value);
  }

  /** `tx_set_subcal_attr`: an unchanged value records nothing; otherwise the
      op is recorded and the attribute written. A subcalendar no subcalendar
      of the editor has the uid of is an object the editor does not see: it
      is written unseen and nothing is raised. */
  function TxSetSubcalAttr(e: Editor, sc: Subcal, a: SubcalAttr, v: Value): (r: Outcome<Editor>)
    ensures GetSubcalAttr(sc, a) == v ==> r == Done(e)
    ensures GetSubcalAttr(sc, a) != v && SetSubcalAttr(sc, a, v).Err? ==> r == Raised(TypeError, e)
    ensures GetSubcalAttr(sc, a) != v && SetSubcalAttr(sc, a, v).Ok? ==>
      (r.Done? <==> e.history.current.Some?)
    ensures r.Done? && GetSubcalAttr(sc, a) != v ==>
      Recorded(e, r.value, SetSubcalAttrOp(sc.uid, a, GetSubcalAttr(sc, a), v))
    ensures r.Done? && GetSubcalAttr(sc, a) != v && FindSubcal(e.cals, sc.uid).Some? ==>
      Apply(SetSubcalAttrOp(sc.uid, a, GetSubcalAttr(sc, a), v), e.cals) == Ok(r.value.cals)
    ensures r.Done? && FindSubcal(e.cals, sc.uid).None? ==> r.value.cals == e.cals
  {
    var prev := GetSubcalAttr(sc, a);
    if prev == v then Done(e)
    else if SetSubcalAttr(sc, a, v).Err? then Raised(TypeError, e)
    else match Record(e, SetSubcalAttrOp(sc.uid, a, prev, v))
      case Raised(err, p) => Raised(err, p)
      case Done(e1) =>
        match WriteSubcalAttr(e1.cals, sc.uid, a, v)
        case Ok(c) => Done(e1.(cals := c))
        case Err(_) => Done(e1)
  }

  /** `tx_insert_subcal`: the subcalendar must be new; it is appended at index `len`. */
  function TxInsertSubcal(e: Editor, sc: Subcal): (r: Outcome<Editor>)
    ensures FindSubcal(e.cals, sc.uid).Some? ==> r == Raised(AssertionError, e)
    ensures r.Done? ==> r.value.cals == e.cals + [sc]
    ensures r.Done? ==> Recorded(e, r.value, InsertSubcalOp(|e.cals|, sc))
  {
    if FindSubcal(e.cals, sc.uid).Some? then Raised(AssertionError, e)
    else match Record(e, InsertSubcalOp(|e.cals|, sc))
      case Raised(err, p) => Raised(err, p)
      case Done(e1) => Done(e1.(cals := e.cals + [sc]))
  }

  /** `tx_remove_subcal`: the subcalendar must be present; its index is recorded. */
  function TxRemoveSubcal(e: Editor, sc: Subcal): (r: Outcome<Editor>)
    ensures FindSubcal(e.cals, sc.uid).None? ==> r == Raised(AssertionError, e)
    ensures r.Done? ==> var k := FindSubcal(e.cals, sc.uid).value;
      r.value.cals == e.cals[..k] + e.cals[k + 1..]
      && Recorded(e, r.value, RemoveSubcalOp(k, sc))
  {
    match FindSubcal(e.cals, sc.uid)
    case None => Raised(AssertionError, e)
    case Some(k) =>
      match Record(e, RemoveSubcalOp(k, sc))
      case Raised(err, p) => Raised(err, p)
      case Done(e1) => Done(e1.(cals := e.cals[..k] + e.cals[k + 1..]))
  }

  /** `tx_undo`: the top transaction is popped, reverted and pushed onto the redo
      stack. A failing revert leaves it popped and not pushed. */
  function Undo(e: Editor): (r: Outcome<Editor>)
    ensures e.history.undo == [] ==> r == Done(e)
    ensures e.history.undo != [] ==>
      var n := |e.history.undo|;
      var tx := e.history.undo[n - 1];
      r.State().history.undo == e.history.undo[..n - 1]
      && (r.Done? ==> r.value.history.redo == e.history.redo + [tx])
      && (r.Raised? ==> r.partial.history.redo == e.history.redo)
  {
    var h := e.history;
    if |h.undo| == 0 then Done(e)
    else
      var tx := h.undo[|h.undo| - 1];
      var popped := e.(history := h.(undo := h.undo[..|h.undo| - 1]));
      match RevertAll(tx.ops, e.cals)
      case Raised(err, p) => Raised(err, popped.(cals := p))
      case Done(c) => Done(popped.(cals := c, history := popped.history.(redo := h.redo + [tx])))
  }

  /** `tx_redo`: the mirror of `Undo`, applying the ops forwards. The undo stack
      grows without the `max_history` cap. */
  function Redo(e: Editor): (r: Outcome<Editor>)
    ensures e.history.redo == [] ==> r == Done(e)
    ensures e.history.redo != [] ==>
      var n := |e.history.redo|;
      var tx := e.history.redo[n - 1];
      r.State().history.redo == e.history.redo[..n - 1]
      && (r.Done? ==> r.value.history.undo == e.history.undo + [tx])
      && (r.Raised? ==> r.partial.history.undo == e.history.undo)
  {
    var h := e.history;
    if |h.redo| == 0 then Done(e)
    else
      var tx := h.redo[|h.redo| - 1];
      var popped := e.(history := h.(redo := h.redo[..|h.redo| - 1]));
      match ApplyAll(tx.ops, e.cals)
      case Raised(err, p) => Raised(err, popped.(cals := p))
      case Done(c) => Done(popped.(cals := c, history := popped.history.(undo := h.undo + [tx])))
  }

  /** A successful undo followed by a successful redo restores both stacks. */
  lemma {:induction false} UndoThenRedoStacks(e: Editor)
    requires e.history.undo != []
    requires Undo(e).Done? && Redo(Undo(e).value).Done?
    ensures Redo(Undo(e).value).value.history == e.history
  {
    var n := |e.history.undo|;
    assert e.history.undo[..n - 1] + [e.history.undo[n - 1]] == e.history.undo;
    var r := Redo(Undo(e).value).value;
    assert r.history.redo == e.history.redo;
  }

  /** Undo and redo move transactions between the stacks, so together the stacks
      never outgrow `maxHistory` once they are within it. */
  ghost predicate WithinHistory(e: Editor, maxHistory: nat) {
    |e.history.undo| + |e.history.redo| <= maxHistory
  }

  lemma {:induction false} HistoryBoundKept(e: Editor, maxHistory: nat)
    requires WithinHistory(e, maxHistory)
    ensures WithinHistory(Undo(e).State(), maxHistory)
    ensures WithinHistory(Redo(e).State(), maxHistory)
    ensures WithinHistory(Commit(e, maxHistory), maxHistory)
  {
  }

  /** Undoing a transaction whose ops were each reversible where they were
      applied brings back the calendar list from before the transaction. */
  lemma {:induction false} UndoRestores(e: Editor, before: seq<Subcal>)
    requires e.history.undo != []
    requires var tx := e.history.undo[|e.history.undo| - 1];
      ChainReversible(tx.ops, before) && ApplyAll(tx.ops, before) == Done(e.cals)
    ensures Undo(e).Done? && Undo(e).value.cals == before
  {
    var tx := e.history.undo[|e.history.undo| - 1];
    RevertAllUndoesApplyAll(tx.ops, before);
  }

  /** `UndoRestores` with the undone transaction's ops named. */
  lemma {:induction false} UndoTop(e: Editor, before: seq<Subcal>, ops: seq<Op>)
    requires e.history.undo != [] && e.history.undo[|e.history.undo| - 1].ops == ops
    requires ChainReversible(ops, before) && ApplyAll(ops, before) == Done(e.cals)
    ensures Undo(e).Done? && Undo(e).value.cals == before
  {
    UndoRestores(e, before);
  }

  /** The same, for a transaction given whole. */
  lemma {:induction false} UndoCommitted(e: Editor, before: seq<Subcal>, tx: Tx)
    requires e.history.undo != [] && e.history.undo[|e.history.undo| - 1] == tx
    requires ChainReversible(tx.ops, before) && ApplyAll(tx.ops, before) == Done(e.cals)
    ensures Undo(e).Done? && Undo(e).value.cals == before
  {
    UndoTop(e, before, tx.ops);
  }

  /** A transaction of one reversible op. */
  lemma {:induction false} SingleChain(op: Op, cals: seq<Subcal>)
    requires Reversible(op, cals)
    ensures ChainReversible([op], cals)
    ensures ApplyAll([op], cals) == Done(Apply(op, cals).value)
  {
    var ops := [op];
    assert ops[..|ops| - 1] == [] && ops[|ops| - 1] == op;
    assert ChainReversible([], cals) && ApplyAll([], cals) == Done(cals);
  }

  /** Setting an attribute in a fresh transaction, committing and undoing gives
      back the calendar list: the recorded op exactly reverses the mutation. */
  lemma {:induction false} SetAttrCommitUndo(e: Editor, it: Item, a: ItemAttr, v: Value, maxHistory: nat)
    requires maxHistory > 0
    requires e.history.current.Some? && e.history.current.value.ops == []
    requires FindItem(e.cals, it.uid).Some?
    requires e.cals[FindItem(e.cals, it.uid).value.0].items[FindItem(e.cals, it.uid).value.1] == it
    requires TxSetItemAttr(e, it, a, v).Done?
    requires GetItemAttr(it, a) != Ok(v)
    ensures Undo(Commit(TxSetItemAttr(e, it, a, v).value, maxHistory)).Done?
    ensures Undo(Commit(TxSetItemAttr(e, it, a, v).value, maxHistory)).value.cals == e.cals
  {
    var prev := GetItemAttr(it, a).value;
    var op := SetItemAttrOp(it.uid, a, prev, v);
    var e1 := TxSetItemAttr(e, it, a, v).value;
    assert Apply(op, e.cals).Ok?;
    SetItemAttrRoundTrip(e.cals, it.uid, a, prev, v);
    assert e1.cals == Apply(op, e.cals).value;
    var e2 := Commit(e1, maxHistory);
    assert e1.history.current.value.ops == [op];
    var tx := e2.history.undo[|e2.history.undo| - 1];
    assert tx.ops == [op];
    assert Reversible(op, e.cals);
    SingleChain(op, e.cals);
    UndoRestores(e2, e.cals);
  }

  /** Transaction ids come from a counter that only grows: every transaction in
      the history has an id below `nextId`. */
  ghost predicate IdsBelowCounter(e: Editor) {
    (forall k :: 0 <= k < |e.history.undo| ==> e.history.undo[k].id < e.nextId)
    && (forall k :: 0 <= k < |e.history.redo| ==> e.history.redo[k].id < e.nextId)
    && (e.history.current.Some? ==> e.history.current.value.id < e.nextId)
  }

  /** A new transaction's id exceeds every id already in the history, and the
      counter invariant survives begin, record, commit, undo and redo. */
  lemma {:induction false} IdsIncrease(e: Editor, name: string, op: Op, maxHistory: nat)
    requires IdsBelowCounter(e) && e.history.current.None?
    ensures var tx := Begin(e, name).value.history.current.value;
      (forall k :: 0 <= k < |e.history.undo| ==> e.history.undo[k].id < tx.id)
      && (forall k :: 0 <= k < |e.history.redo| ==> e.history.redo[k].id < tx.id)
    ensures IdsBelowCounter(Begin(e, name).value)
    ensures IdsBelowCounter(Record(Begin(e, name).value, op).value)
    ensures IdsBelowCounter(Commit(Record(Begin(e, name).value, op).value, maxHistory))
    ensures IdsBelowCounter(Undo(e).State()) && IdsBelowCounter(Redo(e).State())
  {
    var r := Record(Begin(e, name).value, op).value;
    assert IdsBelowCounter(r);
    CommitKeepsIds(r, maxHistory);
    UndoKeepsIds(e);
    RedoKeepsIds(e);
  }

  lemma {:induction false} CommitKeepsIds(e: Editor, maxHistory: nat)
    requires IdsBelowCounter(e)
    ensures IdsBelowCounter(Commit(e, maxHistory))
  {
    if e.history.current.Some? && e.history.current.value.ops != [] {
      var c := Commit(e, maxHistory);
      var pushed := e.history.undo + [e.history.current.value];
      forall k | 0 <= k < |c.history.undo| ensures c.history.undo[k].id < c.nextId {
        var j := if |pushed| > maxHistory then k + 1 else k;
        assert c.history.undo[k] == pushed[j];
        if j < |e.history.undo| { assert pushed[j] == e.history.undo[j]; }
      }
    }
  }

  lemma {:induction false} UndoKeepsIds(e: Editor)
    requires IdsBelowCounter(e) && e.history.current.None?
    ensures IdsBelowCounter(Undo(e).State())
  {
    var u := Undo(e).State();
    if e.history.undo != [] && Undo(e).Done? {
      forall k | 0 <= k < |u.history.redo| ensures u.history.redo[k].id < u.nextId {
        if k < |e.history.redo| { assert u.history.redo[k] == e.history.redo[k]; }
      }
    }
  }

  lemma {:induction false} RedoKeepsIds(e: Editor)
    requires IdsBelowCounter(e) && e.history.current.None?
    ensures IdsBelowCounter(Redo(e).State())
  {
    var d := Redo(e).State();
    if e.history.redo != [] && Redo(e).Done? {
      forall k | 0 <= k < |d.history.undo| ensures d.history.undo[k].id < d.nextId {
        if k < |e.history.undo| { assert d.history.undo[k] == e.history.undo[k]; }
      }
    }
  }
}

=== FILE: utils.dfy ===
/** The name validator and the calendar name tables of vical/utils.py. The
  top-level utils.py of the oldest generation holds the same three functions
  with the same bodies, so one definition serves both. Names come from the
  `calendar` module's tables in the C locale.
 */
module Utils {
  import opened Wrappers

  /** The characters `contains_bad_chars` rejects by name: tab, newline,
      carriage return, escape and `, < > : " / \ |`. */
  const BadChars: set<char> := {'\t', '\n', '\r', 27 as char, ',', '<', '>', ':', '"', '/', '\\', '|'}

  /** The printable characters among `BadChars`. */
  const BadPrintable: set<char> := {',', '<', '>', ':', '"', '/', '\\', '|'}

  predicate IsControl(c: char) {
    c as int < 32
  }

  /** `contains_bad_chars(name)`: the first test scans for a listed
      character, the second for an ASCII control character. */
  function ContainsBadChars(name: string): (r: bool)
    ensures r <==> exists i :: 0 <= i < |name| && (name[i] in BadChars || IsControl(name[i]))
  {
    AnyListed(name) || AnyControl(name)
  }

  /** `any(ch in invalid_chars for ch in name)`. */
  function AnyListed(name: string): (r: bool)
    ensures r <==> exists i :: 0 <= i < |name| && name[i] in BadChars
    decreases |name|
  {
    if name == [] then false
    else if name[0] in BadChars then true
    else
      var rest := AnyListed(name[1..]);
      assert forall i :: 1 <= i < |name| ==> name[i] == name[1..][i - 1];
      rest
  }

  /** `any(ord(ch) < 32 for ch in name)`. */
  function AnyControl(name: string): (r: bool)
    ensures r <==> exists i :: 0 <= i < |name| && IsControl(name[i])
    decreases |name|
  {
    if name == [] then false
    else if IsControl(name[0]) then true
    else
      var rest := AnyControl(name[1..]);
      assert forall i :: 1 <= i < |name| ==> name[i] == name[1..][i - 1];
      rest
  }

  /** The four named control characters are already control characters, so a
      name is bad exactly when it holds a control character or one of the
      eight printable separators; in particular the empty name is fine. */
  lemma {:induction false} BadCharsIffControlOrSeparator(name: string)
    ensures ContainsBadChars(name) <==>
      exists i :: 0 <= i < |name| && (IsControl(name[i]) || name[i] in BadPrintable)
    ensures !ContainsBadChars([])
  {
    assert forall c :: c in BadChars <==> c in BadPrintable || (c in BadChars && IsControl(c));
  }

  /** A bad name stays bad whatever is added around it. */
  lemma {:induction false} BadCharsExtend(a: string, name: string, b: string)
    requires ContainsBadChars(name)
    ensures ContainsBadChars(a + name + b)
  {
    var i :| 0 <= i < |name| && (name[i] in BadChars || IsControl(name[i]));
    assert (a + name + b)[|a| + i] == name[i];
  }

  /** `calendar.day_abbr`, Monday first. */
  const DayAbbr: seq<string> := ["Mon", "Tue", "Wed", "Thu", "Fri", "Sat", "Sun"]

  /** `calendar.month_abbr[1..12]`. */
  const MonthAbbr: seq<string> := ["Jan", "Feb", "Mar", "Apr", "May", "Jun", "Jul", "Aug", "Sep", "Oct", "Nov", "Dec"]

  /** `get_day_name(index)`: `day_abbr[(index + 6) % 7]`. Python's `%` by a
      positive number is never negative, as in Dafny. */
  function GetDayName(index: int): (r: string)
    ensures r in DayAbbr
  {
    DayAbbr[(index + 6) % 7]
  }

  /** The column index counts from Sunday: 0 is Sunday, 1 Monday, 6
      Saturday, and the names repeat every seven columns. */
  lemma {:induction false} DayNameSundayFirst(index: int)
    ensures index % 7 == 0 ==> GetDayName(index) == "Sun"
    ensures index % 7 != 0 ==> GetDayName(index) == DayAbbr[index % 7 - 1]
    ensures GetDayName(index + 7) == GetDayName(index)
  {
  }

  /** `get_month_name(month)`: the abbreviation, or ValueError outside 1..12. */
  function GetMonthName(month: int): (r: Result<string>)
    ensures r.Err? <==> !(1 <= month <= 12)
    ensures r.Err? ==> r.error == ValueError
    ensures r.Ok? ==> |r.value| == 3
  {
    if 1 <= month <= 12 then Ok(MonthAbbr[month - 1]) else Err(ValueError)
  }

  /** The month number an abbreviation names, if any. */
  function MonthNumber(name: string): (r: Option<int>)
    ensures r.Some? ==> 1 <= r.value <= 12 && MonthAbbr[r.value - 1] == name
    ensures r.None? ==> name !in MonthAbbr
  {
    MonthFrom(name, 0)
  }

  function MonthFrom(name: string, k: nat): (r: Option<int>)
    requires k <= 12
    ensures r.Some? ==> k < r.value <= 12 && MonthAbbr[r.value - 1] == name
    ensures r.None? ==> forall j :: k <= j < 12 ==> MonthAbbr[j] != name
    decreases 12 - k
  {
    if k == 12 then None
    else if MonthAbbr[k] == name then Some(k + 1)
    else MonthFrom(name, k + 1)
  }

  /** The twelve names are distinct, so the month is recovered from its name. */
  lemma {:induction false} MonthNameRoundTrip(month: int)
    requires 1 <= month <= 12
    ensures MonthNumber(GetMonthName(month).value) == Some(month)
  {
    var name := MonthAbbr[month - 1];
    assert forall j, k :: 0 <= j < k < 12 ==> MonthAbbr[j] != MonthAbbr[k];
    var r := MonthNumber(name);
    assert r.Some? by { assert name in MonthAbbr; }
  }
}

=== FILE: wrappers.dfy ===
/** Shared failure-carrying datatypes.

  Python raises exceptions; the model returns them. Because the source mutates
  objects in place before it raises, an `Outcome` that failed still carries the
  state as it was at the moment of the raise.
 */
module Wrappers {

  datatype Option<+T> = None | Some(value: T) {
    function GetOr(default: T): T {
      match this
      case Some(v) => v
      case None => default
    }
  }

  /** The Python exception classes the modelled code can raise. */
  datatype Error =
    | AssertionError
    | RuntimeError
    | ValueError
    | KeyError
    | TypeError
    | NameError
    | AttributeError
    | IndexError

  /** Result of a pure computation that may raise. */
  datatype Result<+T> = Ok(value: T) | Err(error: Error) {
    predicate IsFailure() {
      Err?
    }

    function PropagateFailure<U>(): Result<U>
      requires Err?
    {
      Err(error)
    }

    function Extract(): T
      requires Ok?
    {
      value
    }
  }

  /** Result of a step that may raise: the new state, or the error together with
      the state reached when the exception left the Python function. */
  datatype Outcome<+T> = Done(value: T) | Raised(error: Error, partial: T) {
    function State(): T {
      match this
      case Done(v) => v
      case Raised(_, p) => p
    }
  }
}

=== FILE: ymd.dfy ===
/** The `"%Y%m%d"` date format that the storage layers write with
  `date.strftime` and read back with `datetime.strptime`.

  Years are written with four digits, as they are for every year from 1000 on.
  There are two readers. `StrptimeYmd` follows `strptime` with this format on
  ASCII text: four digits of year, then a month and a day field of one or two
  digits matched with backtracking, so it also reads "2026714" and
  "202607 4". `ParseYmd` is the fixed 4-2-2 split of eight ASCII digits and
  refuses every other string with ValueError; the two agree on eight-digit
  strings (`StrptimeAgreesOnEightDigits`).
 */
module Ymd {
  import opened Wrappers
  import opened Dates
  import opened Text

  /** A day number that is a Python `date`: 0001-01-01 through 9999-12-31. */
  predicate InRange(d: Date) {
    1 <= d <= MaxDate
  }

  /** The calendar triple of an in-range date lies in Python's year range. */
  lemma {:induction false} InRangeCivil(d: Date)
    requires InRange(d)
    ensures InPythonRange(ToCivil(d))
  {
    var c := ToCivil(d);
    DayOfYearBounds(c);
    if c.year > MaxYear {
      assert DaysBeforeYear(MaxYear + 1) == MaxDate;
      DaysBeforeYearMonotone(MaxYear + 1, c.year);
    } else if c.year < MinYear {
      YearBounds(c.year);
    }
  }

  /** `d.strftime("%Y%m%d")`. */
  function FormatYmd(d: Date): (r: Digits)
    requires InRange(d)
    ensures |r| == 8
  {
    InRangeCivil(d);
    var c := ToCivil(d);
    Pad(c.year, 4) + Pad(c.month, 2) + Pad(c.day, 2)
  }

  /** The year, month and day fields of eight digits, read 4-2-2. */
  function SplitYmd(s: string): (c: Civil)
    requires |s| == 8 && AllDigits(s)
  {
    Civil(Value(s[..4]), Value(s[4..6]), Value(s[6..]))
  }

  /** The date of a year, month and day read from text: `date(y, m, d)`,
      with ValueError for a triple that is no date. */
  function ReadDate(y: int, m: int, dd: int): (r: Result<Date>)
    ensures r.Ok? <==> InPythonRange(Civil(y, m, dd))
    ensures r.Ok? ==> InRange(r.value) && ToCivil(r.value) == Civil(y, m, dd)
    ensures r.Err? ==> r.error == ValueError
  {
    match MakeDate(y, m, dd)
    case Some(d) =>
      InPythonRangeIsInRange(ToCivil(d));
      Ok(d)
    case None => Err(ValueError)
  }

  /** `datetime.strptime(s, "%Y%m%d").date()` on the eight-digit form: the
      date, or ValueError. */
  function ParseYmd(s: string): (r: Result<Date>)
    ensures r.Ok? ==> InRange(r.value)
    ensures r.Err? ==> r.error == ValueError
  {
    if |s| == 8 && AllDigits(s) then
      var c := SplitYmd(s);
      match MakeDate(c.year, c.month, c.day)
      case Some(d) =>
        InPythonRangeIsInRange(ToCivil(d));
        Ok(d)
      case None => Err(ValueError)
    else Err(ValueError)
  }

  /** The day number of a triple in Python's range is an in-range date. */
  lemma {:induction false} InPythonRangeIsInRange(c: Civil)
    requires InPythonRange(c)
    ensures InRange(ToOrdinal(c))
  {
    DayOfYearBounds(c);
    YearBounds(c.year);
    DaysBeforeYearMonotone(c.year, MaxYear);
    assert DaysBeforeYear(MaxYear) + 365 == MaxDate;
  }

  /** Reading back what was written yields the same date. */
  lemma {:induction false} YmdRoundTrip(d: Date)
    requires InRange(d)
    ensures ParseYmd(FormatYmd(d)) == Ok(d)
  {
    InRangeCivil(d);
    var c := ToCivil(d);
    FieldsOf(c.year, c.month, c.day);
    assert MakeDate(c.year, c.month, c.day) == Some(d) by {
      CivilRoundTrip(c);
    }
  }

  /** The three fields of a written triple read back as the triple. */
  lemma {:induction false} FieldsOf(y: nat, m: nat, dd: nat)
    requires y < 10000 && m < 100 && dd < 100
    ensures var s := Pad(y, 4) + Pad(m, 2) + Pad(dd, 2);
      Value(s[..4]) == y && Value(s[4..6]) == m && Value(s[6..]) == dd
  {
    assert Pow10(2) == 100 && Pow10(4) == 10000;
    PadRoundTrip(y, 4);
    PadRoundTrip(m, 2);
    PadRoundTrip(dd, 2);
    ThreeParts(Pad(y, 4), Pad(m, 2), Pad(dd, 2));
  }

  lemma {:induction false} ThreeParts(a: string, b: string, c: string)
    requires |a| == 4 && |b| == 2 && |c| == 2
    ensures (a + b + c)[..4] == a && (a + b + c)[4..6] == b && (a + b + c)[6..] == c
  {
  }

  /** A digit string is the padding of its own value. */
  lemma {:induction false} PadOfValue(s: Digits)
    ensures Pad(Value(s), |s|) == s
    decreases |s|
  {
    if |s| > 0 {
      var init := s[..|s| - 1];
      PadOfValue(init);
      var n := Value(s);
      assert n / 10 == Value(init) && n % 10 == s[|s| - 1] as int - '0' as int;
      assert s == init + [s[|s| - 1]];
    }
  }

  /** Every string the parser accepts is the canonical spelling of its date,
      so writing and reading are inverse in both directions. */
  lemma {:induction false} ParsedIsCanonical(s: string)
    requires ParseYmd(s).Ok?
    ensures FormatYmd(ParseYmd(s).value) == s
  {
    var y, m, dd := Value(s[..4]), Value(s[4..6]), Value(s[6..]);
    PadOfValue(s[..4]);
    PadOfValue(s[4..6]);
    PadOfValue(s[6..]);
    assert s == s[..4] + s[4..6] + s[6..];
  }

  // ------------------------------------------------- strptime as CPython reads

  /** The value of one ASCII digit. */
  function DigitValue(c: char): (n: nat)
    requires IsDigit(c)
    ensures n < 10
  {
    c as int - '0' as int
  }

  /** The `%m` field at `i`: CPython tries "10" to "12", then "01" to "09",
      then a single digit "1" to "9". Each candidate is a month and the index
      just after it, in the order the alternatives are tried. */
  function MonthCandidates(s: string, i: nat): (r: seq<(nat, nat)>)
    requires i <= |s|
    ensures forall k :: 0 <= k < |r| ==> i < r[k].1 <= |s| && 1 <= r[k].0 <= 12
  {
    (if i + 1 < |s| && s[i] == '1' && '0' <= s[i + 1] <= '2' then [(10 + DigitValue(s[i + 1]), i + 2)] else [])
    + (if i + 1 < |s| && s[i] == '0' && '1' <= s[i + 1] <= '9' then [(DigitValue(s[i + 1]), i + 2)] else [])
    + (if i < |s| && '1' <= s[i] <= '9' then [(DigitValue(s[i]), i + 1)] else [])
  }

  /** The `%d` field at `i`: the first of "30" to "31", "10" to "29", "01" to
      "09", a single digit "1" to "9", or a space and a single digit that
      matches, with the index just after it. */
  function MatchDay(s: string, i: nat): (r: Option<(nat, nat)>)
    requires i <= |s|
    ensures r.Some? ==> i < r.value.1 <= |s| && 1 <= r.value.0 <= 31
  {
    if i + 1 < |s| && s[i] == '3' && '0' <= s[i + 1] <= '1' then Some((30 + DigitValue(s[i + 1]), i + 2))
    else if i + 1 < |s| && '1' <= s[i] <= '2' && IsDigit(s[i + 1]) then
      Some((10 * DigitValue(s[i]) + DigitValue(s[i + 1]), i + 2))
    else if i + 1 < |s| && s[i] == '0' && '1' <= s[i + 1] <= '9' then Some((DigitValue(s[i + 1]), i + 2))
    else if i < |s| && '1' <= s[i] <= '9' then Some((DigitValue(s[i]), i + 1))
    else if i + 1 < |s| && s[i] == ' ' && '1' <= s[i + 1] <= '9' then Some((DigitValue(s[i + 1]), i + 2))
    else None
  }

  /** The month and day the pattern settles on: the first month candidate
      after which some day matches, since the matcher goes back to the next
      month alternative only when no day follows. */
  function MatchMonthDay(s: string, cands: seq<(nat, nat)>): (r: Option<(nat, nat, nat)>)
    requires forall k :: 0 <= k < |cands| ==> cands[k].1 <= |s|
    ensures r.Some? ==>
      exists k :: 0 <= k < |cands| && r.value.0 == cands[k].0 && MatchDay(s, cands[k].1) == Some((r.value.1, r.value.2))
    ensures r.None? <==> forall k :: 0 <= k < |cands| ==> MatchDay(s, cands[k].1).None?
    decreases |cands|
  {
    if cands == [] then None
    else match MatchDay(s, cands[0].1)
      case Some((dd, end)) => Some((cands[0].0, dd, end))
      case None =>
        var r := MatchMonthDay(s, cands[1..]);
        assert forall k :: 1 <= k < |cands| ==> cands[k] == cands[1..][k - 1];
        r
  }

  /** `datetime.strptime(s, "%Y%m%d").date()` on ASCII digits: four
      digits of year, then the month and day fields, matched from the start;
      text left after the day raises ValueError ("unconverted data remains"),
      and so does a triple that is no date. */
  function StrptimeYmd(s: string): (r: Result<Date>)
    ensures r.Ok? ==> InRange(r.value)
    ensures r.Err? ==> r.error == ValueError
    ensures r.Ok? ==> |s| >= 4 && AllDigits(s[..4]) && ToCivil(r.value).year == Value(s[..4])
  {
    if |s| < 4 || !AllDigits(s[..4]) then Err(ValueError)
    else match MatchMonthDay(s, MonthCandidates(s, 4))
      case None => Err(ValueError)
      case Some((m, dd, end)) =>
        if end != |s| then Err(ValueError)
        else ReadDate(Value(s[..4]), m, dd)
  }

  /** A two-digit string is read tens first. */
  lemma {:induction false} TwoDigitValue(t: Digits)
    requires |t| == 2
    ensures Value(t) == 10 * DigitValue(t[0]) + DigitValue(t[1])
  {
    assert t[..1][..0] == "";
    assert Value(t[..1]) == DigitValue(t[0]);
  }

  /** On the eight-digit strings the writer produces, and on every other
      eight-digit string, the exact 4-2-2 reading is what `strptime` does. */
  lemma {:induction false} StrptimeAgreesOnEightDigits(s: string)
    requires |s| == 8 && AllDigits(s)
    ensures StrptimeYmd(s) == ParseYmd(s)
  {
    if 1 <= 10 * DigitValue(s[4]) + DigitValue(s[5]) <= 12 && 1 <= 10 * DigitValue(s[6]) + DigitValue(s[7]) <= 31 {
      AgreeOnDates(s);
    } else {
      AgreeOnRefusals(s);
    }
  }

  /** Two-digit fields in range: both readers take the same triple. */
  lemma {:induction false} AgreeOnDates(s: string)
    requires |s| == 8 && AllDigits(s)
    requires 1 <= 10 * DigitValue(s[4]) + DigitValue(s[5]) <= 12
    requires 1 <= 10 * DigitValue(s[6]) + DigitValue(s[7]) <= 31
    ensures StrptimeYmd(s) == ParseYmd(s)
  {
    ParseOnFields(s);
    StrptimeOnFields(s);
  }

  /** The exact reader takes the year, then the two-digit month and day. */
  lemma {:induction false} ParseOnFields(s: string)
    requires |s| == 8 && AllDigits(s)
    ensures ParseYmd(s) == ReadDate(Value(s[..4]), 10 * DigitValue(s[4]) + DigitValue(s[5]), 10 * DigitValue(s[6]) + DigitValue(s[7]))
  {
    var mm: Digits, dd: Digits := s[4..6], s[6..];
    assert mm[0] == s[4] && mm[1] == s[5] && dd[0] == s[6] && dd[1] == s[7];
    TwoDigitValue(mm);
    TwoDigitValue(dd);
    ParseIsReadDate(s);
  }

  /** `strptime` takes the same fields when both are in range. */
  lemma {:induction false} StrptimeOnFields(s: string)
    requires |s| == 8 && AllDigits(s)
    requires 1 <= 10 * DigitValue(s[4]) + DigitValue(s[5]) <= 12
    requires 1 <= 10 * DigitValue(s[6]) + DigitValue(s[7]) <= 31
    ensures StrptimeYmd(s) == ReadDate(Value(s[..4]), 10 * DigitValue(s[4]) + DigitValue(s[5]), 10 * DigitValue(s[6]) + DigitValue(s[7]))
  {
    TwoDigitFieldsMatch(s);
    StrptimeOnMatch(s, 10 * DigitValue(s[4]) + DigitValue(s[5]), 10 * DigitValue(s[6]) + DigitValue(s[7]));
  }

  /** Otherwise both readers raise ValueError. */
  lemma {:induction false} AgreeOnRefusals(s: string)
    requires |s| == 8 && AllDigits(s)
    requires !(1 <= 10 * DigitValue(s[4]) + DigitValue(s[5]) <= 12 && 1 <= 10 * DigitValue(s[6]) + DigitValue(s[7]) <= 31)
    ensures StrptimeYmd(s) == ParseYmd(s)
  {
    ParseRefuses(s);
    StrptimeRefuses(s);
  }

  /** The exact reader refuses a month or day field out of range. */
  lemma {:induction false} ParseRefuses(s: string)
    requires |s| == 8 && AllDigits(s)
    requires !(1 <= 10 * DigitValue(s[4]) + DigitValue(s[5]) <= 12 && 1 <= 10 * DigitValue(s[6]) + DigitValue(s[7]) <= 31)
    ensures ParseYmd(s).Err?
  {
    TwoDigitValue(s[4..6]);
    TwoDigitValue(s[6..]);
    ParseIsReadDate(s);
  }

  /** `strptime` finds no field split that reaches the end of the text. */
  lemma {:induction false} StrptimeRefuses(s: string)
    requires |s| == 8 && AllDigits(s)
    requires !(1 <= 10 * DigitValue(s[4]) + DigitValue(s[5]) <= 12 && 1 <= 10 * DigitValue(s[6]) + DigitValue(s[7]) <= 31)
    ensures StrptimeYmd(s).Err?
  {
    ShortFieldsOnly(s);
  }

  /** The exact reader is `ReadDate` of the 4-2-2 fields. */
  lemma {:induction false} ParseIsReadDate(s: string)
    requires |s| == 8 && AllDigits(s)
    ensures ParseYmd(s) == ReadDate(SplitYmd(s).year, SplitYmd(s).month, SplitYmd(s).day)
  {
  }

  /** Once the fields reach the end of the text, `strptime` gives the date of
      the four year digits and the matched month and day. */
  lemma {:induction false} StrptimeOnMatch(s: string, m: nat, dd: nat)
    requires |s| >= 4 && AllDigits(s[..4])
    requires MatchMonthDay(s, MonthCandidates(s, 4)) == Some((m, dd, |s|))
    ensures StrptimeYmd(s) == ReadDate(Value(s[..4]), m, dd)
  {
  }

  /** A month and a day that are both two digits in range are matched whole. */
  lemma {:induction false} TwoDigitFieldsMatch(s: string)
    requires |s| == 8 && AllDigits(s)
    requires 1 <= 10 * DigitValue(s[4]) + DigitValue(s[5]) <= 12
    requires 1 <= 10 * DigitValue(s[6]) + DigitValue(s[7]) <= 31
    ensures MatchMonthDay(s, MonthCandidates(s, 4))
      == Some((10 * DigitValue(s[4]) + DigitValue(s[5]), 10 * DigitValue(s[6]) + DigitValue(s[7]), 8))
  {
    assert MonthCandidates(s, 4)[0] == (10 * DigitValue(s[4]) + DigitValue(s[5]), 6);
    assert MatchDay(s, 6) == Some((10 * DigitValue(s[6]) + DigitValue(s[7]), 8));
  }

  /** Otherwise every month candidate that a day follows ends short of the
      eighth character. */
  lemma {:induction false} ShortFieldsOnly(s: string)
    requires |s| == 8 && AllDigits(s)
    requires !(1 <= 10 * DigitValue(s[4]) + DigitValue(s[5]) <= 12 && 1 <= 10 * DigitValue(s[6]) + DigitValue(s[7]) <= 31)
    ensures var cands := MonthCandidates(s, 4);
      forall k :: 0 <= k < |cands| && MatchDay(s, cands[k].1).Some? ==> MatchDay(s, cands[k].1).value.1 < 8
  {
  }

  /** Reading with `strptime` what the four-digit writer wrote gives the date
      back. */
  lemma {:induction false} StrptimeReadsWritten(d: Date)
    requires InRange(d)
    ensures StrptimeYmd(FormatYmd(d)) == Ok(d)
  {
    StrptimeAgreesOnEightDigits(FormatYmd(d));
    YmdRoundTrip(d);
  }

  /** `d.strftime("%Y%m%d")` where the C library writes `%Y` without padding,
      as glibc does: the year in as few digits as it needs. */
  function FormatYmdUnpadded(d: Date): (r: Digits)
    requires InRange(d)
    ensures 5 <= |r| <= 8
  {
    InRangeCivil(d);
    var c := ToCivil(d);
    NatToStringShort(c.year);
    NatToString(c.year) + Pad(c.month, 2) + Pad(c.day, 2)
  }

  /** `str(n)` of a number below 10000 has one digit per power of ten it
      reaches, and its first digit is not zero when the number is positive. */
  lemma {:induction false} NatToStringShort(n: nat)
    requires n < 10000
    ensures |NatToString(n)| == (if n < 10 then 1 else if n < 100 then 2 else if n < 1000 then 3 else 4)
    ensures n >= 1 ==> NatToString(n)[0] != '0'
    decreases n
  {
    if n >= 10 {
      NatToStringShort(n / 10);
    }
  }

  /** From year 1000 on the unpadded writer writes what the four-digit one
      does. */
  lemma {:induction false} UnpaddedFromYear1000(d: Date)
    requires InRange(d) && ToCivil(d).year >= 1000
    ensures FormatYmdUnpadded(d) == FormatYmd(d)
  {
    InRangeCivil(d);
    var y := ToCivil(d).year;
    NatToStringShort(y);
    NatToStringValue(y);
    PadOfValue(NatToString(y));
  }

  /** Four digits that do not start with zero make a number of at least
      1000. */
  lemma {:induction false} LeadingDigitValue(t: Digits)
    requires |t| == 4 && t[0] != '0'
    ensures Value(t) >= 1000
  {
    ValueConcat(t[..1], t[1..]);
    assert t[..1] + t[1..] == t;
    assert Value(t[..1]) == DigitValue(t[0]) by {
      assert t[..1][..0] == "";
    }
    assert Pow10(3) == 1000;
  }

  /** A text that `strptime` reads and that does not start with zero gives a
      year of at least 1000. */
  lemma {:induction false} StrptimeYearAtLeast1000(s: string)
    requires StrptimeYmd(s).Ok? && s[0] != '0'
    ensures ToCivil(StrptimeYmd(s).value).year >= 1000
  {
    LeadingDigitValue(s[..4]);
  }

  /** Before year 1000 the unpadded text never reads back as its date:
      `strptime` takes the first four digits, which begin with the year's
      non-zero leading digit, as a year of 1000 or more. */
  lemma {:induction false} UnpaddedNeverRoundTrips(d: Date)
    requires InRange(d) && ToCivil(d).year < 1000
    ensures StrptimeYmd(FormatYmdUnpadded(d)) != Ok(d)
  {
    InRangeCivil(d);
    var y := ToCivil(d).year;
    var s := FormatYmdUnpadded(d);
    NatToStringShort(y);
    assert s[0] == NatToString(y)[0];
    if StrptimeYmd(s) == Ok(d) {
      StrptimeYearAtLeast1000(s);
    }
  }

  /** The date 0999-01-01 is written "9990101" and read back as 9990-10-01. */
  lemma {:induction false} UnpaddedYearMisreads(d: Date)
    requires InRange(d) && ToCivil(d) == Civil(999, 1, 1)
    ensures FormatYmdUnpadded(d) == "9990101"
    ensures StrptimeYmd(FormatYmdUnpadded(d)).Ok?
    ensures ToCivil(StrptimeYmd(FormatYmdUnpadded(d)).value) == Civil(9990, 10, 1)
  {
    Year999Text();
    assert FormatYmdUnpadded(d) == "999" + "01" + "01";
    ReadsYear9990();
  }

  lemma {:induction false} Year999Text()
    ensures NatToString(999) == "999" && Pad(1, 2) == "01"
    ensures "999" + "01" + "01" == "9990101"
  {
    assert NatToString(9) == "9";
    assert NatToString(99) == "99";
    assert Pad(0, 1) == "0";
  }

  lemma {:induction false} ReadsYear9990()
    ensures StrptimeYmd("9990101").Ok? && ToCivil(StrptimeYmd("9990101").value) == Civil(9990, 10, 1)
  {
    var s := "9990101";
    assert s[..4] == "9990";
    assert Value("9990") == 9990 by {
      assert Value("9") == 9 by { assert "9"[..0] == ""; }
      assert Value("99") == 99 by { assert "99"[..1] == "9"; }
      assert Value("999") == 999 by { assert "999"[..2] == "99"; }
      assert "9990"[..3] == "999";
    }
    assert MonthCandidates(s, 4) == [(10, 6), (1, 5)];
    assert MatchDay(s, 6) == Some((1, 7));
    assert MatchMonthDay(s, [(10, 6), (1, 5)]) == Some((10, 1, 7));
    assert InPythonRange(Civil(9990, 10, 1));
  }
}
